=== FILE: README.md ===
# DjangoDashboard core in Dafny

This project models the decision rules and arithmetic of a Django property-rental site. It covers:

- listings, bookings and their prices;
- the seasonal price calculator;
- the month calendars and the booking page's date script;
- subscriptions, ad limits and the nightly renewal pass;
- moderation (reports, bans, listing approvals, user complaints) and its listing signals;
- conversations, the chat page's script, notification template tags, user helpers and the subscription template filters.

Records are immutable datatypes. Database tables are sequences, and queries are filters over them. Each mutating method is a function that returns the updated record, together with the flag or message it produces.

Representations:

- Dates are day numbers (0 is 1970-01-01).
- Instants are integer seconds, and whole days are taken by floor division.
- Money is an exact `real`, standing for Python's `Decimal`.
- The browser's `Date` is a local calendar date plus a minute of the day.

One module per source file:

| module | file |
|---|---|
| `ListingModels` | `listings/models.py` |
| `ListingForms` | `listings/forms.py` |
| `ListingViews` | `listings/views.py` |
| `ListingExtras` | `listings/templatetags/listing_extras.py` |
| `PriceCalculator` | `utils/price_calculator.py` |
| `CalendarUtils` | `utils/calendar_utils.py` |
| `BookingCalendar` | `staticfiles/listings/js/calendar.js` |
| `ChatModels` | `chat/models.py` |
| `ChatViews` | `chat/views.py` |
| `ChatClient` | `chat/static/chat/js/chat.js` |
| `UserModels` | `users/models.py` |
| `SubscriptionModels` | `subscriptions/models.py` |
| `SubscriptionService` | `subscriptions/services.py` |
| `SubscriptionViews` | `subscriptions/views.py` |
| `SubscriptionRenewals` | `subscriptions/management/commands/process_subscription_renewals.py` |
| `SubscriptionFilters` | `subscriptions/templatetags/subscription_filters.py` |
| `ModerationModels` | `moderation/models.py` |
| `ModerationViews` | `moderation/views.py` |
| `ModerationSignals` | `moderation/signals.py` |
| `NotifyTags` | `notifications/templatetags/notify_tags.py` |

Shared modules:

- `Wrappers`: `Option` and `Result`.
- `Text`: decimal rendering, Python's `int()`, `strip`, `str.replace`, and `title` and `lower` restricted to ASCII letters.
- `Json`: decoded JSON values, Python truthiness and JSON string escaping.
- `Gregorian`: leap years, day numbers and weekdays.
- `Clock`: instants.

Some behaviour of the browser scripts is easy to misread; the points worth knowing are listed under "Behaviour of the browser scripts" below.

## Model

| member | source | states |
|---|---|---|
| ListingModels.MainImageUrl | listings/models.py:73-77 | the first image URL when the list is present and non-empty, the placeholder otherwise |
| ListingModels.IsAvailable | listings/models.py:92-107 | available exactly when no pending or confirmed booking overlaps [s, e] with both ends inclusive |
| ListingModels.NonBlockingIgnored | listings/models.py:101-104 | adding a canceled or completed booking never changes availability |
| ListingModels.CoveringPositive | listings/models.py:113-120 | some pending or confirmed booking covers day d exactly when the covering count is positive |
| ListingModels.UnavailableDates | listings/models.py:109-122 | each day occurs as many times as pending or confirmed bookings cover it, so overlaps give duplicates |
| ListingModels.UnavailableMembership | listings/models.py:113-122 | a day is listed exactly when some pending or confirmed booking has start <= d <= end |
| ListingModels.AvailableIffNoUnavailableDay | listings/models.py:92-122 | for s <= e (and well-formed bookings), unavailable exactly when some day of [s, e] is in the unavailable list |
| ListingModels.CalculatePrice | listings/models.py:124-147 | nights = e - s; the base price is the nightly rate times the nights; the fees are the listing's; the total is base plus both fees |
| ListingModels.BasePriceSplits | listings/models.py:133-136 | the base price of a stay is the sum of the base prices of its two parts split at any day |
| ListingModels.DurationNights | listings/models.py:206-208 | the night count is negative exactly when the booking ends before it starts |
| ListingModels.DurationMatchesQuote | listings/models.py:206-208 | a booking's nights equal the nights `calculate_price` reports for the same dates |
| ListingModels.Cancel | listings/models.py:210-220 | succeeds exactly for pending or confirmed bookings and then sets canceled; otherwise the booking is unchanged |
| ListingModels.CancelTwice | listings/models.py:214-220 | a second cancel returns False and changes nothing |
| ListingModels.CancelFreesDates | listings/models.py:214-220 | a successfully canceled booking no longer blocks its dates |
| ListingModels.AverageRating | listings/models.py:80-85 | None exactly without reviews; otherwise the mean times the count is the rating sum |
| ListingModels.SumRatingsBounds | listings/models.py:227-230 | with validated ratings, the sum lies between the count and five times the count |
| ListingModels.AverageRatingBounds | listings/models.py:80-85 | with validated ratings, the mean lies in [1, 5] |
| ListingForms.CleanAmenities | listings/forms.py:31-40 | a string yields its decoded JSON or `[]` when it does not decode; a non-string yields itself when truthy, else `[]` |
| ListingForms.CleanAmenitiesIdempotent | listings/forms.py:31-40 | cleaning an already cleaned non-string value changes nothing |
| ListingForms.CleanBooking | listings/forms.py:86-122 | each error is reported exactly when its check fails and every earlier check passed, in the order date order, minimum stay, maximum stay, availability, guest count; the error carries the listing's limit; success exactly when the date checks pass and the guest count is zero, none or within the listing's capacity; unbound forms check only the date order |
| ListingForms.CleanBookingAccepts | listings/forms.py:92-120 | with every field present and a listing bound, the form is accepted exactly when the dates are ordered, the stay lies within the night limits, the listing is available and the guests fit |
| ListingViews.Search | listings/views.py:24-79 | the results are exactly the listings of the table that are active, approved and pass every given filter |
| ListingViews.SearchOnlyPublished | listings/views.py:25 | every search result is active and approved |
| ListingViews.FiltersOnlyNarrow | listings/views.py:27-79 | applying more filters, with the same values, never adds a result |
| ListingViews.BookingsOf | listings/views.py:42-50 | exactly the bookings of the given listing |
| ListingViews.DateFilterIsAvailability | listings/views.py:42-50 | the date filter drops a listing exactly when `is_available` on its bookings refuses the range |
| ListingViews.AddListingImage | listings/views.py:259-271 | success exactly for the host of a listing with a stored list; the URL is appended at the end and nothing else changes; a null list is a server error |
| ListingViews.RemoveListingImage | listings/views.py:293-311 | success exactly for the host; an index in range deletes exactly that URL and keeps the others in order; any other index, or a null list, leaves the listing unchanged |
| ListingViews.AddThenRemove | listings/views.py:259-306 | removing the image just added restores the listing |
| ListingViews.FirstImageBecomesMain | listings/views.py:266-271 | the first image added to an empty list becomes the main image |
| ListingViews.SaveEditedListing | listings/views.py:233-241 | the form's fields come from the submission; id, host, images, the active flag and the creation time stay as stored; approval is kept exactly when it was approved and none of price, title, description or address changed |
| ListingViews.SaveEditedIdempotent | listings/views.py:233-241 | saving the stored listing again changes nothing |
| ListingViews.RepricedListingHidden | listings/views.py:233-237 | a re-priced listing drops out of every search until it is approved again |
| ListingViews.CreateBooking | listings/views.py:313-346 | a listing that is not both active and approved is not found; booking one's own listing is refused; otherwise the form decides, and a created booking is pending, belongs to the requester and carries the `calculate_price` totals |
| ListingViews.CreatedBookingFits | listings/views.py:320-325 | a created booking has ordered dates within the night limits, overlaps no blocking booking and fits the guests |
| ListingViews.ParseStatus | listings/views.py:458 | exactly the four booking statuses are accepted |
| ListingViews.UpdateBookingStatus | listings/views.py:456-477 | success exactly for a known status on an existing booking, from the host or a cancelling guest, and never moving a completed booking elsewhere; on success only the status changes |
| ListingViews.GuestMayOnlyCancel | listings/views.py:466-473 | a guest who is not the host succeeds exactly when cancelling a booking that is not completed |
| ListingViews.StrangerRefused | listings/views.py:466-468 | anyone other than the host and the guest is refused |
| Json.Trunc | listings/templatetags/listing_extras.py:25 | Python's `int()` of a float truncates toward zero |
| ListingExtras.StarRating | listings/templatetags/listing_extras.py:18-44 | None gives "No ratings yet"; NaN or a non-number gives "Invalid rating"; an infinity raises (not caught); a finite value gives star icons |
| ListingExtras.FiveStars | listings/templatetags/listing_extras.py:25-40 | for 0 <= r <= 5: exactly five icons, full stars first for the integer part, a half star exactly when the fraction is at least one half, then empty stars |
| ListingExtras.NightsBetween | listings/templatetags/listing_extras.py:54 | a non-negative night count steps the start date onto the end date |
| ListingExtras.DateRangeLabel | listings/templatetags/listing_extras.py:47-56 | the label starts with both short dates joined by " - " and a middle dot, ends in " night" for exactly one night and " nights" otherwise, and the count between reads back as the nights |
| ListingExtras.LabelCountsBookingNights | listings/templatetags/listing_extras.py:54 | the label's count is the `duration_nights` of a booking with the same dates |
| ListingExtras.ListingStatusBadge | listings/templatetags/listing_extras.py:66-73 | Inactive exactly when inactive; Pending Approval exactly when active but not approved; Active otherwise |
| ListingExtras.ActiveBadgeIsSearchable | listings/templatetags/listing_extras.py:66-73 | a listing shows "Active" exactly when the unfiltered search lists it |
| ListingExtras.BookingStatusBadge | listings/templatetags/listing_extras.py:76-86 | the class of the four known statuses, `bg-secondary` for any other; the caption is the title-cased status |
| ListingExtras.BadgeKnowsAcceptedStatuses | listings/templatetags/listing_extras.py:78-84 | the badge has a specific class exactly for the statuses `update_booking_status` accepts |
| ListingExtras.AmenityKey | listings/templatetags/listing_extras.py:115 | the key is the name lower-cased with each space turned into an underscore, character by character |
| ListingExtras.AmenityIcon | listings/templatetags/listing_extras.py:89-116 | the icon of the normalised key when known, `fas fa-check` otherwise |
| ListingExtras.AmenityKeyIdempotent | listings/templatetags/listing_extras.py:115 | normalising twice changes nothing, so a stored key and its display name get the same icon |
| PriceCalculator.SeasonFor | utils/price_calculator.py:30-39 | no multiplier exactly when the night lies in no season; otherwise the multiplier of the first season, in the order given, whose inclusive range holds the night |
| PriceCalculator.NightPrice | utils/price_calculator.py:8-49 | the base price, times the season's multiplier when one applies, times the weekday's multiplier when the night's weekday (Monday = 0) has one |
| PriceCalculator.NightlyPrices | utils/price_calculator.py:91-102 | exactly one entry per night, the i-th being the night start + i with its own night price |
| PriceCalculator.BestTier | utils/price_calculator.py:109-115 | no tier exactly when every tier asks for more nights than the stay has; otherwise a tier the stay qualifies for whose minimum is the largest such |
| PriceCalculator.TierMultiplier | utils/price_calculator.py:109-115 | the discount multiplier of the qualifying tier with the largest minimum, none when the stay qualifies for no tier |
| PriceCalculator.StayPrice | utils/price_calculator.py:51-132 | an error exactly when the stay has no night; otherwise the nights counted, the nightly prices those of `NightlyPrices` for each night with its season and weekday, base total plus discount equals their sum, no discount when no tier or a zero multiplier applies, and the total is base plus both fees |
| PriceCalculator.StayPriceDiscounted | utils/price_calculator.py:108-119 | when a non-zero length-of-stay multiplier applies, the base total is the sum of the nightly prices multiplied by it |
| PriceCalculator.UniformSum | utils/price_calculator.py:91-105 | without seasons or weekday multipliers the nightly prices add up to the base price times the number of nights |
| PriceCalculator.NoAdjustmentsBaseTotal | utils/price_calculator.py:84-122 | a stay with no adjustments of any kind is priced at the base price per night |
| PriceCalculator.HostPayout | utils/price_calculator.py:140-145 | payout and platform fee add up to the total; with a percentage between 0 and 100 the payout lies between zero and the total |
| PriceCalculator.AverageNightlyPrice | utils/price_calculator.py:147-154 | zero for zero nights, otherwise a price that times the nights gives back the base total |
| PriceCalculator.AverageOfUniformStay | utils/price_calculator.py:147-154 | the average nightly price of a stay with no adjustments is the base price |
| PriceCalculator.ApplySpecialOffer | utils/price_calculator.py:156-165 | discounted price and discount add up to the total, and the discount is the given percentage of the total |
| CalendarUtils.NextMonth | utils/calendar_utils.py:22-26 | for a month 1..12 the result is a month 1..12 exactly one step later on the month line |
| CalendarUtils.PrevMonth | utils/calendar_utils.py:28-32 | for a month 1..12 the result is a month 1..12 exactly one step earlier on the month line |
| CalendarUtils.MonthStepsInverse | utils/calendar_utils.py:22-32 | stepping forward then back, or back then forward, returns the month started from |
| CalendarUtils.DateRange | utils/calendar_utils.py:34-39 | the days from start to end inclusive in order, empty when the end precedes the start |
| CalendarUtils.DateRangeMembership | utils/calendar_utils.py:34-45 | a day is in the generated range exactly when `is_date_in_range` holds for it |
| CalendarUtils.DateRangeCount | utils/calendar_utils.py:34-45 | every day of the range occurs exactly once, and no other day occurs |
| CalendarUtils.GetDaysInMonth | utils/calendar_utils.py:47-51 | a length exactly for months 1..12: 31 for January, March, May, July, August, October and December, 30 for April, June, September and November, and 29 or 28 for February as the year is leap or not |
| CalendarUtils.MonthsFillYear | utils/calendar_utils.py:47-51 | the twelve month lengths add up to the year's length |
| CalendarUtils.MonthDays | utils/calendar_utils.py:8-16 | the month grid's cells fill whole weeks and hold zero (padding) or a day of the month |
| CalendarUtils.DayPlacement | utils/calendar_utils.py:8-16 | every day of the month sits in the grid at its offset from the first day, in the column of its own weekday, Monday first |
| CalendarUtils.Chunks | utils/calendar_utils.py:15 | the cells cut into weeks of seven, in order, with nothing lost |
| CalendarUtils.CalendarWithAvailability | utils/calendar_utils.py:53-119 | a calendar exactly for a month 1..12 of a year 1..9999 (an invalid month or year gives the error result), and that calendar is the month's grid |
| CalendarUtils.MonthGrid | utils/calendar_utils.py:53-119 | the grid carries the month's year, number, name and neighbours, one week row of seven cells per grid row, and each cell is the `DayCell` of the grid's number in that place |
| CalendarUtils.DayCell | utils/calendar_utils.py:93-108 | a padding zero is an empty cell in all three fields; a day carries itself, its ISO date, and whether it is absent from the unavailable dates |
| CalendarUtils.DayCellInGrid | utils/calendar_utils.py:53-119 | each day of the month sits in the row and column its weekday gives, carrying its ISO date and free exactly when it is not unavailable |
| CalendarUtils.MultipleMonthsCalendar | utils/calendar_utils.py:121-151 | as many calendars as requested (none for a negative count), starting at the given month, each the month after the one before |
| CalendarUtils.MonthsAreTheirCalendars | utils/calendar_utils.py:121-151 | the i-th calendar returned is the calendar of the i-th month after the start |
| CalendarUtils.MultipleMonthsSucceed | utils/calendar_utils.py:121-151 | from a valid month, every requested month is produced while the months stay within year 9999 |
| BookingCalendar.ParseIso | staticfiles/listings/js/calendar.js:104-105 | a date only for text of the form four digits, dash, two digits, dash, two digits that names an existing calendar date, and then the date those digits spell |
| BookingCalendar.FormatTime | staticfiles/listings/js/calendar.js:132-137 | an invalid Date formats as `NaN-NaN-NaN`, a valid one as its local year, then month and day padded to two digits |
| BookingCalendar.FormatParseRoundTrip | staticfiles/listings/js/calendar.js:132-147 | the text written for a date with a four-digit year reads back as that date |
| BookingCalendar.FormatMatchesIsoFormat | staticfiles/listings/js/calendar.js:132-137 | for four-digit years the widget's text is the server's ISO text for the same date, so the unavailable list can be compared as strings |
| BookingCalendar.FormatReadsBack | staticfiles/listings/js/calendar.js:132-147 | for any year the written text reads back as the same date or not at all |
| BookingCalendar.FormatInjective | staticfiles/listings/js/calendar.js:132-137 | two dates share their text exactly when they are the same date (one with a four-digit year) |
| BookingCalendar.IsValidDate | staticfiles/listings/js/calendar.js:142-148 | true exactly when the text parses to a date; such text has ten characters with dashes at 4 and 7 |
| BookingCalendar.Parse | staticfiles/listings/js/calendar.js:104-105 | a Date exactly for parsable text; local parsing gives local midnight of the named day, UTC parsing gives midnight UTC seen at the zone offset, which west of UTC is the previous local day |
| BookingCalendar.NextLocalDay | staticfiles/listings/js/calendar.js:116 | a valid time exactly one day later |
| BookingCalendar.CompareParsed | staticfiles/listings/js/calendar.js:61 | comparing two parsed Dates compares the calendar dates the texts name, and is false when either is invalid |
| BookingCalendar.MinCheckOut | staticfiles/listings/js/calendar.js:54-58 | the check-out minimum is `NaN-NaN-NaN` for unparsable text, the day after check-in when parsing keeps the day, and the check-in day itself west of UTC |
| BookingCalendar.IsDateUnavailable | staticfiles/listings/js/calendar.js:125-127 | true exactly when the text is one of the unavailable strings |
| BookingCalendar.DaysFreeStep | staticfiles/listings/js/calendar.js:109-117 | a free run of days extended by a free day is a longer free run |
| BookingCalendar.ScanLength | staticfiles/listings/js/calendar.js:109-117 | the number of days visited: none when the end is earlier, otherwise the count whose last step is not past the end and whose next would be |
| BookingCalendar.ValidateDateRange | staticfiles/listings/js/calendar.js:103-120 | true exactly when an end is not a date or no visited day formats as an unavailable date |
| BookingCalendar.RangeClearDays | staticfiles/listings/js/calendar.js:103-120 | the scan visits one day per calendar day from check-in to check-out inclusive, starting at check-in or, west of UTC, at the day before |
| BookingCalendar.ScanOfWholeDays | staticfiles/listings/js/calendar.js:109-117 | two times at the same minute of their days are one more scan step apart than their days |
| BookingCalendar.LocalRangeClear | staticfiles/listings/js/calendar.js:103-120 | with local-midnight parsing the range is clear exactly when every named day from check-in to check-out is free |
| BookingCalendar.UtcScanHitsEve | staticfiles/listings/js/calendar.js:103-120 | west of UTC an unavailable day before check-in rejects the range |
| BookingCalendar.LocalScanSkipsEve | staticfiles/listings/js/calendar.js:103-120 | with local-midnight parsing the day before check-in never blocks the range |
| BookingCalendar.NotTheEve | staticfiles/listings/js/calendar.js:110-111 | no day on or after check-in formats as the day before it |
| BookingCalendar.WestOfUtcFalseAlarm | staticfiles/listings/js/calendar.js:103-120 | the same free stay is rejected west of UTC and accepted with local-midnight parsing |
| BookingCalendar.SetupDateConstraints | staticfiles/listings/js/calendar.js:19-44 | both minimums become today; a valid check-in parameter always fills the check-in and sets the check-out minimum to `MinCheckOut` of it: the next day, or the check-in day itself west of UTC; a valid check-out parameter fills the check-out; the two are never compared |
| BookingCalendar.SetupAgreesWithCheckInHandler | staticfiles/listings/js/calendar.js:34-37 | the check-out minimum set up for a check-in parameter is the one the check-in handler sets for the same date |
| BookingCalendar.OnCheckInChange | staticfiles/listings/js/calendar.js:51-80 | an empty check-in does nothing; otherwise the check-out minimum moves, a check-out not after the check-in is cleared, an unavailable check-in is cleared with an alert, a range alert fires exactly for an available check-in with a check-out whose range is not clear, and the price update runs exactly when a check-out remains |
| BookingCalendar.OnCheckOutChange | staticfiles/listings/js/calendar.js:83-97 | nothing happens without both dates; otherwise an unavailable check-out is cleared with an alert, a range alert fires exactly for an available check-out whose range is not clear, and the last effect is always the price update |
| BookingCalendar.RangeAlertStillUpdatesPrice | staticfiles/listings/js/calendar.js:66-96 | both handlers still request the price update after a range alert |
| BookingCalendar.CheckInOrdersDates | staticfiles/listings/js/calendar.js:54-63 | after a check-in change any check-out left in place is strictly later than the check-in, and with local parsing the minimum is the next day |
| BookingCalendar.WestOfUtcMinimumIsCheckIn | staticfiles/listings/js/calendar.js:54-58 | west of UTC the check-out minimum equals the check-in day, so a zero-night stay can be picked; local parsing gives the next day |
| BookingCalendar.SetDateInputs | staticfiles/listings/js/calendar.js:181-194 | nothing changes without dates; without a check-out the form is what the check-in handler leaves |
| BookingCalendar.SetCheckOutLast | staticfiles/listings/js/calendar.js:181-194 | when a check-out is set and a check-in remains, the last effect is the price update; a set check-out stays unless a check-in remains and the check-out is unavailable |
| BookingCalendar.SetOrderedAvailableDates | staticfiles/listings/js/calendar.js:181-194 | two available dates in order are taken as given, the minimum follows the check-in, a price is requested, and on an empty form a range alert fires exactly when a night in between is taken |
| ChatModels.Title | chat/models.py:55-63 | the title starts with the listing prefix exactly when there is a listing and then ends in its title; with only a booking it starts with the booking prefix and ends in the booked listing's title; it is `Chat` exactly when there is neither |
| ChatModels.ListingTitleWins | chat/models.py:58-61 | with a listing, adding or removing the booking does not change the title |
| ChatModels.GetOtherParticipant | chat/models.py:75-77 | someone other than the user who takes part, and nobody exactly when every participant is the user |
| ChatModels.OtherIsFirstOther | chat/models.py:75-77 | the counterpart is the participant at the first position not held by the user |
| ChatModels.FirstOtherIndex | chat/models.py:77 | the first position holding someone other than the user, none exactly when there is none |
| ChatModels.CounterpartsOfPair | chat/models.py:75-77 | in a two-person conversation each side's counterpart is the other |
| ChatModels.GetUnreadCount | chat/models.py:71-73 | at most the number of messages; zero exactly when none is unread and from someone else, all exactly when every one is |
| ChatModels.GetUnreadCountIsSetSize | chat/models.py:71-73 | the count is the number of messages that are unread and sent by someone else |
| ChatModels.OwnMessagesNeverUnread | chat/models.py:71-73 | a user's own messages never count as unread for them |
| ChatModels.LastMessage | chat/models.py:50-53 | none exactly for an empty conversation, otherwise a message of the conversation no older than any other |
| ChatModels.NewestIsLast | chat/models.py:50-53 | a message newer than all others is the last message |
| ChatModels.MarkAsRead | chat/models.py:107-111 | the message comes back read and otherwise unchanged |
| ChatModels.MarkAsReadIdempotent | chat/models.py:107-111 | marking twice is marking once, and a read message is unread for nobody |
| ChatViews.ConversationDetail | chat/views.py:23-48 | not found exactly for a non-participant; otherwise the same messages, with those unread and from someone else marked read and the rest untouched |
| ChatViews.MarkReadFrom | chat/views.py:35-39 | the same messages in order, exactly those unread for the user marked read |
| ChatViews.OpeningClearsUnread | chat/views.py:23-48 | after a participant opens a conversation nothing is unread for them, and their own messages are as they were |
| ChatViews.ResolveTarget | chat/views.py:51-95 | refusals for chatting with yourself, an unknown object and no counterpart; a booking makes the counterpart its host for the guest and its guest for the host, a listing makes it the host; the counterpart is never the requester unless a booking's guest is its own host |
| ChatViews.BookingDecidesCounterpart | chat/views.py:77-90 | for a booking alone the counterpart is the host for the guest, the guest for the host, and anyone else is refused |
| ChatViews.UniqueMatch | chat/views.py:101-108 | a conversation exactly when one matches the filter, and then a matching one |
| ChatViews.FirstMatch | chat/views.py:101-108 | a position whose conversation matches |
| ChatViews.FindExisting | chat/views.py:97-134 | nothing exactly when none of the booking, listing and plain filters has a single match; a unique booking match wins, then a unique listing match, and anything else found matches the plain filter; what is found has the requester in it |
| ChatViews.TwoMatches | chat/views.py:107 | two matching positions make at least two matches |
| ChatViews.OneMatch | chat/views.py:107 | one matching position makes at least one match |
| ChatViews.AmbiguousIsNotReused | chat/views.py:123-134 | two plain conversations between the same people mean neither is reused |
| ChatViews.Pair | chat/views.py:141-145 | the participants added are exactly the two people, once each |
| ChatViews.StartConversation | chat/views.py:50-157 | a resolution refusal is returned as is and a resolved request always succeeds; it reuses a conversation exactly when `FindExisting` finds one, and reuses that one; a new one holds just the requester and the counterpart with the resolved listing and booking; it gets a first message exactly when the initial text is not blank, and that message is the stripped text, unread, from the requester, in the new conversation |
| ChatViews.NewConversationHasTwoPeople | chat/views.py:58-95 | without a booking a new conversation always has two different people |
| ChatClient.EscapeHtmlChar | chat/static/chat/js/chat.js:244-251 | each of the five special characters becomes an entity starting with `&`, every other character stays as it is, and no entity holds markup or quote characters |
| ChatClient.EscapeHtml | chat/static/chat/js/chat.js:244-251 | the escaped text holds no `<`, `>`, `"` or `'`, and text without special characters is unchanged |
| ChatClient.ChainedReplaceIsEscapeHtml | chat/static/chat/js/chat.js:244-251 | the five global replacements applied in order, ampersand first, escape each character independently, so no entity is escaped twice |
| ChatClient.ChainFromConcat | chat/static/chat/js/chat.js:245-250 | a chain of character replacements distributes over concatenation |
| ChatClient.EscapeOneChar | chat/static/chat/js/chat.js:245-250 | on a single character the chain of replacements gives that character's entity |
| ChatClient.ChainKeeps | chat/static/chat/js/chat.js:246-250 | text without the special characters passes through the replacements unchanged |
| ChatClient.UnescapeEntity | chat/static/chat/js/chat.js:244-251 | decoding an escaped character followed by any text gives the character followed by the decoded text |
| ChatClient.EscapeHtmlRoundTrip | chat/static/chat/js/chat.js:244-251 | decoding the five entities recovers the original message from its escaped form, so escaping loses nothing |
| ChatClient.ParseIntNeedsDigit | chat/static/chat/js/chat.js:106 | `parseInt` gives a number only for text that holds a digit |
| ChatClient.TrimJsSpace | chat/static/chat/js/chat.js:106 | the leading JavaScript white space is dropped and nothing else |
| ChatClient.DigitRun | chat/static/chat/js/chat.js:106 | the longest run of digits at the start of the text |
| ChatClient.ParseIdValue | chat/static/chat/js/chat.js:106 | a numeric id is itself; null and booleans are NaN |
| ChatClient.DisplayMessage | chat/static/chat/js/chat.js:104-179 | the bubble is `sent` exactly when sender and viewer ids parse to the same number; the message text is escaped; a sent bubble offers edit and delete, a received one offers report and shows the sender's upper-cased initial |
| ChatClient.BubbleMarkup | chat/static/chat/js/chat.js:118-168 | the bubble's message text never carries markup, while a sender name starting with `<` puts a raw `<` in the initial |
| ChatClient.TextIdMatchesNumber | chat/static/chat/js/chat.js:106 | an id sent as decimal text, whatever non-digit text follows, is the same user as the numeric id |
| ChatClient.ParseDigitsBeforeSuffix | chat/static/chat/js/chat.js:106 | digits followed by a non-digit parse as the number the digits spell |
| ChatClient.DigitRunOf | chat/static/chat/js/chat.js:106 | the digit run of digits followed by a non-digit is exactly the digits |
| ChatClient.InitChatSocket | chat/static/chat/js/chat.js:11-25 | a new connecting socket becomes current; the previous one is asked to close unless it was closed; older sockets are untouched |
| ChatClient.SocketOpened | chat/static/chat/js/chat.js:28-38 | only the given connecting socket becomes open; the others are untouched |
| ChatClient.SocketClosed | chat/static/chat/js/chat.js:47-62 | the given socket becomes closed; the others are untouched |
| ChatClient.SingleLiveKept | chat/static/chat/js/chat.js:11-25 | creating, opening and closing sockets keep every socket but the current one closing or closed |
| ChatClient.SendMessage | chat/static/chat/js/chat.js:81-99 | a frame goes out exactly when the current socket is open, and it is the JSON object with the message as its only field |
| ChatClient.FrameCarriesMessage | chat/static/chat/js/chat.js:83-85 | the sent frame decodes back to exactly the message text |
| ChatClient.NoSendWhileConnecting | chat/static/chat/js/chat.js:81-87 | right after the socket is replaced nothing can be sent |
| Text.NatToStringRoundTrip | staticfiles/listings/js/calendar.js:133-136 | the decimal text of a number reads back as that number |
| Text.ZeroPad | staticfiles/listings/js/calendar.js:134-135 | only digits; the width exactly when the number fits, the plain decimal text when it is already as wide |
| Text.ZeroPadRoundTrip | staticfiles/listings/js/calendar.js:134-135 | a zero-padded number reads back as that number |
| Text.TrimLeft | chat/views.py:149 | a suffix of the text that no longer starts with whitespace, only whitespace having been removed |
| Text.TrimRight | chat/views.py:149 | a prefix of the text that no longer ends with whitespace, only whitespace having been removed |
| Text.Strip | chat/views.py:149 | no longer than the text, with no whitespace at either end |
| Text.StripIsTrimmed | chat/views.py:149 | the stripped text is a slice of the original with only whitespace cut at either end |
| Text.StripEmptyIffBlank | chat/views.py:149-150 | text strips to nothing exactly when all of it is whitespace |
| Text.StripUnpadded | moderation/views.py:41 | text without whitespace at its ends strips to itself |
| Text.ParseIntLiteral | moderation/views.py:172 | a number exactly for an optional sign followed by digits, with the sign applied to the digits' value |
| Text.PyIntOfDigits | moderation/views.py:172 | `int()` of plain digits is the number they spell |
| Text.PyIntOfNegated | moderation/views.py:172 | `int()` of a minus sign and digits is the negated number |
| Text.PyIntRoundTrip | moderation/views.py:172 | `int()` reads back every integer from its `str()` text |
| Text.LowerChar | listings/templatetags/listing_extras.py:115 | an ASCII capital becomes lower case; other characters are unchanged |
| Text.UpperChar | chat/static/chat/js/chat.js:145 | an ASCII small letter becomes upper case; other characters are unchanged |
| Text.Lower | listings/templatetags/listing_extras.py:115 | the same length, each character lower-cased on its own |
| Text.TitleFromKeepsUncased | subscriptions/templatetags/subscription_filters.py:24 | title-casing keeps every uncased character, keeps cased ones cased, and starts each word upper-case |
| Text.ReplaceChar | subscriptions/templatetags/subscription_filters.py:24 | a character absent from the replacement is gone from the result; text without the character is unchanged; nothing new appears |
| Text.ReplaceCharConcat | subscriptions/templatetags/subscription_filters.py:24 | replacing a character distributes over concatenation |
| Text.PyReplaceAbsent | subscriptions/templatetags/subscription_filters.py:14 | replacing a non-empty substring that does not occur changes nothing |
| Text.PyReplaceIdentity | subscriptions/templatetags/subscription_filters.py:14 | replacing a substring by itself changes nothing, even for the empty substring |
| Text.SplitFirst | subscriptions/templatetags/subscription_filters.py:15 | the parts around the first separator, which put back together give the text |
| Json.Get | subscriptions/views.py:98-106 | a value only from an object, the one in the last field with that key, and nothing exactly when no field has the key |
| Json.PyIntOf | subscriptions/views.py:369 | Python's `int()` on a decoded value: integers as they are, booleans as 1 and 0, floats truncated, text read by `int()` or a `ValueError`, anything else a `TypeError` |
| Json.PyIntOfText | subscriptions/views.py:369 | the text of any integer reads back as that integer |
| Json.EscapeChar | chat/static/chat/js/chat.js:83-85 | quote, backslash and control characters are escaped with a backslash; every other character is written as it is |
| Json.EscapeRoundTrip | chat/static/chat/js/chat.js:83-85 | decoding a JSON string body recovers the text it was written from |
| Gregorian.DaysInMonth | utils/calendar_utils.py:47-51 | 31 days for January, March, May, July, August, October and December, 30 for April, June, September and November, February having 29 exactly in leap years and 28 otherwise |
| Clock.DatetimeRangeIsYears1To9999 | moderation/views.py:173 | the instants a `datetime` holds run from 0001-01-01 00:00:00 to 9999-12-31 23:59:59 |
| Gregorian.YearLength | utils/calendar_utils.py:47-51 | the months of a year add up to 366 days in leap years and 365 otherwise |
| Gregorian.NextDayNumber | utils/price_calculator.py:102 | the next day is one day later on the day line |
| Gregorian.PrevDay | staticfiles/listings/js/calendar.js:54 | the previous day is the valid date whose next day is the given one |
| Gregorian.AddDaysNumber | utils/price_calculator.py:91-102 | adding k days moves k days along the day line |
| Gregorian.WeekdayNext | utils/price_calculator.py:44 | the next day's weekday is the following weekday, Sunday wrapping to Monday |
| Clock.WholeDays | subscriptions/models.py:115 | the whole days of a time difference, rounded down as Python does for negative differences |
| Clock.TimedeltaLimitSubsumed | subscriptions/models.py:137 | when a `datetime` plus a number of days stays a `datetime`, that number is within what a `timedelta` holds, so only the `datetime` range decides the overflow |
| SubscriptionModels.DaysRemaining | subscriptions/models.py:109-115 | zero when the subscription is not active, otherwise the whole days left before the end |
| SubscriptionModels.ActiveOnlyWithinPeriod | subscriptions/models.py:101-107 | a subscription is active only with the active status and only from its start to its end, both ends included |
| SubscriptionModels.IsExpiringSoon | subscriptions/models.py:117-120 | only an active subscription expires soon, and exactly when fewer than four whole days are left |
| SubscriptionModels.Extend | subscriptions/models.py:122-125 | the end moves by exactly the given days and nothing else changes |
| SubscriptionModels.ExtendTwice | subscriptions/models.py:122-125 | two extensions are one extension by the sum of the days |
| SubscriptionModels.Cancel | subscriptions/models.py:127-131 | canceled with auto-renewal off, nothing else changed |
| SubscriptionModels.CancelIdempotent | subscriptions/models.py:127-131 | canceling twice is canceling once, and a canceled subscription is never active |
| SubscriptionModels.Renew | subscriptions/models.py:133-141 | declines exactly when auto-renewal is off or the plan is withdrawn; raises exactly when the new end would pass the last `datetime`; otherwise a new active period of the plan's length starts at the old end and nothing else changes |
| SubscriptionModels.RenewalCrashesOnlyPastTheRange | subscriptions/models.py:136-137 | for a stored end, a renewal raises only past year 9999, and a zero-day plan always renews |
| SubscriptionModels.RenewedIsActive | subscriptions/models.py:133-141 | a renewed subscription is active throughout its new period, and a second renewal that fits starts where that period ends |
| SubscriptionModels.UsageCanCreateAd | subscriptions/models.py:171-179 | allowed exactly when the subscription is active and the live ads are below the plan's limit, with an empty message exactly then; refused with "Subscription is not active" first and "Ad limit reached for current plan" second |
| SubscriptionModels.IncrementAdsCount | subscriptions/models.py:181-186 | one more live ad and one more ad ever created, stamped now, featured count kept |
| SubscriptionModels.DecrementAdsCount | subscriptions/models.py:188-192 | one live ad fewer when there is one, otherwise unchanged; nothing else changes |
| SubscriptionModels.IncrementThenDecrement | subscriptions/models.py:171-192 | creating then deleting an ad restores the live count and keeps the history, and a full allowance is refused |
| SubscriptionService.FindUser | subscriptions/services.py:31 | a user with that id, or none exactly when no user has it |
| SubscriptionService.ActiveListingCount | subscriptions/services.py:45 | no more than the number of listings |
| SubscriptionService.FirstCurrent | subscriptions/services.py:145-152 | the first subscription passing the current-subscription filter, none exactly when none passes |
| SubscriptionService.GetCurrentSubscription | subscriptions/services.py:145-152 | a subscription of the user that is active now, and none exactly when the user has none |
| SubscriptionService.ActiveListingCountIsSetSize | subscriptions/services.py:45 | the count is the number of listings hosted by the user and active |
| SubscriptionService.UsageFor | subscriptions/services.py:59-64 | the stored usage record, or a new one counting the user's active listings |
| SubscriptionService.CanCreateAd | subscriptions/services.py:22-90 | an error for an unknown user; always allowed for admins; without a current subscription allowed exactly within a positive free tier; with one, the usage record's own decision |
| SubscriptionService.CanCreateAdNeedsRoom | subscriptions/services.py:22-90 | an ad is allowed only to admins, below an active plan's limit or within the free tier, and the expired answer is never given |
| SubscriptionService.GetAdsLimits | subscriptions/services.py:93-142 | the error summary for an unknown user; limit −1 exactly for admins; the free limit with status `none` exactly without a current subscription; otherwise the current plan's limit, name, end and days left; the count is the user's active listings |
| SubscriptionService.LimitsAgreeWithDecision | subscriptions/services.py:22-142 | with a current subscription the reported limit is the plan's, and an ad is allowed exactly below it |
| SubscriptionService.CancelActive | subscriptions/services.py:159-170 | the same subscriptions in order, exactly the user's active ones canceled |
| SubscriptionService.CreateSubscription | subscriptions/services.py:156-206 | fails, storing nothing, exactly when the plan's period would end past the last `datetime`; otherwise the user's active subscriptions are canceled, a new active one runs from now for the plan's duration at the plan's price with a usage record counting active listings, and nothing else changes |
| SubscriptionService.CreatedIsCurrent | subscriptions/services.py:156-206 | a created subscription is the user's current one, no other of theirs is active, and other users' subscriptions are untouched |
| SubscriptionService.UsageOnAdCreated | subscriptions/services.py:212-220 | without a current subscription nothing changes; otherwise its usage record, created if missing, counts one more ad and no other record changes |
| SubscriptionService.UsageOnAdDeleted | subscriptions/services.py:222-231 | without a current subscription or usage record nothing changes; otherwise that record counts one ad fewer and no other record changes |
| SubscriptionService.AdCreatedThenDeleted | subscriptions/services.py:212-231 | creating and deleting an ad leaves the current subscription's live count where it was |
| SubscriptionViews.SubscriptionStatusData | subscriptions/views.py:48-68 | `has_subscription` exactly when the status is not `none` or `error`; no percentage exactly when the limit is not positive, otherwise current over limit in percent |
| SubscriptionViews.UsageWithinLimit | subscriptions/views.py:57-64 | within the limit the usage lies between 0 and 100 percent, and an admin has a subscription without a percentage |
| SubscriptionViews.PercentBounds | subscriptions/views.py:64 | a part of a positive whole is between 0 and 100 percent of it |
| SubscriptionViews.HttpStatus | subscriptions/views.py:72-180 | status 201 exactly for a processed payment |
| SubscriptionViews.Has | subscriptions/views.py:99-100 | for an object, whether the key is present; no answer exactly for values where `in` raises |
| SubscriptionViews.FirstMissing | subscriptions/views.py:98-104 | the first required field that is absent, all present when none is, and always an answer for an object |
| SubscriptionViews.FindPlan | subscriptions/views.py:137-143 | a plan with that id, or none exactly when no plan has it |
| SubscriptionViews.PaymentData | subscriptions/views.py:85-95 | the decoded text when `qr_data` is text, otherwise the field itself |
| SubscriptionViews.PayingUserId | subscriptions/views.py:115-117 | the request's `user_id` when truthy, else the authenticated user's id |
| SubscriptionViews.ProcessQrPayment | subscriptions/views.py:72-180 | no data exactly when `qr_data` is falsy, a bad format exactly when it does not decode, a missing field only as the first of the required fields the decoded data lacks; anything but a payment leaves the store as it was |
| SubscriptionViews.QrPaymentPastTheChecks | subscriptions/views.py:98-110 | a wrong action, a non-test payment or a payment happens only for an object holding every required field, and for such an object the action is refused exactly when it is not a subscription payment |
| SubscriptionViews.QrPaymentInTestMode | subscriptions/views.py:112-180 | a non-test payment is refused for a falsy `test_mode`; a payment happened with a truthy `test_mode` and created an active subscription after canceling the user's active ones |
| SubscriptionViews.TestPayment | subscriptions/views.py:113-180 | in test mode the outcome is a missing user, an unknown user or plan, a server error or a payment; only a payment changes the store, creating an active subscription after canceling the user's active ones |
| SubscriptionViews.PaidPeriodFits | subscriptions/views.py:146-180 | a payment's subscription runs from now for its plan's length and ends within the `datetime` range, so a plan too long for it is a server error with nothing stored |
| SubscriptionViews.TestPaymentStoresColumns | subscriptions/views.py:147-180 | a paid subscription stores the reference and the renewal flag as their columns read them, and a value a column refuses fails the payment |
| SubscriptionViews.IdKey | subscriptions/views.py:128-143 | a null id matches no row; a list, an object or text `int()` refuses raises; anything else is the integer `int()` gives |
| SubscriptionViews.IdKeyOfText | subscriptions/views.py:128-143 | the text of any id, negative ones included, looks up that id |
| SubscriptionViews.UuidOf | subscriptions/models.py:85 | a UUID below 2^128: an integer in range is itself, a boolean 1 or 0, text exactly when it leaves 32 hexadecimal digits once prefixes, braces and hyphens go, read as hexadecimal; anything else raises |
| SubscriptionViews.UuidTextRoundTrip | subscriptions/models.py:85 | every UUID written as 32 hexadecimal digits reads back as itself |
| SubscriptionViews.HexTextRoundTrip | subscriptions/models.py:85 | a number below 16^k written in k hexadecimal digits reads back as itself |
| SubscriptionViews.BoolFieldOf | subscriptions/models.py:82 | the boolean column's reading: booleans as they are, 1 and 0, the texts "t", "True", "1" and "f", "False", "0"; anything else, `None` included, fails |
| SubscriptionViews.StoredReference | subscriptions/views.py:147-156 | a fresh reference when the field is missing or false, else the field read as a UUID |
| SubscriptionViews.StoredAutoRenew | subscriptions/views.py:157 | false when the field is missing, else the field as the boolean column reads it |
| SubscriptionViews.AutoRenewReadByTheColumn | subscriptions/views.py:157 | "False" saves a subscription that does not renew, and "yes" fails the payment without storing anything |
| SubscriptionViews.NegativeReferenceFails | subscriptions/views.py:147-180 | a reference that is not a UUID fails the payment and stores nothing |
| SubscriptionViews.QrChecksInOrder | subscriptions/views.py:98-110 | a missing `action` is reported before a missing `plan_id`, and a wrong action is refused before the test mode is read |
| SubscriptionViews.ToggleAutoRenew | subscriptions/views.py:226-245 | 404 exactly without a current subscription; otherwise only that subscription's flag flips and the new value is reported |
| SubscriptionViews.FirstCurrentIgnoresAutoRenew | subscriptions/views.py:228-237 | the flag plays no part in which subscription is current |
| SubscriptionViews.ToggleTwice | subscriptions/views.py:226-245 | toggling twice restores every subscription |
| SubscriptionViews.CancelSubscription | subscriptions/views.py:249-266 | 404 exactly without a current subscription; otherwise only that subscription is canceled |
| SubscriptionViews.CanceledIsNoLongerCurrent | subscriptions/views.py:249-266 | the canceled subscription is no longer current |
| SubscriptionViews.AdminExtendSubscription | subscriptions/views.py:363-390 | text `int()` refuses is "invalid"; null, a list or an object is a server error; a number of days that is not positive is refused; an end past the last `datetime` is a server error; otherwise only the end moves, by the days `int()` reads |
| SubscriptionViews.DefaultExtension | subscriptions/views.py:366 | without a `days` field the subscription gains thirty days |
| SubscriptionViews.ExtendByValue | subscriptions/views.py:366-377 | any value `int()` reads as a positive number of days extends by that many |
| SubscriptionViews.ExtensionByText | subscriptions/views.py:366-377 | days sent as text, with or without a leading blank, extend by the number they spell |
| SubscriptionViews.ExtensionPastYear9999Crashes | subscriptions/views.py:366-377 | a subscription ending at the last `datetime` cannot be extended: the view fails |
| SubscriptionRenewals.CountDue | subscriptions/management/commands/process_subscription_renewals.py:72-76 | no more than the number of subscriptions |
| SubscriptionRenewals.CountRenewable | subscriptions/management/commands/process_subscription_renewals.py:104-107 | no more than the number due |
| SubscriptionRenewals.CountExpiring | subscriptions/management/commands/process_subscription_renewals.py:120-126 | no more than the number of subscriptions |
| SubscriptionRenewals.CountsAreSetSizes | subscriptions/management/commands/process_subscription_renewals.py:72-126 | the due count is the number of active, auto-renewing subscriptions whose end has come; the expiring count is the number of active, non-renewing ones whose end has passed |
| SubscriptionRenewals.CountsStep | subscriptions/management/commands/process_subscription_renewals.py:81-107 | each further subscription adds one to a count exactly when it is selected |
| SubscriptionRenewals.ProcessAutoRenewals | subscriptions/management/commands/process_subscription_renewals.py:69-115 | exactly the due subscriptions that `renew` renews are changed (none in a dry run), a declined or raising renewal leaves the row as stored, successes plus failures is the number due, a real run counts the renewals that happened and a dry run the due ones on an offered plan |
| SubscriptionRenewals.DryRunCountsAgree | subscriptions/management/commands/process_subscription_renewals.py:81-113 | a dry run reports the same successes as a real run exactly when no due renewal on an offered plan would raise |
| SubscriptionRenewals.MarkExpiredSubscriptions | subscriptions/management/commands/process_subscription_renewals.py:117-140 | exactly the active, ended, non-renewing subscriptions become expired (none in a dry run), and the count is their number |
| SubscriptionRenewals.Handle | subscriptions/management/commands/process_subscription_renewals.py:27-47 | with `notify_only` or a dry run nothing changes; otherwise each subscription goes through the renewal pass and then the expiry pass, no subscription is left due for expiry, and inactive ones are never touched |
| SubscriptionRenewals.RenewalOutcome | subscriptions/management/commands/process_subscription_renewals.py:81-113 | a due subscription on an offered plan whose new end fits is active with a period from its old end; on a withdrawn plan, or when the renewal raises, it stays as it was and is never marked expired |
| SubscriptionFilters.Replace | subscriptions/templatetags/subscription_filters.py:6-16 | without a `\|` or with old equal to new, or with an old text that does not occur, the value comes back unchanged |
| SubscriptionFilters.ReplaceSplitsAtFirstPipe | subscriptions/templatetags/subscription_filters.py:15-16 | the argument splits at its first `\|`, so the replacement may itself contain `\|` |
| SubscriptionFilters.SplitFirstUnique | subscriptions/templatetags/subscription_filters.py:15 | a split whose left part has no separator is the split at the first separator |
| SubscriptionFilters.PyReplaceOneChar | subscriptions/templatetags/subscription_filters.py:16 | replacing a one-character substring is replacing that character |
| SubscriptionFilters.ReplaceCharOneForOne | subscriptions/templatetags/subscription_filters.py:24 | replacing a character by one character keeps the length |
| SubscriptionFilters.UnderscoreToSpace | subscriptions/templatetags/subscription_filters.py:18-24 | no underscore survives and the length is kept |
| SubscriptionFilters.UnderscoreToSpaceIsTitledReplace | subscriptions/templatetags/subscription_filters.py:18-24 | `underscore_to_space` is title-casing after the `replace` filter with argument `_\| ` |
| UserModels.FullName | users/models.py:46-48 | the first name, one space, the last name, each part in its place |
| UserModels.FullNameSplits | users/models.py:46-48 | a first name without spaces and the last name are recovered by splitting the full name at its first space |
| UserModels.SplitAtFirst | users/models.py:48 | splitting `a + c + b` at the first `c` gives `a` and `b` when `a` has no `c` |
| UserModels.VerificationStatus | users/models.py:50-57 | ID verified exactly when the ID flag is set; phone verified exactly when only the phone flag is; unverified exactly when neither is |
| UserModels.IdVerificationDominates | users/models.py:50-57 | with the ID verified the phone flag makes no difference and the text is `ID Verified` |
| UserModels.ToggleHostStatus | users/models.py:59-63 | the host flag is flipped, the new value returned, and nothing else changed |
| UserModels.ToggleTwice | users/models.py:59-63 | toggling twice restores the user and returns the original flag |
| UserModels.AdminByFlagOrRole | subscriptions/services.py:34 | admin standing is exactly the superuser flag or the `admin` role; staff and host flags play no part |
| ModerationSignals.ValidateChecklist | moderation/signals.py:23-31 | each of the five automatic criteria holds exactly when its condition on the listing holds (stripped title over 5, stripped description over 20, an image, a full address, a positive price); the two moderator criteria are kept |
| ModerationSignals.ValidationIsIdempotent | moderation/signals.py:18-31 | validating an unchanged listing twice is validating it once |
| ModerationSignals.AutomaticChecksScore | moderation/signals.py:23-31 | a listing passing every automatic check scores at least five sevenths of the full score |
| ModerationSignals.NewApproval | moderation/signals.py:12-16 | a pending record for the listing, without moderator or review time, scoring zero |
| ModerationSignals.OnListingSaved | moderation/signals.py:7-33 | a created listing gets a new pending record with the validated checklist and no log entry; an existing record gets its checklist validated and nothing else changed but the review time; a status-change entry is written exactly when the stored status is non-empty and differs from the record's, naming the new status, the moderator or else the host, and the listing and host; without a record nothing happens |
| ModerationSignals.FreshRecordSavesQuietly | moderation/signals.py:18-33 | a record read fresh from the database gets its checklist validated and logs nothing |
| ModerationModels.BanIsActive | moderation/models.py:159-167 | a permanent ban is always active; a temporary one exactly while its end lies in the future |
| ModerationModels.LapsedBanStaysLapsed | moderation/models.py:159-167 | a lapsed ban stays lapsed, and a temporary ban without an end is never active |
| ModerationModels.CountTrue | moderation/models.py:232 | no more than the number of criteria |
| ModerationModels.CountTrueExtremes | moderation/models.py:232 | zero exactly when every criterion fails, all exactly when every one holds |
| ModerationModels.CriteriaCount | moderation/models.py:223-232 | the count is the sum of the seven flags |
| ModerationModels.ApprovalScore | moderation/models.py:220-232 | between 0 and 100, 100 exactly when all seven criteria hold and 0 exactly when none does |
| ModerationModels.TitleCheckAddsASeventh | moderation/models.py:220-232 | passing one more criterion adds a seventh of the full score |
| ModerationModels.StatusAction | moderation/models.py:256-263 | a known status maps to `listing_` followed by it; any other to `listing_status_changed`; always a known action type |
| ModerationModels.SaveApproval | moderation/models.py:234-275 | only the review time may change: it is stamped now exactly when a pending row leaves pending without one; a log entry is written exactly when a stored non-empty status differs, with the status's action, the fixed notes, the moderator or else the host, and the listing and host as targets |
| ModerationModels.ResaveIsQuiet | moderation/models.py:234-275 | saving an unchanged row again changes nothing and logs nothing |
| ModerationModels.MaxOpenDays | moderation/models.py:511-517 | an unknown priority gets the medium allowance, and every allowance is positive |
| ModerationModels.PriorityOrder | moderation/models.py:511-516 | urgent allows fewer days than high, high than medium, medium than low |
| ModerationModels.DaysOpen | moderation/models.py:500-506 | the whole days between creation and resolution, or now while unresolved, rounded down |
| ModerationModels.IsOverdue | moderation/models.py:508-518 | never for a resolved or dismissed complaint; otherwise exactly when open longer than its priority allows |
| ModerationModels.OverdueStaysOverdue | moderation/models.py:500-518 | an unresolved overdue complaint stays overdue as time passes |
| ModerationModels.UrgentIsOverdueFirst | moderation/models.py:508-518 | an open complaint overdue at low priority is overdue at urgent priority |
| ModerationModels.InferReportedUser | moderation/models.py:544-556 | the host when the guest complains about a booking, the guest when the host does, nobody otherwise; for a listing the host unless the host complains; nobody without either |
| ModerationModels.GeneratedSubject | moderation/models.py:558-565 | a non-empty subject other than the placeholder |
| ModerationModels.SaveComplaint | moderation/models.py:537-577 | the listing is taken from the booking when missing; the reported user is kept or inferred; a given subject is kept, otherwise generated; resolved exactly when closed, stamped now unless already stamped; a response stamps the first response once; nothing else changes |
| ModerationModels.SaveComplaintIdempotent | moderation/models.py:537-577 | saving twice is saving once |
| ModerationModels.ClosedIsNeverOverdue | moderation/models.py:508-577 | a saved closed complaint is never overdue |
| ModerationViews.ModeratorIgnoresRole | moderation/views.py:15-17 | moderator access depends on the staff and superuser flags only: the role plays no part, so a superuser is both moderator and admin while an `admin` role alone is not a moderator |
| ModerationViews.ReportContent | moderation/views.py:19-94 | an unknown content type and a missing object are refused; a POST files a report exactly when the stripped description is non-empty, pending, unhandled, with that description and category, pointing at the reported object |
| ModerationViews.BlankDescriptionFilesNothing | moderation/views.py:41-50 | a description of only whitespace files nothing |
| ModerationViews.UpdateStatus | moderation/views.py:126-144 | a missing or unknown status leaves the report unchanged; a known one sets status, moderator, stripped notes and action, and a resolution time now exactly for `resolved` and `rejected`; what the report is about never changes |
| ModerationViews.BanTargetOf | moderation/views.py:156-167 | the ban fails exactly on a review, listing or message report whose object is gone, and falls on nobody exactly for an unknown type or a user report without a user |
| ModerationViews.FiledReportBansAuthor | moderation/views.py:19-167 | a freshly filed report bans whoever is responsible for its content, before and after a status update |
| ModerationViews.PointsAtTarget | moderation/views.py:156-167 | a report pointing at content bans that content's author |
| ModerationViews.SameSubjectSameTarget | moderation/views.py:156-167 | reports about the same thing ban the same person |
| ModerationViews.BanUntil | moderation/views.py:168-175 | no end exactly for a permanent ban or days that are missing or not an integer; otherwise an end that many days from now when it is within the `datetime` range, and an overflow when it is not |
| ModerationViews.EndOf | moderation/views.py:168-175 | the stored end is present exactly for an end within range, and is that end |
| ModerationViews.FarBanOverflows | moderation/views.py:173 | more days than the `datetime` range holds always overflow |
| ModerationViews.TemporaryBanLasts | moderation/views.py:168-175 | a temporary ban of n > 0 days holds exactly until n days from now |
| ModerationViews.UnparsableBanIsInert | moderation/views.py:168-175 | a temporary ban without a parsable length never holds |
| ModerationViews.RemoveContent | moderation/views.py:198-242 | a reported review is deleted, a message masked, a listing deactivated, each exactly when the report still points at it; otherwise the report is unchanged; the action note only grows |
| ModerationViews.BanRecord | moderation/views.py:177-187 | the ban falls on the target, is issued by the moderator, permanent exactly when ticked, with the given end and the stripped posted reason |
| ModerationViews.BanAction | moderation/views.py:151-196 | a server error exactly when the report's object is gone or the ban's end overflows, keeping the report as saved; nobody to ban changes nothing; otherwise the target's ban record is replaced and a note appended to the action |
| ModerationViews.UpdateKeepsBanTarget | moderation/views.py:126-167 | updating the status never changes whom a ban falls on |
| ModerationViews.ReportDetailPost | moderation/views.py:122-242 | a server error exactly for a ban on a report whose object is gone or whose end overflows, with the status update already stored; a ban or removal runs after the status update; only a ban changes the ban records and only a removal removes anything |
| ModerationViews.RemovedReviewCannotBeBanned | moderation/views.py:151-212 | after removing a reported review, a ban from the same report fails |
| ModerationViews.ParseAction | moderation/views.py:345-348 | each of the three known actions exactly when posted, none otherwise |
| ModerationViews.ReadApprovalForm | moderation/views.py:345-400 | the action, the ticked criteria, and the stripped notes, reason and changes |
| ModerationViews.Approved | moderation/views.py:361-375 | status `approved`, listing approved and active, one `listing_approved` entry about the listing and its host |
| ModerationViews.Rejected | moderation/views.py:379-394 | status `rejected` with the reason, listing neither approved nor active, one `listing_rejected` entry |
| ModerationViews.ChangesRequired | moderation/views.py:398-402 | status `requires_changes` with the changes, listing not approved and its active flag kept, no entry |
| ModerationViews.Decide | moderation/views.py:361-404 | the status the action names, the reason or changes it carries, the listing flags it sets, and a log entry exactly for approve and reject |
| ModerationViews.AppendKeepsAllAbout | moderation/views.py:368-406 | appending an entry about the same listing and host keeps every entry about them |
| ModerationViews.ApplyDecision | moderation/views.py:348-406 | the review fields stamped, the action's status and flags, the checklist the listing validator computes from the ticks, and one entry for the status change when the stored status differs plus one view entry unless changes are required, all about the listing and its host |
| ModerationViews.AfterListingSave | moderation/views.py:361-406 | the listing validator overwrites the automatic criteria of the view's own approval and logs the status change first; the view's entries follow unchanged and the final save logs nothing |
| ModerationViews.ApplyDecisionLogOrder | moderation/views.py:361-406 | the status-change entry, with the fixed notes and the moderator, comes first; the view's own entry is last, naming the approved listing's title or the rejection reason |
| ModerationViews.PostedChecklist | moderation/views.py:353-359 | the six criteria as ticked in the form, the video criterion unchanged |
| ModerationViews.ApprovalDetailPost | moderation/views.py:338-408 | an unknown action changes nothing; a known one stores what `ApplyDecision` decides for the posted form; only the listing's approved and active flags change |
| ModerationViews.DecisionStoresValidatedCriteria | moderation/views.py:338-408 | whatever is ticked, a decision stores the listing's own title, image and price criteria; only the content-policy tick is kept |
| ModerationViews.ApprovingPendingLogsTwice | moderation/views.py:361-406 | approving a pending listing writes two `listing_approved` entries |
| ModerationViews.PriorityRank | moderation/views.py:549-550 | ranks 1 to 5, 1 exactly for urgent and 5 exactly for an unknown priority |
| ModerationViews.InsertComplaint | moderation/views.py:549-550 | inserting into an ordered list keeps it ordered and adds one element at the front or behind the old head |
| ModerationViews.InsertComplaintPermutes | moderation/views.py:549-550 | insertion adds exactly the new complaint |
| ModerationViews.ConsInOrder | moderation/views.py:549-550 | a head that precedes the rest's head keeps the order |
| ModerationViews.PrecedesTransitive | moderation/views.py:549-550 | the sort key is transitive |
| ModerationViews.PrecedesTotal | moderation/views.py:549-550 | any two complaints are comparable |
| ModerationViews.OrderComplaints | moderation/views.py:548-550 | a permutation of the complaints by rank, newer first within a rank |
| ModerationViews.UrgentComesFirst | moderation/views.py:548-550 | when any complaint is urgent the first one is |
| NotifyTags.UnreadCount | notifications/templatetags/notify_tags.py:12 | at most the number of notifications, and zero exactly when every notification of the user is read |
| NotifyTags.UnreadCountIsSetSize | notifications/templatetags/notify_tags.py:12 | the count is the number of the user's notifications not yet read |
| NotifyTags.NotificationCount | notifications/templatetags/notify_tags.py:7-14 | zero for an anonymous visitor; the user's unread count otherwise |
| NotifyTags.MarkAsRead | notifications/models.py:78-82 | the chosen notification is read and nothing else changes |
| NotifyTags.MarkAsReadLowersCount | notifications/models.py:78-82 | marking an unread notification lowers its owner's unread count by one and no one else's |
| NotifyTags.MarkAsReadIdempotent | notifications/models.py:78-82 | marking twice is marking once |
| NotifyTags.NotificationBadge | notifications/templatetags/notify_tags.py:16-22 | empty exactly when nothing is unread, otherwise the badge markup around the count |
| NotifyTags.BadgeShowsCount | notifications/templatetags/notify_tags.py:16-22 | the text inside the badge reads back as the unread count |
| NotifyTags.OwnedBy | notifications/templatetags/notify_tags.py:29 | exactly the user's notifications |
| NotifyTags.InsertByDate | notifications/models.py:73 | insertion keeps the newest-first order and adds exactly the new notification |
| NotifyTags.ConsNewestFirst | notifications/models.py:73 | a head newer than the rest keeps the order |
| NotifyTags.SortNewestFirst | notifications/models.py:73 | a newest-first permutation |
| NotifyTags.SameMembers | notifications/templatetags/notify_tags.py:29 | permutations have the same length and members |
| NotifyTags.PrefixKeepsNewer | notifications/templatetags/notify_tags.py:29 | in a newest-first list, anything newer than an element of a prefix is in that prefix |
| NotifyTags.PrefixMembers | notifications/templatetags/notify_tags.py:29 | a prefix of a permutation holds only original members |
| NotifyTags.PrefixNewest | notifications/templatetags/notify_tags.py:29 | a prefix of a newest-first permutation leaves out nothing newer than what it holds |
| NotifyTags.Newest | notifications/templatetags/notify_tags.py:29 | the limit or all, newest first, only the user's own, and nothing newer left out |
| NotifyTags.RecentNotifications | notifications/templatetags/notify_tags.py:24-31 | nothing for an anonymous visitor; an error exactly for a negative limit; otherwise at most the limit of the user's own notifications, newest first, with nothing newer left out |
| NotifyTags.RecentShowsAllWhenFew | notifications/templatetags/notify_tags.py:24-31 | a limit covering all the user's notifications shows exactly them |
| NotifyTags.IconClass | notifications/templatetags/notify_tags.py:36-47 | the mapped icon for a known type, the bell otherwise |
| NotifyTags.IconsCoverTypes | notifications/templatetags/notify_tags.py:36-47 | the icon map covers exactly the notification types, and the bell marks exactly the `system` type and unknown ones |
| NotifyTags.NotificationIcon | notifications/templatetags/notify_tags.py:34-48 | an `<i>` element whose class attribute is exactly the type's icon class |
| NotifyTags.UnknownTypeLooksLikeSystem | notifications/templatetags/notify_tags.py:33-48 | an unknown type is shown like a system notification |
| NotifyTags.NotificationTargetUrl | notifications/templatetags/notify_tags.py:50-61 | the booking page first, then the conversation, the listing, the review's listing, the inbox last |
| NotifyTags.InboxIffUnrelated | notifications/templatetags/notify_tags.py:50-61 | the inbox exactly when the notification relates to nothing |
| NotifyTags.ChatUrlNamesConversation | notifications/templatetags/notify_tags.py:55-56 | the conversation id reads back from a chat link |
| NotifyTags.ReviewLeadsToItsListing | notifications/templatetags/notify_tags.py:59-60 | a review notification leads where a notification about the review's listing does |

## Behaviour of the browser scripts

- A failed range check does not stop the price update. Both date handlers of `staticfiles/listings/js/calendar.js` dispatch the update after the alert (lines 72-79 and 92-96). `BookingCalendar.RangeAlertStillUpdatesPrice` states this.
- Only the check-in handler clears a check-out that is not after the check-in (lines 60-63). The check-out handler never compares the two dates. `BookingCalendar.OnCheckOutChange` keeps whatever check-out is available.
- Dates are not compared as `YYYY-MM-DD` strings. The script turns them into `Date` objects: it parses them as UTC midnight and formats them with local getters. See "Findings".
- Not all user-supplied text is escaped. In `chat.js` the sender's initial is inserted unescaped (line 145); only the message text is escaped. `ChatClient.BubbleMarkup` states both halves.

## Left out

- Persistence, HTTP and rendering: ORM writes, transactions, redirects, flash messages, templates and pagination. Tables are sequences, each view is a function from the request's fields to its outcome, and a view's outcome is a status code, a message and the updated records.
- Time, randomness and identity: `timezone.now()` is one `now` parameter per operation, and new primary keys are parameters. With one `now`, the "subscription has expired" branch of `can_create_ad` (`subscriptions/services.py:54-56`) cannot be reached. `SubscriptionService.CanCreateAdNeedsRoom` proves this.
- JSON decoding and database lookups arrive already done: decoded values, optional results and lists of records. The conversions a view or a column applies to decoded values are modelled (`Json.PyIntOf`, `SubscriptionViews.IdKey`, `SubscriptionViews.UuidOf`, `SubscriptionViews.BoolFieldOf`).
- Text.PyInt: accepts an optional sign, ASCII digits and surrounding whitespace. It does not accept underscores or non-ASCII digits, which Python's `int()` also reads.
- SubscriptionViews.UuidOf: requires exactly 32 hexadecimal digits after the prefixes, braces and hyphens are removed. Python's `int(text, 16)` would also take a 32-character text with a `+` sign, a `0x` prefix, underscores or surrounding whitespace; those rare forms are refused here.
- Case mapping covers ASCII letters only: every other character is treated as uncased. Python's `str.lower`, `str.title` and JavaScript's `toUpperCase` are Unicode-aware, and `'ß'.title()` is even longer than its input. The following members carry this restriction.
- Text.LowerChar: lower-cases ASCII letters only.
- Text.UpperChar: upper-cases ASCII letters only.
- Text.Lower: lower-cases ASCII letters only, as used for `listing_extras.py:115`.
- Text.TitleFromKeepsUncased: treats every non-ASCII letter as uncased, unlike `str.title()`.
- SubscriptionFilters.UnderscoreToSpace: "the length is kept" holds for ASCII case mapping only; Python's `title()` can lengthen a word such as `ß`.
- ChatClient.DisplayMessage: the sender's initial is upper-cased for ASCII letters only, where `toUpperCase` maps, for example, `я` to `Я`.
- ChatClient.ParseIdValue: reads a float id as NaN. JavaScript's `parseInt` would read the integer part of the float's text; the page's ids are integers.
- PriceCalculator.SeasonFor: takes each season's `'start:end'` key as two dates already read. The source reads each key inside the loop, and a key that does not split into two parts or does not hold ISO dates raises `ValueError`. That error is not modelled. In the source it escapes only when the bad key comes before the first matching season, because later keys are never read.
- BookingCalendar.SetDateInputs: takes the given texts as the inputs' values. A date input turns a malformed date into the empty string, and that is not modelled; the page passes only ISO dates.
- ChatClient.ParseIntPrefix: reads decimal digits only. JavaScript's `parseInt` without a radix reads a `0x` prefix as hexadecimal; the ids it is given are decimal.
- SubscriptionService.CanCreateAd: returns the decision only. The `get_or_create` of `subscriptions/services.py:59-64` also stores a new usage record, counting the live listings before the new ad exists, and that stored record is not returned; `SubscriptionService.UsageOnAdCreated` creates the record when the ad is made.
- Decimal arithmetic is exact `real`. The 28-digit context rounding is not modelled, and neither are the float formatting of `currency`, `format_price` or the percentage rounding in the admin and serializers.
- Time zones and daylight saving: instants are seconds in one fixed zone. The browser's offset is a constant per page (`BookingCalendar.Parsing`), so a daylight-saving change within a stay is not modelled.
- `BookingCalendar.ParseIso` follows the ECMAScript date-only format strictly. Engines' lenient parsing of other strings, such as V8 rolling `2024-02-30` over into March, is not modelled.
- `initCalendar` and `initChatSocket`'s DOM wiring: element lookups, event registration and the inline status indicator. Only the decisions they make are modelled.
- The chat reconnect timer, the hover listeners and the edit, delete and report stubs of `chat.js`. They are timers and DOM glue with no decision in them.
- The socket endpoint (`chat/consumers.py`), the map picker (`yandex_maps.js`) and `htmx_init.js`: asynchronous, SDK-driven or DOM glue.
- `filter_content` (`moderation/views.py:443-474`): it depends on Python's regular-expression engine (`\b`, case folding, `re.escape`).
- The complaint views `file_complaint`, `my_complaints` and `complaint_detail`, and the list filters of `report_list`, `listing_approval_list` and `complaint_list`. Their forms name fields that `UserComplaint` does not have. Only the ordering of `complaint_list` is modelled (`ModerationViews.OrderComplaints`).
- `get_subscription_stats` (`subscriptions/services.py:234`) and `conversation_list`: reporting queries with no rule beyond a filter.
- The expiry notices and the log loop of the renewal command (`process_subscription_renewals.py:129-132`): they only write logs and send mail.
- Email and notification dispatch (`notifications/tasks.py`, `notifications/signals.py`). Only `mark_as_read` and the ordering of `notifications/models.py` are modelled.
- Test-data and seeding commands: they are driven by randomness. Their `check_availability` uses half-open overlap, unlike `Listing.is_available`.
- The `get_unread_count` API view (`chat/views.py:159-167`): its `sender__id__ne` lookup is not a Django lookup, so the view raises instead of answering. The model method of the same name (`ChatModels.GetUnreadCount`) is modelled.
- ChatModels.GetOtherParticipant: `chat/models.py` defines the method twice, and the later definition wins. Only that definition is modelled.
- ModerationModels.GeneratedSubject: states only that the generated subject is non-empty and differs from the placeholder. The exact wording is not stated.
- ModerationViews.ReportContent: the category arrives already resolved. A missing or unparsable category id is `None`, as the view's `except` makes it.
- ModerationViews.OrderComplaints: states a sorted permutation. Stability, which keeps equal keys in their queried order, is not stated.
- NotifyTags.SortNewestFirst: states a newest-first permutation. The relative order of notifications created at the same instant is not stated.
- NotifyTags.RecentNotifications: a negative limit is an error (`None`). Django refuses negative slicing, so it raises rather than counting from the end.
- ModerationModels.ApprovalScore: uses exact `real` division; the float result Python produces is not modelled.
- SubscriptionViews.ProcessQrPayment: the payment itself is not verified, because the code only simulates a test payment. The user and plan lookups are database reads, so they arrive as lists of records.

## Findings

| source | as written | input that shows it | evidently intended | confidence | as-written member | corrected member |
|---|---|---|---|---|---|---|
| staticfiles/listings/js/calendar.js:103-120 | `new Date("YYYY-MM-DD")` is UTC midnight, but the range scan and `formatDateForInput` use local getters. West of UTC every scanned day is the day before the one meant | offset −300 minutes; check-in 2024-05-06, check-out 2024-05-08, unavailable `["2024-05-05"]`: the free stay is rejected, and the check-out minimum equals the check-in (`WestOfUtcMinimumIsCheckIn`) | each named calendar day from check-in to check-out is checked, and the minimum is the next day | not executed | BookingCalendar.WestOfUtcFalseAlarm | BookingCalendar.LocalRangeClear |

Other behaviour of the code as written, stated without correction:

- Approving or rejecting a pending listing writes two log entries: the view's own and the one the status change triggers (`ModerationViews.ApprovingPendingLogsTwice`).
- The approval view overwrites `reviewed_at` on every decision, although the model's `save` never overwrites it (`ModerationViews.ApplyDecision`, `ModerationModels.SaveApproval`).
- A temporary ban whose length is missing or not an integer is stored but never active (`ModerationViews.UnparsableBanIsInert`).
- Asking to ban from a report whose review was deleted is a server error (`ModerationViews.RemovedReviewCannotBeBanned`).
- A report view closes with `rejected`, while a complaint closes with `dismissed`. Only `resolved` and `dismissed` stop a complaint from being overdue.
- A due subscription whose plan was withdrawn, or whose renewal raises, keeps auto-renewal, so the expiry pass never marks it expired (`SubscriptionRenewals.RenewalOutcome`). A renewal may also end in the past when the renewal pass ran late.
- A dry run counts as successes the due subscriptions whose plan is offered, including a renewal that would raise (`SubscriptionRenewals.ProcessAutoRenewals`, `SubscriptionRenewals.DryRunCountsAgree`).
- When the guest and the host of a booking are the same user, that user is the counterpart of their own conversation (`ChatViews.BookingDecidesCounterpart`).

=== FILE: booking_calendar.dfy ===
/** Date handling of the booking widget (staticfiles/listings/js/calendar.js).

    A JavaScript `Date` is modelled by what the page reads from it: the civil
    date and the minute of the day in the time zone of the browser. The zone
    is a fixed offset from UTC; daylight-saving changes are not modelled. An
    invalid Date (`NaN`) is `None`: every comparison with it is false and it
    formats as `NaN-NaN-NaN`. Input values are strings, empty when blank. */
module BookingCalendar {
  import opened Wrappers
  import opened Text
  import opened Gregorian

  datatype LocalTime = LocalTime(date: Date, minute: int)

  predicate ValidTime(t: LocalTime) {
    ValidDate(t.date) && 0 <= t.minute < 1440
  }

  /** Minutes since local midnight of 1970-01-01. With a fixed offset this
      orders Dates exactly as their time values do. */
  function Minutes(t: LocalTime): int
    requires ValidDate(t.date)
  {
    DayNumber(t.date) * 1440 + t.minute
  }

  /** How a `YYYY-MM-DD` string becomes a Date. `AsUtc` is `new Date(s)`:
      a date-only string is midnight UTC, which the page then reads in a
      zone `offset` minutes ahead of UTC. `AsLocal` is midnight local time,
      what `new Date(y, m - 1, d)` gives. */
  datatype Parsing = AsUtc(offset: int) | AsLocal

  /** Every zone offset lies strictly within one day of UTC. */
  predicate ValidParsing(p: Parsing) {
    p.AsUtc? ==> -1440 < p.offset < 1440
  }

  /** Zones west of UTC see midnight UTC on the previous local day. */
  predicate ShiftsBack(p: Parsing) {
    p.AsUtc? && p.offset < 0
  }

  // ---------------------------------------------------------- dates as text

  predicate MatchesPattern(s: string) {
    |s| == 10 && AllDigits(s[..4]) && s[4] == '-' && AllDigits(s[5..7]) && s[7] == '-' && AllDigits(s[8..])
  }

  /** The calendar date an ISO `YYYY-MM-DD` string names; `None` for any
      other text and for dates that do not exist (ECMAScript's date-time
      string format treats out-of-range fields as invalid). */
  function ParseIso(s: string): (r: Option<Date>)
    ensures r.Some? ==> MatchesPattern(s) && ValidDate(r.value)
    ensures r.Some? ==> r.value == Date(ParseNat(s[..4]), ParseNat(s[5..7]), ParseNat(s[8..]))
  {
    if MatchesPattern(s) then
      var d := Date(ParseNat(s[..4]), ParseNat(s[5..7]), ParseNat(s[8..]));
      if ValidDate(d) then Some(d) else None
    else None
  }

  /** `formatDateForInput` on a valid Date: the year as a template literal writes it
      (no padding), then the month and day padded to two digits. */
  function FormatDateForInput(d: Date): (s: string)
    requires ValidDate(d)
  {
    IntToString(d.year) + "-" + ZeroPad(d.month, 2) + "-" + ZeroPad(d.day, 2)
  }

  /** `formatDateForInput` on any Date, invalid ones included. */
  function FormatTime(t: Option<LocalTime>): (s: string)
    requires t.Some? ==> ValidTime(t.value)
    ensures t.None? ==> s == "NaN-NaN-NaN"
    ensures t.Some? ==> s == FormatDateForInput(t.value.date)
  {
    match t
    case None => "NaN-NaN-NaN"
    case Some(v) => FormatDateForInput(v.date)
  }

  /** For four-digit years the formatted text reads back as the same date. */
  lemma FormatParseRoundTrip(d: Date)
    requires ValidDate(d) && 1000 <= d.year <= 9999
    ensures ParseIso(FormatDateForInput(d)) == Some(d)
  {
    var y := IntToString(d.year);
    var m := ZeroPad(d.month, 2);
    var dd := ZeroPad(d.day, 2);
    NatToStringWidth(d.year, 4);
    NatToStringAtLeast(d.year, 4);
    NatToStringWidth(d.month, 2);
    NatToStringWidth(d.day, 2);
    assert |y| == 4 && y == NatToString(d.year);
    NatToStringRoundTrip(d.year);
    ZeroPadRoundTrip(d.month, 2);
    ZeroPadRoundTrip(d.day, 2);
    var s := y + "-" + m + "-" + dd;
    assert s[..4] == y && s[5..7] == m && s[8..] == dd;
  }

  /** For four-digit years the widget's text is Python's `isoformat()`, the
      form the server lists unavailable dates in. */
  lemma FormatMatchesIsoFormat(d: Date)
    requires ValidDate(d) && 1000 <= d.year <= 9999
    ensures FormatDateForInput(d) == IsoFormat(d)
  {
    NatToStringAtLeast(d.year, 4);
    assert IntToString(d.year) == NatToString(d.year) == ZeroPad(d.year, 4);
  }

  /** Whatever the year, the formatted text reads back as the same date or
      not at all: years outside 1000..9999 give text of the wrong shape. */
  lemma FormatReadsBack(d: Date)
    requires ValidDate(d)
    ensures ParseIso(FormatDateForInput(d)).Some? ==> ParseIso(FormatDateForInput(d)) == Some(d)
  {
    var s := FormatDateForInput(d);
    if 1000 <= d.year <= 9999 {
      FormatParseRoundTrip(d);
    } else if d.year < 0 {
      assert s[0] == '-' && s[..4][0] == s[0];
    } else if d.year < 1000 {
      NatToStringWidth(d.year, 3);
      NatToStringWidth(d.month, 2);
      NatToStringWidth(d.day, 2);
    } else {
      NatToStringAtLeast(d.year, 5);
    }
  }

  /** A date with a four-digit year shares its text with no other date. */
  lemma FormatInjective(a: Date, b: Date)
    requires ValidDate(a) && ValidDate(b) && 1000 <= b.year <= 9999
    ensures FormatDateForInput(a) == FormatDateForInput(b) <==> a == b
  {
    FormatParseRoundTrip(b);
    FormatReadsBack(a);
  }

  /** `isValidDate`: the four-two-two digit pattern, and a Date that is not
      NaN. The pattern adds nothing to what the parser already demands. */
  function IsValidDate(s: string): (r: bool)
    ensures r <==> ParseIso(s).Some?
    ensures r ==> |s| == 10 && s[4] == '-' && s[7] == '-'
  {
    MatchesPattern(s) && ParseIso(s).Some?
  }

  /** `new Date(s)` for an input's value. */
  function Parse(p: Parsing, s: string): (r: Option<LocalTime>)
    requires ValidParsing(p)
    ensures r.Some? <==> ParseIso(s).Some?
    ensures r.Some? ==> ValidTime(r.value)
    ensures r.Some? && p.AsUtc? ==> Minutes(r.value) == DayNumber(ParseIso(s).value) * 1440 + p.offset
    ensures r.Some? && p.AsLocal? ==> r.value == LocalTime(ParseIso(s).value, 0)
    ensures r.Some? ==> r.value.date == if ShiftsBack(p) then PrevDay(ParseIso(s).value) else ParseIso(s).value
  {
    match ParseIso(s)
    case None => None
    case Some(d) =>
      match p
      case AsLocal => Some(LocalTime(d, 0))
      case AsUtc(offset) =>
        if offset < 0 then
          PrevDayNumber(d);
          Some(LocalTime(PrevDay(d), 1440 + offset))
        else Some(LocalTime(d, offset))
  }

  /** `date.setDate(date.getDate() + 1)`: the next local day, same clock time. */
  function NextLocalDay(t: LocalTime): (r: LocalTime)
    requires ValidTime(t)
    ensures ValidTime(r) && Minutes(r) == Minutes(t) + 1440
  {
    NextDayNumber(t.date);
    LocalTime(NextDay(t.date), t.minute)
  }

  /** `a <= b` on two Dates: false when either is NaN. */
  predicate NotLater(a: Option<LocalTime>, b: Option<LocalTime>)
    requires a.Some? ==> ValidTime(a.value)
    requires b.Some? ==> ValidTime(b.value)
  {
    a.Some? && b.Some? && Minutes(a.value) <= Minutes(b.value)
  }

  /** Both strings read the same way, so comparing the Dates compares the
      calendar dates the strings name, whatever the zone. */
  lemma CompareParsed(p: Parsing, a: string, b: string)
    requires ValidParsing(p)
    ensures NotLater(Parse(p, a), Parse(p, b)) <==>
      ParseIso(a).Some? && ParseIso(b).Some? && DayNumber(ParseIso(a).value) <= DayNumber(ParseIso(b).value)
  {
  }

  /** The minimum the page gives the check-out input for check-in text `s`:
      the day after check-in, formatted. West of UTC the parsed Date falls on
      the previous local day, so the minimum is the check-in day itself. */
  function MinCheckOut(p: Parsing, s: string): (r: string)
    requires ValidParsing(p)
    ensures ParseIso(s).None? ==> r == "NaN-NaN-NaN"
    ensures ParseIso(s).Some? && !ShiftsBack(p) ==> r == FormatDateForInput(NextDay(ParseIso(s).value))
    ensures ParseIso(s).Some? && ShiftsBack(p) ==> r == FormatDateForInput(ParseIso(s).value)
  {
    match Parse(p, s)
    case None => "NaN-NaN-NaN"
    case Some(t) => FormatTime(Some(NextLocalDay(t)))
  }

  /** `isDateUnavailable`: exact string membership. */
  function IsDateUnavailable(s: string, unavailable: seq<string>): (r: bool)
    ensures r <==> exists i :: 0 <= i < |unavailable| && unavailable[i] == s
  {
    s in unavailable
  }

  // ------------------------------------------------------------ range scan

  /** None of the `count` days from `first` on is unavailable. */
  predicate DaysFree(first: Date, count: int, unavailable: seq<string>)
    requires ValidDate(first)
  {
    forall k: nat :: k < count ==> FormatDateForInput(AddDays(first, k)) !in unavailable
  }

  lemma DaysFreeStep(first: Date, count: nat, unavailable: seq<string>)
    requires ValidDate(first) && DaysFree(first, count, unavailable)
    requires FormatDateForInput(AddDays(first, count)) !in unavailable
    ensures DaysFree(first, count + 1, unavailable)
  {
  }

  /** How many days a scan from `s` visits before it passes `e`. */
  function ScanLength(s: LocalTime, e: LocalTime): (n: nat)
    requires ValidTime(s) && ValidTime(e)
    ensures Minutes(e) < Minutes(s) ==> n == 0
    ensures n > 0 ==> Minutes(s) + 1440 * (n - 1) <= Minutes(e) < Minutes(s) + 1440 * n
  {
    if Minutes(e) < Minutes(s) then 0
    else
      var gap := Minutes(e) - Minutes(s);
      assert gap == 1440 * (gap / 1440) + gap % 1440;
      (Minutes(e) - Minutes(s)) / 1440 + 1
  }

  /** What `validateDateRange` returns: true when either end is not a date;
      otherwise no day the scan visits formats as an unavailable date. */
  predicate RangeClear(p: Parsing, startText: string, endText: string, unavailable: seq<string>)
    requires ValidParsing(p)
  {
    match (Parse(p, startText), Parse(p, endText))
    case (Some(s), Some(e)) => DaysFree(s.date, ScanLength(s, e), unavailable)
    case _ => true
  }

  /** `validateDateRange`, the loop as written. */
  method ValidateDateRange(p: Parsing, startText: string, endText: string, unavailable: seq<string>)
    returns (ok: bool)
    requires ValidParsing(p)
    ensures ok <==> RangeClear(p, startText, endText, unavailable)
  {
    var start := Parse(p, startText);
    var end := Parse(p, endText);
    if start.None? || end.None? {
      return true;
    }
    var s := start.value;
    var e := end.value;
    var cur := s;
    var k: nat := 0;
    while Minutes(cur) <= Minutes(e)
      invariant ValidTime(cur) && cur.date == AddDays(s.date, k)
      invariant Minutes(cur) == Minutes(s) + 1440 * k
      invariant k <= ScanLength(s, e)
      invariant DaysFree(s.date, k, unavailable)
      decreases Minutes(e) - Minutes(cur)
    {
      ScanContinues(s, e, k);
      if IsDateUnavailable(FormatDateForInput(cur.date), unavailable) {
        assert !DaysFree(s.date, ScanLength(s, e), unavailable);
        return false;
      }
      DaysFreeStep(s.date, k, unavailable);
      cur := NextLocalDay(cur);
      k := k + 1;
    }
    ScanEnds(s, e, k);
    return true;
  }

  /** A scan still within the end has days left to visit. */
  lemma ScanContinues(s: LocalTime, e: LocalTime, k: nat)
    requires ValidTime(s) && ValidTime(e) && Minutes(s) + 1440 * k <= Minutes(e)
    ensures k < ScanLength(s, e)
  {
  }

  /** A scan past the end after at most the scan's length has visited all
      of it. */
  lemma ScanEnds(s: LocalTime, e: LocalTime, k: nat)
    requires ValidTime(s) && ValidTime(e) && k <= ScanLength(s, e) && Minutes(e) < Minutes(s) + 1440 * k
    ensures k == ScanLength(s, e)
  {
  }

  /** The range scan visits the days from the start's local day for as many
      days as the calendar dates are apart: the named days themselves when
      parsing keeps the day, each one a day early west of UTC. */
  lemma RangeClearDays(p: Parsing, startText: string, endText: string, unavailable: seq<string>)
    requires ValidParsing(p)
    requires ParseIso(startText).Some? && ParseIso(endText).Some?
    ensures var ds := ParseIso(startText).value;
            var de := ParseIso(endText).value;
            var first := if ShiftsBack(p) then PrevDay(ds) else ds;
            RangeClear(p, startText, endText, unavailable)
            == DaysFree(first, DayNumber(de) - DayNumber(ds) + 1, unavailable)
  {
    var s := Parse(p, startText).value;
    var e := Parse(p, endText).value;
    RangeClearParsed(p, startText, endText, unavailable);
    var ds := ParseIso(startText).value;
    var de := ParseIso(endText).value;
    var c := if p.AsUtc? then p.offset else 0;
    assert Minutes(s) == DayNumber(ds) * 1440 + c && Minutes(e) == DayNumber(de) * 1440 + c;
    var n := ScanLength(s, e);
    assert n == if DayNumber(ds) <= DayNumber(de) then DayNumber(de) - DayNumber(ds) + 1 else 0 by {
      ScanOfWholeDays(s, e, DayNumber(ds), DayNumber(de), c);
    }
    var first := if ShiftsBack(p) then PrevDay(ds) else ds;
    assert s.date == first;
    if DayNumber(de) < DayNumber(ds) {
      assert DaysFree(first, DayNumber(de) - DayNumber(ds) + 1, unavailable) && DaysFree(first, n, unavailable);
    }
  }

  /** Between two parsed ends the range is clear exactly when the scanned days are free. */
  lemma RangeClearParsed(p: Parsing, startText: string, endText: string, unavailable: seq<string>)
    requires ValidParsing(p)
    requires ParseIso(startText).Some? && ParseIso(endText).Some?
    ensures var s := Parse(p, startText).value;
            var e := Parse(p, endText).value;
            RangeClear(p, startText, endText, unavailable) == DaysFree(s.date, ScanLength(s, e), unavailable)
  {
  }

  /** Two times the same clock minute past their day's midnight are as many
      scan steps apart as their days, plus one. */
  lemma ScanOfWholeDays(s: LocalTime, e: LocalTime, a: int, b: int, c: int)
    requires ValidTime(s) && ValidTime(e)
    requires Minutes(s) == a * 1440 + c && Minutes(e) == b * 1440 + c
    ensures ScanLength(s, e) == if a <= b then b - a + 1 else 0
  {
    if a <= b {
      assert Minutes(e) - Minutes(s) == (b - a) * 1440;
    } else {
      assert Minutes(e) - Minutes(s) == (b - a) * 1440;
    }
  }

  /** With local-midnight parsing the scan covers exactly the named days,
      both ends included. */
  lemma LocalRangeClear(startText: string, endText: string, unavailable: seq<string>)
    requires ParseIso(startText).Some? && ParseIso(endText).Some?
    ensures var ds := ParseIso(startText).value;
            var de := ParseIso(endText).value;
            RangeClear(AsLocal, startText, endText, unavailable)
            == DaysFree(ds, DayNumber(de) - DayNumber(ds) + 1, unavailable)
  {
    RangeClearDays(AsLocal, startText, endText, unavailable);
  }

  /** West of UTC the scan starts on the day before check-in, so an
      unavailable eve blocks the stay. */
  lemma UtcScanHitsEve(offset: int, ds: Date, de: Date)
    requires -1440 < offset < 0
    requires ValidDate(ds) && ValidDate(de) && 1001 <= ds.year <= 9999 && 1000 <= de.year <= 9999
    requires DayNumber(ds) <= DayNumber(de)
    ensures !RangeClear(AsUtc(offset), FormatDateForInput(ds), FormatDateForInput(de), [FormatDateForInput(PrevDay(ds))])
  {
    var unavailable := [FormatDateForInput(PrevDay(ds))];
    var st := FormatDateForInput(ds);
    var en := FormatDateForInput(de);
    var count := DayNumber(de) - DayNumber(ds) + 1;
    FormatParseRoundTrip(ds);
    FormatParseRoundTrip(de);
    PrevDayNumber(ds);
    RangeClearDays(AsUtc(offset), st, en, unavailable);
    assert AddDays(PrevDay(ds), 0) == PrevDay(ds);
    assert !DaysFree(PrevDay(ds), count, unavailable);
  }

  /** With local-midnight parsing the eve of check-in is not scanned. */
  lemma LocalScanSkipsEve(ds: Date, de: Date)
    requires ValidDate(ds) && ValidDate(de) && 1001 <= ds.year <= 9999 && 1000 <= de.year <= 9999
    requires DayNumber(ds) <= DayNumber(de)
    ensures RangeClear(AsLocal, FormatDateForInput(ds), FormatDateForInput(de), [FormatDateForInput(PrevDay(ds))])
  {
    var unavailable := [FormatDateForInput(PrevDay(ds))];
    var st := FormatDateForInput(ds);
    var en := FormatDateForInput(de);
    var count := DayNumber(de) - DayNumber(ds) + 1;
    assert ParseIso(st) == Some(ds) && ParseIso(en) == Some(de) by {
      FormatParseRoundTrip(ds);
      FormatParseRoundTrip(de);
    }
    assert DaysFree(ds, count, unavailable) by {
      forall k: nat | k < count
        ensures FormatDateForInput(AddDays(ds, k)) !in unavailable
      {
        NotTheEve(ds, k);
      }
    }
    LocalRangeClear(st, en, unavailable);
  }

  /** No day from `ds` on formats like the day before `ds`. */
  lemma NotTheEve(ds: Date, k: nat)
    requires ValidDate(ds) && 1001 <= ds.year <= 9999
    ensures FormatDateForInput(AddDays(ds, k)) != FormatDateForInput(PrevDay(ds))
  {
    PrevDayNumber(ds);
    AddDaysNumber(ds, k);
    FormatInjective(AddDays(ds, k), PrevDay(ds));
  }

  /** West of UTC the scan as written rejects a stay whose named days are
      all free when the day before check-in is unavailable; local-midnight
      parsing accepts it. */
  lemma WestOfUtcFalseAlarm(offset: int, ds: Date, de: Date)
    requires -1440 < offset < 0
    requires ValidDate(ds) && ValidDate(de) && 1001 <= ds.year <= 9999 && 1000 <= de.year <= 9999
    requires DayNumber(ds) <= DayNumber(de)
    ensures var unavailable := [FormatDateForInput(PrevDay(ds))];
            && !RangeClear(AsUtc(offset), FormatDateForInput(ds), FormatDateForInput(de), unavailable)
            && RangeClear(AsLocal, FormatDateForInput(ds), FormatDateForInput(de), unavailable)
  {
    UtcScanHitsEve(offset, ds, de);
    LocalScanSkipsEve(ds, de);
  }

  // -------------------------------------------------------------- handlers

  datatype Field = CheckInField | CheckOutField

  /** What a handler does besides changing the inputs. */
  datatype Effect =
    | UnavailableAlert(field: Field)
    | RangeAlert
    | PriceUpdate

  datatype Inputs = Inputs(checkIn: string, checkOut: string, checkInMin: string, checkOutMin: string)

  /** A URL parameter the page takes: present, non-empty and a valid date. */
  predicate Given(param: Option<string>) {
    param.Some? && param.value != "" && IsValidDate(param.value)
  }

  /** `setupDateConstraints`: both minimums become today; valid `check_in`
      and `check_out` URL parameters fill the inputs, and a check-in moves
      the check-out minimum. The two parameters are not compared. */
  function SetupDateConstraints(p: Parsing, today: LocalTime, inputs: Inputs,
                                checkInParam: Option<string>, checkOutParam: Option<string>)
    : (r: Inputs)
    requires ValidParsing(p) && ValidTime(today)
    ensures r.checkInMin == FormatDateForInput(today.date)
    ensures !Given(checkInParam) ==> r.checkIn == inputs.checkIn && r.checkOutMin == r.checkInMin
    ensures Given(checkInParam) ==>
      r.checkIn == checkInParam.value && r.checkOutMin == MinCheckOut(p, checkInParam.value)
    ensures Given(checkInParam) && !ShiftsBack(p) ==>
      r.checkOutMin == FormatDateForInput(NextDay(ParseIso(checkInParam.value).value))
    ensures Given(checkInParam) && ShiftsBack(p) ==>
      r.checkOutMin == FormatDateForInput(ParseIso(checkInParam.value).value)
    ensures r.checkOut == if Given(checkOutParam) then checkOutParam.value else inputs.checkOut
  {
    var todayText := FormatDateForInput(today.date);
    var withIn :=
      if Given(checkInParam) then
        Inputs(checkInParam.value, inputs.checkOut, todayText, MinCheckOut(p, checkInParam.value))
      else Inputs(inputs.checkIn, inputs.checkOut, todayText, todayText);
    if Given(checkOutParam) then withIn.(checkOut := checkOutParam.value) else withIn
  }

  /** The minimum the page sets up for a check-in parameter is the one the
      check-in handler sets when that date is picked by hand. */
  lemma SetupAgreesWithCheckInHandler(p: Parsing, today: LocalTime, inputs: Inputs,
                                      checkInParam: Option<string>, checkOutParam: Option<string>,
                                      unavailable: seq<string>)
    requires ValidParsing(p) && ValidTime(today) && Given(checkInParam)
    ensures var set_up := SetupDateConstraints(p, today, inputs, checkInParam, checkOutParam);
            var picked := OnCheckInChange(p, inputs.(checkIn := checkInParam.value), unavailable).0;
            set_up.checkOutMin == picked.checkOutMin
  {
  }

  /** Both texts name dates and the check-out is not after the check-in. */
  predicate CheckOutNotAfter(checkIn: string, checkOut: string) {
    && ParseIso(checkIn).Some? && ParseIso(checkOut).Some?
    && DayNumber(ParseIso(checkOut).value) <= DayNumber(ParseIso(checkIn).value)
  }

  /** The check-in `change` handler, run after the input's value changed. */
  function OnCheckInChange(p: Parsing, inputs: Inputs, unavailable: seq<string>): (r: (Inputs, seq<Effect>))
    requires ValidParsing(p)
    ensures inputs.checkIn == "" ==> r == (inputs, [])
    ensures inputs.checkIn != "" ==> r.0.checkOutMin == MinCheckOut(p, inputs.checkIn)
    ensures r.0.checkInMin == inputs.checkInMin
    ensures inputs.checkIn != "" ==>
      (r.0.checkOut == "" <==> (inputs.checkOut == "" || CheckOutNotAfter(inputs.checkIn, inputs.checkOut)))
    ensures r.0.checkOut != "" ==> r.0.checkOut == inputs.checkOut
    ensures inputs.checkIn != "" && inputs.checkIn in unavailable ==>
      r.0.checkIn == "" && UnavailableAlert(CheckInField) in r.1
    ensures inputs.checkIn !in unavailable ==> r.0.checkIn == inputs.checkIn
    ensures PriceUpdate in r.1 <==> inputs.checkIn != "" && r.0.checkOut != ""
    ensures RangeAlert in r.1 <==>
      inputs.checkIn != "" && inputs.checkIn !in unavailable && r.0.checkOut != ""
      && !RangeClear(p, inputs.checkIn, r.0.checkOut, unavailable)
  {
    if inputs.checkIn == "" then (inputs, [])
    else
      var v := inputs.checkIn;
      CompareParsed(p, inputs.checkOut, v);
      var checkOut :=
        if inputs.checkOut != "" && NotLater(Parse(p, inputs.checkOut), Parse(p, v)) then "" else inputs.checkOut;
      var (checkIn, first) :=
        if IsDateUnavailable(v, unavailable) then ("", [UnavailableAlert(CheckInField)])
        else (v, if checkOut != "" && !RangeClear(p, v, checkOut, unavailable) then [RangeAlert] else []);
      var tail := if checkOut != "" then [PriceUpdate] else [];
      assert RangeAlert in first + tail <==> RangeAlert in first;
      assert PriceUpdate in first + tail <==> checkOut != "";
      (Inputs(checkIn, checkOut, inputs.checkInMin, MinCheckOut(p, v)), first + tail)
  }

  /** The check-out `change` handler. It does not compare the check-out with
      the check-in; that is left to the input's minimum. */
  function OnCheckOutChange(p: Parsing, inputs: Inputs, unavailable: seq<string>): (r: (Inputs, seq<Effect>))
    requires ValidParsing(p)
    ensures inputs.checkIn == "" || inputs.checkOut == "" ==> r == (inputs, [])
    ensures r.0.checkIn == inputs.checkIn && r.0.checkInMin == inputs.checkInMin && r.0.checkOutMin == inputs.checkOutMin
    ensures r.0.checkOut == "" <==> inputs.checkOut == "" || (inputs.checkIn != "" && inputs.checkOut in unavailable)
    ensures r.0.checkOut != "" ==> r.0.checkOut == inputs.checkOut
    ensures PriceUpdate in r.1 <==> inputs.checkIn != "" && inputs.checkOut != ""
    ensures |r.1| > 0 ==> r.1[|r.1| - 1] == PriceUpdate
    ensures UnavailableAlert(CheckOutField) in r.1 <==>
      inputs.checkIn != "" && inputs.checkOut != "" && inputs.checkOut in unavailable
    ensures RangeAlert in r.1 <==>
      inputs.checkIn != "" && inputs.checkOut != "" && inputs.checkOut !in unavailable
      && !RangeClear(p, inputs.checkIn, inputs.checkOut, unavailable)
  {
    if inputs.checkOut == "" || inputs.checkIn == "" then (inputs, [])
    else if IsDateUnavailable(inputs.checkOut, unavailable) then
      (inputs.(checkOut := ""), [UnavailableAlert(CheckOutField), PriceUpdate])
    else
      (inputs, (if !RangeClear(p, inputs.checkIn, inputs.checkOut, unavailable) then [RangeAlert] else [])
               + [PriceUpdate])
  }

  /** A rejected range does not hold back the price update: both handlers
      request it whenever they end with a check-out date. */
  lemma RangeAlertStillUpdatesPrice(p: Parsing, inputs: Inputs, unavailable: seq<string>)
    requires ValidParsing(p)
    ensures RangeAlert in OnCheckInChange(p, inputs, unavailable).1 ==> PriceUpdate in OnCheckInChange(p, inputs, unavailable).1
    ensures RangeAlert in OnCheckOutChange(p, inputs, unavailable).1 ==> PriceUpdate in OnCheckOutChange(p, inputs, unavailable).1
  {
  }

  /** After a check-in change with a usable date, any check-out left in
      place is strictly after the check-in, and with local-midnight parsing
      the check-out minimum is the day after check-in. */
  lemma CheckInOrdersDates(inputs: Inputs, unavailable: seq<string>, p: Parsing)
    requires ValidParsing(p)
    requires ParseIso(inputs.checkIn).Some? && ParseIso(inputs.checkOut).Some?
    ensures var r := OnCheckInChange(p, inputs, unavailable).0;
            r.checkOut != "" ==> DayNumber(ParseIso(inputs.checkIn).value) < DayNumber(ParseIso(r.checkOut).value)
    ensures OnCheckInChange(AsLocal, inputs, unavailable).0.checkOutMin
            == FormatDateForInput(NextDay(ParseIso(inputs.checkIn).value))
  {
  }

  /** West of UTC the check-out minimum the page sets is the check-in day
      itself, so a zero-night stay can be picked. */
  lemma WestOfUtcMinimumIsCheckIn(offset: int, d: Date)
    requires -1440 < offset < 0
    requires ValidDate(d) && 1000 <= d.year <= 9999
    ensures MinCheckOut(AsUtc(offset), FormatDateForInput(d)) == FormatDateForInput(d)
    ensures MinCheckOut(AsLocal, FormatDateForInput(d)) == FormatDateForInput(NextDay(d))
  {
    FormatParseRoundTrip(d);
  }
  /** `setDateInputs`: each non-empty date is written into its input and
      that input's `change` handler runs, check-in first. The dates given
      are empty or well-formed ISO dates: a date input would turn any other
      text into the empty string, which is not modelled. */
  function SetDateInputs(p: Parsing, inputs: Inputs, unavailable: seq<string>, checkIn: string, checkOut: string)
    : (r: (Inputs, seq<Effect>))
    requires ValidParsing(p)
    ensures checkIn == "" && checkOut == "" ==> r == (inputs, [])
    ensures checkOut == "" ==> r.0.checkOut == (if checkIn != "" then OnCheckInChange(p, inputs.(checkIn := checkIn), unavailable).0.checkOut else inputs.checkOut)
  {
    var (afterIn, inEffects) :=
      if checkIn != "" then OnCheckInChange(p, inputs.(checkIn := checkIn), unavailable) else (inputs, []);
    if checkOut == "" then (afterIn, inEffects)
    else
      var (afterOut, outEffects) := OnCheckOutChange(p, afterIn.(checkOut := checkOut), unavailable);
      (afterOut, inEffects + outEffects)
  }

  /** Once a check-out is written while a check-in stands, the price update
      comes last, and the check-out stays unless it is unavailable. */
  lemma SetCheckOutLast(p: Parsing, inputs: Inputs, unavailable: seq<string>, checkIn: string, checkOut: string)
    requires ValidParsing(p) && checkOut != ""
    ensures var r := SetDateInputs(p, inputs, unavailable, checkIn, checkOut);
            && (r.0.checkIn != "" ==> |r.1| > 0 && r.1[|r.1| - 1] == PriceUpdate)
            && r.0.checkOut == (if r.0.checkIn != "" && checkOut in unavailable then "" else checkOut)
  {
    var a := if checkIn != "" then OnCheckInChange(p, inputs.(checkIn := checkIn), unavailable) else (inputs, []);
    var b := OnCheckOutChange(p, a.0.(checkOut := checkOut), unavailable);
    assert SetDateInputs(p, inputs, unavailable, checkIn, checkOut) == (b.0, a.1 + b.1);
    assert b.0.checkIn == a.0.checkIn;
    if a.0.checkIn != "" {
      assert PriceUpdate in b.1;
      assert (a.1 + b.1)[|a.1 + b.1| - 1] == b.1[|b.1| - 1];
    }
  }

  /** Two available local dates in order go in as given, the check-out
      minimum follows the check-in and the page asks for a price. On an empty
      form a range alert fires exactly when a night in the range is taken. */
  lemma SetOrderedAvailableDates(inputs: Inputs, unavailable: seq<string>, checkIn: string, checkOut: string)
    requires ParseIso(checkIn).Some? && ParseIso(checkOut).Some?
    requires DayNumber(ParseIso(checkIn).value) < DayNumber(ParseIso(checkOut).value)
    requires checkIn !in unavailable && checkOut !in unavailable
    ensures var r := SetDateInputs(AsLocal, inputs, unavailable, checkIn, checkOut);
            && r.0.checkIn == checkIn && r.0.checkOut == checkOut
            && r.0.checkOutMin == FormatDateForInput(NextDay(ParseIso(checkIn).value))
            && PriceUpdate in r.1
            && (inputs.checkOut == "" ==> (RangeAlert in r.1 <==> !RangeClear(AsLocal, checkIn, checkOut, unavailable)))
  {
    var a := OnCheckInChange(AsLocal, inputs.(checkIn := checkIn), unavailable);
    assert a.0.checkIn == checkIn;
    var b := OnCheckOutChange(AsLocal, a.0.(checkOut := checkOut), unavailable);
    assert b.0 == a.0.(checkOut := checkOut);
    assert SetDateInputs(AsLocal, inputs, unavailable, checkIn, checkOut) == (b.0, a.1 + b.1);
    if inputs.checkOut == "" {
      assert RangeAlert !in a.1;
    }
  }
}

=== FILE: calendar_utils.dfy ===
/** Month stepping, inclusive day ranges and the month grid with
    availability (utils/calendar_utils.py). Dates inside a month are civil
    dates; free-standing dates are day numbers. */
module CalendarUtils {
  import opened Wrappers
  import opened Gregorian

  // ----------------------------------------------------------- month steps

  /** The position of a month on a single counting line. */
  function MonthIndex(y: int, m: int): int {
    12 * y + m - 1
  }

  /** `get_next_month`. */
  function NextMonth(y: int, m: int): (r: (int, int))
    ensures 1 <= m <= 12 ==> 1 <= r.1 <= 12 && MonthIndex(r.0, r.1) == MonthIndex(y, m) + 1
  {
    if m == 12 then (y + 1, 1) else (y, m + 1)
  }

  /** `get_prev_month`. */
  function PrevMonth(y: int, m: int): (r: (int, int))
    ensures 1 <= m <= 12 ==> 1 <= r.1 <= 12 && MonthIndex(r.0, r.1) == MonthIndex(y, m) - 1
  {
    if m == 1 then (y - 1, 12) else (y, m - 1)
  }

  /** For real months the two steps undo each other. */
  lemma MonthStepsInverse(y: int, m: int)
    requires 1 <= m <= 12
    ensures PrevMonth(NextMonth(y, m).0, NextMonth(y, m).1) == (y, m)
    ensures NextMonth(PrevMonth(y, m).0, PrevMonth(y, m).1) == (y, m)
  {
  }

  // ------------------------------------------------------------ day ranges

  /** `get_date_range`: the days s, s+1, ..., e; empty when e < s. */
  function DateRange(s: Day, e: Day): (r: seq<Day>)
    ensures |r| == if e < s then 0 else e - s + 1
    ensures forall i :: 0 <= i < |r| ==> r[i] == s + i
  {
    if e < s then [] else seq(e - s + 1, i => s + i)
  }

  /** `is_date_in_range`: inclusive at both ends. */
  predicate IsDateInRange(d: Day, s: Day, e: Day) {
    s <= d <= e
  }

  lemma DateRangeMembership(s: Day, e: Day, d: Day)
    ensures d in DateRange(s, e) <==> IsDateInRange(d, s, e)
  {
    if IsDateInRange(d, s, e) {
      assert DateRange(s, e)[d - s] == d;
    }
  }

  /** Each day of the range occurs exactly once. */
  lemma {:induction false} DateRangeCount(s: Day, e: Day, d: Day)
    ensures multiset(DateRange(s, e))[d] == if IsDateInRange(d, s, e) then 1 else 0
    decreases if e < s then 0 else e - s + 1
  {
    if s <= e {
      assert DateRange(s, e) == [s] + DateRange(s + 1, e);
      DateRangeCount(s + 1, e, d);
    }
  }

  // ------------------------------------------------------------ month grid

  /** `get_days_in_month`; months outside 1..12 raise. */
  function GetDaysInMonth(y: int, m: int): (r: Option<int>)
    ensures r.Some? <==> 1 <= m <= 12
    ensures r.Some? ==> 28 <= r.value <= 31 && (m == 2 ==> (r.value == 29 <==> IsLeap(y)))
    ensures m == 2 ==> r == Some(if IsLeap(y) then 29 else 28)
    ensures m == 4 || m == 6 || m == 9 || m == 11 ==> r == Some(30)
    ensures m == 1 || m == 3 || m == 5 || m == 7 || m == 8 || m == 10 || m == 12 ==> r == Some(31)
  {
    if 1 <= m <= 12 then Some(DaysInMonth(y, m)) else None
  }

  /** The twelve month lengths add up to the length of the year. */
  lemma MonthsFillYear(y: int)
    ensures GetDaysInMonth(y, 1).value + GetDaysInMonth(y, 2).value + GetDaysInMonth(y, 3).value
          + GetDaysInMonth(y, 4).value + GetDaysInMonth(y, 5).value + GetDaysInMonth(y, 6).value
          + GetDaysInMonth(y, 7).value + GetDaysInMonth(y, 8).value + GetDaysInMonth(y, 9).value
          + GetDaysInMonth(y, 10).value + GetDaysInMonth(y, 11).value + GetDaysInMonth(y, 12).value
          == if IsLeap(y) then 366 else 365
  {
    YearLength(y);
  }

  const MonthNames: seq<string> := ["", "January", "February", "March", "April", "May", "June",
    "July", "August", "September", "October", "November", "December"]

  /** `calendar.monthcalendar(y, m)` flattened: zeros up to the weekday of
      the 1st (weeks start on Monday), the days 1..n, zeros to the end of
      the last week. */
  function MonthDays(y: int, m: int): (r: seq<int>)
    requires 1 <= m <= 12
    ensures |r| % 7 == 0
    ensures forall i :: 0 <= i < |r| ==> 0 <= r[i] <= DaysInMonth(y, m)
  {
    var n := DaysInMonth(y, m);
    var first := Weekday(Date(y, m, 1));
    var after := (0 - first - n) % 7;
    FillsWeeks(first + n);
    PaddedDays(first, n, after)
  }

  /** `before` blanks, the days 1..n, then `after` blanks. */
  function PaddedDays(before: nat, n: nat, after: nat): (r: seq<int>)
    ensures |r| == before + n + after
    ensures forall i :: 0 <= i < |r| ==> 0 <= r[i] <= n
  {
    seq(before, _ => 0) + seq(n, i => i + 1) + seq(after, _ => 0)
  }

  /** Padding a count up to the next multiple of seven. */
  lemma FillsWeeks(k: int)
    ensures (k + (0 - k) % 7) % 7 == 0
  {
    var q := (0 - k) / 7;
    var p := (0 - k) % 7;
    assert 0 - k == 7 * q + p;
    DivUnique(k + p, 7, 0 - q, 0);
  }

  function Chunks(cells: seq<int>): (weeks: seq<seq<int>>)
    requires |cells| % 7 == 0
    ensures |weeks| * 7 == |cells|
    ensures forall w :: 0 <= w < |weeks| ==> |weeks[w]| == 7
    ensures forall w, c :: 0 <= w < |weeks| && 0 <= c < 7 ==> weeks[w][c] == cells[7 * w + c]
    decreases |cells|
  {
    if |cells| == 0 then [] else [cells[..7]] + Chunks(cells[7..])
  }

  datatype Cell = Cell(day: Option<int>, date: Option<string>, available: Option<bool>)

  datatype MonthCalendar = MonthCalendar(
    monthName: string,
    year: int,
    month: int,
    prevMonth: (int, int),
    nextMonth: (int, int),
    weeks: seq<seq<Cell>>)

  /** One grid cell: blank for a padding zero, otherwise the day, its ISO
      date and whether it is free. */
  function DayCell(y: int, m: int, day: int, unavailable: seq<Date>): (c: Cell)
    requires 1 <= y <= 9999 && 1 <= m <= 12 && 0 <= day <= DaysInMonth(y, m)
    ensures day == 0 <==> c.day.None?
    ensures c.day.None? <==> c.date.None?
    ensures c.day.None? <==> c.available.None?
    ensures day != 0 ==> c.day == Some(day) && c.date == Some(IsoFormat(Date(y, m, day)))
                         && c.available == Some(Date(y, m, day) !in unavailable)
  {
    if day == 0 then Cell(None, None, None)
    else Cell(Some(day), Some(IsoFormat(Date(y, m, day))), Some(Date(y, m, day) !in unavailable))
  }

  /** `get_calendar_with_availability`: the month grid with each day marked
      available unless it is in `unavailable`. It raises for a month outside
      1..12 and for a year outside 1..9999 (no such date exists). */
  function CalendarWithAvailability(y: int, m: int, unavailable: seq<Date>): (r: Option<MonthCalendar>)
    ensures r.Some? <==> 1 <= m <= 12 && 1 <= y <= 9999
    ensures r.Some? ==> r.value == MonthGrid(y, m, unavailable)
  {
    if !(1 <= m <= 12 && 1 <= y <= 9999) then None
    else Some(MonthGrid(y, m, unavailable))
  }

  /** The calendar of an existing month: its name and neighbours, and the
      `monthcalendar` grid cut into weeks of seven cells. */
  function MonthGrid(y: int, m: int, unavailable: seq<Date>): (r: MonthCalendar)
    requires 1 <= m <= 12 && 1 <= y <= 9999
    ensures r.year == y && r.month == m && r.monthName == MonthNames[m]
    ensures r.prevMonth == PrevMonth(y, m) && r.nextMonth == NextMonth(y, m)
    ensures |r.weeks| * 7 == |MonthDays(y, m)|
    ensures forall w :: 0 <= w < |r.weeks| ==> |r.weeks[w]| == 7
    ensures forall w, c :: 0 <= w < |r.weeks| && 0 <= c < 7 ==>
      r.weeks[w][c] == DayCell(y, m, MonthDays(y, m)[7 * w + c], unavailable)
  {
    var weeks := Chunks(MonthDays(y, m));
    MonthCalendar(MonthNames[m], y, m, PrevMonth(y, m), NextMonth(y, m),
      seq(|weeks|, w requires 0 <= w < |weeks| =>
        seq(7, c requires 0 <= c < 7 => DayCell(y, m, weeks[w][c], unavailable))))
  }

  /** Each day of the month has its cell in the grid: in the row and column
      its weekday puts it, carrying its ISO date and free exactly when it is
      not unavailable. */
  lemma DayCellInGrid(y: int, m: int, d: int, unavailable: seq<Date>)
    requires 1 <= y <= 9999 && 1 <= m <= 12 && 1 <= d <= DaysInMonth(y, m)
    ensures var weeks := MonthGrid(y, m, unavailable).weeks;
            var i := Weekday(Date(y, m, 1)) + d - 1;
            i / 7 < |weeks| && i % 7 == Weekday(Date(y, m, d))
            && weeks[i / 7][i % 7] == Cell(Some(d), Some(IsoFormat(Date(y, m, d))), Some(Date(y, m, d) !in unavailable))
  {
    var i := Weekday(Date(y, m, 1)) + d - 1;
    DayPlacement(y, m, d);
    var weeks := MonthGrid(y, m, unavailable).weeks;
    assert i == 7 * (i / 7) + i % 7;
    assert weeks[i / 7][i % 7] == DayCell(y, m, MonthDays(y, m)[i], unavailable);
  }

  /** Every day of the month appears once in the grid, in the column of its
      weekday (Monday first). */
  lemma DayPlacement(y: int, m: int, d: int)
    requires 1 <= m <= 12 && 1 <= d <= DaysInMonth(y, m)
    ensures var cells := MonthDays(y, m);
            var i := Weekday(Date(y, m, 1)) + d - 1;
            i < |cells| && cells[i] == d && i % 7 == Weekday(Date(y, m, d))
  {
    var first := Weekday(Date(y, m, 1));
    var n := DaysInMonth(y, m);
    var i := first + d - 1;
    var cells := MonthDays(y, m);
    assert cells[i] == d;
    var a := DayNumber(Date(y, m, 1)) + 3;
    assert DayNumber(Date(y, m, d)) + 3 == a + d - 1;
    var q := a / 7;
    assert a == 7 * q + first;
    var k := i / 7;
    assert i == 7 * k + i % 7;
    assert a + d - 1 == 7 * (q + k) + i % 7;
    DivUnique(a + d - 1, 7, q + k, i % 7);
  }

  /** `get_multiple_months_calendar`: one calendar per month, starting at
      (y, m) and stepping with `NextMonth`; it raises as soon as one month
      does. */
  function MultipleMonthsCalendar(y: int, m: int, count: int, unavailable: seq<Date>)
    : (r: Option<seq<MonthCalendar>>)
    ensures r.Some? ==> |r.value| == if count < 0 then 0 else count
    ensures r.Some? && |r.value| > 0 ==> r.value[0].year == y && r.value[0].month == m
    ensures r.Some? ==> forall i :: 0 <= i < |r.value| - 1 ==>
      (r.value[i + 1].year, r.value[i + 1].month) == NextMonth(r.value[i].year, r.value[i].month)
    decreases count
  {
    if count <= 0 then Some([])
    else
      match CalendarWithAvailability(y, m, unavailable)
      case None => None
      case Some(cal) =>
        var (ny, nm) := NextMonth(y, m);
        match MultipleMonthsCalendar(ny, nm, count - 1, unavailable)
        case None => None
        case Some(rest) => Some([cal] + rest)
  }

  /** Each entry is the calendar of its own month. */
  lemma {:induction false} MonthsAreTheirCalendars(y: int, m: int, count: int, unavailable: seq<Date>, i: nat)
    requires MultipleMonthsCalendar(y, m, count, unavailable).Some?
    requires i < |MultipleMonthsCalendar(y, m, count, unavailable).value|
    ensures var e := MultipleMonthsCalendar(y, m, count, unavailable).value[i];
            CalendarWithAvailability(e.year, e.month, unavailable) == Some(e)
    decreases count
  {
    var (ny, nm) := NextMonth(y, m);
    if i > 0 {
      MonthsAreTheirCalendars(ny, nm, count - 1, unavailable, i - 1);
      assert MultipleMonthsCalendar(y, m, count, unavailable).value[i]
          == MultipleMonthsCalendar(ny, nm, count - 1, unavailable).value[i - 1];
    }
  }

  /** With valid start month and a year range that stays within 1..9999,
      every requested month is produced. */
  lemma {:induction false} MultipleMonthsSucceed(y: int, m: int, count: int, unavailable: seq<Date>)
    requires 1 <= m <= 12 && 1 <= y
    requires MonthIndex(y, m) + count <= MonthIndex(10000, 1)
    ensures MultipleMonthsCalendar(y, m, count, unavailable).Some?
    decreases count
  {
    if count > 0 {
      var (ny, nm) := NextMonth(y, m);
      MultipleMonthsSucceed(ny, nm, count - 1, unavailable);
      assert CalendarWithAvailability(y, m, unavailable).Some? by {
        assert y <= 9999 by { assert MonthIndex(y, m) < MonthIndex(10000, 1); }
      }
    }
  }
}

=== FILE: chat_client.dfy ===
/** The chat page's client logic (chat/static/chat/js/chat.js): HTML
    escaping, the sent/received rendering decision, the send guard and the
    replacement of the page's single WebSocket. The DOM, timers, timestamps
    and the socket's network behaviour are not modelled; a socket is its
    `readyState`. */
module ChatClient {
  import opened Wrappers
  import opened Text
  import opened Json

  // ----------------------------------------------------------- escaping

  /** The entity one character becomes. */
  function EscapeHtmlChar(c: char): (r: string)
    ensures |r| >= 1
    ensures r[0] == '&' <==> c in "&<>\"'"
    ensures c !in "&<>\"'" ==> r == [c]
    ensures forall i :: 0 <= i < |r| ==> r[i] !in "<>\"'"
  {
    if c == '&' then "&amp;"
    else if c == '<' then "&lt;"
    else if c == '>' then "&gt;"
    else if c == '"' then "&quot;"
    else if c == '\'' then "&#039;"
    else [c]
  }

  /** `escapeHtml`: every character of `s` replaced by its entity. */
  function EscapeHtml(s: string): (r: string)
    ensures forall i :: 0 <= i < |r| ==> r[i] !in "<>\"'"
    ensures (forall i :: 0 <= i < |s| ==> s[i] !in "&<>\"'") ==> r == s
    decreases |s|
  {
    if |s| == 0 then "" else EscapeHtmlChar(s[0]) + EscapeHtml(s[1..])
  }

  /** The five global replacements in the order the source applies them,
      ampersand first. */
  function ChainedReplace(s: string): string {
    ChainFrom(s, 0)
  }

  /** The character step `i` of the chain replaces. */
  function StepChar(i: nat): (c: char)
    requires i < 5
  {
    if i == 0 then '&' else if i == 1 then '<' else if i == 2 then '>' else if i == 3 then '"' else '\''
  }

  /** The entity step `i` of the chain writes. */
  function StepEntity(i: nat): (e: string)
    requires i < 5
    ensures e == EscapeHtmlChar(StepChar(i))
  {
    if i == 0 then "&amp;" else if i == 1 then "&lt;" else if i == 2 then "&gt;" else if i == 3 then "&quot;"
    else "&#039;"
  }

  /** The replacements from step `from` on (0 = the ampersand, 1 = '<',
      ..., 4 = the apostrophe). */
  function ChainFrom(s: string, from: nat): string
    decreases 5 - from
  {
    if from >= 5 then s
    else ChainFrom(ReplaceChar(s, StepChar(from), StepEntity(from)), from + 1)
  }

  /** Each step works character by character, so the chain does too. */
  lemma {:induction false} ChainFromConcat(a: string, b: string, from: nat)
    ensures ChainFrom(a + b, from) == ChainFrom(a, from) + ChainFrom(b, from)
    decreases 5 - from
  {
    if from < 5 {
      var x := StepChar(from);
      var rep := StepEntity(from);
      ReplaceCharConcat(a, b, x, rep);
      ChainFromConcat(ReplaceChar(a, x, rep), ReplaceChar(b, x, rep), from + 1);
    }
  }

  /** Because the ampersand goes first, no entity produced by a later step is
      escaped again: the chain of replacements escapes each character on its
      own. */
  lemma {:induction false} ChainedReplaceIsEscapeHtml(s: string)
    ensures ChainedReplace(s) == EscapeHtml(s)
    decreases |s|
  {
    if |s| > 0 {
      var c, t := s[0], s[1..];
      assert ChainedReplace(s) == ChainedReplace([c]) + ChainedReplace(t) by {
        assert s == [c] + t;
        ChainFromConcat([c], t, 0);
      }
      assert ChainedReplace([c]) == EscapeHtmlChar(c) by { EscapeOneChar(c); }
      assert ChainedReplace(t) == EscapeHtml(t) by { ChainedReplaceIsEscapeHtml(t); }
      assert EscapeHtml(s) == EscapeHtmlChar(c) + EscapeHtml(t);
    }
  }

  /** The chain on a single character yields its entity. */
  lemma EscapeOneChar(c: char)
    ensures ChainedReplace([c]) == EscapeHtmlChar(c)
  {
    ChainOnChar(c, 0);
  }

  /** From step `from` on, a character that no earlier step replaced is
      replaced by its own step, or by none, and then left alone. */
  lemma {:induction false} ChainOnChar(c: char, from: nat)
    requires from <= 5
    requires forall j :: 0 <= j < from ==> c != StepChar(j)
    ensures ChainFrom([c], from) == EscapeHtmlChar(c)
    decreases 5 - from
  {
    if from < 5 {
      var x := StepChar(from);
      var rep := StepEntity(from);
      ReplaceSingle(c, x, rep);
      assert ChainFrom([c], from) == ChainFrom(ReplaceChar([c], x, rep), from + 1);
      if c == x {
        ChainKeeps(rep, from + 1);
      } else {
        ChainOnChar(c, from + 1);
      }
    } else {
      assert c !in "&<>\"'" by {
        assert c != StepChar(0) && c != StepChar(1) && c != StepChar(2) && c != StepChar(3) && c != StepChar(4);
      }
    }
  }

  /** Text without the characters of the later steps passes them unchanged. */
  lemma {:induction false} ChainKeeps(s: string, from: nat)
    requires forall i :: 0 <= i < |s| ==> s[i] !in "<>\"'"
    requires from >= 1 || '&' !in s
    ensures ChainFrom(s, from) == s
    decreases 5 - from
  {
    if from < 5 {
      KeptBy(s, StepChar(from), StepEntity(from));
      ChainKeeps(s, from + 1);
    }
  }

  lemma ReplaceSingle(c: char, x: char, rep: string)
    ensures ReplaceChar([c], x, rep) == if c == x then rep else [c]
  {
    assert [c][1..] == [];
  }

  /** Replacing a character that does not occur changes nothing. */
  lemma KeptBy(s: string, x: char, rep: string)
    requires forall i :: 0 <= i < |s| ==> s[i] != x
    ensures ReplaceChar(s, x, rep) == s
  {
    assert x !in s;
  }


  /** Decoding of the five entities, left to right; any other text is kept. */
  function UnescapeHtml(t: string): (r: string)
    decreases |t|
  {
    if |t| == 0 then ""
    else if "&amp;" <= t then "&" + UnescapeHtml(t[5..])
    else if "&lt;" <= t then "<" + UnescapeHtml(t[4..])
    else if "&gt;" <= t then ">" + UnescapeHtml(t[4..])
    else if "&quot;" <= t then "\"" + UnescapeHtml(t[6..])
    else if "&#039;" <= t then "'" + UnescapeHtml(t[6..])
    else [t[0]] + UnescapeHtml(t[1..])
  }

  /** One entity decodes to its character, and decoding goes on after it. */
  lemma UnescapeEntity(c: char, rest: string)
    ensures UnescapeHtml(EscapeHtmlChar(c) + rest) == [c] + UnescapeHtml(rest)
  {
    if c == '&' {
      DecodeAmp(rest);
    } else if c == '<' {
      DecodeLt(rest);
    } else if c == '>' {
      DecodeGt(rest);
    } else if c == '"' {
      DecodeQuot(rest);
    } else if c == '\'' {
      DecodeApos(rest);
    } else {
      var t := [c] + rest;
      assert t[0] == c && t[1..] == rest;
    }
  }

  /* One lemma per entity keeps each proof's context small: each needs the
     earlier entities ruled out by the character that differs. */

  lemma DecodeAmp(rest: string)
    ensures UnescapeHtml("&amp;" + rest) == "&" + UnescapeHtml(rest)
  {
    var t := "&amp;" + rest;
    assert "&amp;" <= t && t[5..] == rest;
  }

  lemma DecodeLt(rest: string)
    ensures UnescapeHtml("&lt;" + rest) == "<" + UnescapeHtml(rest)
  {
    var t := "&lt;" + rest;
    assert "&lt;" <= t && t[4..] == rest && t[1] == 'l';
  }

  lemma DecodeGt(rest: string)
    ensures UnescapeHtml("&gt;" + rest) == ">" + UnescapeHtml(rest)
  {
    var t := "&gt;" + rest;
    assert "&gt;" <= t && t[4..] == rest && t[1] == 'g';
  }

  lemma DecodeQuot(rest: string)
    ensures UnescapeHtml("&quot;" + rest) == "\"" + UnescapeHtml(rest)
  {
    var t := "&quot;" + rest;
    assert "&quot;" <= t && t[6..] == rest && t[1] == 'q';
  }

  lemma DecodeApos(rest: string)
    ensures UnescapeHtml("&#039;" + rest) == "'" + UnescapeHtml(rest)
  {
    var t := "&#039;" + rest;
    assert "&#039;" <= t && t[6..] == rest && t[1] == '#';
  }

  /** Decoding the entities recovers the original text exactly. */
  lemma {:induction false} EscapeHtmlRoundTrip(s: string)
    ensures UnescapeHtml(EscapeHtml(s)) == s
    decreases |s|
  {
    if |s| > 0 {
      UnescapeEntity(s[0], EscapeHtml(s[1..]));
      EscapeHtmlRoundTrip(s[1..]);
      assert [s[0]] + s[1..] == s;
    }
  }

  // ---------------------------------------------------------- rendering

  /** `parseInt` of a string: optional leading white space and sign, then
      the longest run of decimal digits; `None` (NaN) without digits. A `0x`
      prefix, which `parseInt` without a radix reads as hexadecimal, is read
      here as the digit 0: the ids this parses are decimal. */
  function ParseIntPrefix(s: string): Option<int> {
    var t := TrimJsSpace(s);
    var negative := |t| > 0 && t[0] == '-';
    var body := if |t| > 0 && (t[0] == '-' || t[0] == '+') then t[1..] else t;
    var n := DigitRun(body);
    if n == 0 then None
    else if negative then Some(0 - ParseNat(body[..n]))
    else Some(ParseNat(body[..n]))
  }

  /** `parseInt` yields a number only when the text holds a digit. */
  lemma ParseIntNeedsDigit(s: string)
    ensures ParseIntPrefix(s).Some? ==> exists i :: 0 <= i < |s| && IsDigit(s[i])
  {
    var t := TrimJsSpace(s);
    var body := if |t| > 0 && (t[0] == '-' || t[0] == '+') then t[1..] else t;
    if DigitRun(body) > 0 {
      var k := |s| - |body|;
      assert s[k] == body[0];
    }
  }

  /** JavaScript's white space and line terminators. */
  predicate IsJsSpace(c: char) {
    c == '\t' || c == '\n' || c == '\U{b}' || c == '\U{c}' || c == '\r' || c == ' '
    || c == '\U{a0}' || c == '\U{1680}' || ('\U{2000}' <= c <= '\U{200a}')
    || c == '\U{2028}' || c == '\U{2029}' || c == '\U{202f}' || c == '\U{205f}'
    || c == '\U{3000}' || c == '\U{feff}'
  }

  function TrimJsSpace(s: string): (r: string)
    ensures |r| <= |s| && r == s[|s| - |r|..]
    ensures |r| > 0 ==> !IsJsSpace(r[0])
  {
    if |s| > 0 && IsJsSpace(s[0]) then TrimJsSpace(s[1..]) else s
  }

  /** Length of the run of digits at the start of `s`. */
  function DigitRun(s: string): (n: nat)
    ensures n <= |s| && AllDigits(s[..n])
    ensures n < |s| ==> !IsDigit(s[n])
  {
    if |s| > 0 && IsDigit(s[0]) then
      var k := DigitRun(s[1..]);
      assert s[..k + 1] == [s[0]] + s[1..][..k];
      k + 1
    else 0
  }

  /** `parseInt(v)` for the JSON values the page sees as ids, which are
      integers or their decimal text. A float is read as NaN here, where
      `parseInt` would read the integer part of its text. */
  function ParseIdValue(v: Json): (r: Option<int>)
    ensures v.JInt? ==> r == Some(v.i)
    ensures v.JNull? || v.JBool? ==> r.None?
  {
    match v
    case JInt(i) => Some(i)
    case JStr(s) => ParseIntPrefix(s)
    case _ => None
  }

  /** Both ids parse and are the same number (NaN equals nothing). */
  predicate SameUser(senderId: Json, viewerId: Json) {
    ParseIdValue(senderId).Some? && ParseIdValue(viewerId).Some?
    && ParseIdValue(senderId).value == ParseIdValue(viewerId).value
  }

  /** A chat event as received over the socket. */
  datatype Incoming = Incoming(senderId: Json, senderName: string, message: string, messageId: string)

  datatype MessageAction = Edit(id: string) | Delete(id: string) | Report(id: string)

  datatype Bubble =
    | Sent(text: string, actions: seq<MessageAction>)
    | Received(initial: string, text: string, actions: seq<MessageAction>)

  /** `displayMessage`: own messages are "sent" with edit and delete; all
      others are "received", headed by the sender's initial, with report.
      Only the message text is escaped. */
  function DisplayMessage(data: Incoming, viewerId: Json): (b: Bubble)
    ensures b.Sent? <==> SameUser(data.senderId, viewerId)
    ensures b.text == EscapeHtml(data.message)
    ensures b.Sent? ==> b.actions == [Edit(data.messageId), Delete(data.messageId)]
    ensures b.Received? ==> b.actions == [Report(data.messageId)]
    ensures b.Received? ==> b.initial == if |data.senderName| == 0 then "" else [UpperChar(data.senderName[0])]
  {
    if SameUser(data.senderId, viewerId) then
      Sent(EscapeHtml(data.message), [Edit(data.messageId), Delete(data.messageId)])
    else
      var initial := if |data.senderName| == 0 then "" else [UpperChar(data.senderName[0])];
      Received(initial, EscapeHtml(data.message), [Report(data.messageId)])
  }

  /** The message text of a bubble never carries markup, whereas the
      sender's initial is inserted raw. */
  lemma BubbleMarkup(data: Incoming, viewerId: Json)
    ensures '<' !in DisplayMessage(data, viewerId).text
    ensures !SameUser(data.senderId, viewerId) && |data.senderName| > 0 && data.senderName[0] == '<'
            ==> DisplayMessage(data, viewerId).initial == "<"
  {
  }

  /** A numeric id and the same id as text are one user, whatever follows
      the digits. */
  lemma TextIdMatchesNumber(n: nat, suffix: string)
    requires |suffix| == 0 || !IsDigit(suffix[0])
    ensures SameUser(JStr(NatToString(n) + suffix), JInt(n))
  {
    var d := NatToString(n);
    assert ParseNat(d) == n by { NatToStringRoundTrip(n); }
    assert ParseIntPrefix(d + suffix) == Some(n) by { ParseDigitsBeforeSuffix(d, suffix); }
    assert ParseIdValue(JStr(d + suffix)) == Some(n);
  }

  /** `parseInt` reads a leading run of digits and ignores what follows it. */
  lemma ParseDigitsBeforeSuffix(d: string, suffix: string)
    requires |d| > 0 && AllDigits(d)
    requires |suffix| == 0 || !IsDigit(suffix[0])
    ensures ParseIntPrefix(d + suffix) == Some(ParseNat(d))
  {
    var s := d + suffix;
    var c := s[0];
    assert IsDigit(c) by { assert c == d[0]; }
    assert TrimJsSpace(s) == s by { assert !IsJsSpace(c); }
    assert DigitRun(s) == |d| by { DigitRunOf(d, suffix); }
    assert s[..|d|] == d;
    assert c != '-' && c != '+';
  }

  lemma DigitRunOf(d: string, suffix: string)
    requires AllDigits(d)
    requires |suffix| == 0 || !IsDigit(suffix[0])
    ensures DigitRun(d + suffix) == |d|
    decreases |d|
  {
    if |d| > 0 {
      assert (d + suffix)[1..] == d[1..] + suffix;
      DigitRunOf(d[1..], suffix);
    } else {
      assert d + suffix == suffix;
    }
  }

  // ------------------------------------------------------------ sockets

  datatype ReadyState = Connecting | Open | Closing | Closed

  predicate Live(s: ReadyState) {
    s == Connecting || s == Open
  }

  /** Every socket the page created, oldest first; `chatSocket` is the last. */
  datatype Page = Page(sockets: seq<ReadyState>)

  /** Only the page's current socket may be connecting or open. */
  predicate SingleLive(p: Page) {
    forall i :: 0 <= i < |p.sockets| - 1 ==> !Live(p.sockets[i])
  }

  /** `initChatSocket`: a current socket that is not closed is asked to
      close, then a new socket becomes current. */
  function InitChatSocket(p: Page): (r: Page)
    ensures |r.sockets| == |p.sockets| + 1 && r.sockets[|p.sockets|] == Connecting
    ensures forall i :: 0 <= i < |p.sockets| - 1 ==> r.sockets[i] == p.sockets[i]
    ensures |p.sockets| > 0 ==>
      r.sockets[|p.sockets| - 1] == if p.sockets[|p.sockets| - 1] == Closed then Closed else Closing
  {
    if |p.sockets| == 0 then Page([Connecting])
    else
      var last := |p.sockets| - 1;
      var closed := if p.sockets[last] == Closed then p.sockets else p.sockets[last := Closing];
      Page(closed + [Connecting])
  }

  /** The browser finishes opening socket `i`; only a connecting socket can. */
  function SocketOpened(p: Page, i: int): (r: Page)
    ensures |r.sockets| == |p.sockets|
    ensures forall j :: 0 <= j < |p.sockets| && j != i ==> r.sockets[j] == p.sockets[j]
    ensures 0 <= i < |p.sockets| && p.sockets[i] == Connecting ==> r.sockets[i] == Open
  {
    if 0 <= i < |p.sockets| && p.sockets[i] == Connecting then Page(p.sockets[i := Open]) else p
  }

  /** Socket `i` finishes closing. */
  function SocketClosed(p: Page, i: int): (r: Page)
    ensures |r.sockets| == |p.sockets|
    ensures forall j :: 0 <= j < |p.sockets| && j != i ==> r.sockets[j] == p.sockets[j]
    ensures 0 <= i < |p.sockets| ==> r.sockets[i] == Closed
  {
    if 0 <= i < |p.sockets| then Page(p.sockets[i := Closed]) else p
  }

  /** Replacing, opening and closing sockets keep at most one live socket. */
  lemma SingleLiveKept(p: Page, i: int)
    requires SingleLive(p)
    ensures SingleLive(InitChatSocket(p))
    ensures SingleLive(SocketOpened(p, i))
    ensures SingleLive(SocketClosed(p, i))
  {
  }

  datatype SendOutcome =
    | Transmitted(frame: string)
    | NotConnected

  /** `sendMessage`: the JSON `{"message": m}` goes out only on an open
      current socket; otherwise the page shows a connection error. */
  function SendMessage(p: Page, message: string): (r: SendOutcome)
    ensures r.Transmitted? <==> |p.sockets| > 0 && p.sockets[|p.sockets| - 1] == Open
    ensures r.Transmitted? ==> r.frame == "{\"message\":" + Quote(message) + "}"
  {
    if |p.sockets| > 0 && p.sockets[|p.sockets| - 1] == Open then
      Transmitted("{\"message\":" + Quote(message) + "}")
    else NotConnected
  }

  /** The frame carries the message text exactly: the server's JSON decoder
      recovers it. */
  lemma FrameCarriesMessage(p: Page, message: string)
    requires SendMessage(p, message).Transmitted?
    ensures var f := SendMessage(p, message).frame;
            f[..12] == "{\"message\":\"" && f[|f| - 2..] == "\"}"
            && Unescape(f[12..|f| - 2]) == Some(message)
  {
    var f := SendMessage(p, message).frame;
    var q := Quote(message);
    assert f == "{\"message\":" + q + "}";
    assert q == "\"" + EscapeString(message) + "\"";
    assert f[12..|f| - 2] == EscapeString(message);
    EscapeRoundTrip(message);
  }

  /** Just after the page replaces its socket nothing can be sent: the new
      socket is still connecting. */
  lemma NoSendWhileConnecting(p: Page, message: string)
    ensures SendMessage(InitChatSocket(p), message) == NotConnected
  {
  }
}

=== FILE: chat_models.dfy ===
/** Conversations and messages (chat/models.py). A conversation carries the
    listing and booking it is about, with the fields its methods read;
    participants are listed in primary-key order, the order `.first()`
    follows for the unordered relation. */
module ChatModels {
  import opened Wrappers

  type UserId = int

  datatype ListingRef = ListingRef(id: int, title: string, host: UserId)

  datatype BookingRef = BookingRef(id: int, guest: UserId, listing: ListingRef)

  datatype Conversation = Conversation(
    id: int,
    participants: seq<UserId>,
    listing: Option<ListingRef>,
    booking: Option<BookingRef>)

  datatype Message = Message(
    id: int,
    conversation: int,
    sender: UserId,
    content: string,
    createdAt: int,
    isRead: bool)

  const ListingTitlePrefix := "Chat about: "
  const BookingTitlePrefix := "Booking: "

  /** `Conversation.title`: the listing's title when there is a listing,
      else the booked listing's title, else a plain "Chat". */
  function Title(c: Conversation): (r: string)
    ensures c.listing.Some? <==> ListingTitlePrefix <= r
    ensures c.listing.Some? ==> r[|ListingTitlePrefix|..] == c.listing.value.title
    ensures c.listing.None? && c.booking.Some? <==> BookingTitlePrefix <= r
    ensures c.listing.None? && c.booking.Some? ==> r[|BookingTitlePrefix|..] == c.booking.value.listing.title
    ensures r == "Chat" <==> c.listing.None? && c.booking.None?
  {
    match c.listing
    case Some(l) =>
      var r := ListingTitlePrefix + l.title;
      assert r[0] == 'C' && r[..|ListingTitlePrefix|] == ListingTitlePrefix;
      r
    case None =>
      match c.booking
      case Some(b) =>
        var r := BookingTitlePrefix + b.listing.title;
        assert r[0] == 'B' && r[..|BookingTitlePrefix|] == BookingTitlePrefix;
        r
      case None => "Chat"
  }

  /** Attaching a listing decides the title whatever the booking is. */
  lemma ListingTitleWins(c: Conversation, b: Option<BookingRef>)
    requires c.listing.Some?
    ensures Title(c.(booking := b)) == Title(c)
  {
  }

  /** `get_other_participant` (the second definition, which replaces the
      first): the first participant who is not `user`. */
  function GetOtherParticipant(c: Conversation, user: UserId): (r: Option<UserId>)
    ensures r.Some? ==> r.value in c.participants && r.value != user
    ensures r.None? <==> forall i :: 0 <= i < |c.participants| ==> c.participants[i] == user
  {
    match FirstOtherIndex(c.participants, user)
    case None => None
    case Some(k) => Some(c.participants[k])
  }

  /** The position of the first id other than `user`. */
  function FirstOtherIndex(ids: seq<UserId>, user: UserId): (r: Option<nat>)
    ensures r.Some? ==> r.value < |ids| && ids[r.value] != user
    ensures r.Some? ==> forall j :: 0 <= j < r.value ==> ids[j] == user
    ensures r.None? <==> forall i :: 0 <= i < |ids| ==> ids[i] == user
  {
    if |ids| == 0 then None
    else if ids[0] != user then Some(0)
    else match FirstOtherIndex(ids[1..], user)
      case None => None
      case Some(k) => Some(k + 1)
  }

  /** The counterpart is the participant at the first position not held by
      `user` (participants are listed in primary-key order, the order of an
      unordered `.first()`). */
  lemma OtherIsFirstOther(c: Conversation, user: UserId, k: nat)
    requires k < |c.participants| && c.participants[k] != user
    requires forall j :: 0 <= j < k ==> c.participants[j] == user
    ensures GetOtherParticipant(c, user) == Some(c.participants[k])
  {
    var f := FirstOtherIndex(c.participants, user);
    assert f.Some?;
    assert c.participants[f.value] != user && c.participants[k] != user;
    assert f.value == k;
  }

  /** In a two-person conversation each side's counterpart is the other. */
  lemma CounterpartsOfPair(a: UserId, b: UserId, c: Conversation)
    requires a != b && (c.participants == [a, b] || c.participants == [b, a])
    ensures GetOtherParticipant(c, a) == Some(b) && GetOtherParticipant(c, b) == Some(a)
  {
    var p := c.participants;
    if p == [a, b] {
      assert FirstOtherIndex(p, a) == Some(1) by {
        assert p[1..] == [b];
        assert FirstOtherIndex(p[1..], a) == Some(0);
      }
      assert FirstOtherIndex(p, b) == Some(0);
    } else {
      assert FirstOtherIndex(p, b) == Some(1) by {
        assert p[1..] == [a];
        assert FirstOtherIndex(p[1..], b) == Some(0);
      }
      assert FirstOtherIndex(p, a) == Some(0);
    }
  }

  /** Whether `m` counts as unread for `user`. */
  predicate UnreadFor(m: Message, user: UserId) {
    !m.isRead && m.sender != user
  }

  /** `get_unread_count`: unread messages sent by someone else. */
  function GetUnreadCount(messages: seq<Message>, user: UserId): (n: nat)
    ensures n <= |messages|
    ensures n == 0 <==> forall i :: 0 <= i < |messages| ==> !UnreadFor(messages[i], user)
    ensures n == |messages| <==> forall i :: 0 <= i < |messages| ==> UnreadFor(messages[i], user)
  {
    if |messages| == 0 then 0
    else (if UnreadFor(messages[0], user) then 1 else 0) + GetUnreadCount(messages[1..], user)
  }

  /** Counting the suffix from `k` counts the positions there that are
      unread for `user`. */
  lemma {:induction false} GetUnreadCountFrom(messages: seq<Message>, user: UserId, k: nat)
    requires k <= |messages|
    ensures GetUnreadCount(messages[k..], user) == |set i | k <= i < |messages| && UnreadFor(messages[i], user)|
    decreases |messages| - k
  {
    var here := set i | k <= i < |messages| && UnreadFor(messages[i], user);
    if k == |messages| {
      assert here == {};
    } else {
      GetUnreadCountFrom(messages, user, k + 1);
      assert messages[k..][1..] == messages[k + 1..];
      var later := set i | k + 1 <= i < |messages| && UnreadFor(messages[i], user);
      if UnreadFor(messages[k], user) {
        assert here == later + {k};
      } else {
        assert here == later;
      }
    }
  }

  /** The count is the number of messages unread and from someone else. */
  lemma GetUnreadCountIsSetSize(messages: seq<Message>, user: UserId)
    ensures GetUnreadCount(messages, user) == |set i | 0 <= i < |messages| && UnreadFor(messages[i], user)|
  {
    GetUnreadCountFrom(messages, user, 0);
    assert messages[0..] == messages;
  }

  /** One's own messages never count as unread. */
  lemma OwnMessagesNeverUnread(messages: seq<Message>, user: UserId)
    requires forall i :: 0 <= i < |messages| ==> messages[i].sender == user
    ensures GetUnreadCount(messages, user) == 0
  {
  }

  /** `last_message`: a message with the latest creation time (the first of
      them in the given order when several share it), none for an empty
      conversation. */
  function LastMessage(messages: seq<Message>): (r: Option<Message>)
    ensures r.None? <==> |messages| == 0
    ensures r.Some? ==> r.value in messages
    ensures r.Some? ==> forall i :: 0 <= i < |messages| ==> messages[i].createdAt <= r.value.createdAt
  {
    if |messages| == 0 then None
    else
      match LastMessage(messages[1..])
      case None => Some(messages[0])
      case Some(m) => if messages[0].createdAt >= m.createdAt then Some(messages[0]) else Some(m)
  }

  /** A message added later than all others becomes the last message. */
  lemma NewestIsLast(messages: seq<Message>, m: Message)
    requires forall i :: 0 <= i < |messages| ==> messages[i].createdAt < m.createdAt
    ensures LastMessage(messages + [m]) == Some(m)
  {
    var r := LastMessage(messages + [m]);
    assert (messages + [m])[|messages|] == m;
  }

  /** `Message.mark_as_read`. */
  function MarkAsRead(m: Message): (r: Message)
    ensures r.isRead
    ensures r.(isRead := m.isRead) == m
  {
    if !m.isRead then m.(isRead := true) else m
  }

  /** Marking twice is marking once; a read message is never unread. */
  lemma MarkAsReadIdempotent(m: Message, user: UserId)
    ensures MarkAsRead(MarkAsRead(m)) == MarkAsRead(m)
    ensures !UnreadFor(MarkAsRead(m), user)
  {
  }
}

=== FILE: chat_views.dfy ===
/** The chat views (chat/views.py): opening a conversation, which marks the
    other side's messages read, and starting one, which resolves the
    counterpart and reuses an existing conversation when exactly one
    matches. Object lookups arrive already resolved. */
module ChatViews {
  import opened Wrappers
  import opened Text
  import opened ChatModels

  datatype NotFound = NotFound

  predicate Participates(c: Conversation, user: UserId) {
    user in c.participants
  }

  /** `conversation_detail`: a non-participant gets 404; otherwise every
      unread message from someone else becomes read. */
  function ConversationDetail(c: Conversation, messages: seq<Message>, user: UserId)
    : (r: Result<seq<Message>, NotFound>)
    ensures r.Failure? <==> !Participates(c, user)
    ensures r.Success? ==> |r.value| == |messages|
    ensures r.Success? ==> forall i :: 0 <= i < |messages| ==>
      r.value[i] == if UnreadFor(messages[i], user) then MarkAsRead(messages[i]) else messages[i]
  {
    if !Participates(c, user) then Failure(NotFound)
    else Success(MarkReadFrom(messages, user))
  }

  function MarkReadFrom(messages: seq<Message>, user: UserId): (r: seq<Message>)
    ensures |r| == |messages|
    ensures forall i :: 0 <= i < |messages| ==>
      r[i] == if UnreadFor(messages[i], user) then MarkAsRead(messages[i]) else messages[i]
  {
    if |messages| == 0 then []
    else [if UnreadFor(messages[0], user) then MarkAsRead(messages[0]) else messages[0]]
         + MarkReadFrom(messages[1..], user)
  }

  /** After a participant opens a conversation nothing in it is unread for
      them, and their own messages keep their read flags. */
  lemma OpeningClearsUnread(c: Conversation, messages: seq<Message>, user: UserId)
    requires Participates(c, user)
    ensures GetUnreadCount(ConversationDetail(c, messages, user).value, user) == 0
    ensures forall i :: 0 <= i < |messages| && messages[i].sender == user
              ==> ConversationDetail(c, messages, user).value[i] == messages[i]
  {
    var r := ConversationDetail(c, messages, user).value;
    assert forall i :: 0 <= i < |r| ==> !UnreadFor(r[i], user);
  }

  // ------------------------------------------------------- starting a chat

  /** An argument of `start_conversation`: not given (or zero), given but
      matching nothing, or the object found. */
  datatype Arg<T> = NotGiven | Missing | Found(value: T)

  datatype StartError =
    | WithYourself
    | AboutOwnListing
    | NoSuchObject
    | NoCounterpart

  /** Who the conversation is with, and what it is about. */
  datatype Target = Target(other: UserId, listing: Option<ListingRef>, booking: Option<BookingRef>)

  /** The counterpart resolution of `start_conversation`: a user argument,
      overridden by a listing's host, overridden by the other side of a
      booking, in that order, with the refusals checked on the way. */
  function ResolveTarget(requester: UserId, user: Arg<UserId>, listing: Arg<ListingRef>, booking: Arg<BookingRef>)
    : (r: Result<Target, StartError>)
    ensures user == Found(requester) ==> r == Failure(WithYourself)
    ensures user.Missing? ==> r == Failure(NoSuchObject)
    ensures user.NotGiven? && listing.NotGiven? && booking.NotGiven? ==> r == Failure(NoCounterpart)
    ensures r.Success? ==> r.value.other != requester || (booking.Found? && booking.value.guest == booking.value.listing.host)
    ensures r.Success? && booking.Found? ==>
      && (requester == booking.value.guest ==> r.value.other == booking.value.listing.host)
      && (requester != booking.value.guest ==> requester == booking.value.listing.host && r.value.other == booking.value.guest)
      && r.value.booking == Some(booking.value) && r.value.listing == Some(booking.value.listing)
    ensures r.Success? && !booking.Found? && listing.Found? ==>
      r.value.other == listing.value.host && r.value.listing == Some(listing.value) && r.value.booking.None?
  {
    if user.Missing? then Failure(NoSuchObject)
    else if user.Found? && user.value == requester then Failure(WithYourself)
    else
      var other0 := if user.Found? then Some(user.value) else None;
      if listing.Missing? then Failure(NoSuchObject)
      else if listing.Found? && listing.value.host == requester then Failure(AboutOwnListing)
      else
        var other1 := if listing.Found? then Some(listing.value.host) else other0;
        var listing1 := if listing.Found? then Some(listing.value) else None;
        if booking.Missing? then Failure(NoSuchObject)
        else if booking.Found? then
          var b := booking.value;
          if requester == b.guest then Success(Target(b.listing.host, Some(b.listing), Some(b)))
          else if requester == b.listing.host then Success(Target(b.guest, Some(b.listing), Some(b)))
          else Failure(NoSuchObject)
        else if other1.None? then Failure(NoCounterpart)
        else Success(Target(other1.value, listing1, None))
  }

  /** For a booking the counterpart is decided by the booking alone: the
      host for its guest, the guest for its host, and a stranger is refused. */
  lemma BookingDecidesCounterpart(requester: UserId, user: Arg<UserId>, listing: Arg<ListingRef>, b: BookingRef)
    requires user.NotGiven? && listing.NotGiven?
    ensures requester == b.guest ==> ResolveTarget(requester, user, listing, Found(b)) == Success(Target(b.listing.host, Some(b.listing), Some(b)))
    ensures requester != b.guest && requester == b.listing.host
            ==> ResolveTarget(requester, user, listing, Found(b)) == Success(Target(b.guest, Some(b.listing), Some(b)))
    ensures requester != b.guest && requester != b.listing.host
            ==> ResolveTarget(requester, user, listing, Found(b)) == Failure(NoSuchObject)
  {
  }

  /** The conversations matching a filter: exactly one is a match, none or
      several count as not found, as `.get()` inside the `try` does. */
  function UniqueMatch(convs: seq<Conversation>, matches: seq<bool>): (r: Option<Conversation>)
    requires |matches| == |convs|
    ensures r.Some? ==> exists i :: 0 <= i < |convs| && matches[i] && convs[i] == r.value
    ensures r.Some? <==> MatchCount(matches) == 1
  {
    if MatchCount(matches) != 1 then None
    else Some(convs[FirstMatch(matches)])
  }

  function MatchCount(matches: seq<bool>): nat {
    if |matches| == 0 then 0 else (if matches[0] then 1 else 0) + MatchCount(matches[1..])
  }

  function FirstMatch(matches: seq<bool>): (i: nat)
    requires MatchCount(matches) > 0
    ensures i < |matches| && matches[i]
  {
    if matches[0] then 0 else 1 + FirstMatch(matches[1..])
  }

  /** The booking filter. */
  predicate BookingMatch(c: Conversation, requester: UserId, b: BookingRef) {
    c.booking == Some(b) && requester in c.participants
  }

  /** The listing filter: about the listing, without a booking, with both
      people in it. */
  predicate ListingMatch(c: Conversation, requester: UserId, other: UserId, l: ListingRef) {
    c.listing == Some(l) && c.booking.None? && requester in c.participants && other in c.participants
  }

  /** The plain filter: about nothing, with both people in it. */
  predicate PlainMatch(c: Conversation, requester: UserId, other: UserId) {
    c.listing.None? && c.booking.None? && requester in c.participants && other in c.participants
  }

  function BookingMatches(convs: seq<Conversation>, requester: UserId, b: BookingRef): (m: seq<bool>)
    ensures |m| == |convs| && forall i :: 0 <= i < |convs| ==> m[i] == BookingMatch(convs[i], requester, b)
  {
    seq(|convs|, i requires 0 <= i < |convs| => BookingMatch(convs[i], requester, b))
  }

  function ListingMatches(convs: seq<Conversation>, requester: UserId, other: UserId, l: ListingRef): (m: seq<bool>)
    ensures |m| == |convs| && forall i :: 0 <= i < |convs| ==> m[i] == ListingMatch(convs[i], requester, other, l)
  {
    seq(|convs|, i requires 0 <= i < |convs| => ListingMatch(convs[i], requester, other, l))
  }

  function PlainMatches(convs: seq<Conversation>, requester: UserId, other: UserId): (m: seq<bool>)
    ensures |m| == |convs| && forall i :: 0 <= i < |convs| ==> m[i] == PlainMatch(convs[i], requester, other)
  {
    seq(|convs|, i requires 0 <= i < |convs| => PlainMatch(convs[i], requester, other))
  }

  /** Whether the filter for the booking, the listing or neither has
      exactly one match. */
  predicate UniqueByBooking(convs: seq<Conversation>, requester: UserId, t: Target) {
    t.booking.Some? && MatchCount(BookingMatches(convs, requester, t.booking.value)) == 1
  }

  predicate UniqueByListing(convs: seq<Conversation>, requester: UserId, t: Target) {
    t.listing.Some? && MatchCount(ListingMatches(convs, requester, t.other, t.listing.value)) == 1
  }

  predicate UniquePlain(convs: seq<Conversation>, requester: UserId, t: Target) {
    MatchCount(PlainMatches(convs, requester, t.other)) == 1
  }

  /** The existing conversation to reuse: by booking, then by listing, then
      a plain one. */
  function FindExisting(convs: seq<Conversation>, requester: UserId, t: Target): (r: Option<Conversation>)
    ensures r.Some? ==> r.value in convs && requester in r.value.participants
    ensures r.None? <==> !UniqueByBooking(convs, requester, t) && !UniqueByListing(convs, requester, t)
                         && !UniquePlain(convs, requester, t)
    ensures UniqueByBooking(convs, requester, t) ==> r.Some? && BookingMatch(r.value, requester, t.booking.value)
    ensures !UniqueByBooking(convs, requester, t) && UniqueByListing(convs, requester, t)
            ==> r.Some? && ListingMatch(r.value, requester, t.other, t.listing.value)
    ensures !UniqueByBooking(convs, requester, t) && !UniqueByListing(convs, requester, t) && r.Some?
            ==> PlainMatch(r.value, requester, t.other)
  {
    var byBooking := if t.booking.Some? then UniqueMatch(convs, BookingMatches(convs, requester, t.booking.value)) else None;
    if byBooking.Some? then byBooking
    else
      var byListing := if t.listing.Some? then UniqueMatch(convs, ListingMatches(convs, requester, t.other, t.listing.value)) else None;
      if byListing.Some? then byListing
      else UniqueMatch(convs, PlainMatches(convs, requester, t.other))
  }

  /** Two matching entries make the count at least two. */
  lemma {:induction false} TwoMatches(matches: seq<bool>, i: nat, j: nat)
    requires i < j < |matches| && matches[i] && matches[j]
    ensures MatchCount(matches) >= 2
  {
    if i > 0 {
      TwoMatches(matches[1..], i - 1, j - 1);
    } else {
      OneMatch(matches[1..], j - 1);
    }
  }

  lemma {:induction false} OneMatch(matches: seq<bool>, j: nat)
    requires j < |matches| && matches[j]
    ensures MatchCount(matches) >= 1
  {
    if j > 0 {
      OneMatch(matches[1..], j - 1);
    }
  }

  /** Two plain conversations between the same people are ambiguous, so
      neither is reused. */
  lemma AmbiguousIsNotReused(convs: seq<Conversation>, requester: UserId, other: UserId, i: nat, j: nat)
    requires i < j < |convs|
    requires PlainMatch(convs[i], requester, other) && PlainMatch(convs[j], requester, other)
    ensures FindExisting(convs, requester, Target(other, None, None)).None?
  {
    TwoMatches(PlainMatches(convs, requester, other), i, j);
  }

  datatype Started = Existing(conversation: Conversation) | Created(conversation: Conversation, first: Option<Message>)

  /** The participants of a new conversation, in primary-key order. */
  function Pair(a: UserId, b: UserId): (r: seq<UserId>)
    ensures a in r && b in r && forall x :: x in r ==> x == a || x == b
    ensures |r| == if a == b then 1 else 2
  {
    if a < b then [a, b] else if b < a then [b, a] else [a]
  }

  /** `start_conversation`: resolve the counterpart, reuse a matching
      conversation, or create one with just the two people, posting the
      stripped initial message when it is not blank. */
  function StartConversation(requester: UserId, user: Arg<UserId>, listing: Arg<ListingRef>, booking: Arg<BookingRef>,
                             convs: seq<Conversation>, newId: int, initialMessage: Option<string>,
                             messageId: int, now: int): (r: Result<Started, StartError>)
    ensures ResolveTarget(requester, user, listing, booking).Failure?
            ==> r == Failure(ResolveTarget(requester, user, listing, booking).error)
    ensures r.Success? && r.value.Existing? ==> r.value.conversation in convs && requester in r.value.conversation.participants
    ensures ResolveTarget(requester, user, listing, booking).Success? ==>
      && r.Success?
      && (r.value.Existing? <==> FindExisting(convs, requester, ResolveTarget(requester, user, listing, booking).value).Some?)
    ensures r.Success? && r.value.Existing? ==>
      FindExisting(convs, requester, ResolveTarget(requester, user, listing, booking).value) == Some(r.value.conversation)
    ensures r.Success? && r.value.Created? ==>
      var t := ResolveTarget(requester, user, listing, booking).value;
      && r.value.conversation.participants == Pair(requester, t.other)
      && r.value.conversation.listing == t.listing && r.value.conversation.booking == t.booking
      && FindExisting(convs, requester, t).None?
    ensures r.Success? && r.value.Created? && r.value.first.Some? ==>
      && initialMessage.Some? && r.value.first.value.content == Strip(initialMessage.value)
      && r.value.first.value.content != "" && r.value.first.value.sender == requester
      && r.value.first.value.conversation == r.value.conversation.id && !r.value.first.value.isRead
    ensures r.Success? && r.value.Created? ==>
      (r.value.first.Some? <==> initialMessage.Some? && Strip(initialMessage.value) != "")
  {
    match ResolveTarget(requester, user, listing, booking)
    case Failure(e) => Failure(e)
    case Success(t) =>
      match FindExisting(convs, requester, t)
      case Some(c) => Success(Existing(c))
      case None =>
        var c := Conversation(newId, Pair(requester, t.other), t.listing, t.booking);
        var first :=
          if initialMessage.Some? && Strip(initialMessage.value) != "" then
            Some(Message(messageId, newId, requester, Strip(initialMessage.value), now, false))
          else None;
        Success(Created(c, first))
  }

  /** A conversation started without a booking never includes the requester
      alone: the counterpart is someone else. */
  lemma NewConversationHasTwoPeople(requester: UserId, user: Arg<UserId>, listing: Arg<ListingRef>,
                                    convs: seq<Conversation>, newId: int, initial: Option<string>, mid: int, now: int)
    requires StartConversation(requester, user, listing, NotGiven, convs, newId, initial, mid, now).Success?
    requires StartConversation(requester, user, listing, NotGiven, convs, newId, initial, mid, now).value.Created?
    ensures |StartConversation(requester, user, listing, NotGiven, convs, newId, initial, mid, now).value.conversation.participants| == 2
  {
  }
}

=== FILE: clock.dfy ===
/** Instants as the models store them: integer seconds on one time line, with
    `timezone.now()` passed in as a parameter wherever the code reads it. */
module Clock {
  import opened Gregorian

  type Instant = int

  const SecondsPerDay: int := 86400

  /** `timedelta.days` of a difference of two instants: whole days, rounded
      toward negative infinity as Python does. */
  function WholeDays(delta: int): (d: int)
    ensures d * SecondsPerDay <= delta < (d + 1) * SecondsPerDay
  {
    delta / SecondsPerDay
  }

  /** The first and last whole second a Python `datetime` can hold. */
  const MinInstant: int := -62135596800
  const MaxInstant: int := 253402300799

  /** Arithmetic on a `datetime` whose result leaves this range raises
      `OverflowError`. */
  predicate InDatetimeRange(t: Instant) {
    MinInstant <= t <= MaxInstant
  }

  /** The most days a `timedelta` holds. */
  const MaxTimedeltaDays: int := 999999999

  /** Adding `timedelta(days=n)` to a `datetime` raises exactly when the sum
      leaves the range: a day count beyond what a `timedelta` holds already
      takes any `datetime` out of it. */
  lemma TimedeltaLimitSubsumed(t: Instant, n: int)
    requires InDatetimeRange(t) && InDatetimeRange(t + n * SecondsPerDay)
    ensures -MaxTimedeltaDays <= n <= MaxTimedeltaDays
  {
  }

  /** The range runs from midnight of 0001-01-01 to the last second of
      9999-12-31. */
  lemma DatetimeRangeIsYears1To9999()
    ensures MinInstant == DayNumber(Date(1, 1, 1)) * SecondsPerDay
    ensures MaxInstant == (DayNumber(Date(9999, 12, 31)) + 1) * SecondsPerDay - 1
  {
    assert DaysBeforeMonth(9999, 12) == 334 by { YearLength(9999); }
  }
}

=== FILE: gregorian.dfy ===
/** The proleptic Gregorian calendar shared by the Python `datetime` and
    `calendar` modules and by JavaScript's `Date`: leap years, month lengths,
    civil dates, their day numbers (day 0 is 1970-01-01) and weekdays
    (Monday = 0, as Python's `date.weekday()`). */
module Gregorian {
  import opened Text

  /** A date as its day number: the days since 1970-01-01. */
  type Day = int

  datatype Date = Date(year: int, month: int, day: int)

  predicate IsLeap(y: int) {
    y % 4 == 0 && (y % 100 != 0 || y % 400 == 0)
  }

  function DaysInMonth(y: int, m: int): (n: int)
    requires 1 <= m <= 12
    ensures 28 <= n <= 31
    ensures m == 2 ==> (n == 29 <==> IsLeap(y))
    ensures m == 2 ==> n <= 29
    ensures m == 4 || m == 6 || m == 9 || m == 11 ==> n == 30
    ensures m == 1 || m == 3 || m == 5 || m == 7 || m == 8 || m == 10 || m == 12 ==> n == 31
  {
    if m == 2 then (if IsLeap(y) then 29 else 28)
    else if m == 4 || m == 6 || m == 9 || m == 11 then 30
    else 31
  }

  predicate ValidDate(d: Date) {
    1 <= d.month <= 12 && 1 <= d.day <= DaysInMonth(d.year, d.month)
  }

  /** Days in the months of year `y` that precede month `m`. */
  function DaysBeforeMonth(y: int, m: int): (n: int)
    requires 1 <= m <= 13
    ensures 28 * (m - 1) <= n <= 31 * (m - 1)
  {
    if m == 1 then 0 else DaysBeforeMonth(y, m - 1) + DaysInMonth(y, m - 1)
  }

  /** A year has 366 days when it is a leap year and 365 otherwise. */
  lemma YearLength(y: int)
    ensures DaysBeforeMonth(y, 13) == if IsLeap(y) then 366 else 365
  {
    var feb := if IsLeap(y) then 29 else 28;
    assert DaysBeforeMonth(y, 2) == 31;
    assert DaysBeforeMonth(y, 3) == 31 + feb;
    assert DaysBeforeMonth(y, 4) == 62 + feb;
    assert DaysBeforeMonth(y, 5) == 92 + feb;
    assert DaysBeforeMonth(y, 6) == 123 + feb;
    assert DaysBeforeMonth(y, 7) == 153 + feb;
    assert DaysBeforeMonth(y, 8) == 184 + feb;
    assert DaysBeforeMonth(y, 9) == 215 + feb;
    assert DaysBeforeMonth(y, 10) == 245 + feb;
    assert DaysBeforeMonth(y, 11) == 276 + feb;
    assert DaysBeforeMonth(y, 12) == 306 + feb;
  }

  // ------------------------------------------------------------ day numbers

  /** Leap years among 1..n (offset by a constant for n < 1). */
  function LeapsThrough(n: int): int {
    n / 4 - n / 100 + n / 400
  }

  function DaysBeforeYear(y: int): int {
    365 * (y - 1970) + LeapsThrough(y - 1) - LeapsThrough(1969)
  }

  /** The number of days from 1970-01-01 to `d` (negative before it). */
  function DayNumber(d: Date): int
    requires ValidDate(d)
  {
    DaysBeforeYear(d.year) + DaysBeforeMonth(d.year, d.month) + d.day - 1
  }

  lemma MulAtLeast(k: int, x: int)
    requires k > 0 && x >= 1
    ensures k * x >= k
  {
    assert k * x == k * (x - 1) + k;
  }

  /** Euclidean division has a unique quotient and remainder. */
  lemma DivUnique(a: int, k: int, q: int, r: int)
    requires k > 0 && 0 <= r < k && a == k * q + r
    ensures a / k == q && a % k == r
  {
    var q' := a / k;
    var r' := a % k;
    assert a == k * q' + r';
    if q' > q {
      assert k * q' == k * q + k * (q' - q);
      MulAtLeast(k, q' - q);
    } else if q' < q {
      assert k * q == k * q' + k * (q - q');
      MulAtLeast(k, q - q');
    }
  }

  /** Stepping the dividend by one steps the quotient exactly at multiples. */
  lemma DivStep(a: int, k: int)
    requires k > 0
    ensures a / k - (a - 1) / k == if a % k == 0 then 1 else 0
  {
    var q := a / k;
    var r := a % k;
    if r > 0 {
      DivUnique(a - 1, k, q, r - 1);
    } else {
      assert a - 1 == k * (q - 1) + (k - 1);
      DivUnique(a - 1, k, q - 1, k - 1);
    }
  }

  lemma MultipleOf(a: int, k: int, j: int)
    requires k > 0 && j > 0 && a % (k * j) == 0
    ensures a % k == 0
  {
    var q := a / (k * j);
    assert a == (k * j) * q;
    assert a == k * (j * q) + 0;
    DivUnique(a, k, j * q, 0);
  }

  /** `LeapsThrough` counts year `y` exactly when it is a leap year. */
  lemma LeapStep(y: int)
    ensures LeapsThrough(y) - LeapsThrough(y - 1) == if IsLeap(y) then 1 else 0
  {
    DivStep(y, 4);
    DivStep(y, 100);
    DivStep(y, 400);
    if y % 400 == 0 {
      MultipleOf(y, 100, 4);
    }
    if y % 100 == 0 {
      MultipleOf(y, 4, 25);
    }
  }

  /** The calendar day after `d` (what `d + timedelta(days=1)` and
      JavaScript's `setDate(getDate() + 1)` give). */
  function NextDay(d: Date): (r: Date)
    requires ValidDate(d)
    ensures ValidDate(r)
  {
    if d.day < DaysInMonth(d.year, d.month) then Date(d.year, d.month, d.day + 1)
    else if d.month < 12 then Date(d.year, d.month + 1, 1)
    else Date(d.year + 1, 1, 1)
  }

  /** `NextDay` advances the day number by exactly one. */
  lemma NextDayNumber(d: Date)
    requires ValidDate(d)
    ensures DayNumber(NextDay(d)) == DayNumber(d) + 1
  {
    if d.day == DaysInMonth(d.year, d.month) && d.month == 12 {
      YearLength(d.year);
      LeapStep(d.year);
    }
  }

  /** The calendar day before `d`; `NextDay` undoes it. */
  function PrevDay(d: Date): (r: Date)
    requires ValidDate(d)
    ensures ValidDate(r) && NextDay(r) == d
  {
    if d.day > 1 then Date(d.year, d.month, d.day - 1)
    else if d.month > 1 then Date(d.year, d.month - 1, DaysInMonth(d.year, d.month - 1))
    else Date(d.year - 1, 12, 31)
  }

  lemma PrevDayNumber(d: Date)
    requires ValidDate(d)
    ensures DayNumber(PrevDay(d)) == DayNumber(d) - 1
  {
    NextDayNumber(PrevDay(d));
  }

  /** `d` advanced by `k` days. */
  function AddDays(d: Date, k: nat): (r: Date)
    requires ValidDate(d)
    ensures ValidDate(r)
    decreases k
  {
    if k == 0 then d else NextDay(AddDays(d, k - 1))
  }

  lemma {:induction false} AddDaysNumber(d: Date, k: nat)
    requires ValidDate(d)
    ensures DayNumber(AddDays(d, k)) == DayNumber(d) + k
    decreases k
  {
    if k > 0 {
      var j: nat := k - 1;
      var p := AddDays(d, j);
      AddDaysNumber(d, j);
      NextDayNumber(p);
      assert AddDays(d, k) == NextDay(p);
    }
  }

  /** The weekday of a day number, Monday = 0: 1970-01-01 was a Thursday. */
  function DayWeekday(n: int): (w: int)
    ensures 0 <= w < 7
  {
    (n + 3) % 7
  }

  /** Python's `date.weekday()`. */
  function Weekday(d: Date): (w: int)
    requires ValidDate(d)
    ensures 0 <= w < 7
  {
    DayWeekday(DayNumber(d))
  }

  lemma WeekdayNext(d: Date)
    requires ValidDate(d)
    ensures Weekday(NextDay(d)) == (Weekday(d) + 1) % 7
  {
    NextDayNumber(d);
    DayWeekdayStep(DayNumber(d));
  }

  lemma DayWeekdayStep(m: int)
    ensures DayWeekday(m + 1) == (DayWeekday(m) + 1) % 7
  {
    var n := m + 3;
    var q := n / 7;
    var w := n % 7;
    if w < 6 {
      DivUnique(n + 1, 7, q, w + 1);
    } else {
      DivUnique(n + 1, 7, q + 1, 0);
    }
  }

  /** Python's `date.isoformat()`: the year zero-padded to four digits, then
      the two-digit month and day. */
  function IsoFormat(d: Date): (s: string)
    requires ValidDate(d) && d.year >= 1
    ensures d.year <= 9999 ==> |s| == 10 && s[4] == '-' && s[7] == '-'
  {
    NatToStringWidth(d.year, 4);
    NatToStringWidth(d.month, 2);
    NatToStringWidth(d.day, 2);
    ZeroPad(d.year, 4) + "-" + ZeroPad(d.month, 2) + "-" + ZeroPad(d.day, 2)
  }
}

=== FILE: json.dfy ===
/** Decoded JSON values, as Python's `json.loads` and JavaScript's
    `JSON.parse` produce them, with Python's truth-value rule, plus the string
    quoting `JSON.stringify` applies. Parsing text into values happens outside
    the model: operations that decode JSON receive the decoded value (or
    `None` for text that does not decode). */
module Json {
  import opened Wrappers
  import opened Text

  datatype Json =
    | JNull
    | JBool(b: bool)
    | JInt(i: int)
    | JReal(r: real)
    | JStr(s: string)
    | JArray(items: seq<Json>)
    | JObject(fields: seq<(string, Json)>)

  /** Python's truth value of the decoded object: `None`, `False`, zero, the
      empty string, list and dict are false. */
  predicate Truthy(v: Json) {
    match v
    case JNull => false
    case JBool(b) => b
    case JInt(i) => i != 0
    case JReal(r) => r != 0.0
    case JStr(s) => |s| > 0
    case JArray(items) => |items| > 0
    case JObject(fields) => |fields| > 0
  }

  /** The value stored under `key` in an object (the last one wins, as in
      both decoders); `None` for a missing key or a non-object. */
  function Get(v: Json, key: string): (r: Option<Json>)
    ensures r.Some? ==> v.JObject? && exists i :: LastWith(v.fields, key, i) && v.fields[i].1 == r.value
    ensures r.None? ==> !v.JObject? || forall i :: 0 <= i < |v.fields| ==> v.fields[i].0 != key
  {
    if !v.JObject? then None else Lookup(v.fields, key)
  }

  /** Position `i` holds the last field named `key`. */
  predicate LastWith(fields: seq<(string, Json)>, key: string, i: int) {
    0 <= i < |fields| && fields[i].0 == key && forall j :: i < j < |fields| ==> fields[j].0 != key
  }

  function Lookup(fields: seq<(string, Json)>, key: string): (r: Option<Json>)
    ensures r.Some? ==> exists i :: LastWith(fields, key, i) && fields[i].1 == r.value
    ensures r.None? ==> forall i :: 0 <= i < |fields| ==> fields[i].0 != key
  {
    match LastIndex(fields, key)
    case None => None
    case Some(i) => Some(fields[i].1)
  }

  /** The position of the last field named `key`. */
  function LastIndex(fields: seq<(string, Json)>, key: string): (r: Option<nat>)
    ensures r.Some? ==> LastWith(fields, key, r.value)
    ensures r.None? ==> forall i :: 0 <= i < |fields| ==> fields[i].0 != key
    decreases |fields|
  {
    if |fields| == 0 then None
    else if fields[|fields| - 1].0 == key then Some(|fields| - 1)
    else
      var r := LastIndex(fields[..|fields| - 1], key);
      assert forall j :: 0 <= j < |fields| - 1 ==> fields[..|fields| - 1][j] == fields[j];
      r
  }

  /** Python's `int()` on a float: truncation toward zero. */
  function Trunc(x: real): (n: int)
    ensures x >= 0.0 ==> n as real <= x < n as real + 1.0
    ensures x < 0.0 ==> n as real - 1.0 < x <= n as real
  {
    if x >= 0.0 then x.Floor else -((-x).Floor)
  }

  /** The outcome of Python's `int()` on a decoded value. */
  datatype IntConversion = IntValue(n: int) | IntValueError | IntTypeError

  /** Python's `int()` on a decoded value: an integer is itself, a boolean
      is 1 or 0, a float is truncated toward zero, text is read by `int()`
      or raises `ValueError`; `None`, a list or an object raises
      `TypeError`. */
  function PyIntOf(v: Json): (r: IntConversion)
    ensures r == IntTypeError <==> v.JNull? || v.JArray? || v.JObject?
    ensures r == IntValueError <==> v.JStr? && PyInt(v.s).None?
    ensures v.JInt? ==> r == IntValue(v.i)
    ensures v.JBool? ==> r == IntValue(if v.b then 1 else 0)
    ensures v.JReal? ==> r == IntValue(Trunc(v.r))
    ensures v.JStr? && PyInt(v.s).Some? ==> r == IntValue(PyInt(v.s).value)
  {
    match v
    case JBool(b) => IntValue(if b then 1 else 0)
    case JInt(i) => IntValue(i)
    case JReal(x) => IntValue(Trunc(x))
    case JStr(t) => if PyInt(t).Some? then IntValue(PyInt(t).value) else IntValueError
    case _ => IntTypeError
  }

  /** Text `int()` accepts reads back as the integer it renders, whatever
      its sign. */
  lemma PyIntOfText(i: int)
    ensures PyIntOf(JStr(IntToString(i))) == IntValue(i)
  {
    PyIntRoundTrip(i);
  }

  /** ... and so does that text after a blank. */
  lemma PyIntOfPaddedText(i: int)
    ensures PyIntOf(JStr(" " + IntToString(i))) == IntValue(i)
  {
    PyIntRoundTrip(i);
    PyIntIgnoresLeadingBlank(IntToString(i));
  }

  // ------------------------------------------------------- string quoting

  function HexDigit(n: nat): (c: char)
    requires n < 16
  {
    "0123456789abcdef"[n]
  }

  /** The escape `JSON.stringify` writes for one character. */
  function EscapeChar(c: char): (r: string)
    ensures |r| >= 1
    ensures r[0] == '\\' <==> (c == '"' || c == '\\' || c < ' ')
    ensures r[0] != '\\' ==> r == [c]
  {
    if c == '"' then "\\\""
    else if c == '\\' then "\\\\"
    else if c == '\U{8}' then "\\b"
    else if c == '\U{c}' then "\\f"
    else if c == '\n' then "\\n"
    else if c == '\r' then "\\r"
    else if c == '\t' then "\\t"
    else if c < ' ' then
      var n := c as int;
      ['\\', 'u', '0', '0', HexDigit(n / 16), HexDigit(n % 16)]
    else [c]
  }

  function EscapeString(s: string): (r: string)
    ensures |r| >= |s|
    decreases |s|
  {
    if |s| == 0 then [] else EscapeChar(s[0]) + EscapeString(s[1..])
  }

  /** `JSON.stringify` of a string: the escaped text between double quotes. */
  function Quote(s: string): (r: string)
    ensures |r| >= 2 && r[0] == '"' && r[|r| - 1] == '"'
  {
    "\"" + EscapeString(s) + "\""
  }

  function HexValue(c: char): (r: Option<nat>)
    ensures r.Some? ==> r.value < 16
  {
    if '0' <= c <= '9' then Some(c as int - '0' as int)
    else if 'a' <= c <= 'f' then Some(c as int - 'a' as int + 10)
    else None
  }

  /** Reads back the escaped text of a string (what `JSON.parse` does between
      the quotes, for the escapes `EscapeChar` writes). */
  function Unescape(t: string): (r: Option<string>)
    decreases |t|
  {
    if |t| == 0 then Some([])
    else if t[0] != '\\' then
      match Unescape(t[1..])
      case None => None
      case Some(rest) => Some([t[0]] + rest)
    else if |t| < 2 then None
    else
      var e := t[1];
      var simple :=
        if e == '"' then Some('"') else if e == '\\' then Some('\\')
        else if e == 'b' then Some('\U{8}') else if e == 'f' then Some('\U{c}')
        else if e == 'n' then Some('\n') else if e == 'r' then Some('\r')
        else if e == 't' then Some('\t') else None;
      if simple.Some? then
        match Unescape(t[2..])
        case None => None
        case Some(rest) => Some([simple.value] + rest)
      else if e == 'u' && |t| >= 6 && t[2] == '0' && t[3] == '0'
              && HexValue(t[4]).Some? && HexValue(t[5]).Some? then
        match Unescape(t[6..])
        case None => None
        case Some(rest) => Some([(HexValue(t[4]).value * 16 + HexValue(t[5]).value) as char] + rest)
      else None
  }

  lemma EscapeCharRoundTrip(c: char, rest: string)
    ensures Unescape(EscapeChar(c) + rest) ==
      match Unescape(rest) case None => None case Some(u) => Some([c] + u)
  {
    if c < ' ' && c != '\U{8}' && c != '\U{c}' && c != '\n' && c != '\r' && c != '\t' {
      ControlCharRoundTrip(c, rest);
    } else if c == '"' || c == '\\' || c < ' ' {
      ShortEscapeRoundTrip(c, rest);
    } else {
      var t := [c] + rest;
      assert t[0] == c && t[1..] == rest;
    }
  }

  /** A control character without a short form comes back from `\u00XX`. */
  lemma ControlCharRoundTrip(c: char, rest: string)
    requires c < ' ' && c != '\U{8}' && c != '\U{c}' && c != '\n' && c != '\r' && c != '\t'
    ensures Unescape(EscapeChar(c) + rest) ==
      match Unescape(rest) case None => None case Some(u) => Some([c] + u)
  {
    var n := c as int;
    var hi, lo := HexDigit(n / 16), HexDigit(n % 16);
    var t := ['\\', 'u', '0', '0', hi, lo] + rest;
    assert EscapeChar(c) + rest == t;
    assert HexValue(hi) == Some(n / 16);
    assert HexValue(lo) == Some(n % 16);
    assert t[6..] == rest;
    assert (n / 16 * 16 + n % 16) as char == c;
  }

  /** A quote, a backslash or a control character with a short form comes
      back from its two-character escape. */
  lemma ShortEscapeRoundTrip(c: char, rest: string)
    requires c == '"' || c == '\\' || c == '\U{8}' || c == '\U{c}' || c == '\n' || c == '\r' || c == '\t'
    ensures Unescape(EscapeChar(c) + rest) ==
      match Unescape(rest) case None => None case Some(u) => Some([c] + u)
  {
    var t := EscapeChar(c) + rest;
    assert |EscapeChar(c)| == 2 && t[0] == '\\';
    assert t[2..] == rest;
  }

  /** Reading back the escaped text recovers the original string. */
  lemma {:induction false} EscapeRoundTrip(s: string)
    ensures Unescape(EscapeString(s)) == Some(s)
    decreases |s|
  {
    if |s| > 0 {
      EscapeRoundTrip(s[1..]);
      EscapeCharRoundTrip(s[0], EscapeString(s[1..]));
      assert [s[0]] + s[1..] == s;
    }
  }
}

=== FILE: listing_extras.dfy ===
/** The listing template filters (listings/templatetags/listing_extras.py):
    star ratings, the stay label, status badges and amenity icons. The
    filters return HTML; the model returns what the HTML is built from. */
module ListingExtras {
  import opened Wrappers
  import Json
  import opened Text
  import opened Gregorian
  import opened ListingModels
  import opened ListingViews

  // ------------------------------------------------------------- stars

  /** The value handed to `star_rating`: `None`, a finite number, a NaN, an
      infinity, or something `float()` rejects. */
  datatype RatingValue = NoValue | Finite(r: real) | NotANumber | Infinite | NotNumeric

  datatype Star = FullStar | HalfStar | EmptyStar

  datatype StarDisplay =
    | NoRatingsYet
    | InvalidRating
    | Stars(icons: seq<Star>)

  /** `star_rating`: full stars for the integer part, a half star when the
      fraction is at least one half, empty stars to make up five. `int()`
      of a NaN raises a caught `ValueError`; of an infinity an uncaught
      `OverflowError`, modelled as `None`. */
  function StarRating(v: RatingValue): (r: Option<StarDisplay>)
    ensures v.NoValue? <==> r == Some(NoRatingsYet)
    ensures v.NotANumber? || v.NotNumeric? <==> r == Some(InvalidRating)
    ensures v.Infinite? <==> r.None?
    ensures v.Finite? ==> r.Some? && r.value.Stars?
  {
    match v
    case NoValue => Some(NoRatingsYet)
    case NotANumber => Some(InvalidRating)
    case NotNumeric => Some(InvalidRating)
    case Infinite => None
    case Finite(x) =>
      var full := Json.Trunc(x);
      var half := x - full as real >= 0.5;
      var empty := 5 - full - (if half then 1 else 0);
      Some(Stars(seq(if full < 0 then 0 else full, _ => FullStar)
                 + (if half then [HalfStar] else [])
                 + seq(if empty < 0 then 0 else empty, _ => EmptyStar)))
  }

  /** For ratings from 0 to 5 there are always five stars: the integer part
      as full stars, one half star exactly when the fraction is at least one
      half, the rest empty, in that order. */
  lemma FiveStars(x: real)
    requires 0.0 <= x <= 5.0
    ensures var icons := StarRating(Finite(x)).value.icons;
            && |icons| == 5
            && (forall i :: 0 <= i < |icons| ==> (icons[i] == FullStar <==> i < x.Floor))
            && (HalfStar in icons <==> x - x.Floor as real >= 0.5)
            && (forall i, j :: 0 <= i < j < |icons| && icons[j] == FullStar ==> icons[i] == FullStar)
            && (forall i, j :: 0 <= i < j < |icons| && icons[i] == EmptyStar ==> icons[j] == EmptyStar)
  {
    var icons := StarRating(Finite(x)).value.icons;
    var full := x.Floor;
    assert Json.Trunc(x) == full;
    var half := x - full as real >= 0.5;
    if full == 5 {
      assert x == 5.0;
      assert !half;
    }
    var fulls := seq(full, _ => FullStar);
    var halves := if half then [HalfStar] else [];
    var empties := seq(5 - full - |halves|, _ => EmptyStar);
    assert icons == fulls + halves + empties;
    assert HalfStar !in fulls && HalfStar !in empties;
  }

  // ------------------------------------------------------------ dates

  const MonthAbbreviations: seq<string> := ["", "Jan", "Feb", "Mar", "Apr", "May", "Jun",
    "Jul", "Aug", "Sep", "Oct", "Nov", "Dec"]

  /** `strftime('%b %d, %Y')` in the C locale. */
  function ShortDate(d: Date): (s: string)
    requires ValidDate(d)
  {
    MonthAbbreviations[d.month] + " " + ZeroPad(d.day, 2) + ", " + IntToString(d.year)
  }

  /** The nights between two dates. */
  function NightsBetween(s: Date, e: Date): (n: int)
    requires ValidDate(s) && ValidDate(e)
    ensures n >= 0 ==> DayNumber(AddDays(s, n)) == DayNumber(e)
  {
    var n := DayNumber(e) - DayNumber(s);
    if n >= 0 then AddDaysNumber(s, n); n else n
  }

  /** `date_range`: both dates, then the night count with "night" in the
      singular exactly when it is one. */
  function DateRangeLabel(s: Date, e: Date): (r: string)
    requires ValidDate(s) && ValidDate(e)
    ensures |r| >= 6
    ensures r[|r| - 1] == 's' <==> NightsBetween(s, e) != 1
    ensures NightsBetween(s, e) == 1 ==> r[|r| - 6..] == " night"
    ensures var dates := ShortDate(s) + " - " + ShortDate(e) + " \U{b7} ";
            var unit := NightsUnit(NightsBetween(s, e));
            |r| >= |dates| + |unit| && r[..|dates|] == dates && r[|r| - |unit|..] == unit
            && PyInt(r[|dates|..|r| - |unit|]) == Some(NightsBetween(s, e))
  {
    CountLabel(ShortDate(s) + " - " + ShortDate(e) + " \U{b7} ", NightsBetween(s, e))
  }

  /** " night" for one, " nights" for any other count. */
  function NightsUnit(n: int): (u: string)
    ensures |u| >= 6 && u[..6] == " night"
    ensures u[|u| - 1] == 's' <==> n != 1
  {
    if n != 1 then " nights" else " night"
  }

  /** The dates, the count and its unit; the count reads back as `n`. */
  function CountLabel(dates: string, n: int): (r: string)
    ensures |r| >= |dates| + |NightsUnit(n)|
    ensures r[..|dates|] == dates && r[|r| - |NightsUnit(n)|..] == NightsUnit(n)
    ensures PyInt(r[|dates|..|r| - |NightsUnit(n)|]) == Some(n)
  {
    ThreeParts(dates, IntToString(n), NightsUnit(n));
    PyIntRoundTrip(n);
    dates + IntToString(n) + NightsUnit(n)
  }

  /** The three parts of a concatenation are found where they were put. */
  lemma ThreeParts(a: string, b: string, c: string)
    ensures var r := a + b + c;
            r[..|a|] == a && r[|a|..|r| - |c|] == b && r[|r| - |c|..] == c
  {
  }

  /** The label counts the nights a booking of the same dates lasts. */
  lemma LabelCountsBookingNights(s: Date, e: Date, b: Booking)
    requires ValidDate(s) && ValidDate(e)
    requires b.startDate == DayNumber(s) && b.endDate == DayNumber(e)
    ensures NightsBetween(s, e) == DurationNights(b)
  {
  }

  // ----------------------------------------------------------- badges

  datatype Badge = Badge(cssClass: string, caption: string)

  /** `get_listing_status_badge`: inactive first, then awaiting approval. */
  function ListingStatusBadge(l: Listing): (b: Badge)
    ensures b.caption == "Inactive" <==> !l.isActive
    ensures b.caption == "Pending Approval" <==> l.isActive && !l.isApproved
    ensures b.caption == "Active" <==> l.isActive && l.isApproved
  {
    if !l.isActive then Badge("bg-secondary", "Inactive")
    else if !l.isApproved then Badge("bg-warning text-dark", "Pending Approval")
    else Badge("bg-success", "Active")
  }

  /** A listing shows the "Active" badge exactly when the unfiltered search
      can list it. */
  lemma ActiveBadgeIsSearchable(l: Listing, bookings: seq<Booking>, p: SearchParams)
    requires !p.valid
    ensures ListingStatusBadge(l).caption == "Active" <==> Matches(l, bookings, p)
  {
  }

  const BookingBadgeClasses: map<string, string> := map[
    "pending" := "bg-warning text-dark",
    "confirmed" := "bg-success",
    "canceled" := "bg-danger",
    "completed" := "bg-info"]

  /** `get_booking_status_badge`: the class for the four known statuses,
      `bg-secondary` for anything else; the label is `status.title()`. */
  function BookingStatusBadge(status: string): (b: Badge)
    ensures status in BookingBadgeClasses ==> b.cssClass == BookingBadgeClasses[status]
    ensures status !in BookingBadgeClasses ==> b.cssClass == "bg-secondary"
    ensures b.caption == Title(status)
  {
    Badge(if status in BookingBadgeClasses then BookingBadgeClasses[status] else "bg-secondary", Title(status))
  }

  /** The badge knows exactly the statuses the status view accepts. */
  lemma BadgeKnowsAcceptedStatuses(status: string)
    ensures BookingStatusBadge(status).cssClass != "bg-secondary" <==> ParseStatus(status).Some?
  {
  }

  // ------------------------------------------------------------ amenities

  const AmenityIcons: map<string, string> := map[
    "wifi" := "fas fa-wifi",
    "kitchen" := "fas fa-utensils",
    "washer" := "fas fa-tshirt",
    "dryer" := "fas fa-wind",
    "air_conditioning" := "fas fa-snowflake",
    "heating" := "fas fa-fire",
    "tv" := "fas fa-tv",
    "iron" := "fas fa-iron",
    "hairdryer" := "fas fa-hairdryer",
    "pool" := "fas fa-swimming-pool",
    "free_parking" := "fas fa-parking",
    "crib" := "fas fa-baby",
    "workspace" := "fas fa-desk",
    "hot_tub" := "fas fa-hot-tub",
    "bbq" := "fas fa-drumstick-bite",
    "indoor_fireplace" := "fas fa-fireplace",
    "gym" := "fas fa-dumbbell",
    "breakfast" := "fas fa-coffee",
    "smoking_allowed" := "fas fa-smoking",
    "pets_allowed" := "fas fa-paw",
    "wheelchair_accessible" := "fas fa-wheelchair"]

  const DefaultAmenityIcon := "fas fa-check"

  /** The lookup key: lower case with spaces turned into underscores. */
  function AmenityKey(amenity: string): (k: string)
    ensures |k| == |amenity|
    ensures forall i :: 0 <= i < |k| ==> k[i] == if amenity[i] == ' ' then '_' else LowerChar(amenity[i])
  {
    ReplaceOneForOne(Lower(amenity), ' ', '_');
    ReplaceChar(Lower(amenity), ' ', "_")
  }

  lemma {:induction false} ReplaceOneForOne(s: string, c: char, d: char)
    ensures |ReplaceChar(s, c, [d])| == |s|
    ensures forall i :: 0 <= i < |s| ==> ReplaceChar(s, c, [d])[i] == if s[i] == c then d else s[i]
    decreases |s|
  {
    if |s| > 0 {
      ReplaceOneForOne(s[1..], c, d);
    }
  }

  /** `amenity_icon`: the icon for the normalised name, else the check mark. */
  function AmenityIcon(amenity: string): (icon: string)
    ensures AmenityKey(amenity) in AmenityIcons ==> icon == AmenityIcons[AmenityKey(amenity)]
    ensures AmenityKey(amenity) !in AmenityIcons ==> icon == DefaultAmenityIcon
  {
    var key := AmenityKey(amenity);
    if key in AmenityIcons then AmenityIcons[key] else DefaultAmenityIcon
  }

  /** Normalising a name twice changes nothing, so a stored key and the
      name it came from get the same icon. */
  lemma AmenityKeyIdempotent(amenity: string)
    ensures AmenityKey(AmenityKey(amenity)) == AmenityKey(amenity)
    ensures AmenityIcon(AmenityKey(amenity)) == AmenityIcon(amenity)
  {
    var k := AmenityKey(amenity);
    assert forall i :: 0 <= i < |k| ==> k[i] != ' ' && LowerChar(k[i]) == k[i];
  }
}

=== FILE: listing_forms.dfy ===
/** Form cleaning for listings and bookings (listings/forms.py). */
module ListingForms {
  import opened Wrappers
  import opened Json
  import opened Gregorian
  import opened ListingModels

  // ------------------------------------------------------------- amenities

  /** `ListingForm.clean_amenities`. The field's value is `v`; when it is a
      string, `decoded` is what `json.loads` makes of it (`None` when the
      text is not valid JSON). */
  function CleanAmenities(v: Json, decoded: Option<Json>): (r: Json)
    ensures v.JStr? && decoded.Some? ==> r == decoded.value
    ensures v.JStr? && decoded.None? ==> r == JArray([])
    ensures !v.JStr? && Truthy(v) ==> r == v
    ensures !v.JStr? && !Truthy(v) ==> r == JArray([])
  {
    if v.JStr? then
      match decoded
      case Some(parsed) => parsed
      case None => JArray([])
    else if Truthy(v) then v
    else JArray([])
  }

  /** Cleaning an already cleaned non-string value changes nothing. */
  lemma CleanAmenitiesIdempotent(v: Json, decoded: Option<Json>, again: Option<Json>)
    requires !v.JStr?
    ensures CleanAmenities(CleanAmenities(v, decoded), again) == CleanAmenities(v, decoded)
  {
  }

  // --------------------------------------------------------------- booking

  datatype BookingError =
    | EndNotAfterStart
    | BelowMinimumNights(minNights: nat)
    | AboveMaximumNights(maxNights: nat)
    | NotAvailable
    | TooManyGuests(maxGuests: nat)

  /** The listing a booking form is bound to, with that listing's bookings. */
  datatype Bound = Bound(listing: Listing, bookings: seq<Booking>)

  /** Both dates of the request are given. */
  predicate Dated(start: Option<Day>, end: Option<Day>) {
    start.Some? && end.Some?
  }

  /** The stay a bound listing checks: both dates given, in order. */
  predicate OrderedStay(start: Option<Day>, end: Option<Day>, bound: Option<Bound>) {
    Dated(start, end) && bound.Some? && start.value < end.value
  }

  /** The date checks pass: the dates are in order and, for a bound
      listing, the stay is within its limits and free. */
  predicate DatesPass(start: Option<Day>, end: Option<Day>, bound: Option<Bound>) {
    Dated(start, end) ==>
      && start.value < end.value
      && (bound.Some? ==>
            && bound.value.listing.minimumNights <= end.value - start.value <= bound.value.listing.maximumNights
            && IsAvailable(bound.value.bookings, start.value, end.value))
  }

  /** `BookingForm.clean`: the checks run in the order date order, minimum
      stay, maximum stay, availability, guest count, and the first failure is
      reported. Only the date-order check applies without a bound listing;
      a guest count of zero or none is not checked. */
  function CleanBooking(start: Option<Day>, end: Option<Day>, guests: Option<int>, bound: Option<Bound>)
    : (r: Result<(), BookingError>)
    ensures r == Failure(EndNotAfterStart) <==> Dated(start, end) && end.value <= start.value
    ensures bound.None? ==> (r.Success? <==> !(Dated(start, end) && end.value <= start.value))
    ensures r.Failure? && r.error.BelowMinimumNights? <==>
              OrderedStay(start, end, bound) && end.value - start.value < bound.value.listing.minimumNights
    ensures r.Failure? && r.error.AboveMaximumNights? <==>
              && OrderedStay(start, end, bound)
              && bound.value.listing.minimumNights <= end.value - start.value
              && end.value - start.value > bound.value.listing.maximumNights
    ensures r == Failure(NotAvailable) <==>
              && OrderedStay(start, end, bound)
              && bound.value.listing.minimumNights <= end.value - start.value <= bound.value.listing.maximumNights
              && !IsAvailable(bound.value.bookings, start.value, end.value)
    ensures r.Failure? && r.error.TooManyGuests? <==>
              && DatesPass(start, end, bound)
              && guests.Some? && guests.value != 0 && bound.Some? && guests.value > bound.value.listing.accommodates
    ensures r.Success? <==>
              DatesPass(start, end, bound)
              && !(guests.Some? && guests.value != 0 && bound.Some? && guests.value > bound.value.listing.accommodates)
    ensures r.Failure? && r.error.BelowMinimumNights? ==> r.error.minNights == bound.value.listing.minimumNights
    ensures r.Failure? && r.error.AboveMaximumNights? ==> r.error.maxNights == bound.value.listing.maximumNights
    ensures r.Failure? && r.error.TooManyGuests? ==> r.error.maxGuests == bound.value.listing.accommodates
  {
    if start.Some? && end.Some? && end.value <= start.value then Failure(EndNotAfterStart)
    else if start.Some? && end.Some? && bound.Some? && end.value - start.value < bound.value.listing.minimumNights then
      Failure(BelowMinimumNights(bound.value.listing.minimumNights))
    else if start.Some? && end.Some? && bound.Some? && end.value - start.value > bound.value.listing.maximumNights then
      Failure(AboveMaximumNights(bound.value.listing.maximumNights))
    else if start.Some? && end.Some? && bound.Some?
            && !IsAvailable(bound.value.bookings, start.value, end.value) then
      Failure(NotAvailable)
    else if guests.Some? && guests.value != 0 && bound.Some? && guests.value > bound.value.listing.accommodates then
      Failure(TooManyGuests(bound.value.listing.accommodates))
    else Success(())
  }

  /** A booking request a bound listing accepts, stated as one condition. */
  predicate Acceptable(start: Day, end: Day, guests: int, b: Bound) {
    && start < end
    && b.listing.minimumNights <= end - start <= b.listing.maximumNights
    && (forall i :: 0 <= i < |b.bookings| ==> !Conflicts(b.bookings[i], start, end))
    && (guests == 0 || guests <= b.listing.accommodates)
  }

  /** With all fields present and a bound listing, cleaning succeeds exactly
      for acceptable requests. */
  lemma CleanBookingAccepts(start: Day, end: Day, guests: int, b: Bound)
    ensures CleanBooking(Some(start), Some(end), Some(guests), Some(b)).Success?
            <==> Acceptable(start, end, guests, b)
  {
  }
}

=== FILE: listing_models.dfy ===
/** Listings, bookings and reviews (listings/models.py). Dates are day
    numbers, money is exact decimal arithmetic, and a listing's bookings and
    reviews are passed as the sequences the related managers would return. */
module ListingModels {
  import opened Wrappers
  import opened Gregorian
  import opened CalendarUtils

  type UserId = int

  datatype BookingStatus = Pending | Confirmed | Canceled | Completed

  datatype Listing = Listing(
    id: int,
    host: UserId,
    title: string,
    description: string,
    address: string,
    city: string,
    state: string,
    country: string,
    pricePerNight: real,
    cleaningFee: real,
    serviceFee: real,
    bedrooms: nat,
    bathrooms: real,
    accommodates: nat,
    propertyType: string,
    /** `None` is the JSON `null` the nullable field may hold. */
    imageUrls: Option<seq<string>>,
    amenities: seq<string>,
    minimumNights: nat,
    maximumNights: nat,
    isActive: bool,
    isApproved: bool,
    createdAt: int)

  datatype Booking = Booking(
    id: int,
    listing: int,
    guest: UserId,
    startDate: Day,
    endDate: Day,
    guests: nat,
    status: BookingStatus,
    basePrice: real,
    cleaningFee: real,
    serviceFee: real,
    totalPrice: real,
    createdAt: int)

  datatype Review = Review(listing: int, reviewer: UserId, rating: int)

  /** The rating validators accept 1 through 5. */
  predicate ValidRating(r: Review) {
    1 <= r.rating <= 5
  }

  const PlaceholderImage := "https://via.placeholder.com/800x600.png?text=No+Image+Available"

  /** The first image, or the placeholder when there is none. */
  function MainImageUrl(l: Listing): (url: string)
    ensures l.imageUrls.Some? && |l.imageUrls.value| > 0 ==> url == l.imageUrls.value[0]
    ensures l.imageUrls.None? || |l.imageUrls.value| == 0 ==> url == PlaceholderImage
  {
    match l.imageUrls
    case Some(urls) => if |urls| > 0 then urls[0] else PlaceholderImage
    case None => PlaceholderImage
  }

  // ------------------------------------------------------------ availability

  /** Pending and confirmed bookings hold their dates; canceled and completed
      ones do not. */
  predicate Blocks(b: Booking) {
    b.status == Pending || b.status == Confirmed
  }

  /** Inclusive overlap of the booking with [s, e]. */
  predicate Overlaps(b: Booking, s: Day, e: Day) {
    b.startDate <= e && b.endDate >= s
  }

  predicate Conflicts(b: Booking, s: Day, e: Day) {
    Blocks(b) && Overlaps(b, s, e)
  }

  /** `Listing.is_available`: no pending or confirmed booking of the listing
      overlaps the inclusive range. */
  function IsAvailable(bookings: seq<Booking>, s: Day, e: Day): (r: bool)
    ensures r <==> forall i :: 0 <= i < |bookings| ==> !Conflicts(bookings[i], s, e)
    decreases |bookings|
  {
    if |bookings| == 0 then true
    else !Conflicts(bookings[0], s, e) && IsAvailable(bookings[1..], s, e)
  }

  /** Canceled and completed bookings never affect availability. */
  lemma {:induction false} NonBlockingIgnored(bookings: seq<Booking>, b: Booking, s: Day, e: Day)
    requires !Blocks(b)
    ensures IsAvailable(bookings + [b], s, e) == IsAvailable(bookings, s, e)
  {
    var all := bookings + [b];
    assert forall i :: 0 <= i < |bookings| ==> all[i] == bookings[i];
    assert all[|bookings|] == b;
  }

  /** How many pending or confirmed bookings cover day `d`. */
  function Covering(bookings: seq<Booking>, d: Day): (n: nat)
    ensures n <= |bookings|
    decreases |bookings|
  {
    if |bookings| == 0 then 0
    else (if Blocks(bookings[0]) && bookings[0].startDate <= d <= bookings[0].endDate then 1 else 0)
         + Covering(bookings[1..], d)
  }

  lemma {:induction false} CoveringPositive(bookings: seq<Booking>, d: Day)
    ensures Covering(bookings, d) > 0 <==>
      exists i :: 0 <= i < |bookings| && Blocks(bookings[i]) && bookings[i].startDate <= d <= bookings[i].endDate
    decreases |bookings|
  {
    if |bookings| > 0 {
      CoveringPositive(bookings[1..], d);
      var tail := bookings[1..];
      assert forall i :: 0 <= i < |tail| ==> tail[i] == bookings[i + 1];
      if exists i :: 0 <= i < |bookings| && Blocks(bookings[i]) && bookings[i].startDate <= d <= bookings[i].endDate {
        var i :| 0 <= i < |bookings| && Blocks(bookings[i]) && bookings[i].startDate <= d <= bookings[i].endDate;
        if i > 0 {
          assert tail[i - 1] == bookings[i];
        }
      }
    }
  }

  /** `Listing.get_unavailable_dates`: every day of every pending or confirmed
      booking, start and end included, in booking order; overlapping bookings
      contribute the same day more than once. Each day stands for its
      `isoformat()` text. */
  function UnavailableDates(bookings: seq<Booking>): (r: seq<Day>)
    ensures forall d :: multiset(r)[d] == Covering(bookings, d)
    decreases |bookings|
  {
    if |bookings| == 0 then []
    else
      var b := bookings[0];
      var rest := UnavailableDates(bookings[1..]);
      var own := if Blocks(b) then DateRange(b.startDate, b.endDate) else [];
      assert forall d :: multiset(own)[d] == if Blocks(b) && b.startDate <= d <= b.endDate then 1 else 0 by {
        forall d ensures multiset(own)[d] == if Blocks(b) && b.startDate <= d <= b.endDate then 1 else 0 {
          if Blocks(b) {
            DateRangeCount(b.startDate, b.endDate, d);
          }
        }
      }
      own + rest
  }

  /** A day is listed exactly when some pending or confirmed booking covers it. */
  lemma UnavailableMembership(bookings: seq<Booking>, d: Day)
    ensures d in UnavailableDates(bookings) <==>
      exists i :: 0 <= i < |bookings| && Blocks(bookings[i]) && bookings[i].startDate <= d <= bookings[i].endDate
  {
    CoveringPositive(bookings, d);
    assert d in UnavailableDates(bookings) <==> multiset(UnavailableDates(bookings))[d] > 0;
  }

  /** For a well-ordered range, the listing is unavailable exactly when some
      day of the range is among the unavailable dates. */
  lemma AvailableIffNoUnavailableDay(bookings: seq<Booking>, s: Day, e: Day)
    requires s <= e
    requires forall i :: 0 <= i < |bookings| ==> bookings[i].startDate <= bookings[i].endDate
    ensures IsAvailable(bookings, s, e) <==>
      forall d :: s <= d <= e ==> d !in UnavailableDates(bookings)
  {
    if !IsAvailable(bookings, s, e) {
      var i :| 0 <= i < |bookings| && Conflicts(bookings[i], s, e);
      var b := bookings[i];
      var d := if b.startDate <= s then s else b.startDate;
      assert Blocks(bookings[i]) && bookings[i].startDate <= d <= bookings[i].endDate;
      UnavailableMembership(bookings, d);
      assert s <= d <= e && d in UnavailableDates(bookings);
    } else {
      forall d | s <= d <= e
        ensures d !in UnavailableDates(bookings)
      {
        UnavailableMembership(bookings, d);
      }
    }
  }

  // ---------------------------------------------------------------- pricing

  datatype PriceQuote = PriceQuote(basePrice: real, cleaningFee: real, serviceFee: real, totalPrice: real, nights: int)

  /** `Listing.calculate_price`: the nightly rate times the nights plus both
      fees; no validation of the range (a reversed range gives negative
      nights). */
  function CalculatePrice(l: Listing, s: Day, e: Day): (q: PriceQuote)
    ensures q.nights == e - s
    ensures q.basePrice == l.pricePerNight * (e - s) as real
    ensures q.totalPrice == q.basePrice + q.cleaningFee + q.serviceFee
    ensures q.cleaningFee == l.cleaningFee && q.serviceFee == l.serviceFee
  {
    var nights := e - s;
    var base := l.pricePerNight * nights as real;
    PriceQuote(base, l.cleaningFee, l.serviceFee, base + l.cleaningFee + l.serviceFee, nights)
  }

  /** Splitting a stay at any day splits its base price. */
  lemma BasePriceSplits(l: Listing, s: Day, m: Day, e: Day)
    ensures CalculatePrice(l, s, e).basePrice
         == CalculatePrice(l, s, m).basePrice + CalculatePrice(l, m, e).basePrice
  {
    assert (e - s) as real == (m - s) as real + (e - m) as real;
  }

  /** `Booking.duration_nights`. */
  function DurationNights(b: Booking): (n: int)
    ensures n < 0 <==> b.endDate < b.startDate
  {
    b.endDate - b.startDate
  }

  /** A booking's length agrees with the nights its listing would quote. */
  lemma DurationMatchesQuote(l: Listing, b: Booking)
    ensures DurationNights(b) == CalculatePrice(l, b.startDate, b.endDate).nights
  {
  }

  // ----------------------------------------------------------- cancellation

  predicate CanBeCanceled(b: Booking) {
    b.status == Pending || b.status == Confirmed
  }

  /** `Booking.cancel`: the flag it returns and the booking afterwards. */
  function Cancel(b: Booking): (r: (bool, Booking))
    ensures r.0 <==> CanBeCanceled(b)
    ensures r.0 ==> r.1 == b.(status := Canceled)
    ensures !r.0 ==> r.1 == b
  {
    if CanBeCanceled(b) then (true, b.(status := Canceled)) else (false, b)
  }

  /** Canceling twice: the second call fails and changes nothing. */
  lemma CancelTwice(b: Booking)
    ensures !Cancel(Cancel(b).1).0
    ensures Cancel(Cancel(b).1).1 == Cancel(b).1
  {
  }

  /** A canceled booking no longer blocks its dates. */
  lemma CancelFreesDates(b: Booking)
    requires Cancel(b).0
    ensures !Blocks(Cancel(b).1)
  {
  }

  // ----------------------------------------------------------------- reviews

  function SumRatings(reviews: seq<Review>): int
    decreases |reviews|
  {
    if |reviews| == 0 then 0 else reviews[0].rating + SumRatings(reviews[1..])
  }

  /** `Listing.average_rating`: `None` without reviews, else the mean. */
  function AverageRating(reviews: seq<Review>): (r: Option<real>)
    ensures r.None? <==> |reviews| == 0
    ensures r.Some? ==> r.value * |reviews| as real == SumRatings(reviews) as real
  {
    if |reviews| == 0 then None
    else Some(SumRatings(reviews) as real / |reviews| as real)
  }

  lemma {:induction false} SumRatingsBounds(reviews: seq<Review>)
    requires forall i :: 0 <= i < |reviews| ==> ValidRating(reviews[i])
    ensures |reviews| <= SumRatings(reviews) <= 5 * |reviews|
    ensures |reviews| as real <= SumRatings(reviews) as real <= 5.0 * |reviews| as real
    decreases |reviews|
  {
    if |reviews| > 0 {
      SumRatingsBounds(reviews[1..]);
    }
  }

  /** With validated ratings the mean lies between 1 and 5. */
  lemma AverageRatingBounds(reviews: seq<Review>)
    requires forall i :: 0 <= i < |reviews| ==> ValidRating(reviews[i])
    ensures AverageRating(reviews).Some? ==> 1.0 <= AverageRating(reviews).value <= 5.0
  {
    if |reviews| > 0 {
      SumRatingsBounds(reviews);
      var n := |reviews| as real;
      var avg := AverageRating(reviews).value;
      var sum := SumRatings(reviews) as real;
      assert avg * n == sum;
      assert n <= sum <= 5.0 * n;
      assert n > 0.0;
      MeanBounds(avg, n, sum);
    }
  }

  /** A mean of values in [1, 5] lies in [1, 5]. */
  lemma MeanBounds(avg: real, n: real, sum: real)
    requires n > 0.0 && avg * n == sum && n <= sum <= 5.0 * n
    ensures 1.0 <= avg <= 5.0
  {
  }
}

=== FILE: listing_views.dfy ===
/** Request handling rules of the listings views (listings/views.py):
    search filtering, image list edits, re-approval after an edit, booking
    creation and booking status updates. Tables are sequences of records and
    queries are filters over them. */
module ListingViews {
  import opened Wrappers
  import opened Text
  import opened Gregorian
  import opened ListingModels
  import opened ListingForms

  // ---------------------------------------------------------------- search

  /** The cleaned search form. `valid` is false when the form did not
      validate, in which case no filter applies. Absent numbers are `None`;
      a zero number and an empty string count as absent, as in Python. */
  datatype SearchParams = SearchParams(
    valid: bool,
    location: string,
    checkIn: Option<Day>,
    checkOut: Option<Day>,
    guests: Option<int>,
    minPrice: Option<real>,
    maxPrice: Option<real>,
    propertyType: string,
    bedrooms: Option<int>,
    bathrooms: Option<real>)

  predicate GivenInt(o: Option<int>) { o.Some? && o.value != 0 }
  predicate GivenReal(o: Option<real>) { o.Some? && o.value != 0.0 }

  /** Case-insensitive substring test of `__icontains` (ASCII letters). */
  predicate IContains(hay: string, needle: string) {
    Contains(Lower(hay), Lower(needle))
  }

  /** Some pending or confirmed booking of listing `id` overlaps the range. */
  predicate HasConflict(bookings: seq<Booking>, id: int, s: Day, e: Day) {
    exists i :: 0 <= i < |bookings| && bookings[i].listing == id && Conflicts(bookings[i], s, e)
  }

  /** Whether listing `l` survives the search: active and approved, then each
      filter that was given. */
  predicate Matches(l: Listing, bookings: seq<Booking>, p: SearchParams) {
    && l.isActive && l.isApproved
    && (p.valid ==>
      && (|p.location| > 0 ==>
            IContains(l.city, p.location) || IContains(l.state, p.location) || IContains(l.country, p.location))
      && (p.checkIn.Some? && p.checkOut.Some? ==> !HasConflict(bookings, l.id, p.checkIn.value, p.checkOut.value))
      && (GivenInt(p.guests) ==> l.accommodates >= p.guests.value)
      && (GivenReal(p.minPrice) ==> l.pricePerNight >= p.minPrice.value)
      && (GivenReal(p.maxPrice) ==> l.pricePerNight <= p.maxPrice.value)
      && (|p.propertyType| > 0 ==> l.propertyType == p.propertyType)
      && (GivenInt(p.bedrooms) ==> l.bedrooms >= p.bedrooms.value)
      && (GivenReal(p.bathrooms) ==> l.bathrooms >= p.bathrooms.value))
  }

  /** `ListingListView.get_queryset`: the matching listings, in the order of
      `listings`, which stands for the queryset's newest-first order. */
  function Search(listings: seq<Listing>, bookings: seq<Booking>, p: SearchParams): (r: seq<Listing>)
    ensures forall i :: 0 <= i < |r| ==> r[i] in listings && Matches(r[i], bookings, p)
    ensures forall i :: 0 <= i < |listings| && Matches(listings[i], bookings, p) ==> listings[i] in r
    ensures |r| <= |listings|
    decreases |listings|
  {
    if |listings| == 0 then []
    else
      var rest := Search(listings[1..], bookings, p);
      if Matches(listings[0], bookings, p) then [listings[0]] + rest else rest
  }

  /** Every result is an active, approved listing. */
  lemma SearchOnlyPublished(listings: seq<Listing>, bookings: seq<Booking>, p: SearchParams, l: Listing)
    requires l in Search(listings, bookings, p)
    ensures l.isActive && l.isApproved
  {
  }

  /** `q` applies every filter `p` applies, with the same value, and maybe more. */
  predicate Narrower(q: SearchParams, p: SearchParams) {
    && (p.valid ==> q.valid)
    && (|p.location| > 0 ==> q.location == p.location)
    && (p.checkIn.Some? && p.checkOut.Some? ==> q.checkIn == p.checkIn && q.checkOut == p.checkOut)
    && (GivenInt(p.guests) ==> q.guests == p.guests)
    && (GivenReal(p.minPrice) ==> q.minPrice == p.minPrice)
    && (GivenReal(p.maxPrice) ==> q.maxPrice == p.maxPrice)
    && (|p.propertyType| > 0 ==> q.propertyType == p.propertyType)
    && (GivenInt(p.bedrooms) ==> q.bedrooms == p.bedrooms)
    && (GivenReal(p.bathrooms) ==> q.bathrooms == p.bathrooms)
  }

  /** Applying more filters never adds a result. */
  lemma FiltersOnlyNarrow(listings: seq<Listing>, bookings: seq<Booking>, p: SearchParams, q: SearchParams)
    requires Narrower(q, p)
    ensures forall l :: l in Search(listings, bookings, q) ==> l in Search(listings, bookings, p)
  {
    forall l | l in Search(listings, bookings, q)
      ensures l in Search(listings, bookings, p)
    {
      var i :| 0 <= i < |Search(listings, bookings, q)| && Search(listings, bookings, q)[i] == l;
      assert Matches(l, bookings, q);
      assert l in listings;
      var j :| 0 <= j < |listings| && listings[j] == l;
    }
  }

  /** The bookings that belong to listing `id`. */
  function BookingsOf(bookings: seq<Booking>, id: int): (r: seq<Booking>)
    ensures forall i :: 0 <= i < |r| ==> r[i] in bookings && r[i].listing == id
    ensures forall i :: 0 <= i < |bookings| && bookings[i].listing == id ==> bookings[i] in r
    decreases |bookings|
  {
    if |bookings| == 0 then []
    else
      var rest := BookingsOf(bookings[1..], id);
      if bookings[0].listing == id then [bookings[0]] + rest else rest
  }

  /** The date filter drops a listing exactly when `Listing.is_available`
      would refuse the same range. */
  lemma DateFilterIsAvailability(bookings: seq<Booking>, id: int, s: Day, e: Day)
    ensures HasConflict(bookings, id, s, e) <==> !IsAvailable(BookingsOf(bookings, id), s, e)
  {
    var own := BookingsOf(bookings, id);
    if HasConflict(bookings, id, s, e) {
      var i :| 0 <= i < |bookings| && bookings[i].listing == id && Conflicts(bookings[i], s, e);
      assert bookings[i] in own;
      var k :| 0 <= k < |own| && own[k] == bookings[i];
    }
    if !IsAvailable(own, s, e) {
      var k :| 0 <= k < |own| && Conflicts(own[k], s, e);
      var i :| 0 <= i < |bookings| && bookings[i] == own[k];
    }
  }

  // ------------------------------------------------------------------ images

  datatype ViewError = NotFound | ServerError

  /** `add_listing_image`: only the host reaches the listing; the URL is
      appended to the list. A `null` list raises. */
  function AddListingImage(requester: UserId, l: Listing, url: string): (r: Result<Listing, ViewError>)
    ensures requester != l.host ==> r == Failure(NotFound)
    ensures requester == l.host && l.imageUrls.None? ==> r == Failure(ServerError)
    ensures r.Success? <==> requester == l.host && l.imageUrls.Some?
    ensures r.Success? ==> l.imageUrls.Some? && r.value == l.(imageUrls := Some(l.imageUrls.value + [url]))
  {
    if requester != l.host then Failure(NotFound)
    else match l.imageUrls
      case None => Failure(ServerError)
      case Some(urls) => Success(l.(imageUrls := Some(urls + [url])))
  }

  datatype RemoveOutcome = Removed | InvalidIndex | RemoveFailed

  /** `remove_listing_image`: deletes the URL at `index` when it is in range;
      any other index, or a `null` list, leaves the listing as it was. */
  function RemoveListingImage(requester: UserId, l: Listing, index: int)
    : (r: Result<(Listing, RemoveOutcome), ViewError>)
    ensures requester != l.host <==> r == Failure(NotFound)
    ensures requester == l.host <==> r.Success?
    ensures r.Success? && r.value.1 == Removed ==> l.imageUrls.Some? && 0 <= index < |l.imageUrls.value|
    ensures r.Success? && r.value.1 == Removed ==>
      r.value.0 == l.(imageUrls := Some(l.imageUrls.value[..index] + l.imageUrls.value[index + 1..]))
    ensures r.Success? && r.value.1 != Removed ==> r.value.0 == l
    ensures r.Success? ==> (r.value.1 == Removed <==> l.imageUrls.Some? && 0 <= index < |l.imageUrls.value|)
  {
    if requester != l.host then Failure(NotFound)
    else match l.imageUrls
      case None => Success((l, RemoveFailed))
      case Some(urls) =>
        if 0 <= index < |urls| then Success((l.(imageUrls := Some(urls[..index] + urls[index + 1..])), Removed))
        else Success((l, InvalidIndex))
  }

  /** Removing the image just added restores the listing. */
  lemma AddThenRemove(host: UserId, l: Listing, url: string)
    requires host == l.host && l.imageUrls.Some?
    ensures var added := AddListingImage(host, l, url).value;
            RemoveListingImage(host, added, |l.imageUrls.value|) == Success((l, Removed))
  {
    var urls := l.imageUrls.value;
    var added := AddListingImage(host, l, url).value;
    assert added.imageUrls == Some(urls + [url]);
    assert (urls + [url])[..|urls|] + (urls + [url])[|urls| + 1..] == urls;
    assert added.(imageUrls := Some(urls)) == l;
  }

  /** The first image added to an empty list becomes the main image. */
  lemma FirstImageBecomesMain(host: UserId, l: Listing, url: string)
    requires host == l.host && l.imageUrls == Some([])
    ensures MainImageUrl(AddListingImage(host, l, url).value) == url
  {
  }

  // -------------------------------------------------------------- re-approval

  /** The price, title, description or address of the submission differs
      from the stored listing. */
  predicate SignificantChange(stored: Listing, submitted: Listing) {
    || stored.pricePerNight != submitted.pricePerNight || stored.title != submitted.title
    || stored.description != submitted.description || stored.address != submitted.address
  }

  /** The two listings agree on every field `ListingForm` edits. */
  predicate SameFormFields(a: Listing, b: Listing) {
    && a.title == b.title && a.description == b.description && a.address == b.address
    && a.city == b.city && a.state == b.state && a.country == b.country
    && a.pricePerNight == b.pricePerNight && a.cleaningFee == b.cleaningFee && a.serviceFee == b.serviceFee
    && a.bedrooms == b.bedrooms && a.bathrooms == b.bathrooms && a.accommodates == b.accommodates
    && a.propertyType == b.propertyType && a.amenities == b.amenities
    && a.minimumNights == b.minimumNights && a.maximumNights == b.maximumNights
  }

  /** `ListingUpdateView.form_valid`: the form's fields are taken from the
      submission and every other field keeps its stored value; the listing
      is un-approved when the price, title, description or address changes. */
  function SaveEditedListing(stored: Listing, submitted: Listing): (r: Listing)
    ensures SameFormFields(r, submitted)
    ensures r.id == stored.id && r.host == stored.host && r.imageUrls == stored.imageUrls
    ensures r.isActive == stored.isActive && r.createdAt == stored.createdAt
    ensures r.isApproved == (stored.isApproved && !SignificantChange(stored, submitted))
  {
    var edited := stored.(title := submitted.title, description := submitted.description,
                          address := submitted.address, city := submitted.city, state := submitted.state,
                          country := submitted.country, pricePerNight := submitted.pricePerNight,
                          cleaningFee := submitted.cleaningFee, serviceFee := submitted.serviceFee,
                          bedrooms := submitted.bedrooms, bathrooms := submitted.bathrooms,
                          accommodates := submitted.accommodates, propertyType := submitted.propertyType,
                          amenities := submitted.amenities, minimumNights := submitted.minimumNights,
                          maximumNights := submitted.maximumNights);
    if SignificantChange(stored, submitted) then edited.(isApproved := false) else edited
  }

  /** Submitting the same form again changes nothing. */
  lemma SaveEditedIdempotent(stored: Listing, submitted: Listing)
    ensures var once := SaveEditedListing(stored, submitted);
            SaveEditedListing(once, submitted) == once
  {
  }

  /** A listing whose price changes drops out of every search until it is
      approved again. */
  lemma RepricedListingHidden(stored: Listing, submitted: Listing, bookings: seq<Booking>, p: SearchParams)
    requires stored.pricePerNight != submitted.pricePerNight
    ensures !Matches(SaveEditedListing(stored, submitted), bookings, p)
  {
  }

  // -------------------------------------------------------------- bookings

  datatype CreateError = ListingNotFound | OwnListing | Invalid(e: BookingError)

  /** `create_booking` on a valid form: only an active, approved listing is
      found; the host may not book their own listing; the form's checks run
      against the listing; the new booking is pending and priced by
      `calculate_price`. */
  function CreateBooking(requester: UserId, l: Listing, bookings: seq<Booking>,
                         start: Day, end: Day, guests: nat, newId: int, now: int)
    : (r: Result<Booking, CreateError>)
    ensures !(l.isActive && l.isApproved) <==> r == Failure(ListingNotFound)
    ensures l.isActive && l.isApproved ==> (requester == l.host <==> r == Failure(OwnListing))
    ensures r.Success? ==> l.isActive && l.isApproved && requester != l.host
    ensures l.isActive && l.isApproved && requester != l.host ==>
      (r.Success? <==> CleanBooking(Some(start), Some(end), Some(guests), Some(Bound(l, bookings))).Success?)
    ensures r.Success? ==>
      && r.value.listing == l.id && r.value.guest == requester
      && r.value.startDate == start && r.value.endDate == end && r.value.status == Pending
      && r.value.totalPrice == CalculatePrice(l, start, end).totalPrice
      && r.value.basePrice == CalculatePrice(l, start, end).basePrice
  {
    if !(l.isActive && l.isApproved) then Failure(ListingNotFound)
    else if requester == l.host then Failure(OwnListing)
    else match CleanBooking(Some(start), Some(end), Some(guests), Some(Bound(l, bookings)))
      case Failure(e) => Failure(Invalid(e))
      case Success(_) =>
        var q := CalculatePrice(l, start, end);
        Success(Booking(newId, l.id, requester, start, end, guests, Pending,
                        q.basePrice, q.cleaningFee, q.serviceFee, q.totalPrice, now))
  }

  /** A created booking fits the listing's stay limits and overlaps no
      pending or confirmed booking. */
  lemma CreatedBookingFits(requester: UserId, l: Listing, bookings: seq<Booking>,
                           start: Day, end: Day, guests: nat, newId: int, now: int)
    requires CreateBooking(requester, l, bookings, start, end, guests, newId, now).Success?
    ensures start < end && l.minimumNights <= end - start <= l.maximumNights
    ensures IsAvailable(bookings, start, end)
    ensures guests <= l.accommodates
  {
    CleanBookingAccepts(start, end, guests, Bound(l, bookings));
  }

  /** The status names accepted in the URL. */
  function ParseStatus(s: string): (r: Option<BookingStatus>)
    ensures r.Some? <==> s in {"pending", "confirmed", "canceled", "completed"}
  {
    if s == "pending" then Some(Pending)
    else if s == "confirmed" then Some(Confirmed)
    else if s == "canceled" then Some(Canceled)
    else if s == "completed" then Some(Completed)
    else None
  }

  datatype StatusError = InvalidStatus | BookingNotFound | Forbidden | CompletedIsFinal

  /** `update_booking_status`. `booking` is the booking with the given
      reference and `host` the host of its listing. */
  function UpdateBookingStatus(requester: UserId, status: string, booking: Option<Booking>, host: UserId)
    : (r: Result<Booking, StatusError>)
    ensures ParseStatus(status).None? ==> r == Failure(InvalidStatus)
    ensures ParseStatus(status).Some? && booking.None? ==> r == Failure(BookingNotFound)
    ensures r.Success? ==> booking.Some? && r.value == booking.value.(status := ParseStatus(status).value)
    ensures r.Success? ==> requester == host || (requester == booking.value.guest && status == "canceled")
    ensures r.Success? ==> booking.value.status == Completed ==> r.value.status == Completed
    ensures r.Success? <==>
      && ParseStatus(status).Some? && booking.Some?
      && (requester == host || (requester == booking.value.guest && status == "canceled"))
      && (booking.value.status != Completed || status == "completed")
  {
    match ParseStatus(status)
    case None => Failure(InvalidStatus)
    case Some(st) =>
      match booking
      case None => Failure(BookingNotFound)
      case Some(b) =>
        if requester != host && !(requester == b.guest && st == Canceled) then Failure(Forbidden)
        else if b.status == Completed && st != Completed then Failure(CompletedIsFinal)
        else Success(b.(status := st))
  }

  /** A guest who is not the host can only cancel, and only while the
      booking is not completed. */
  lemma GuestMayOnlyCancel(guest: UserId, status: string, b: Booking, host: UserId)
    requires guest == b.guest && guest != host
    ensures UpdateBookingStatus(guest, status, Some(b), host).Success?
            <==> status == "canceled" && b.status != Completed
  {
  }

  /** Anyone other than the host and the guest is refused. */
  lemma StrangerRefused(stranger: UserId, status: string, b: Booking, host: UserId)
    requires stranger != host && stranger != b.guest && ParseStatus(status).Some?
    ensures UpdateBookingStatus(stranger, status, Some(b), host) == Failure(Forbidden)
  {
  }
}

=== FILE: moderation_models.dfy ===
/** Moderation records (moderation/models.py): bans, listing approvals with
    the log entry a status change writes, and user complaints with the
    fields `save` fills in. Related rows appear as the few fields the
    methods read; `timezone.now()` is the parameter `now`. */
module ModerationModels {
  import opened Wrappers
  import opened Text
  import opened Clock

  type UserId = int

  // ------------------------------------------------------------------ bans

  datatype Ban = Ban(
    user: UserId,
    reason: string,
    bannedUntil: Option<Instant>,
    isPermanent: bool,
    bannedBy: Option<UserId>,
    notes: string)

  /** `BannedUser.is_active`: a permanent ban always holds; any other holds
      only while its end lies in the future. */
  function BanIsActive(b: Ban, now: Instant): (r: bool)
    ensures b.isPermanent ==> r
    ensures !b.isPermanent ==> (r <==> b.bannedUntil.Some? && now < b.bannedUntil.value)
  {
    if b.isPermanent then true
    else if b.bannedUntil.Some? && b.bannedUntil.value > now then true
    else false
  }

  /** A lapsed ban never becomes active again, and a ban without an end that
      is not permanent was never active. */
  lemma LapsedBanStaysLapsed(b: Ban, t: Instant, later: Instant)
    requires !BanIsActive(b, t) && t <= later
    ensures !BanIsActive(b, later)
    ensures b.bannedUntil.None? ==> forall u :: !BanIsActive(b, u)
  {
  }

  // ------------------------------------------------------------- approvals

  /** The seven approval criteria of a `ListingApproval`. */
  datatype Checklist = Checklist(
    validTitle: bool,
    validDescription: bool,
    validImages: bool,
    validAddress: bool,
    appropriatePricing: bool,
    followsContentPolicy: bool,
    verificationVideo: bool)

  function Criteria(c: Checklist): (r: seq<bool>)
    ensures |r| == 7
  {
    [c.validTitle, c.validDescription, c.validImages, c.validAddress,
     c.appropriatePricing, c.followsContentPolicy, c.verificationVideo]
  }

  /** How many entries of `bs` are true (Python's `sum` over booleans). */
  function CountTrue(bs: seq<bool>): (n: nat)
    ensures n <= |bs|
  {
    if |bs| == 0 then 0 else Bit(bs[0]) + CountTrue(bs[1..])
  }

  /** The count is zero exactly when no entry is true, and full exactly
      when every entry is. */
  lemma {:induction false} CountTrueExtremes(bs: seq<bool>)
    ensures CountTrue(bs) == 0 <==> forall i :: 0 <= i < |bs| ==> !bs[i]
    ensures CountTrue(bs) == |bs| <==> forall i :: 0 <= i < |bs| ==> bs[i]
    decreases |bs|
  {
    if |bs| > 0 {
      var rest := bs[1..];
      CountTrueExtremes(rest);
      assert forall i :: 1 <= i < |bs| ==> bs[i] == rest[i - 1];
    }
  }

  function Bit(b: bool): nat { if b then 1 else 0 }

  /** The number of criteria met, criterion by criterion. */
  lemma {:induction false} CriteriaCount(c: Checklist)
    ensures CountTrue(Criteria(c)) == Bit(c.validTitle) + Bit(c.validDescription) + Bit(c.validImages)
      + Bit(c.validAddress) + Bit(c.appropriatePricing) + Bit(c.followsContentPolicy) + Bit(c.verificationVideo)
  {
    var bs := Criteria(c);
    assert CountTrue(bs[6..]) == Bit(bs[6]) by { assert bs[6..][1..] == []; }
    assert CountTrue(bs[5..]) == Bit(bs[5]) + CountTrue(bs[6..]) by { assert bs[5..][1..] == bs[6..]; }
    assert CountTrue(bs[4..]) == Bit(bs[4]) + CountTrue(bs[5..]) by { assert bs[4..][1..] == bs[5..]; }
    assert CountTrue(bs[3..]) == Bit(bs[3]) + CountTrue(bs[4..]) by { assert bs[3..][1..] == bs[4..]; }
    assert CountTrue(bs[2..]) == Bit(bs[2]) + CountTrue(bs[3..]) by { assert bs[2..][1..] == bs[3..]; }
    assert CountTrue(bs[1..]) == Bit(bs[1]) + CountTrue(bs[2..]) by { assert bs[1..][1..] == bs[2..]; }
  }

  /** `approval_score`: the percentage of criteria met, from 0 when none is
      met to 100 when all are. */
  function ApprovalScore(c: Checklist): (r: real)
    ensures 0.0 <= r <= 100.0
    ensures r == 100.0 <==> forall i :: 0 <= i < 7 ==> Criteria(c)[i]
    ensures r == 0.0 <==> forall i :: 0 <= i < 7 ==> !Criteria(c)[i]
  {
    var n := CountTrue(Criteria(c));
    CountTrueExtremes(Criteria(c));
    (n as real) / 7.0 * 100.0
  }

  /** Meeting one more criterion adds a seventh of the full score. */
  lemma TitleCheckAddsASeventh(c: Checklist)
    requires !c.validTitle
    ensures ApprovalScore(c.(validTitle := true)) == ApprovalScore(c) + 100.0 / 7.0
  {
    CriteriaCount(c);
    CriteriaCount(c.(validTitle := true));
  }

  datatype Approval = Approval(
    id: int,
    listing: int,
    status: string,
    moderator: Option<UserId>,
    moderatorNotes: string,
    rejectionReason: string,
    requiredChanges: string,
    checklist: Checklist,
    reviewedAt: Option<Instant>)

  const ApprovalStatuses: seq<string> := ["pending", "approved", "rejected", "requires_changes"]

  /** The `ACTION_TYPES` a moderation log entry may carry. */
  const ActionTypes: seq<string> := [
    "report_resolved", "report_rejected", "user_banned", "user_unbanned",
    "listing_approved", "listing_rejected", "listing_requires_changes",
    "listing_pending", "listing_status_changed", "content_removed",
    "content_edited", "subscription_created", "subscription_renewed",
    "subscription_canceled", "subscription_expired", "complaint_handled"]

  datatype LogEntry = LogEntry(
    moderator: UserId,
    actionType: string,
    targetUser: Option<UserId>,
    targetListing: Option<int>,
    description: string,
    notes: string)

  const StatusActions: map<string, string> := map[
    "approved" := "listing_approved",
    "rejected" := "listing_rejected",
    "requires_changes" := "listing_requires_changes",
    "pending" := "listing_pending"]

  const FallbackStatusAction := "listing_status_changed"

  /** The log action for an approval entering `status`: `listing_` followed
      by the status for the four approval statuses, the generic change
      action otherwise; always one of the log's action types. */
  function StatusAction(status: string): (r: string)
    ensures status in ApprovalStatuses ==> r == "listing_" + status
    ensures status !in ApprovalStatuses ==> r == FallbackStatusAction
    ensures r in ActionTypes
  {
    assert status in ApprovalStatuses <==> status in StatusActions;
    if status in StatusActions then
      StatusActionListed(status);
      StatusActions[status]
    else
      assert ActionTypes[8] == FallbackStatusAction;
      FallbackStatusAction
  }

  /** Each mapped action is `listing_` followed by the status, and a log
      action type. */
  lemma StatusActionListed(status: string)
    requires status in StatusActions
    ensures StatusActions[status] == "listing_" + status
    ensures StatusActions[status] in ActionTypes
  {
    if status == "approved" {
      assert ActionTypes[4] == StatusActions[status] == "listing_approved";
      assert "listing_" + "approved" == "listing_approved";
    } else if status == "rejected" {
      assert ActionTypes[5] == StatusActions[status] == "listing_rejected";
      assert "listing_" + "rejected" == "listing_rejected";
    } else if status == "requires_changes" {
      assert ActionTypes[6] == StatusActions[status] == "listing_requires_changes";
      assert "listing_" + "requires_changes" == "listing_requires_changes";
    } else {
      assert status == "pending";
      assert ActionTypes[7] == StatusActions[status] == "listing_pending";
      assert "listing_" + "pending" == "listing_pending";
    }
  }

  const StatusLogNotes := "Автоматическое логирование изменения статуса"

  function StatusLogDescription(from: string, to: string, title: string): string {
    "Статус модерации изменен с '" + from + "' на '" + to + "' для объявления: " + title
  }

  /** `ListingApproval.save`. `stored` is the status of the row as the
      database holds it before the save, `None` for a row not yet stored.
      Leaving `pending` stamps `reviewed_at` unless it is already set; a
      change from a stored, non-empty status writes one log entry, whose
      author is the moderator or, failing that, the listing's host. */
  function SaveApproval(a: Approval, stored: Option<string>, host: UserId, title: string, now: Instant)
    : (r: (Approval, Option<LogEntry>))
    ensures r.0.(reviewedAt := a.reviewedAt) == a
    ensures a.reviewedAt.Some? ==> r.0.reviewedAt == a.reviewedAt
    ensures r.0.reviewedAt != a.reviewedAt <==> stored == Some("pending") && a.status != "pending" && a.reviewedAt.None?
    ensures r.0.reviewedAt != a.reviewedAt ==> r.0.reviewedAt == Some(now)
    ensures r.1.Some? <==> stored.Some? && stored.value != "" && stored.value != a.status
    ensures r.1.Some? ==> r.1.value.actionType == StatusAction(a.status)
    ensures r.1.Some? ==> r.1.value.moderator == (if a.moderator.Some? then a.moderator.value else host)
    ensures r.1.Some? ==> r.1.value.targetListing == Some(a.listing) && r.1.value.targetUser == Some(host)
    ensures r.1.Some? ==> r.1.value.notes == StatusLogNotes
  {
    var a' :=
      if stored == Some("pending") && a.status != "pending" && a.reviewedAt.None? then a.(reviewedAt := Some(now))
      else a;
    var log :=
      if stored.Some? && stored.value != "" && stored.value != a.status then
        Some(LogEntry(a.moderator.GetOr(host), StatusAction(a.status), Some(host), Some(a.listing),
                      StatusLogDescription(stored.value, a.status, title), StatusLogNotes))
      else None;
    (a', log)
  }

  /** Saving a row again without changing it is silent and changes nothing. */
  lemma ResaveIsQuiet(a: Approval, stored: Option<string>, host: UserId, title: string, now: Instant, later: Instant)
    ensures var a' := SaveApproval(a, stored, host, title, now).0;
            SaveApproval(a', Some(a'.status), host, title, later) == (a', None)
  {
  }

  // ------------------------------------------------------------ complaints

  datatype ComplaintListing = ComplaintListing(id: int, title: string, host: UserId)

  datatype ComplaintBooking = ComplaintBooking(reference: string, guest: UserId, listing: ComplaintListing)

  datatype Complaint = Complaint(
    id: int,
    complainant: UserId,
    complainantName: string,
    booking: Option<ComplaintBooking>,
    listing: Option<ComplaintListing>,
    reportedUser: Option<UserId>,
    complaintType: string,
    subject: string,
    description: string,
    priority: string,
    status: string,
    assignedModerator: Option<UserId>,
    moderatorResponse: string,
    internalNotes: string,
    createdAt: Instant,
    resolvedAt: Option<Instant>,
    firstResponseAt: Option<Instant>)

  /** The subject a complaint gets unless its author wrote one. */
  const DefaultSubject := "Жалоба"

  /** The statuses that close a complaint. */
  const ClosedStatuses: seq<string> := ["resolved", "dismissed"]

  const PriorityDays: map<string, nat> := map["urgent" := 1, "high" := 3, "medium" := 7, "low" := 14]

  const DefaultPriorityDays: nat := 7

  /** How long a complaint of priority `p` may stay open: the more urgent,
      the shorter, and an unknown priority counts as medium. */
  function MaxOpenDays(p: string): (d: nat)
    ensures p !in PriorityDays ==> d == PriorityDays["medium"]
    ensures d > 0
  {
    if p in PriorityDays then PriorityDays[p] else DefaultPriorityDays
  }

  /** The priorities in order of urgency. */
  lemma PriorityOrder()
    ensures MaxOpenDays("urgent") < MaxOpenDays("high") < MaxOpenDays("medium") < MaxOpenDays("low")
  {
  }

  /** `days_open`: whole days from creation to resolution, or to `now` while
      unresolved. */
  function DaysOpen(c: Complaint, now: Instant): (d: int)
    ensures c.resolvedAt.None? ==> d * SecondsPerDay <= now - c.createdAt < (d + 1) * SecondsPerDay
    ensures c.resolvedAt.Some? ==> d * SecondsPerDay <= c.resolvedAt.value - c.createdAt < (d + 1) * SecondsPerDay
  {
    WholeDays(c.resolvedAt.GetOr(now) - c.createdAt)
  }

  /** `is_overdue`: open longer than its priority allows and not closed. */
  function IsOverdue(c: Complaint, now: Instant): (r: bool)
    ensures r ==> c.status !in ClosedStatuses
    ensures c.status !in ClosedStatuses ==> (r <==> DaysOpen(c, now) > MaxOpenDays(c.priority))
  {
    DaysOpen(c, now) > MaxOpenDays(c.priority) && c.status !in ClosedStatuses
  }

  /** An unresolved complaint that is overdue stays overdue as time passes. */
  lemma OverdueStaysOverdue(c: Complaint, t: Instant, later: Instant)
    requires c.resolvedAt.None? && t <= later && IsOverdue(c, t)
    ensures IsOverdue(c, later)
  {
  }

  /** An open complaint overdue at low priority would be overdue at urgent
      priority too. */
  lemma UrgentIsOverdueFirst(c: Complaint, now: Instant)
    requires c.status !in ClosedStatuses && IsOverdue(c.(priority := "low"), now)
    ensures IsOverdue(c.(priority := "urgent"), now)
  {
  }

  /** The listing a complaint refers to once `save` has filled it from the
      booking. */
  function ComplaintListingOf(c: Complaint): Option<ComplaintListing> {
    if c.booking.Some? && c.listing.None? then Some(c.booking.value.listing) else c.listing
  }

  /** Whom a complaint is about when its author did not say: the other side
      of the booking, or the listing's host, or nobody. */
  function InferReportedUser(c: Complaint): (r: Option<UserId>)
    ensures c.booking.Some? && c.complainant == c.booking.value.guest ==> r == Some(c.booking.value.listing.host)
    ensures c.booking.Some? && c.complainant != c.booking.value.guest && c.complainant == c.booking.value.listing.host
            ==> r == Some(c.booking.value.guest)
    ensures c.booking.None? && c.listing.Some? ==> (r.Some? <==> c.complainant != c.listing.value.host)
    ensures r.Some? && c.booking.None? ==> c.listing.Some? && r == Some(c.listing.value.host)
    ensures c.booking.None? && c.listing.None? ==> r.None?
  {
    match c.booking
    case Some(b) =>
      if c.complainant == b.guest then Some(b.listing.host)
      else if c.complainant == b.listing.host then Some(b.guest)
      else None
    case None =>
      match c.listing
      case Some(l) => if c.complainant != l.host then Some(l.host) else None
      case None => None
  }

  /** The subject generated for a complaint without one of its own. */
  function GeneratedSubject(c: Complaint): (r: string)
    ensures r != "" && r != DefaultSubject
  {
    var s :=
      if c.booking.Some? then "Жалоба на бронирование " + c.booking.value.reference
      else if c.listing.Some? then
        var t := c.listing.value.title;
        "Жалоба на объявление: " + t[..if |t| < 50 then |t| else 50]
      else "Жалоба от " + c.complainantName;
    assert |s| > |DefaultSubject|;
    s
  }

  /** `UserComplaint.save`: fills the listing from the booking, infers the
      reported user, generates a subject, keeps `resolved_at` set exactly
      while the complaint is closed (stamping it on closing) and stamps
      `first_response_at` when a response first appears. */
  function SaveComplaint(c: Complaint, now: Instant): (r: Complaint)
    ensures r.listing == ComplaintListingOf(c)
    ensures c.booking.Some? ==> r.listing.Some?
    ensures c.reportedUser.Some? ==> r.reportedUser == c.reportedUser
    ensures c.reportedUser.None? ==> r.reportedUser == InferReportedUser(c)
    ensures c.subject != "" && c.subject != DefaultSubject ==> r.subject == c.subject
    ensures r.subject != "" && r.subject != DefaultSubject
    ensures r.resolvedAt.Some? <==> c.status in ClosedStatuses
    ensures c.status in ClosedStatuses && c.resolvedAt.Some? ==> r.resolvedAt == c.resolvedAt
    ensures c.status in ClosedStatuses && c.resolvedAt.None? ==> r.resolvedAt == Some(now)
    ensures c.moderatorResponse != "" ==> r.firstResponseAt.Some?
    ensures c.firstResponseAt.Some? ==> r.firstResponseAt == c.firstResponseAt
    ensures r.firstResponseAt != c.firstResponseAt ==> r.firstResponseAt == Some(now)
    ensures r.(listing := c.listing, reportedUser := c.reportedUser, subject := c.subject,
               resolvedAt := c.resolvedAt, firstResponseAt := c.firstResponseAt) == c
  {
    var c1 := c.(listing := ComplaintListingOf(c));
    var c2 := if c1.reportedUser.None? then c1.(reportedUser := InferReportedUser(c)) else c1;
    var c3 := if c2.subject == "" || c2.subject == DefaultSubject then c2.(subject := GeneratedSubject(c)) else c2;
    var c4 :=
      if c3.status in ClosedStatuses && c3.resolvedAt.None? then c3.(resolvedAt := Some(now))
      else if c3.status !in ClosedStatuses then c3.(resolvedAt := None)
      else c3;
    if c4.moderatorResponse != "" && c4.firstResponseAt.None? then c4.(firstResponseAt := Some(now)) else c4
  }

  /** Saving twice is saving once: every field `save` fills stays as the
      first save left it. */
  lemma SaveComplaintIdempotent(c: Complaint, now: Instant, later: Instant)
    ensures SaveComplaint(SaveComplaint(c, now), later) == SaveComplaint(c, now)
  {
    var r := SaveComplaint(c, now);
    assert ComplaintListingOf(r) == r.listing;
    if r.reportedUser.None? {
      assert InferReportedUser(r) == InferReportedUser(c);
    }
  }

  /** A saved complaint that is closed is never overdue. */
  lemma ClosedIsNeverOverdue(c: Complaint, now: Instant, later: Instant)
    requires c.status in ClosedStatuses
    ensures !IsOverdue(SaveComplaint(c, now), later)
  {
  }
}

=== FILE: moderation_signals.dfy ===
/** The listing signal handlers of moderation/signals.py: a new listing gets
    a pending approval record, and every save of a listing re-evaluates the
    five criteria that can be checked automatically. */
module ModerationSignals {
  import opened Wrappers
  import opened Text
  import opened Clock
  import ListingModels
  import opened ModerationModels

  /** The automatic part of `save_listing_approval`: title and description
      long enough once stripped, at least one image, a full address and a
      positive nightly price. The two criteria only a moderator can judge
      are left as they were. */
  function ValidateChecklist(c: Checklist, l: ListingModels.Listing): (r: Checklist)
    ensures r.validTitle <==> |Strip(l.title)| > 5
    ensures r.validDescription <==> |Strip(l.description)| > 20
    ensures r.validImages <==> l.imageUrls.Some? && |l.imageUrls.value| > 0
    ensures r.validAddress <==> l.address != "" && l.city != "" && l.country != ""
    ensures r.appropriatePricing <==> l.pricePerNight > 0.0
    ensures r.followsContentPolicy == c.followsContentPolicy && r.verificationVideo == c.verificationVideo
  {
    c.(validTitle := |l.title| > 0 && |Strip(l.title)| > 5,
       validDescription := |l.description| > 0 && |Strip(l.description)| > 20,
       validImages := l.imageUrls.Some? && |l.imageUrls.value| > 0,
       validAddress := l.address != "" && l.city != "" && l.country != "",
       appropriatePricing := l.pricePerNight != 0.0 && l.pricePerNight > 0.0)
  }

  /** Re-validating an unchanged listing changes nothing. */
  lemma ValidationIsIdempotent(c: Checklist, l: ListingModels.Listing)
    ensures ValidateChecklist(ValidateChecklist(c, l), l) == ValidateChecklist(c, l)
  {
  }

  /** A listing that passes every automatic check scores at least five
      sevenths of the full approval score, whatever the moderator decides
      about the other two criteria. */
  lemma {:induction false} AutomaticChecksScore(c: Checklist, l: ListingModels.Listing)
    requires |Strip(l.title)| > 5 && |Strip(l.description)| > 20
    requires l.imageUrls.Some? && |l.imageUrls.value| > 0
    requires l.address != "" && l.city != "" && l.country != ""
    requires l.pricePerNight > 0.0
    ensures ApprovalScore(ValidateChecklist(c, l)) >= 500.0 / 7.0
  {
    var v := ValidateChecklist(c, l);
    CriteriaCount(v);
    var n := CountTrue(Criteria(v));
    assert n >= 5;
    assert (n as real) / 7.0 * 100.0 >= 5.0 / 7.0 * 100.0;
  }

  /** The approval record created for a new listing before validation. */
  function NewApproval(id: int, listing: int): (a: Approval)
    ensures a.status == "pending" && a.listing == listing
    ensures a.moderator.None? && a.reviewedAt.None?
    ensures ApprovalScore(a.checklist) == 0.0
  {
    var a := Approval(id, listing, "pending", None, "", "", "",
                      Checklist(false, false, false, false, false, false, false), None);
    assert forall i :: 0 <= i < 7 ==> !Criteria(a.checklist)[i];
    a
  }

  /** Both `post_save` handlers for a saved listing, in the order they are
      connected. `record` is the listing's approval record as the handler
      sees it, if any (a new listing has none); `stored` is the status the
      database holds for that record. The two differ when the caller reached
      the listing through its approval and changed the record in memory
      first: the one-to-one accessor then hands the handler the caller's own
      object. `newId` is the key a created record receives. The validator's
      `save` logs a status change exactly as `ListingApproval.save` does. */
  function OnListingSaved(record: Option<Approval>, stored: Option<string>, l: ListingModels.Listing, created: bool,
                          newId: int, now: Instant)
    : (r: (Option<Approval>, Option<LogEntry>))
    requires created ==> record.None?
    ensures r.0.None? <==> !created && record.None?
    ensures created ==> r.0 == Some(NewApproval(newId, l.id).(checklist := ValidateChecklist(NewApproval(newId, l.id).checklist, l)))
    ensures created ==> r.1.None?
    ensures record.Some? ==> r.0.value.checklist == ValidateChecklist(record.value.checklist, l)
    ensures record.Some? ==>
      r.0.value.(checklist := record.value.checklist, reviewedAt := record.value.reviewedAt) == record.value
    ensures r.1.Some? <==> record.Some? && stored.Some? && stored.value != "" && stored.value != record.value.status
    ensures r.1.Some? ==> r.1.value.actionType == StatusAction(record.value.status)
    ensures r.1.Some? ==> r.1.value.moderator == (if record.value.moderator.Some? then record.value.moderator.value else l.host)
    ensures r.1.Some? ==> r.1.value.targetListing == Some(record.value.listing) && r.1.value.targetUser == Some(l.host)
    ensures r.1.Some? ==> r.1.value.notes == StatusLogNotes
  {
    var existing := if created then Some(NewApproval(newId, l.id)) else record;
    var before := if created then Some("pending") else stored;
    match existing
    case None => (None, None)
    case Some(a) =>
      var validated := a.(checklist := ValidateChecklist(a.checklist, l));
      var saved := SaveApproval(validated, before, l.host, l.title, now);
      (Some(saved.0), saved.1)
  }

  /** Saving a listing whose record was read fresh from the database
      validates the checklist and logs nothing. */
  lemma FreshRecordSavesQuietly(a: Approval, l: ListingModels.Listing, now: Instant)
    ensures var r := OnListingSaved(Some(a), Some(a.status), l, false, 0, now);
            r.1.None? && r.0 == Some(a.(checklist := ValidateChecklist(a.checklist, l)))
  {
  }
}

=== FILE: moderation_views.dfy ===
/** The moderation views of moderation/views.py that decide something:
    who moderates, filing a report, processing one (status, ban, removal),
    deciding a listing approval, and the order complaints are listed in.
    A request's form fields are the map `Post`; objects the views fetch
    arrive already looked up; messages, redirects and rendering are left
    out. */
module ModerationViews {
  import opened Wrappers
  import opened Text
  import opened Clock
  import opened UserModels
  import ListingModels
  import opened ModerationModels
  import ModerationSignals

  /** `is_moderator`: the staff or superuser flag. */
  predicate IsModerator(u: User) {
    u.isStaff || u.isSuperuser
  }

  /** Moderation rights come from the two flags alone: the `role` field
      plays no part, so a user whose role is admin but who is neither staff
      nor superuser is an admin to the users app and no moderator here. */
  lemma ModeratorIgnoresRole(u: User, role: string)
    ensures IsModerator(u.(role := role)) == IsModerator(u)
    ensures u.isSuperuser ==> IsModerator(u) && IsAdmin(u)
    ensures u.role == "admin" && !u.isStaff && !u.isSuperuser ==> IsAdmin(u) && !IsModerator(u)
  {
  }

  /** The submitted fields of a POST request. */
  type Post = map<string, string>

  /** `request.POST.get(key)`. */
  function Field(p: Post, key: string): Option<string> {
    if key in p then Some(p[key]) else None
  }

  /** `request.POST.get(key, '')`. */
  function FieldOr(p: Post, key: string): string {
    if key in p then p[key] else ""
  }

  /** Whether a checkbox was ticked: its field holds exactly "on". */
  predicate Ticked(p: Post, key: string) {
    Field(p, key) == Some("on")
  }

  // --------------------------------------------------------------- reports

  datatype Person = Person(id: UserId, username: string)

  datatype ReportedListing = ReportedListing(id: int, title: string, host: Person)

  datatype ReportedReview = ReportedReview(id: int, reviewer: Person, listing: int)

  datatype ReportedMessage = ReportedMessage(id: int, sender: Person, conversation: int, content: string)

  /** The object a report is about, one per content type. */
  datatype Content =
    | ListingContent(listing: ReportedListing)
    | ReviewContent(review: ReportedReview)
    | UserContent(user: Person)
    | MessageContent(message: ReportedMessage)

  const ContentTypes: seq<string> := ["listing", "review", "user", "message"]

  const ReportStatuses: seq<string> := ["pending", "in_progress", "resolved", "rejected"]

  /** The statuses that close a report and stamp `resolved_at`. */
  const ResolvingStatuses: seq<string> := ["resolved", "rejected"]

  /** The content type under which `c` is reported. */
  function KindOf(c: Content): (k: string)
    ensures k in ContentTypes
  {
    match c
    case ListingContent(_) => "listing"
    case ReviewContent(_) => "review"
    case UserContent(_) => "user"
    case MessageContent(_) => "message"
  }

  /** Who is responsible for `c`: the listing's host, the review's author,
      the user, or the message's sender. */
  function AuthorOf(c: Content): Person {
    match c
    case ListingContent(l) => l.host
    case ReviewContent(r) => r.reviewer
    case UserContent(u) => u
    case MessageContent(m) => m.sender
  }

  datatype Report = Report(
    id: int,
    reporter: UserId,
    contentType: string,
    category: Option<int>,
    description: string,
    status: string,
    listing: Option<ReportedListing>,
    review: Option<ReportedReview>,
    reportedUser: Option<Person>,
    message: Option<ReportedMessage>,
    moderatorNotes: string,
    moderator: Option<UserId>,
    actionTaken: string,
    resolvedAt: Option<Instant>)

  /** Whether `r` refers to `c` through the field for its kind, and to
      nothing through the others. */
  predicate PointsAt(r: Report, c: Content) {
    match c
    case ListingContent(l) => r.listing == Some(l) && r.review.None? && r.reportedUser.None? && r.message.None?
    case ReviewContent(v) => r.review == Some(v) && r.listing.None? && r.reportedUser.None? && r.message.None?
    case UserContent(u) => r.reportedUser == Some(u) && r.listing.None? && r.review.None? && r.message.None?
    case MessageContent(m) => r.message == Some(m) && r.listing.None? && r.review.None? && r.reportedUser.None?
  }

  datatype ReportOutcome =
    | InvalidContentType
    | ContentNotFound
    | ReportForm
    | BlankDescription
    | Filed(report: Report)

  /** `report_content`. `content` is the object the URL's type and id name,
      `None` when there is none (a 404); `category` is the category the
      posted id names, `None` when the field is empty, not an integer or
      names no category; `newId` is the key the new report receives. */
  function ReportContent(reporter: UserId, contentType: string, content: Option<Content>, isPost: bool,
                         post: Post, category: Option<int>, newId: int): (r: ReportOutcome)
    requires content.Some? ==> KindOf(content.value) == contentType
    ensures r == InvalidContentType <==> contentType !in ContentTypes
    ensures r == ContentNotFound <==> contentType in ContentTypes && content.None?
    ensures r.Filed? <==> contentType in ContentTypes && content.Some? && isPost && Strip(FieldOr(post, "description")) != ""
    ensures r == BlankDescription <==> contentType in ContentTypes && content.Some? && isPost && Strip(FieldOr(post, "description")) == ""
    ensures r.Filed? ==> r.report.description == Strip(FieldOr(post, "description"))
    ensures r.Filed? ==> r.report.reporter == reporter && r.report.contentType == contentType && r.report.category == category
    ensures r.Filed? ==> r.report.status == "pending" && PointsAt(r.report, content.value)
    ensures r.Filed? ==> r.report.moderator.None? && r.report.actionTaken == "" && r.report.resolvedAt.None?
  {
    if contentType !in ContentTypes then InvalidContentType
    else match content
      case None => ContentNotFound
      case Some(c) =>
        if !isPost then ReportForm
        else
          var description := Strip(FieldOr(post, "description"));
          if description == "" then BlankDescription
          else
            var blank := Report(newId, reporter, contentType, category, description, "pending",
                                None, None, None, None, "", None, "", None);
            Filed(match c
              case ListingContent(l) => blank.(listing := Some(l))
              case ReviewContent(v) => blank.(review := Some(v))
              case UserContent(u) => blank.(reportedUser := Some(u))
              case MessageContent(m) => blank.(message := Some(m)))
  }

  /** A description of nothing but whitespace is turned away. */
  lemma BlankDescriptionFilesNothing(reporter: UserId, c: Content, post: Post, category: Option<int>, newId: int)
    requires AllSpace(FieldOr(post, "description"))
    ensures ReportContent(reporter, KindOf(c), Some(c), true, post, category, newId) == BlankDescription
  {
    StripEmptyIffBlank(FieldOr(post, "description"));
  }

  /** The status part of `report_detail`: a known status is recorded with
      the moderator, the stripped notes and action, and `resolved_at` is
      stamped for a closing status and cleared otherwise; any other status
      leaves the report as it was. */
  function UpdateStatus(rep: Report, moderator: UserId, post: Post, now: Instant): (r: Report)
    ensures Field(post, "status").None? || Field(post, "status").value !in ReportStatuses ==> r == rep
    ensures Field(post, "status").Some? && Field(post, "status").value in ReportStatuses ==>
      && r.status == post["status"]
      && r.moderator == Some(moderator)
      && r.moderatorNotes == Strip(FieldOr(post, "moderator_notes"))
      && r.actionTaken == Strip(FieldOr(post, "action_taken"))
      && (r.resolvedAt.Some? <==> r.status in ResolvingStatuses)
      && (r.resolvedAt.Some? ==> r.resolvedAt == Some(now))
    ensures SameSubject(r, rep)
  {
    match Field(post, "status")
    case Some(status) =>
      if status != "" && status in ReportStatuses then
        rep.(status := status, moderator := Some(moderator),
             moderatorNotes := Strip(FieldOr(post, "moderator_notes")),
             actionTaken := Strip(FieldOr(post, "action_taken")),
             resolvedAt := if status in ResolvingStatuses then Some(now) else None)
      else rep
    case None => rep
  }

  /** Whom a ban requested from a report falls on. `Broken` is a report
      whose reviewed object has been deleted since: reading its author fails
      and the request ends in a server error. */
  datatype BanTarget = Target(person: Person) | NoTarget | Broken

  function BanTargetOf(rep: Report): (r: BanTarget)
    ensures r.Broken? <==> ((rep.contentType == "review" && rep.review.None?)
      || (rep.contentType == "listing" && rep.listing.None?) || (rep.contentType == "message" && rep.message.None?))
    ensures r.NoTarget? <==> rep.contentType !in ContentTypes || (rep.contentType == "user" && rep.reportedUser.None?)
  {
    if rep.contentType == "user" then
      if rep.reportedUser.Some? then Target(rep.reportedUser.value) else NoTarget
    else if rep.contentType == "review" then
      if rep.review.Some? then Target(rep.review.value.reviewer) else Broken
    else if rep.contentType == "listing" then
      if rep.listing.Some? then Target(rep.listing.value.host) else Broken
    else if rep.contentType == "message" then
      if rep.message.Some? then Target(rep.message.value.sender) else Broken
    else NoTarget
  }

  /** Two reports about the same thing, whatever their handling. */
  predicate SameSubject(a: Report, b: Report) {
    a.id == b.id && a.reporter == b.reporter && a.contentType == b.contentType && a.category == b.category
    && a.description == b.description && a.listing == b.listing && a.review == b.review
    && a.reportedUser == b.reportedUser && a.message == b.message
  }

  /** A freshly filed report bans the one responsible for its content, and
      updating its status does not change that. */
  lemma FiledReportBansAuthor(reporter: UserId, c: Content, post: Post, category: Option<int>, newId: int,
                              moderator: UserId, update: Post, now: Instant)
    requires !AllSpace(FieldOr(post, "description"))
    ensures var rep := ReportContent(reporter, KindOf(c), Some(c), true, post, category, newId).report;
            BanTargetOf(rep) == Target(AuthorOf(c))
            && BanTargetOf(UpdateStatus(rep, moderator, update, now)) == Target(AuthorOf(c))
  {
    StripEmptyIffBlank(FieldOr(post, "description"));
    var rep := ReportContent(reporter, KindOf(c), Some(c), true, post, category, newId).report;
    PointsAtTarget(rep, c);
    SameSubjectSameTarget(UpdateStatus(rep, moderator, update, now), rep);
  }

  /** A report pointing at `c` under `c`'s kind bans `c`'s author. */
  lemma PointsAtTarget(rep: Report, c: Content)
    requires PointsAt(rep, c) && rep.contentType == KindOf(c)
    ensures BanTargetOf(rep) == Target(AuthorOf(c))
  {
    match c
    case ListingContent(_) =>
    case ReviewContent(_) =>
    case UserContent(_) =>
    case MessageContent(_) =>
  }

  /** The ban target depends only on what a report is about. */
  lemma SameSubjectSameTarget(a: Report, b: Report)
    requires SameSubject(a, b)
    ensures BanTargetOf(a) == BanTargetOf(b)
  {
  }

  /** How a ban posted from a report ends. */
  datatype BanEnd = NoEnd | EndsAt(at: Instant) | Overflow

  /** The end of a ban: none for a permanent one; otherwise `now` plus the
      posted number of days when that is an integer, and none when it is
      missing, empty or not an integer. An end outside the range a
      `datetime` can hold raises `OverflowError`, which the view does not
      catch. */
  function BanUntil(isPermanent: bool, days: Option<string>, now: Instant): (r: BanEnd)
    ensures r.NoEnd? <==> isPermanent || days.None? || PyInt(days.value).None?
    ensures !r.NoEnd? ==>
      var end := now + PyInt(days.value).value * SecondsPerDay;
      (r.EndsAt? <==> InDatetimeRange(end)) && (r.EndsAt? ==> r.at == end)
  {
    if !isPermanent && days.Some? && days.value != "" then
      match PyInt(days.value)
      case Some(n) => if InDatetimeRange(now + n * SecondsPerDay) then EndsAt(now + n * SecondsPerDay) else Overflow
      case None => NoEnd
    else
      StripUnpadded("");
      NoEnd
  }

  /** The `banned_until` a ban end stores. */
  function EndOf(e: BanEnd): (r: Option<Instant>)
    ensures r.Some? <==> e.EndsAt?
    ensures r.Some? ==> r.value == e.at
  {
    if e.EndsAt? then Some(e.at) else None
  }

  /** A temporary ban of a positive number of days holds for exactly that
      many days. */
  lemma TemporaryBanLasts(user: UserId, reason: string, bannedBy: Option<UserId>, notes: string, n: nat, now: Instant, t: Instant)
    requires n > 0 && InDatetimeRange(now + n * SecondsPerDay)
    ensures var b := Ban(user, reason, EndOf(BanUntil(false, Some(IntToString(n)), now)), false, bannedBy, notes);
            BanIsActive(b, t) <==> t < now + n * SecondsPerDay
  {
    PyIntRoundTrip(n);
  }

  /** More days than the whole `datetime` range holds always overflow. */
  lemma FarBanOverflows(now: Instant, n: nat)
    requires InDatetimeRange(now) && n > 3652059
    ensures BanUntil(false, Some(IntToString(n)), now).Overflow?
  {
    PyIntRoundTrip(n);
  }

  /** A temporary ban whose length is missing or not an integer records a
      ban that never holds. */
  lemma UnparsableBanIsInert(user: UserId, reason: string, bannedBy: Option<UserId>, notes: string,
                             days: Option<string>, now: Instant, t: Instant)
    requires days.None? || PyInt(days.value).None?
    ensures !BanIsActive(Ban(user, reason, EndOf(BanUntil(false, days, now)), false, bannedBy, notes), t)
  {
  }

  /** Python's `str` of an optional text. */
  function OptionText(s: Option<string>): string {
    if s.Some? then s.value else "None"
  }

  datatype Removal =
    | ReviewDeleted(review: int)
    | MessageMasked(message: int)
    | ListingDeactivated(listing: int)
    | NothingRemoved

  const RemovedMessageText := "[This message has been removed by a moderator]"

  /** The `remove_content` action: deletes the review, masks the message
      (its text becomes `RemovedMessageText`) or deactivates the listing the
      report is about, and notes what it did. A deleted review is no longer
      referenced by the report. */
  function RemoveContent(rep: Report): (r: (Report, Removal))
    ensures r.1.ReviewDeleted? <==> rep.contentType == "review" && rep.review.Some?
    ensures r.1.MessageMasked? <==> rep.contentType == "message" && rep.message.Some?
    ensures r.1.ListingDeactivated? <==> rep.contentType == "listing" && rep.listing.Some?
    ensures r.1.ReviewDeleted? ==> r.1.review == rep.review.value.id && r.0.review.None?
    ensures r.1.MessageMasked? ==> r.1.message == rep.message.value.id
    ensures r.1.ListingDeactivated? ==> r.1.listing == rep.listing.value.id
    ensures r.1.NothingRemoved? <==> r.0 == rep
    ensures rep.actionTaken <= r.0.actionTaken
    ensures r.0.(actionTaken := rep.actionTaken, review := rep.review) == rep
  {
    if rep.contentType == "review" && rep.review.Some? then
      (rep.(review := None, actionTaken := rep.actionTaken + "\nRemoved the reported review"),
       ReviewDeleted(rep.review.value.id))
    else if rep.contentType == "message" && rep.message.Some? then
      (rep.(actionTaken := rep.actionTaken + "\nModerated the reported message"), MessageMasked(rep.message.value.id))
    else if rep.contentType == "listing" && rep.listing.Some? then
      (rep.(actionTaken := rep.actionTaken + "\nDeactivated the reported listing"), ListingDeactivated(rep.listing.value.id))
    else (rep, NothingRemoved)
  }

  datatype DetailOutcome =
    | Processed(report: Report, bans: map<UserId, Ban>, removal: Removal)
    | DetailCrashed(report: Report)

  /** The ban record `update_or_create` writes for `target`, ending at `until`. */
  function BanRecord(rep: Report, target: Person, moderator: UserId, post: Post, until: Option<Instant>): (b: Ban)
    ensures b.user == target.id && b.bannedBy == Some(moderator)
    ensures b.isPermanent <==> Ticked(post, "is_permanent")
    ensures b.bannedUntil == until
    ensures b.reason == Strip(FieldOr(post, "ban_reason"))
  {
    var permanent := Ticked(post, "is_permanent");
    Ban(target.id, Strip(FieldOr(post, "ban_reason")), until,
        permanent, Some(moderator), "Ban issued from report #" + IntToString(rep.id))
  }

  /** The end a ban posted in `post` gets. */
  function PostedBanEnd(post: Post, now: Instant): BanEnd {
    BanUntil(Ticked(post, "is_permanent"), Field(post, "ban_days"), now)
  }

  /** The `ban_user` action: the one responsible for the reported content is
      banned, replacing any earlier ban of theirs, and the report notes it;
      no one is banned when there is no one to ban. The view fails, keeping
      the report as it was already saved, when the report's object is gone
      or the ban's end overflows. */
  function BanAction(rep: Report, moderator: UserId, post: Post, bans: map<UserId, Ban>, now: Instant)
    : (r: DetailOutcome)
    ensures r.DetailCrashed? <==> BanTargetOf(rep).Broken? || (BanTargetOf(rep).Target? && PostedBanEnd(post, now).Overflow?)
    ensures r.DetailCrashed? ==> r.report == rep
    ensures BanTargetOf(rep).NoTarget? ==> r == Processed(rep, bans, NothingRemoved)
    ensures BanTargetOf(rep).Target? && !PostedBanEnd(post, now).Overflow? ==>
      && r.Processed?
      && r.bans == bans[BanTargetOf(rep).person.id :=
                          BanRecord(rep, BanTargetOf(rep).person, moderator, post, EndOf(PostedBanEnd(post, now)))]
      && r.removal == NothingRemoved
      && rep.actionTaken < r.report.actionTaken
      && r.report.(actionTaken := rep.actionTaken) == rep
  {
    match BanTargetOf(rep)
    case Broken => DetailCrashed(rep)
    case NoTarget => Processed(rep, bans, NothingRemoved)
    case Target(p) =>
      var end := PostedBanEnd(post, now);
      if end.Overflow? then DetailCrashed(rep)
      else
        var days := if Ticked(post, "is_permanent") then "permanently"
                    else "for " + OptionText(Field(post, "ban_days")) + " days";
        var note := "\nBanned user " + p.username + " " + days;
        Processed(rep.(actionTaken := rep.actionTaken + note), bans[p.id := BanRecord(rep, p, moderator, post, EndOf(end))],
                  NothingRemoved)
  }

  /** Updating the status never changes whom a ban would fall on. */
  lemma UpdateKeepsBanTarget(rep: Report, moderator: UserId, post: Post, now: Instant)
    ensures BanTargetOf(UpdateStatus(rep, moderator, post, now)) == BanTargetOf(rep)
  {
    SameSubjectSameTarget(UpdateStatus(rep, moderator, post, now), rep);
  }

  /** A POST to `report_detail`: the status update, then the requested
      action. It fails only when a ban is asked for on a report whose
      object is gone or with an end that overflows, and the status update
      is stored even then; only the banned user's record changes, and only a
      removal request removes anything. */
  function ReportDetailPost(rep: Report, moderator: UserId, post: Post, bans: map<UserId, Ban>, now: Instant)
    : (r: DetailOutcome)
    ensures r.DetailCrashed? <==>
      && Field(post, "action_type") == Some("ban_user")
      && (BanTargetOf(rep).Broken? || (BanTargetOf(rep).Target? && PostedBanEnd(post, now).Overflow?))
    ensures r.DetailCrashed? ==> r.report == UpdateStatus(rep, moderator, post, now)
    ensures Field(post, "action_type") == Some("ban_user") ==>
      r == BanAction(UpdateStatus(rep, moderator, post, now), moderator, post, bans, now)
    ensures Field(post, "action_type") == Some("remove_content") ==>
      var (report, removal) := RemoveContent(UpdateStatus(rep, moderator, post, now));
      r == Processed(report, bans, removal)
    ensures Field(post, "action_type") != Some("ban_user") ==> r.Processed? && r.bans == bans
    ensures r.Processed? && r.removal != NothingRemoved ==> Field(post, "action_type") == Some("remove_content")
  {
    var u := UpdateStatus(rep, moderator, post, now);
    UpdateKeepsBanTarget(rep, moderator, post, now);
    var action := Field(post, "action_type");
    if action == Some("ban_user") then BanAction(u, moderator, post, bans, now)
    else if action == Some("remove_content") then
      var (u', removal) := RemoveContent(u);
      Processed(u', bans, removal)
    else Processed(u, bans, NothingRemoved)
  }

  /** Removing a reported review and then asking to ban its author from the
      same report fails: the report no longer reaches the review. */
  lemma RemovedReviewCannotBeBanned(rep: Report, moderator: UserId, removePost: Post, banPost: Post,
                                    bans: map<UserId, Ban>, now: Instant, later: Instant)
    requires rep.contentType == "review" && rep.review.Some?
    requires Field(removePost, "action_type") == Some("remove_content")
    requires Field(banPost, "action_type") == Some("ban_user")
    ensures var first := ReportDetailPost(rep, moderator, removePost, bans, now);
            first.Processed? && first.removal.ReviewDeleted?
            && ReportDetailPost(first.report, moderator, banPost, first.bans, later).DetailCrashed?
  {
  }

  // ------------------------------------------------------------- approvals

  datatype ApprovalAction = Approve | Reject | RequireChanges

  /** The posted action, when it is one of the three the view acts on. */
  function ParseAction(post: Post): (r: Option<ApprovalAction>)
    ensures r == Some(Approve) <==> Field(post, "action") == Some("approve")
    ensures r == Some(Reject) <==> Field(post, "action") == Some("reject")
    ensures r == Some(RequireChanges) <==> Field(post, "action") == Some("require_changes")
  {
    match Field(post, "action")
    case None => None
    case Some(action) =>
      if action == "approve" then Some(Approve)
      else if action == "reject" then Some(Reject)
      else if action == "require_changes" then Some(RequireChanges)
      else None
  }

  /** The status each action leads to. */
  function ActionStatus(action: ApprovalAction): (s: string)
    ensures s in ApprovalStatuses && s != "pending"
  {
    match action
    case Approve => "approved"
    case Reject => "rejected"
    case RequireChanges => "requires_changes"
  }

  /** The kind of log entry the view writes for an action: the one a
      change to the action's status carries. */
  function ActionLogType(action: ApprovalAction): (t: string)
    ensures t == StatusAction(ActionStatus(action))
  {
    match action
    case Approve => assert "approved" in ApprovalStatuses; assert "listing_" + "approved" == "listing_approved"; "listing_approved"
    case Reject => assert "rejected" in ApprovalStatuses; assert "listing_" + "rejected" == "listing_rejected"; "listing_rejected"
    case RequireChanges =>
      assert "requires_changes" in ApprovalStatuses;
      assert "listing_" + "requires_changes" == "listing_requires_changes";
      "listing_requires_changes"
  }

  /** The checklist as a moderator ticks it: six criteria from the form, the
      verification-video criterion as it was. */
  function PostedChecklist(c: Checklist, post: Post): (r: Checklist)
    ensures r.verificationVideo == c.verificationVideo
    ensures r.validTitle <==> Ticked(post, "has_valid_title")
    ensures r.validDescription <==> Ticked(post, "has_valid_description")
    ensures r.validImages <==> Ticked(post, "has_valid_images")
    ensures r.validAddress <==> Ticked(post, "has_valid_address")
    ensures r.appropriatePricing <==> Ticked(post, "has_appropriate_pricing")
    ensures r.followsContentPolicy <==> Ticked(post, "follows_content_policy")
  {
    Checklist(Ticked(post, "has_valid_title"), Ticked(post, "has_valid_description"),
              Ticked(post, "has_valid_images"), Ticked(post, "has_valid_address"),
              Ticked(post, "has_appropriate_pricing"), Ticked(post, "follows_content_policy"),
              c.verificationVideo)
  }

  /** The approval form as the view reads it: the action, the three text
      fields stripped, and the ticked checklist. */
  datatype ApprovalForm = ApprovalForm(action: Option<ApprovalAction>, notes: string, reason: string, changes: string,
                                       ticks: Checklist)

  function ReadApprovalForm(post: Post, c: Checklist): (f: ApprovalForm)
    ensures f.action == ParseAction(post) && f.ticks == PostedChecklist(c, post)
    ensures f.notes == Strip(FieldOr(post, "moderator_notes"))
    ensures f.reason == Strip(FieldOr(post, "rejection_reason"))
    ensures f.changes == Strip(FieldOr(post, "required_changes"))
  {
    ApprovalForm(ParseAction(post), Strip(FieldOr(post, "moderator_notes")), Strip(FieldOr(post, "rejection_reason")),
                 Strip(FieldOr(post, "required_changes")), PostedChecklist(c, post))
  }

  /** What the view records before the action decides anything. */
  function Review(a: Approval, moderator: UserId, f: ApprovalForm, now: Instant): (r: Approval)
    ensures r.moderator == Some(moderator) && r.reviewedAt == Some(now)
    ensures r.moderatorNotes == f.notes && r.checklist == f.ticks
    ensures r.listing == a.listing && r.status == a.status
  {
    a.(moderator := Some(moderator), moderatorNotes := f.notes, reviewedAt := Some(now), checklist := f.ticks)
  }

  /** An approval after a decision, the listing's two flags, and the log
      entries written, in order. */
  datatype Decision = Decision(approval: Approval, isApproved: bool, isActive: bool, logs: seq<LogEntry>)

  /** The listing as the decision sees it. */
  datatype Subject = Subject(id: int, host: UserId, title: string, isActive: bool)

  function SubjectOf(l: ListingModels.Listing): (s: Subject)
    ensures s.id == l.id && s.host == l.host && s.title == l.title && s.isActive == l.isActive
  {
    Subject(l.id, l.host, l.title, l.isActive)
  }

  /** The view's own log entry for an approval or a rejection. */
  function ViewLog(moderator: UserId, actionType: string, s: Subject, description: string, notes: string): (e: LogEntry)
    ensures e.actionType == actionType && e.moderator == moderator
    ensures e.targetListing == Some(s.id) && e.targetUser == Some(s.host)
  {
    LogEntry(moderator, actionType, Some(s.host), Some(s.id), description, notes)
  }

  /** `approve`: the listing becomes approved and active, and the view logs it. */
  function Approved(a: Approval, s: Subject, moderator: UserId, notes: string): (r: Decision)
    ensures r.approval.(status := a.status) == a && r.approval.status == ActionStatus(Approve)
    ensures r.isApproved && r.isActive
    ensures |r.logs| == 1 && r.logs[0].actionType == StatusAction(ActionStatus(Approve))
    ensures AllAbout(r.logs, s.id, s.host)
  {
    Decision(a.(status := "approved"), true, true,
      [ViewLog(moderator, ActionLogType(Approve), s, "Approved listing: " + s.title, notes)])
  }

  /** `reject`: the stripped reason is recorded, the listing is neither
      approved nor active, and the view logs it with the reason. */
  function Rejected(a: Approval, s: Subject, moderator: UserId, reason: string): (r: Decision)
    ensures r.approval.(status := a.status, rejectionReason := a.rejectionReason) == a
    ensures r.approval.status == ActionStatus(Reject)
    ensures r.approval.rejectionReason == reason
    ensures !r.isApproved && !r.isActive
    ensures |r.logs| == 1 && r.logs[0].actionType == StatusAction(ActionStatus(Reject))
    ensures AllAbout(r.logs, s.id, s.host)
  {
    Decision(a.(status := "rejected", rejectionReason := reason), false, false,
      [ViewLog(moderator, ActionLogType(Reject), s, "Rejected listing: " + s.title, "Reason: " + reason)])
  }

  /** `require_changes`: the stripped list of changes is recorded and only
      the approval flag is withdrawn; the view writes no entry itself. */
  function ChangesRequired(a: Approval, s: Subject, changes: string): (r: Decision)
    ensures r.approval.(status := a.status, requiredChanges := a.requiredChanges) == a
    ensures r.approval.status == ActionStatus(RequireChanges)
    ensures r.approval.requiredChanges == changes
    ensures !r.isApproved && r.isActive == s.isActive
    ensures r.logs == []
  {
    Decision(a.(status := "requires_changes", requiredChanges := changes), false, s.isActive, [])
  }

  /** The effect of each action: approving makes the listing approved and
      active, rejecting makes it neither, requiring changes withdraws only
      the approval; the view logs approvals and rejections itself. */
  function Decide(a: Approval, action: ApprovalAction, s: Subject, moderator: UserId, f: ApprovalForm)
    : (r: Decision)
    ensures r.approval.status == ActionStatus(action)
    ensures r.approval.listing == a.listing && r.approval.moderator == a.moderator && r.approval.reviewedAt == a.reviewedAt
    ensures r.approval.moderatorNotes == a.moderatorNotes && r.approval.checklist == a.checklist
    ensures action == Reject ==> r.approval.rejectionReason == f.reason
    ensures action == RequireChanges ==> r.approval.requiredChanges == f.changes
    ensures action == Approve ==> r.isApproved && r.isActive
    ensures action == Reject ==> !r.isApproved && !r.isActive
    ensures action == RequireChanges ==> !r.isApproved && r.isActive == s.isActive
    ensures action == RequireChanges <==> r.logs == []
    ensures action != RequireChanges ==> |r.logs| == 1 && r.logs[0].actionType == StatusAction(ActionStatus(action))
    ensures AllAbout(r.logs, s.id, s.host)
  {
    match action
    case Approve => Approved(a, s, moderator, f.notes)
    case Reject => Rejected(a, s, moderator, f.reason)
    case RequireChanges => ChangesRequired(a, s, f.changes)
  }

  /** Every entry of `logs` targets the listing and its host. */
  predicate AllAbout(logs: seq<LogEntry>, listing: int, host: UserId)
  {
    forall i :: 0 <= i < |logs| ==> logs[i].targetListing == Some(listing) && logs[i].targetUser == Some(host)
  }

  /** `logs` followed by `entry` when there is one. */
  function AppendLog(logs: seq<LogEntry>, entry: Option<LogEntry>): (r: seq<LogEntry>)
    ensures |r| == |logs| + (if entry.Some? then 1 else 0)
    ensures forall i :: 0 <= i < |logs| ==> r[i] == logs[i]
    ensures entry.Some? ==> r[|logs|] == entry.value
  {
    if entry.Some? then logs + [entry.value] else logs
  }

  /** Appending an entry about the same listing and host keeps every entry
      about them. */
  lemma AppendKeepsAllAbout(logs: seq<LogEntry>, entry: Option<LogEntry>, listing: int, host: UserId)
    requires AllAbout(logs, listing, host)
    requires entry.Some? ==> entry.value.targetListing == Some(listing) && entry.value.targetUser == Some(host)
    ensures AllAbout(AppendLog(logs, entry), listing, host)
  {
    var r := AppendLog(logs, entry);
    forall i | 0 <= i < |r|
      ensures r[i].targetListing == Some(listing) && r[i].targetUser == Some(host)
    {
      if i < |logs| { assert r[i] == logs[i]; } else { assert r[i] == entry.value; }
    }
  }

  /** Entries about the listing and its host, followed by more such entries. */
  lemma AllAboutConcat(xs: seq<LogEntry>, ys: seq<LogEntry>, listing: int, host: UserId)
    requires AllAbout(xs, listing, host) && AllAbout(ys, listing, host)
    ensures AllAbout(xs + ys, listing, host)
  {
    forall i | 0 <= i < |xs + ys|
      ensures (xs + ys)[i].targetListing == Some(listing) && (xs + ys)[i].targetUser == Some(host)
    {
      if i < |xs| { assert (xs + ys)[i] == xs[i]; } else { assert (xs + ys)[i] == ys[i - |xs|]; }
    }
  }

  /** What saving the listing and then the approval adds to a decision:
      the `post_save` validator runs on the view's own approval object,
      overwriting the five automatic criteria and saving the record, which
      logs a change from the `stored` status. The view's own entries follow,
      and its final `save` finds the status already stored and logs nothing.
      The validator reads only fields the view leaves alone, so it sees `l`. */
  function AfterListingSave(d: Decision, stored: string, l: ListingModels.Listing, now: Instant): (r: Decision)
    requires d.approval.listing == l.id && d.approval.reviewedAt.Some?
    requires AllAbout(d.logs, l.id, l.host)
    ensures r.approval == d.approval.(checklist := ModerationSignals.ValidateChecklist(d.approval.checklist, l))
    ensures r.isApproved == d.isApproved && r.isActive == d.isActive
    ensures |r.logs| == (if stored != "" && stored != d.approval.status then 1 else 0) + |d.logs|
    ensures r.logs[|r.logs| - |d.logs|..] == d.logs
    ensures stored != "" && stored != d.approval.status ==>
      && r.logs[0].actionType == StatusAction(d.approval.status) && r.logs[0].notes == StatusLogNotes
      && r.logs[0].moderator == (if d.approval.moderator.Some? then d.approval.moderator.value else l.host)
    ensures AllAbout(r.logs, l.id, l.host)
  {
    var signalled := ModerationSignals.OnListingSaved(Some(d.approval), Some(stored), l, false, 0, now);
    var validated := signalled.0.value;
    var first := AppendLog([], signalled.1);
    AppendKeepsAllAbout([], signalled.1, l.id, l.host);
    AllAboutConcat(first, d.logs, l.id, l.host);
    var final := SaveApproval(validated, Some(validated.status), l.host, l.title, now);
    assert final == (validated, None);
    assert (first + d.logs)[|first|..] == d.logs;
    Decision(final.0, d.isApproved, d.isActive, first + d.logs)
  }

  /** One of the three actions taken: the review is recorded, the action
      decides, and the saves that follow validate the checklist and log the
      status change before the view's own entry. */
  function ApplyDecision(a: Approval, l: ListingModels.Listing, action: ApprovalAction, moderator: UserId, f: ApprovalForm,
                         now: Instant)
    : (r: Decision)
    requires a.listing == l.id
    ensures r.approval.status == ActionStatus(action)
    ensures r.approval.moderator == Some(moderator) && r.approval.reviewedAt == Some(now)
    ensures r.approval.moderatorNotes == f.notes
    ensures r.approval.checklist == ModerationSignals.ValidateChecklist(f.ticks, l)
    ensures action == Reject ==> r.approval.rejectionReason == f.reason
    ensures action == RequireChanges ==> r.approval.requiredChanges == f.changes
    ensures action == Approve ==> r.isApproved && r.isActive
    ensures action == Reject ==> !r.isApproved && !r.isActive
    ensures action == RequireChanges ==> !r.isApproved && r.isActive == l.isActive
    ensures |r.logs| == (if a.status != "" && a.status != ActionStatus(action) then 1 else 0)
                        + (if action == RequireChanges then 0 else 1)
    ensures AllAbout(r.logs, l.id, l.host)
  {
    AfterListingSave(Decide(Review(a, moderator, f, now), action, SubjectOf(l), moderator, f), a.status, l, now)
  }

  /** The order of the entries a decision logs: the status change the
      validator's save writes comes first, the view's own entry last. */
  lemma ApplyDecisionLogOrder(a: Approval, l: ListingModels.Listing, action: ApprovalAction, moderator: UserId,
                              f: ApprovalForm, now: Instant)
    requires a.listing == l.id
    ensures var r := ApplyDecision(a, l, action, moderator, f, now);
      && (a.status != "" && a.status != ActionStatus(action) ==>
            r.logs[0].actionType == StatusAction(ActionStatus(action)) && r.logs[0].notes == StatusLogNotes
            && r.logs[0].moderator == moderator)
      && (action != RequireChanges ==> r.logs[|r.logs| - 1].actionType == StatusAction(ActionStatus(action)))
      && (action == Approve ==> r.logs[|r.logs| - 1].description == "Approved listing: " + l.title)
      && (action == Reject ==> r.logs[|r.logs| - 1].notes == "Reason: " + f.reason)
  {
    var d := Decide(Review(a, moderator, f, now), action, SubjectOf(l), moderator, f);
    var r := AfterListingSave(d, a.status, l, now);
    assert r == ApplyDecision(a, l, action, moderator, f, now);
    if action != RequireChanges {
      assert r.logs[|r.logs| - |d.logs|..] == d.logs;
      assert r.logs[|r.logs| - 1] == d.logs[0];
    }
  }

  datatype ApprovalOutcome = ApprovalOutcome(approval: Approval, listing: ListingModels.Listing, logs: seq<LogEntry>)

  /** A POST to `listing_approval_detail`: one of the three actions is
      applied and only the listing's two flags change; any other action
      changes nothing and logs nothing. */
  function ApprovalDetailPost(a: Approval, l: ListingModels.Listing, moderator: UserId, post: Post, now: Instant)
    : (r: ApprovalOutcome)
    requires a.listing == l.id
    ensures ParseAction(post).None? ==> r == ApprovalOutcome(a, l, [])
    ensures ParseAction(post).Some? ==>
      var d := ApplyDecision(a, l, ParseAction(post).value, moderator, ReadApprovalForm(post, a.checklist), now);
      r.approval == d.approval && r.logs == d.logs && r.listing.isApproved == d.isApproved && r.listing.isActive == d.isActive
    ensures r.listing.(isApproved := l.isApproved, isActive := l.isActive) == l
  {
    var f := ReadApprovalForm(post, a.checklist);
    match f.action
    case None => ApprovalOutcome(a, l, [])
    case Some(action) =>
      var d := ApplyDecision(a, l, action, moderator, f, now);
      ApprovalOutcome(d.approval, l.(isApproved := d.isApproved, isActive := d.isActive), d.logs)
  }

  /** Whatever the moderator ticks, a decision stores the listing's own
      values for the automatic criteria; of the form's ticks only the
      content-policy one is kept. */
  lemma DecisionStoresValidatedCriteria(a: Approval, l: ListingModels.Listing, moderator: UserId, post: Post, now: Instant)
    requires a.listing == l.id && ParseAction(post).Some?
    ensures var c := ApprovalDetailPost(a, l, moderator, post, now).approval.checklist;
      && (c.validTitle <==> |Strip(l.title)| > 5)
      && (c.validImages <==> l.imageUrls.Some? && |l.imageUrls.value| > 0)
      && (c.appropriatePricing <==> l.pricePerNight > 0.0)
      && (c.followsContentPolicy <==> Ticked(post, "follows_content_policy"))
      && c.verificationVideo == a.checklist.verificationVideo
  {
    var f := ReadApprovalForm(post, a.checklist);
    var d := ApplyDecision(a, l, ParseAction(post).value, moderator, f, now);
    assert d.approval.checklist == ModerationSignals.ValidateChecklist(PostedChecklist(a.checklist, post), l);
  }

  /** Approving a pending listing writes two log entries of the same kind:
      the view's own and the one the status change triggers. */
  lemma ApprovingPendingLogsTwice(a: Approval, l: ListingModels.Listing, moderator: UserId, post: Post, now: Instant)
    requires a.listing == l.id && a.status == "pending"
    requires Field(post, "action") == Some("approve")
    ensures var r := ApprovalDetailPost(a, l, moderator, post, now);
            |r.logs| == 2 && r.logs[0].actionType == r.logs[1].actionType == "listing_approved"
  {
    var f := ReadApprovalForm(post, a.checklist);
    assert f.action == Some(Approve);
    var d := ApplyDecision(a, l, Approve, moderator, f, now);
    assert d.approval.status == "approved";
    assert StatusAction("approved") == "listing_approved" by {
      assert "approved" in ApprovalStatuses;
      assert "listing_" + "approved" == "listing_approved";
    }
  }

  // ------------------------------------------------------------ complaints

  /** The rank `complaint_list` sorts by: urgent first, an unknown priority
      last. */
  function PriorityRank(p: string): (n: nat)
    ensures 1 <= n <= 5
    ensures n == 5 <==> p !in PriorityDays
    ensures n == 1 <==> p == "urgent"
  {
    if p == "urgent" then 1 else if p == "high" then 2 else if p == "medium" then 3 else if p == "low" then 4 else 5
  }

  /** The sort key: rank, then the newer complaint first. */
  predicate Precedes(a: Complaint, b: Complaint) {
    PriorityRank(a.priority) < PriorityRank(b.priority)
    || (PriorityRank(a.priority) == PriorityRank(b.priority) && a.createdAt >= b.createdAt)
  }

  predicate InModeratorOrder(cs: seq<Complaint>) {
    forall i, j :: 0 <= i < j < |cs| ==> Precedes(cs[i], cs[j])
  }

  function InsertComplaint(x: Complaint, cs: seq<Complaint>): (r: seq<Complaint>)
    requires InModeratorOrder(cs)
    ensures InModeratorOrder(r)
    ensures |r| == |cs| + 1 && (r[0] == x || (|cs| > 0 && r[0] == cs[0]))
  {
    if |cs| == 0 then [x]
    else if Precedes(x, cs[0]) then
      ConsInOrder([x] + cs, cs[0], cs);
      [x] + cs
    else
      var rest := InsertComplaint(x, cs[1..]);
      PrecedesTotal(x, cs[0]);
      ConsInOrder(cs, x, rest);
      [cs[0]] + rest
  }

  /** Inserting adds `x` and loses nothing. */
  lemma {:induction false} InsertComplaintPermutes(x: Complaint, cs: seq<Complaint>)
    requires InModeratorOrder(cs)
    ensures multiset(InsertComplaint(x, cs)) == multiset(cs) + multiset{x}
    decreases |cs|
  {
    if |cs| > 0 && !Precedes(x, cs[0]) {
      InsertComplaintPermutes(x, cs[1..]);
      assert cs == [cs[0]] + cs[1..];
    }
  }

  /** Putting the head back in front of the rest with `x` inserted keeps the
      order, when `x` does not precede the head. */
  lemma ConsInOrder(cs: seq<Complaint>, x: Complaint, rest: seq<Complaint>)
    requires |cs| > 0 && Precedes(cs[0], x)
    requires InModeratorOrder(rest) && |rest| > 0 && (rest[0] == x || (|cs| > 1 && Precedes(cs[0], rest[0])))
    ensures InModeratorOrder([cs[0]] + rest)
  {
    var r := [cs[0]] + rest;
    assert Precedes(cs[0], rest[0]);
    forall i, j | 0 <= i < j < |r|
      ensures Precedes(r[i], r[j])
    {
      if i == 0 && j > 1 {
        PrecedesTransitive(cs[0], rest[0], rest[j - 1]);
      }
    }
  }

  lemma PrecedesTransitive(a: Complaint, b: Complaint, c: Complaint)
    requires Precedes(a, b) && Precedes(b, c)
    ensures Precedes(a, c)
  {
  }

  /** The sort key is total: of two complaints one precedes the other. */
  lemma PrecedesTotal(a: Complaint, b: Complaint)
    ensures Precedes(a, b) || Precedes(b, a)
  {
  }

  /** `complaint_list`'s ordering: the same complaints, by priority and then
      newest first. */
  function OrderComplaints(cs: seq<Complaint>): (r: seq<Complaint>)
    ensures InModeratorOrder(r)
    ensures multiset(r) == multiset(cs)
  {
    if |cs| == 0 then []
    else
      assert cs == [cs[0]] + cs[1..];
      InsertComplaintPermutes(cs[0], OrderComplaints(cs[1..]));
      InsertComplaint(cs[0], OrderComplaints(cs[1..]))
  }

  /** When any complaint is urgent, an urgent one heads the list. */
  lemma UrgentComesFirst(cs: seq<Complaint>, i: nat)
    requires i < |cs| && cs[i].priority == "urgent"
    ensures |OrderComplaints(cs)| > 0 && OrderComplaints(cs)[0].priority == "urgent"
  {
    var r := OrderComplaints(cs);
    assert cs[i] in multiset(cs);
    assert cs[i] in multiset(r);
    var j :| 0 <= j < |r| && r[j] == cs[i];
    assert PriorityRank(r[j].priority) == 1;
    if j > 0 {
      assert Precedes(r[0], r[j]);
    }
    assert PriorityRank(r[0].priority) == 1;
  }
}

=== FILE: notify_tags.dfy ===
/** The notification template tags of notifications/templatetags/notify_tags.py:
    the unread count and its badge, the dropdown of recent notifications, the
    icon per notification type and the page a notification leads to. The
    request's user arrives as a `Viewer`, and the user's notifications as the
    sequence of every stored notification. */
module NotifyTags {
  import opened Wrappers
  import opened Text
  import opened Clock

  type UserId = int

  datatype Viewer = Anonymous | Authenticated(id: UserId)

  /** A related review, with the listing it is about. */
  datatype ReviewRef = ReviewRef(id: int, listing: int)

  datatype Notification = Notification(
    id: int,
    user: UserId,
    notificationType: string,
    isRead: bool,
    createdAt: Instant,
    booking: Option<string>,     // the related booking's reference
    conversation: Option<int>,
    listing: Option<int>,
    review: Option<ReviewRef>)

  /** The choices of `Notification.notification_type`. */
  const NotificationTypes: seq<string> := [
    "booking_request", "booking_confirmed", "booking_canceled", "message_received",
    "review_received", "listing_approved", "payment_received", "system"]

  // ------------------------------------------------------------ unread count

  /** How many of `u`'s notifications are unread. */
  function UnreadCount(ns: seq<Notification>, u: UserId): (r: nat)
    ensures r <= |ns|
    ensures r == 0 <==> forall i :: 0 <= i < |ns| && ns[i].user == u ==> ns[i].isRead
  {
    if |ns| == 0 then 0
    else
      var rest := UnreadCount(ns[1..], u);
      assert forall i :: 1 <= i < |ns| ==> ns[i] == ns[1..][i - 1];
      (if ns[0].user == u && !ns[0].isRead then 1 else 0) + rest
  }

  /** Counting the suffix from `k` counts the user's unread notifications
      there. */
  lemma {:induction false} UnreadCountFrom(ns: seq<Notification>, u: UserId, k: nat)
    requires k <= |ns|
    ensures UnreadCount(ns[k..], u) == |set i | k <= i < |ns| && ns[i].user == u && !ns[i].isRead|
    decreases |ns| - k
  {
    var here := set i | k <= i < |ns| && ns[i].user == u && !ns[i].isRead;
    if k == |ns| {
      assert here == {};
    } else {
      UnreadCountFrom(ns, u, k + 1);
      assert ns[k..][1..] == ns[k + 1..];
      var later := set i | k + 1 <= i < |ns| && ns[i].user == u && !ns[i].isRead;
      if ns[k].user == u && !ns[k].isRead {
        assert here == later + {k};
      } else {
        assert here == later;
      }
    }
  }

  /** The count is the number of the user's unread notifications. */
  lemma UnreadCountIsSetSize(ns: seq<Notification>, u: UserId)
    ensures UnreadCount(ns, u) == |set i | 0 <= i < |ns| && ns[i].user == u && !ns[i].isRead|
  {
    UnreadCountFrom(ns, u, 0);
    assert ns[0..] == ns;
  }

  /** `notification_count`: the viewer's unread notifications, none for an
      anonymous visitor. */
  function NotificationCount(viewer: Viewer, ns: seq<Notification>): (r: nat)
    ensures viewer.Anonymous? ==> r == 0
    ensures viewer.Authenticated? ==>
      (r == 0 <==> forall i :: 0 <= i < |ns| && ns[i].user == viewer.id ==> ns[i].isRead)
    ensures r <= |ns|
  {
    if viewer.Authenticated? then UnreadCount(ns, viewer.id) else 0
  }

  /** `Notification.mark_as_read` applied to the `i`-th notification. */
  function MarkAsRead(ns: seq<Notification>, i: nat): (r: seq<Notification>)
    requires i < |ns|
    ensures |r| == |ns| && r[i].isRead && r[i].(isRead := ns[i].isRead) == ns[i]
    ensures forall j :: 0 <= j < |ns| && j != i ==> r[j] == ns[j]
  {
    ns[i := ns[i].(isRead := true)]
  }

  /** Reading one of the owner's unread notifications lowers the owner's
      count by exactly one and nobody else's. */
  lemma {:induction false} MarkAsReadLowersCount(ns: seq<Notification>, i: nat, u: UserId)
    requires i < |ns| && !ns[i].isRead
    ensures UnreadCount(MarkAsRead(ns, i), u) == UnreadCount(ns, u) - (if ns[i].user == u then 1 else 0)
    decreases |ns|
  {
    var r := MarkAsRead(ns, i);
    if i == 0 {
      assert r[1..] == ns[1..];
    } else {
      assert r[1..] == MarkAsRead(ns[1..], i - 1);
      MarkAsReadLowersCount(ns[1..], i - 1, u);
    }
  }

  /** Reading a notification twice is reading it once. */
  lemma MarkAsReadIdempotent(ns: seq<Notification>, i: nat)
    requires i < |ns|
    ensures MarkAsRead(MarkAsRead(ns, i), i) == MarkAsRead(ns, i)
  {
  }

  // ------------------------------------------------------------------ badge

  const BadgeOpen := "<span class=\"badge bg-danger rounded-pill\">"
  const BadgeClose := "</span>"

  /** `notification_badge`: nothing when there is nothing unread, otherwise
      a red pill showing the count in decimal. */
  function NotificationBadge(viewer: Viewer, ns: seq<Notification>): (r: string)
    ensures r == "" <==> NotificationCount(viewer, ns) == 0
    ensures r != "" ==> r == BadgeOpen + NatToString(NotificationCount(viewer, ns)) + BadgeClose
  {
    var count := NotificationCount(viewer, ns);
    if count > 0 then BadgeOpen + NatToString(count) + BadgeClose else ""
  }

  /** The text inside a badge reads back as the unread count. */
  lemma BadgeShowsCount(viewer: Viewer, ns: seq<Notification>)
    requires NotificationCount(viewer, ns) > 0
    ensures var b := NotificationBadge(viewer, ns);
            |BadgeOpen| + |BadgeClose| < |b|
            && PyInt(b[|BadgeOpen|..|b| - |BadgeClose|]) == Some(NotificationCount(viewer, ns))
  {
    var count := NotificationCount(viewer, ns);
    var b := NotificationBadge(viewer, ns);
    assert b[|BadgeOpen|..|b| - |BadgeClose|] == NatToString(count);
    PyIntRoundTrip(count);
  }

  // ---------------------------------------------------------- recent list

  /** `user.notifications`: the notifications that belong to `u`. */
  function OwnedBy(ns: seq<Notification>, u: UserId): (r: seq<Notification>)
    ensures |r| <= |ns|
    ensures forall n :: n in r <==> n in ns && n.user == u
  {
    if |ns| == 0 then []
    else
      var rest := OwnedBy(ns[1..], u);
      assert forall n :: n in ns <==> n == ns[0] || n in ns[1..];
      if ns[0].user == u then [ns[0]] + rest else rest
  }

  predicate NewestFirst(ns: seq<Notification>) {
    forall i, j :: 0 <= i < j < |ns| ==> ns[i].createdAt >= ns[j].createdAt
  }

  function InsertByDate(x: Notification, ns: seq<Notification>): (r: seq<Notification>)
    requires NewestFirst(ns)
    ensures NewestFirst(r)
    ensures |r| == |ns| + 1 && (r[0] == x || (|ns| > 0 && r[0] == ns[0]))
    ensures multiset(r) == multiset(ns) + multiset{x}
  {
    if |ns| == 0 then [x]
    else if x.createdAt >= ns[0].createdAt then [x] + ns
    else
      var rest := InsertByDate(x, ns[1..]);
      assert ns == [ns[0]] + ns[1..];
      ConsNewestFirst(ns, x, rest);
      [ns[0]] + rest
  }

  /** Putting the head back in front of the rest with an older `x`
      inserted keeps the order. */
  lemma ConsNewestFirst(ns: seq<Notification>, x: Notification, rest: seq<Notification>)
    requires |ns| > 0 && NewestFirst(ns) && x.createdAt < ns[0].createdAt
    requires NewestFirst(rest) && |rest| > 0 && (rest[0] == x || (|ns| > 1 && rest[0] == ns[1]))
    ensures NewestFirst([ns[0]] + rest)
  {
    var r := [ns[0]] + rest;
    assert ns[0].createdAt >= rest[0].createdAt;
    forall i, j | 0 <= i < j < |r|
      ensures r[i].createdAt >= r[j].createdAt
    {
      if i == 0 && j > 1 {
        assert rest[0].createdAt >= rest[j - 1].createdAt;
      }
    }
  }

  /** The model's `ordering = ['-created_at']`: the same notifications,
      newest first. */
  function SortNewestFirst(ns: seq<Notification>): (r: seq<Notification>)
    ensures NewestFirst(r)
    ensures multiset(r) == multiset(ns)
  {
    if |ns| == 0 then []
    else
      assert ns == [ns[0]] + ns[1..];
      InsertByDate(ns[0], SortNewestFirst(ns[1..]))
  }

  /** Two orderings of the same notifications hold the same ones. */
  lemma SameMembers(a: seq<Notification>, b: seq<Notification>)
    requires multiset(a) == multiset(b)
    ensures |a| == |b|
    ensures forall n :: n in a <==> n in b
  {
    assert |multiset(a)| == |multiset(b)|;
    forall n
      ensures n in a <==> n in b
    {
      assert n in a <==> n in multiset(a);
      assert n in b <==> n in multiset(b);
    }
  }

  /** In a newest-first sequence, anything newer than an entry of a prefix
      is in that prefix. */
  lemma PrefixKeepsNewer(sorted: seq<Notification>, take: nat, k: nat, n: Notification)
    requires NewestFirst(sorted) && k < take <= |sorted|
    requires n in sorted && n.createdAt > sorted[k].createdAt
    ensures n in sorted[..take]
  {
    var j :| 0 <= j < |sorted| && sorted[j] == n;
    assert j < k;
    assert sorted[..take][j] == n;
  }

  /** A prefix of a reordering of `owned` holds only members of `owned`. */
  lemma PrefixMembers(owned: seq<Notification>, sorted: seq<Notification>, take: nat)
    requires multiset(sorted) == multiset(owned) && take <= |sorted|
    ensures forall k :: 0 <= k < take ==> sorted[..take][k] in owned
  {
    SameMembers(sorted, owned);
    forall k | 0 <= k < take
      ensures sorted[..take][k] in owned
    {
      assert sorted[..take][k] == sorted[k];
    }
  }

  /** A prefix of a newest-first reordering of `owned` misses nothing newer
      than what it holds. */
  lemma PrefixNewest(owned: seq<Notification>, sorted: seq<Notification>, take: nat)
    requires multiset(sorted) == multiset(owned) && NewestFirst(sorted) && take <= |sorted|
    ensures forall k, n :: 0 <= k < take && n in owned && n.createdAt > sorted[..take][k].createdAt ==> n in sorted[..take]
  {
    SameMembers(sorted, owned);
    forall k, n | 0 <= k < take && n in owned && n.createdAt > sorted[..take][k].createdAt
      ensures n in sorted[..take]
    {
      assert sorted[..take][k] == sorted[k];
      PrefixKeepsNewer(sorted, take, k, n);
    }
  }

  /** The `limit` newest of `owned`, newest first. */
  function Newest(owned: seq<Notification>, limit: nat): (r: seq<Notification>)
    ensures |r| == (if limit < |owned| then limit else |owned|)
    ensures NewestFirst(r)
    ensures forall k :: 0 <= k < |r| ==> r[k] in owned
    ensures forall k, n :: 0 <= k < |r| && n in owned && n.createdAt > r[k].createdAt ==> n in r
  {
    var sorted := SortNewestFirst(owned);
    SameMembers(sorted, owned);
    var take := if limit < |sorted| then limit else |sorted|;
    PrefixMembers(owned, sorted, take);
    PrefixNewest(owned, sorted, take);
    sorted[..take]
  }

  /** `recent_notifications`: the viewer's `limit` newest notifications,
      none for an anonymous visitor. A query set refuses a negative slice
      bound, so a negative `limit` is an error for a signed-in viewer. */
  function RecentNotifications(viewer: Viewer, ns: seq<Notification>, limit: int): (r: Option<seq<Notification>>)
    ensures viewer.Anonymous? ==> r == Some([])
    ensures viewer.Authenticated? ==> (r.None? <==> limit < 0)
    ensures r.Some? && viewer.Authenticated? ==>
      |r.value| == (if limit < |OwnedBy(ns, viewer.id)| then limit else |OwnedBy(ns, viewer.id)|)
    ensures r.Some? ==> NewestFirst(r.value)
    ensures r.Some? ==> forall k :: 0 <= k < |r.value| ==> r.value[k] in ns && r.value[k].user == viewer.id
    ensures r.Some? ==> forall k, n :: 0 <= k < |r.value| && n in ns && n.user == viewer.id ==>
                          (n.createdAt > r.value[k].createdAt ==> n in r.value)
  {
    match viewer
    case Anonymous => Some([])
    case Authenticated(u) =>
      if limit < 0 then None else Some(Newest(OwnedBy(ns, u), limit))
  }

  /** The dropdown never shows a notification of someone else, and a
      signed-in viewer with fewer notifications than the limit sees all of
      them. */
  lemma {:induction false} RecentShowsAllWhenFew(u: UserId, ns: seq<Notification>, limit: int)
    requires limit >= |OwnedBy(ns, u)|
    ensures var r := RecentNotifications(Authenticated(u), ns, limit);
            r.Some? && multiset(r.value) == multiset(OwnedBy(ns, u))
  {
    var owned := OwnedBy(ns, u);
    var sorted := SortNewestFirst(owned);
    assert |sorted| == |owned| by {
      assert |multiset(sorted)| == |multiset(owned)|;
    }
    assert Newest(owned, limit) == sorted[..|sorted|] == sorted;
  }

  // ------------------------------------------------------------------- icons

  const FallbackIcon := "fas fa-bell"

  /** The icon class of each notification type. */
  const Icons: map<string, string> := map[
    "booking_request" := "fas fa-calendar-plus",
    "booking_confirmed" := "fas fa-calendar-check",
    "booking_canceled" := "fas fa-calendar-times",
    "message_received" := "fas fa-envelope",
    "review_received" := "fas fa-star",
    "listing_approved" := "fas fa-check-circle",
    "payment_received" := "fas fa-dollar-sign",
    "system" := FallbackIcon]

  /** The icon class for a type: its own when it has one, the bell
      otherwise. */
  function IconClass(notificationType: string): (c: string)
    ensures notificationType in Icons ==> c == Icons[notificationType]
    ensures notificationType !in Icons ==> c == FallbackIcon
  {
    if notificationType in Icons then Icons[notificationType] else FallbackIcon
  }

  /** Every type a notification can have has an icon of its own, and only
      system notifications and unknown types show the bell. */
  lemma IconsCoverTypes(t: string)
    ensures t in NotificationTypes <==> t in Icons
    ensures IconClass(t) == FallbackIcon <==> t == "system" || t !in NotificationTypes
  {
    assert t in Icons <==> t in NotificationTypes;
    if t in Icons && t != "system" {
      assert Icons[t][7] != FallbackIcon[7] || Icons[t][8] != FallbackIcon[8]
             || |Icons[t]| != |FallbackIcon|;
    }
  }

  /** `notification_icon`: an `<i>` element carrying the type's icon class. */
  function NotificationIcon(notificationType: string): (r: string)
    ensures |r| == |IconClass(notificationType)| + 16
    ensures r[..10] == "<i class=\"" && r[|r| - 6..] == "\"></i>"
    ensures r[10..|r| - 6] == IconClass(notificationType)
  {
    "<i class=\"" + IconClass(notificationType) + "\"></i>"
  }

  /** An unknown type is shown like a system notification. */
  lemma UnknownTypeLooksLikeSystem(t: string)
    requires t !in NotificationTypes
    ensures NotificationIcon(t) == NotificationIcon("system")
  {
    IconsCoverTypes(t);
  }

  // ------------------------------------------------------------- target url

  const InboxUrl := "/notifications/"

  /** `notification_target_url`: the related booking's page first, then the
      conversation, the listing, the reviewed listing, and the notification
      list when nothing is related. */
  function NotificationTargetUrl(n: Notification): (r: string)
    ensures n.booking.Some? ==> r == "/listings/bookings/" + n.booking.value + "/"
    ensures n.booking.None? && n.conversation.Some? ==> r == "/chat/" + IntToString(n.conversation.value) + "/"
    ensures n.booking.None? && n.conversation.None? && n.listing.Some? ==>
      r == "/listings/" + IntToString(n.listing.value) + "/"
    ensures n.booking.None? && n.conversation.None? && n.listing.None? && n.review.Some? ==>
      r == "/listings/" + IntToString(n.review.value.listing) + "/"
  {
    if n.booking.Some? then "/listings/bookings/" + n.booking.value + "/"
    else if n.conversation.Some? then "/chat/" + IntToString(n.conversation.value) + "/"
    else if n.listing.Some? then "/listings/" + IntToString(n.listing.value) + "/"
    else if n.review.Some? then "/listings/" + IntToString(n.review.value.listing) + "/"
    else InboxUrl
  }

  /** A notification leads to the notification list exactly when nothing
      is related to it. */
  lemma InboxIffUnrelated(n: Notification)
    ensures NotificationTargetUrl(n) == InboxUrl <==>
            n.booking.None? && n.conversation.None? && n.listing.None? && n.review.None?
  {
    var r := NotificationTargetUrl(n);
    if !(n.booking.None? && n.conversation.None? && n.listing.None? && n.review.None?) {
      assert r[1] != InboxUrl[1];
    }
  }

  /** The conversation a chat link names reads back from the link. */
  lemma ChatUrlNamesConversation(n: Notification)
    requires n.booking.None? && n.conversation.Some?
    ensures var r := NotificationTargetUrl(n);
            7 < |r| && r[..6] == "/chat/" && PyInt(r[6..|r| - 1]) == Some(n.conversation.value)
  {
    var digits := IntToString(n.conversation.value);
    assert NotificationTargetUrl(n) == "/chat/" + digits + "/";
    Framed("/chat/", digits, "/");
    PyIntRoundTrip(n.conversation.value);
  }

  /** A notification about a review leads to the reviewed listing's page,
      the same page a notification about that listing leads to. */
  lemma ReviewLeadsToItsListing(n: Notification)
    requires n.booking.None? && n.conversation.None? && n.listing.None? && n.review.Some?
    ensures NotificationTargetUrl(n) == NotificationTargetUrl(n.(review := None, listing := Some(n.review.value.listing)))
  {
  }
}

=== FILE: price_calculator.dfy ===
/** Nightly and whole-stay pricing (utils/price_calculator.py). Amounts are
    exact decimals; dates are day numbers. Seasonal adjustments are the
    dictionary's entries in insertion order, with each 'start:end' key
    already read as two day numbers; length-of-stay tiers are the
    dictionary's (minimum nights, multiplier) entries. */
module PriceCalculator {
  import opened Wrappers
  import opened Gregorian

  datatype Season = Season(start: Day, end: Day, multiplier: real)

  predicate InSeason(season: Season, d: Day) {
    season.start <= d <= season.end
  }

  /** Season `i` holds `d` and no earlier season does. */
  predicate FirstSeasonAt(seasons: seq<Season>, d: Day, i: int) {
    0 <= i < |seasons| && InSeason(seasons[i], d)
    && forall j :: 0 <= j < i ==> !InSeason(seasons[j], d)
  }

  /** The multiplier of the first season, in iteration order, whose
      inclusive range holds `d`. */
  function SeasonFor(seasons: seq<Season>, d: Day): (r: Option<real>)
    ensures r.None? <==> forall i :: 0 <= i < |seasons| ==> !InSeason(seasons[i], d)
    ensures r.Some? ==> (exists i :: FirstSeasonAt(seasons, d, i) && r.value == seasons[i].multiplier)
    decreases |seasons|
  {
    if |seasons| == 0 then None
    else if InSeason(seasons[0], d) then
      assert FirstSeasonAt(seasons, d, 0);
      Some(seasons[0].multiplier)
    else
      var r := SeasonFor(seasons[1..], d);
      assert r.Some? ==> (exists i :: FirstSeasonAt(seasons, d, i) && r.value == seasons[i].multiplier) by {
        if r.Some? {
          var k :| FirstSeasonAt(seasons[1..], d, k) && r.value == seasons[1..][k].multiplier;
          assert forall j :: 1 <= j < k + 1 ==> seasons[j] == seasons[1..][j - 1];
          assert FirstSeasonAt(seasons, d, k + 1);
        }
      }
      r
  }

  /** `calculate_night_price`: at most one seasonal multiplier, then the
      multiplier for the night's weekday (Monday = 0) when one is given. */
  function NightPrice(base: real, d: Day, seasons: seq<Season>, weekdays: map<int, real>): (p: real)
    ensures SeasonFor(seasons, d).None? && DayWeekday(d) !in weekdays ==> p == base
    ensures SeasonFor(seasons, d).Some? && DayWeekday(d) !in weekdays
            ==> p == base * SeasonFor(seasons, d).value
    ensures DayWeekday(d) in weekdays
            ==> p == (if SeasonFor(seasons, d).Some? then base * SeasonFor(seasons, d).value else base)
                     * weekdays[DayWeekday(d)]
  {
    var seasonal := match SeasonFor(seasons, d)
      case Some(m) => base * m
      case None => base;
    var w := DayWeekday(d);
    if w in weekdays then seasonal * weekdays[w] else seasonal
  }

  /** Nights priced one by one: (day, price) for s, s+1, ..., s+n-1. */
  function NightlyPrices(base: real, s: Day, n: nat, seasons: seq<Season>, weekdays: map<int, real>)
    : (r: seq<(Day, real)>)
    ensures |r| == n
    ensures forall i :: 0 <= i < n ==> r[i] == (s + i, NightPrice(base, s + i, seasons, weekdays))
  {
    seq(n, i => (s + i, NightPrice(base, s + i, seasons, weekdays)))
  }

  function SumPrices(nightly: seq<(Day, real)>): real
    decreases |nightly|
  {
    if |nightly| == 0 then 0.0 else nightly[0].1 + SumPrices(nightly[1..])
  }

  // ------------------------------------------------------- length of stay

  /** The tier with the largest minimum not above `nights` (what scanning
      the tiers sorted by descending minimum and taking the first match
      yields), as an index into `tiers`. */
  function BestTier(tiers: seq<(int, real)>, nights: int): (r: Option<nat>)
    ensures r.None? <==> forall i :: 0 <= i < |tiers| ==> tiers[i].0 > nights
    ensures r.Some? ==> r.value < |tiers| && tiers[r.value].0 <= nights
    ensures r.Some? ==> forall i :: 0 <= i < |tiers| && tiers[i].0 <= nights ==> tiers[i].0 <= tiers[r.value].0
    decreases |tiers|
  {
    if |tiers| == 0 then None
    else
      var last := |tiers| - 1;
      var r := BestTier(tiers[..last], nights);
      if tiers[last].0 > nights then r
      else if r.Some? && tiers[r.value].0 >= tiers[last].0 then r
      else Some(last)
  }

  /** Tier `i` applies to `nights` and has the largest such minimum. */
  predicate BestTierAt(tiers: seq<(int, real)>, nights: int, i: int) {
    0 <= i < |tiers| && tiers[i].0 <= nights
    && forall j :: 0 <= j < |tiers| && tiers[j].0 <= nights ==> tiers[j].0 <= tiers[i].0
  }

  /** The multiplier of the chosen tier, if any. */
  function TierMultiplier(tiers: seq<(int, real)>, nights: int): (m: Option<real>)
    ensures m.None? <==> forall i :: 0 <= i < |tiers| ==> tiers[i].0 > nights
    ensures m.Some? ==> (exists i :: BestTierAt(tiers, nights, i) && m.value == tiers[i].1)
  {
    match BestTier(tiers, nights)
    case None => None
    case Some(i) => assert BestTierAt(tiers, nights, i); Some(tiers[i].1)
  }

  datatype StayQuote = StayQuote(
    baseTotal: real,
    nightlyPrices: seq<(Day, real)>,
    cleaningFee: real,
    serviceFee: real,
    discount: real,
    total: real,
    nights: int)

  /** `calculate_stay_price`: fails unless the stay has at least one night;
      applies the chosen length-of-stay multiplier only when it is non-zero
      (a zero multiplier is false in Python). */
  function StayPrice(base: real, s: Day, e: Day, cleaningFee: real, serviceFee: real,
                     seasons: seq<Season>, weekdays: map<int, real>, tiers: seq<(int, real)>)
    : (r: Result<StayQuote, string>)
    ensures r.Failure? <==> e - s <= 0
    ensures r.Success? ==>
      var q := r.value;
      && q.nights == e - s
      && q.nightlyPrices == NightlyPrices(base, s, q.nights, seasons, weekdays)
      && q.baseTotal + q.discount == SumPrices(q.nightlyPrices)
      && q.total == q.baseTotal + cleaningFee + serviceFee
      && q.cleaningFee == cleaningFee && q.serviceFee == serviceFee
      && (TierMultiplier(tiers, q.nights).None? || TierMultiplier(tiers, q.nights).value == 0.0
          ==> q.discount == 0.0)
  {
    var nights := e - s;
    if nights <= 0 then Failure("End date must be after start date")
    else
      var nightly := NightlyPrices(base, s, nights, seasons, weekdays);
      var sum := SumPrices(nightly);
      var m := TierMultiplier(tiers, nights);
      if m.Some? && m.value != 0.0 then
        var baseTotal := Scaled(sum, m.value);
        DiscountSplits(sum, m.value);
        Success(StayQuote(baseTotal, nightly, cleaningFee, serviceFee, Scaled(sum, 1.0 - m.value),
                          baseTotal + cleaningFee + serviceFee, nights))
      else
        Success(StayQuote(sum, nightly, cleaningFee, serviceFee, 0.0, sum + cleaningFee + serviceFee, nights))
  }

  /** A price multiplied by a length-of-stay multiplier. */
  function Scaled(price: real, multiplier: real): real
  {
    price * multiplier
  }

  /** A non-zero length-of-stay multiplier scales the sum of the nightly prices. */
  lemma StayPriceDiscounted(base: real, s: Day, e: Day, cleaningFee: real, serviceFee: real,
                            seasons: seq<Season>, weekdays: map<int, real>, tiers: seq<(int, real)>)
    requires e - s > 0
    requires TierMultiplier(tiers, e - s).Some? && TierMultiplier(tiers, e - s).value != 0.0
    ensures var q := StayPrice(base, s, e, cleaningFee, serviceFee, seasons, weekdays, tiers).value;
      q.baseTotal == Scaled(SumPrices(q.nightlyPrices), TierMultiplier(tiers, e - s).value)
  {
    var nightly := NightlyPrices(base, s, e - s, seasons, weekdays);
    var q := StayPrice(base, s, e, cleaningFee, serviceFee, seasons, weekdays, tiers).value;
    assert q.nightlyPrices == nightly;
  }

  /** The discounted total and the discount add up to the undiscounted sum. */
  lemma DiscountSplits(sum: real, m: real)
    ensures Scaled(sum, m) + Scaled(sum, 1.0 - m) == sum
  {
    assert sum * (1.0 - m) == sum - sum * m;
  }

  lemma {:induction false} UniformSum(base: real, s: Day, n: nat)
    ensures SumPrices(NightlyPrices(base, s, n, [], map[])) == base * n as real
    decreases n
  {
    if n > 0 {
      var all := NightlyPrices(base, s, n, [], map[]);
      assert all[1..] == NightlyPrices(base, s + 1, n - 1, [], map[]);
      UniformSum(base, s + 1, n - 1);
    }
  }

  /** With no adjustments every night costs the base price. */
  lemma NoAdjustmentsBaseTotal(base: real, s: Day, e: Day, cleaningFee: real, serviceFee: real)
    requires e > s
    ensures StayPrice(base, s, e, cleaningFee, serviceFee, [], map[], []).Success?
    ensures StayPrice(base, s, e, cleaningFee, serviceFee, [], map[], []).value.baseTotal
            == base * (e - s) as real
  {
    var r := StayPrice(base, s, e, cleaningFee, serviceFee, [], map[], []);
    var nightly := NightlyPrices(base, s, e - s, [], map[]);
    assert TierMultiplier([], e - s).None?;
    assert r.value.baseTotal == SumPrices(nightly);
    UniformSum(base, s, e - s);
  }

  // ------------------------------------------------------- payout & offers

  const DefaultHostFeePercentage: real := 3.0

  /** `calculate_host_payout`: the total less the platform's percentage. */
  function HostPayout(total: real, feePercentage: real): (payout: real)
    ensures payout + total * (feePercentage / 100.0) == total
    ensures 0.0 <= feePercentage <= 100.0 && total >= 0.0 ==> 0.0 <= payout <= total
  {
    total - total * (feePercentage / 100.0)
  }

  /** `calculate_average_nightly_price`: zero for zero nights. */
  function AverageNightlyPrice(baseTotal: real, nights: int): (avg: real)
    ensures nights == 0 ==> avg == 0.0
    ensures nights != 0 ==> avg * nights as real == baseTotal
  {
    if nights == 0 then 0.0 else baseTotal / nights as real
  }

  /** Without adjustments the average nightly price is the base price. */
  lemma AverageOfUniformStay(base: real, s: Day, e: Day)
    requires e > s
    ensures var q := StayPrice(base, s, e, 0.0, 0.0, [], map[], []).value;
            AverageNightlyPrice(q.baseTotal, q.nights) == base
  {
    NoAdjustmentsBaseTotal(base, s, e, 0.0, 0.0);
  }

  /** `apply_special_offer`: (discounted price, discount amount). */
  function ApplySpecialOffer(total: real, discountPercentage: real): (r: (real, real))
    ensures r.0 + r.1 == total
    ensures r.1 * 100.0 == total * discountPercentage
  {
    var amount := total * (discountPercentage / 100.0);
    (total - amount, amount)
  }
}

=== FILE: subscription_filters.dfy ===
/** The template filters of subscriptions/templatetags/subscription_filters.py.
    The filtered value arrives already converted with `str`. */
module SubscriptionFilters {
  import opened Text

  /** `replace`: the argument `"old|new"` names the substring to replace and
      its replacement, split at the first `|`; an argument that is empty or
      has no `|` leaves the value as it is. */
  function Replace(value: string, arg: string): (r: string)
    ensures '|' !in arg ==> r == value
    ensures '|' in arg && SplitFirst(arg, '|').0 == SplitFirst(arg, '|').1 ==> r == value
    ensures '|' in arg && |SplitFirst(arg, '|').0| > 0 && !Contains(value, SplitFirst(arg, '|').0) ==> r == value
  {
    if |arg| == 0 || '|' !in arg then value
    else
      var (old', new') := SplitFirst(arg, '|');
      PyReplaceIdentity(value, old');
      if |old'| > 0 && !Contains(value, old') then PyReplaceAbsent(value, old', new'); PyReplace(value, old', new')
      else PyReplace(value, old', new')
  }

  /** The argument splits at its first `|`: everything after it, further `|`
      included, is the replacement. */
  lemma ReplaceSplitsAtFirstPipe(value: string, old': string, new': string)
    requires '|' !in old'
    ensures Replace(value, old' + "|" + new') == PyReplace(value, old', new')
  {
    var arg := old' + "|" + new';
    assert arg[|old'|] == '|';
    SplitFirstUnique(arg, old', new');
  }

  /** A split at `sep` whose left part has no `sep` is the first one. */
  lemma {:induction false} SplitFirstUnique(s: string, a: string, b: string)
    requires s == a + "|" + b && '|' !in a
    ensures '|' in s && SplitFirst(s, '|') == (a, b)
    decreases |a|
  {
    assert s[|a|] == '|';
    if |a| > 0 {
      assert s[1..] == a[1..] + "|" + b;
      SplitFirstUnique(s[1..], a[1..], b);
      assert [a[0]] + a[1..] == a;
    } else {
      assert s[1..] == b;
    }
  }

  /** Replacing a one-character substring is replacing that character. */
  lemma {:induction false} PyReplaceOneChar(s: string, c: char, rep: string)
    ensures PyReplace(s, [c], rep) == ReplaceChar(s, c, rep)
    decreases |s|
  {
    if |s| > 0 {
      PyReplaceOneChar(s[1..], c, rep);
      assert [c] <= s <==> s[0] == c;
      assert s[|[c]|..] == s[1..];
    }
  }

  /** Replacing a character with a single character keeps the length. */
  lemma {:induction false} ReplaceCharOneForOne(s: string, c: char, d: char)
    ensures |ReplaceChar(s, c, [d])| == |s|
    decreases |s|
  {
    if |s| > 0 {
      ReplaceCharOneForOne(s[1..], c, d);
    }
  }

  /** `underscore_to_space`: underscores become spaces, then Python's
      title-casing applies; no underscore survives and the length is kept. */
  function UnderscoreToSpace(value: string): (r: string)
    ensures '_' !in r
    ensures |r| == |value|
  {
    var spaced := ReplaceChar(value, '_', " ");
    ReplaceCharOneForOne(value, '_', ' ');
    var r := Title(spaced);
    assert '_' !in r by {
      forall i | 0 <= i < |r|
        ensures r[i] != '_'
      {
        TitleFromKeepsUncased(spaced, false, i);
        if !IsCased(spaced[i]) {
          assert spaced[i] in spaced;
        }
      }
    }
    r
  }

  /** `underscore_to_space` is the title-cased result of the `replace` filter
      with the argument `"_| "`. */
  lemma UnderscoreToSpaceIsTitledReplace(value: string)
    ensures UnderscoreToSpace(value) == Title(Replace(value, "_| "))
  {
    assert "_" + "|" + " " == "_| ";
    ReplaceSplitsAtFirstPipe(value, "_", " ");
    PyReplaceOneChar(value, '_', " ");
  }
}

=== FILE: subscription_models.dfy ===
/** Subscription plans, user subscriptions and their usage counters
    (subscriptions/models.py). Instants are integer seconds; a duration's
    `days` is the floor of its seconds over 86400, as `timedelta.days` is. */
module SubscriptionModels {
  import opened Wrappers
  import opened Clock

  datatype Plan = Plan(
    id: int,
    name: string,
    price: real,
    durationDays: nat,
    adsLimit: nat,
    isActive: bool)

  datatype SubscriptionStatus = Active | Expired | Canceled | Pending

  /** The status as the `status` field stores it. */
  function StatusName(s: SubscriptionStatus): string {
    match s
    case Active => "active"
    case Expired => "expired"
    case Canceled => "canceled"
    case Pending => "pending"
  }

  datatype Subscription = Subscription(
    id: int,
    user: int,
    plan: Plan,
    status: SubscriptionStatus,
    startDate: Instant,
    endDate: Instant,
    autoRenew: bool,
    amountPaid: real,
    paymentReference: nat)

  /** `UserSubscription.is_active`: the status is active and `now` lies in
      the closed period. */
  predicate IsActive(s: Subscription, now: Instant) {
    s.status == Active && s.startDate <= now <= s.endDate
  }

  /** A subscription is active only with the `active` status and only within
      its period: never before its start or after its end. */
  lemma ActiveOnlyWithinPeriod(s: Subscription, now: Instant)
    ensures s.status != Active ==> !IsActive(s, now)
    ensures now < s.startDate || now > s.endDate ==> !IsActive(s, now)
    ensures s.status == Active && s.startDate <= s.endDate ==> IsActive(s, s.startDate) && IsActive(s, s.endDate)
  {
  }

  /** `days_remaining`: zero when not active, else the whole days left. */
  function DaysRemaining(s: Subscription, now: Instant): (n: nat)
    ensures !IsActive(s, now) ==> n == 0
    ensures IsActive(s, now) ==> n * SecondsPerDay <= s.endDate - now < (n + 1) * SecondsPerDay
  {
    if !IsActive(s, now) then 0
    else
      Max0(WholeDays(s.endDate - now))
  }

  /** Python's `max(0, x)`. */
  function Max0(x: int): nat {
    if x < 0 then 0 else x
  }

  /** `is_expiring_soon`: active with at most three whole days left, that is
      with less than four days of seconds left. */
  function IsExpiringSoon(s: Subscription, now: Instant): (r: bool)
    ensures r ==> IsActive(s, now)
    ensures r <==> IsActive(s, now) && s.endDate - now < 4 * SecondsPerDay
  {
    IsActive(s, now) && DaysRemaining(s, now) <= 3
  }

  /** `extend`: moves the end by `days` days. */
  function Extend(s: Subscription, days: int): (r: Subscription)
    ensures r.endDate - s.endDate == days * SecondsPerDay
    ensures r.(endDate := s.endDate) == s
  {
    s.(endDate := s.endDate + days * SecondsPerDay)
  }

  /** Two extensions make one by the sum of the days. */
  lemma ExtendTwice(s: Subscription, a: int, b: int)
    ensures Extend(Extend(s, a), b) == Extend(s, a + b)
  {
  }

  /** `cancel`: canceled and no longer renewing. */
  function Cancel(s: Subscription): (r: Subscription)
    ensures r.status == Canceled && !r.autoRenew
    ensures r.(status := s.status, autoRenew := s.autoRenew) == s
  {
    s.(status := Canceled, autoRenew := false)
  }

  /** Canceling twice is canceling once, and a canceled subscription is not
      active at any instant. */
  lemma CancelIdempotent(s: Subscription, now: Instant)
    ensures Cancel(Cancel(s)) == Cancel(s)
    ensures !IsActive(Cancel(s), now)
  {
  }

  /** What `renew` does: renews, declines (returning `False`), or raises
      `OverflowError` when the new end leaves the range of a `datetime`. */
  datatype Renewal = Renewed(sub: Subscription) | NotRenewed | RenewCrashed

  /** The end of a period of the plan's length starting at `start`. */
  function PeriodEnd(start: Instant, p: Plan): Instant {
    start + p.durationDays * SecondsPerDay
  }

  /** `renew`: with auto-renewal on and the plan still offered, a new period
      of the plan's length starts where the old one ended; an end past what a
      `datetime` holds raises before anything is saved. */
  function Renew(s: Subscription): (r: Renewal)
    ensures r.NotRenewed? <==> !(s.autoRenew && s.plan.isActive)
    ensures r.RenewCrashed? <==> s.autoRenew && s.plan.isActive && !InDatetimeRange(PeriodEnd(s.endDate, s.plan))
    ensures r.Renewed? ==> && r.sub.startDate == s.endDate
                           && r.sub.endDate == s.endDate + s.plan.durationDays * SecondsPerDay
                           && InDatetimeRange(r.sub.endDate)
                           && r.sub.status == Active
                           && r.sub.(startDate := s.startDate, endDate := s.endDate, status := s.status) == s
  {
    if !(s.autoRenew && s.plan.isActive) then NotRenewed
    else
      var start := s.endDate;
      var end := PeriodEnd(start, s.plan);
      if !InDatetimeRange(end) then RenewCrashed
      else Renewed(s.(startDate := start, endDate := end, status := Active))
  }

  /** A renewed subscription is active throughout its new period, and a
      second renewal that fits continues from the new end. */
  lemma RenewedIsActive(s: Subscription, t: Instant)
    requires Renew(s).Renewed?
    requires s.endDate <= t <= s.endDate + s.plan.durationDays * SecondsPerDay
    ensures IsActive(Renew(s).sub, t)
    ensures Renew(Renew(s).sub).Renewed? ==>
              Renew(Renew(s).sub).sub.startDate == s.endDate + s.plan.durationDays * SecondsPerDay
  {
  }

  /** With the plan offered and a stored end, renewal raises only because
      the new end lies past year 9999; a plan of zero days always renews. */
  lemma RenewalCrashesOnlyPastTheRange(s: Subscription)
    requires s.autoRenew && s.plan.isActive && InDatetimeRange(s.endDate)
    ensures s.plan.durationDays == 0 ==> Renew(s).Renewed?
    ensures Renew(s).RenewCrashed? ==> PeriodEnd(s.endDate, s.plan) > MaxInstant
  {
  }

  datatype Usage = Usage(
    adsCount: nat,
    featuredAdsCount: nat,
    totalAdsCreated: nat,
    lastAdCreated: Option<Instant>)

  const NotActiveMessage := "Subscription is not active"
  const LimitReachedMessage := "Ad limit reached for current plan"

  /** `SubscriptionUsage.can_create_ad`: refused when the subscription is not
      active, then when the plan's limit is used up. */
  function UsageCanCreateAd(u: Usage, s: Subscription, now: Instant): (r: (bool, string))
    ensures r.0 <==> IsActive(s, now) && u.adsCount < s.plan.adsLimit
    ensures r.0 <==> r.1 == ""
    ensures !IsActive(s, now) ==> r.1 == NotActiveMessage
    ensures IsActive(s, now) && u.adsCount >= s.plan.adsLimit ==> r.1 == LimitReachedMessage
  {
    if !IsActive(s, now) then (false, NotActiveMessage)
    else if u.adsCount >= s.plan.adsLimit then (false, LimitReachedMessage)
    else (true, "")
  }

  /** `increment_ads_count`: one more live ad and one more ever created. */
  function IncrementAdsCount(u: Usage, now: Instant): (r: Usage)
    ensures r.adsCount == u.adsCount + 1 && r.totalAdsCreated == u.totalAdsCreated + 1
    ensures r.lastAdCreated == Some(now)
    ensures r.featuredAdsCount == u.featuredAdsCount
  {
    u.(adsCount := u.adsCount + 1, totalAdsCreated := u.totalAdsCreated + 1, lastAdCreated := Some(now))
  }

  /** `decrement_ads_count`: one fewer live ad, never below zero. */
  function DecrementAdsCount(u: Usage): (r: Usage)
    ensures u.adsCount > 0 ==> r.adsCount == u.adsCount - 1
    ensures u.adsCount == 0 ==> r == u
    ensures r.(adsCount := u.adsCount) == u
  {
    if u.adsCount > 0 then u.(adsCount := u.adsCount - 1) else u
  }

  /** Creating and then deleting an ad restores the live count but keeps the
      total; with the limit reached, deleting an ad makes room again. */
  lemma IncrementThenDecrement(u: Usage, s: Subscription, now: Instant)
    ensures DecrementAdsCount(IncrementAdsCount(u, now)).adsCount == u.adsCount
    ensures DecrementAdsCount(IncrementAdsCount(u, now)).totalAdsCreated == u.totalAdsCreated + 1
    ensures IsActive(s, now) && u.adsCount == s.plan.adsLimit && u.adsCount > 0
            ==> UsageCanCreateAd(DecrementAdsCount(u), s, now).0
  {
  }
}

=== FILE: subscription_renewals.dfy ===
/** The periodic renewal command
    (subscriptions/management/commands/process_subscription_renewals.py):
    an auto-renewal pass and an expiry pass over the subscriptions table.
    Notifications, logs and console output are left out; one instant `now`
    stands for each pass's `timezone.now()`. */
module SubscriptionRenewals {
  import opened SubscriptionModels
  import opened Clock

  /** The selection of `process_auto_renewals`. */
  predicate RenewalDue(s: Subscription, now: Instant) {
    s.status == Active && s.autoRenew && s.endDate <= now
  }

  /** The selection of `mark_expired_subscriptions`: strictly past the end
      and not renewing. */
  predicate ExpiryDue(s: Subscription, now: Instant) {
    s.status == Active && s.endDate < now && !s.autoRenew
  }

  /** How many of `subs` are due for renewal. */
  function CountDue(subs: seq<Subscription>, now: Instant): (n: nat)
    ensures n <= |subs|
  {
    if |subs| == 0 then 0
    else CountDue(subs[..|subs| - 1], now) + (if RenewalDue(subs[|subs| - 1], now) then 1 else 0)
  }

  /** How many of `subs` are due for renewal on a plan still offered. */
  function CountRenewable(subs: seq<Subscription>, now: Instant): (n: nat)
    ensures n <= CountDue(subs, now)
  {
    if |subs| == 0 then 0
    else CountRenewable(subs[..|subs| - 1], now)
         + (if RenewalDue(subs[|subs| - 1], now) && subs[|subs| - 1].plan.isActive then 1 else 0)
  }

  /** A due subscription that `renew` actually renews. */
  predicate RenewsNow(s: Subscription, now: Instant) {
    RenewalDue(s, now) && Renew(s).Renewed?
  }

  /** How many of `subs` a real run renews. */
  function CountRenewed(subs: seq<Subscription>, now: Instant): (n: nat)
    ensures n <= CountRenewable(subs, now)
  {
    if |subs| == 0 then 0
    else CountRenewed(subs[..|subs| - 1], now) + (if RenewsNow(subs[|subs| - 1], now) then 1 else 0)
  }

  /** How many of `subs` are due for expiry. */
  function CountExpiring(subs: seq<Subscription>, now: Instant): (n: nat)
    ensures n <= |subs|
  {
    if |subs| == 0 then 0
    else CountExpiring(subs[..|subs| - 1], now) + (if ExpiryDue(subs[|subs| - 1], now) then 1 else 0)
  }

  /** The due counts of a prefix are the numbers of due positions in it. */
  lemma {:induction false} CountsOfPrefix(subs: seq<Subscription>, now: Instant, k: nat)
    requires k <= |subs|
    ensures CountDue(subs[..k], now) == |set i | 0 <= i < k && RenewalDue(subs[i], now)|
    ensures CountExpiring(subs[..k], now) == |set i | 0 <= i < k && ExpiryDue(subs[i], now)|
  {
    var due := set i | 0 <= i < k && RenewalDue(subs[i], now);
    var expiring := set i | 0 <= i < k && ExpiryDue(subs[i], now);
    if k == 0 {
      assert due == {} && expiring == {};
    } else {
      CountsOfPrefix(subs, now, k - 1);
      assert subs[..k][..k - 1] == subs[..k - 1];
      var dueBefore := set i | 0 <= i < k - 1 && RenewalDue(subs[i], now);
      var expiringBefore := set i | 0 <= i < k - 1 && ExpiryDue(subs[i], now);
      if RenewalDue(subs[k - 1], now) {
        assert due == dueBefore + {k - 1};
      } else {
        assert due == dueBefore;
      }
      if ExpiryDue(subs[k - 1], now) {
        assert expiring == expiringBefore + {k - 1};
      } else {
        assert expiring == expiringBefore;
      }
    }
  }

  /** Each count is the number of subscriptions its selection takes. */
  lemma CountsAreSetSizes(subs: seq<Subscription>, now: Instant)
    ensures CountDue(subs, now) == |set i | 0 <= i < |subs| && RenewalDue(subs[i], now)|
    ensures CountExpiring(subs, now) == |set i | 0 <= i < |subs| && ExpiryDue(subs[i], now)|
  {
    CountsOfPrefix(subs, now, |subs|);
    assert subs[..|subs|] == subs;
  }

  /** The counts over one more subscription. */
  lemma CountsStep(subs: seq<Subscription>, i: nat, now: Instant)
    requires i < |subs|
    ensures CountDue(subs[..i + 1], now) == CountDue(subs[..i], now) + (if RenewalDue(subs[i], now) then 1 else 0)
    ensures CountRenewable(subs[..i + 1], now)
            == CountRenewable(subs[..i], now) + (if RenewalDue(subs[i], now) && subs[i].plan.isActive then 1 else 0)
    ensures CountRenewed(subs[..i + 1], now) == CountRenewed(subs[..i], now) + (if RenewsNow(subs[i], now) then 1 else 0)
  {
    assert subs[..i + 1][..i] == subs[..i];
  }

  /** `process_auto_renewals`: renews every due subscription (a dry run only
      counts), counting successes and failures. A renewal that declines or
      raises is a failure, and one that raises leaves the row as stored. A
      dry run counts every due subscription on an offered plan as renewed,
      without trying the renewal. */
  method ProcessAutoRenewals(subs: seq<Subscription>, now: Instant, dryRun: bool)
    returns (out: seq<Subscription>, renewed: nat, failed: nat)
    ensures |out| == |subs|
    ensures forall i :: 0 <= i < |subs| ==>
      out[i] == if RenewsNow(subs[i], now) && !dryRun then Renew(subs[i]).sub else subs[i]
    ensures renewed + failed == CountDue(subs, now)
    ensures dryRun ==> renewed == CountRenewable(subs, now)
    ensures !dryRun ==> renewed == CountRenewed(subs, now)
  {
    out := [];
    renewed, failed := 0, 0;
    var i := 0;
    while i < |subs|
      invariant 0 <= i <= |subs|
      invariant |out| == i
      invariant forall j :: 0 <= j < i ==>
        out[j] == if RenewsNow(subs[j], now) && !dryRun then Renew(subs[j]).sub else subs[j]
      invariant renewed + failed == CountDue(subs[..i], now)
      invariant dryRun ==> renewed == CountRenewable(subs[..i], now)
      invariant !dryRun ==> renewed == CountRenewed(subs[..i], now)
    {
      var s := subs[i];
      CountsStep(subs, i, now);
      var next := s;
      if RenewalDue(s, now) {
        var success := s.plan.isActive;
        if !dryRun {
          match Renew(s)
          case Renewed(r) => success, next := true, r;
          case NotRenewed => success := false;
          case RenewCrashed => success := false;
        }
        if success { renewed := renewed + 1; } else { failed := failed + 1; }
      }
      out := out + [next];
      i := i + 1;
    }
    assert subs[..i] == subs;
  }

  /** A dry run reports the counts of a real run exactly when no due
      renewal on an offered plan would raise. */
  lemma {:induction false} DryRunCountsAgree(subs: seq<Subscription>, now: Instant)
    ensures CountRenewed(subs, now) == CountRenewable(subs, now) <==>
            forall i :: 0 <= i < |subs| && RenewalDue(subs[i], now) && subs[i].plan.isActive ==> !Renew(subs[i]).RenewCrashed?
  {
    if |subs| > 0 {
      var init := subs[..|subs| - 1];
      DryRunCountsAgree(init, now);
      assert forall i :: 0 <= i < |init| ==> init[i] == subs[i];
    }
  }

  /** `mark_expired_subscriptions`: marks every due subscription expired (a
      dry run only counts). */
  method MarkExpiredSubscriptions(subs: seq<Subscription>, now: Instant, dryRun: bool)
    returns (out: seq<Subscription>, count: nat)
    ensures |out| == |subs|
    ensures forall i :: 0 <= i < |subs| ==>
      out[i] == if ExpiryDue(subs[i], now) && !dryRun then subs[i].(status := Expired) else subs[i]
    ensures count == CountExpiring(subs, now)
  {
    out := [];
    count := 0;
    var i := 0;
    while i < |subs|
      invariant 0 <= i <= |subs|
      invariant |out| == i
      invariant forall j :: 0 <= j < i ==>
        out[j] == if ExpiryDue(subs[j], now) && !dryRun then subs[j].(status := Expired) else subs[j]
      invariant count == CountExpiring(subs[..i], now)
    {
      assert subs[..i + 1][..i] == subs[..i];
      if ExpiryDue(subs[i], now) {
        count := count + 1;
        out := out + [if dryRun then subs[i] else subs[i].(status := Expired)];
      } else {
        out := out + [subs[i]];
      }
      i := i + 1;
    }
    assert subs[..i] == subs;
  }

  /** One subscription after the renewal pass. */
  function AfterRenewal(s: Subscription, now: Instant): Subscription {
    if RenewsNow(s, now) then Renew(s).sub else s
  }

  /** One subscription after the expiry pass. */
  function AfterExpiry(s: Subscription, now: Instant): Subscription {
    if ExpiryDue(s, now) then s.(status := Expired) else s
  }

  /** `handle`: with `notify_only` nothing changes; otherwise renewals run
      first and expiry second. */
  method Handle(subs: seq<Subscription>, now: Instant, dryRun: bool, notifyOnly: bool)
    returns (out: seq<Subscription>)
    ensures notifyOnly || dryRun ==> out == subs
    ensures |out| == |subs|
    ensures !notifyOnly && !dryRun ==> forall i :: 0 <= i < |subs| ==> out[i] == AfterExpiry(AfterRenewal(subs[i], now), now)
    ensures !notifyOnly && !dryRun ==> forall i :: 0 <= i < |out| ==> !ExpiryDue(out[i], now)
    ensures forall i :: 0 <= i < |subs| && subs[i].status != Active ==> out[i] == subs[i]
  {
    if notifyOnly {
      return subs;
    }
    var renewedSubs, renewed, failed := ProcessAutoRenewals(subs, now, dryRun);
    var count;
    out, count := MarkExpiredSubscriptions(renewedSubs, now, dryRun);
  }

  /** A due subscription whose plan is offered and whose new end fits leaves
      the renewal pass active with a period starting at its old end; one
      whose plan is withdrawn, or whose renewal raises, is left as it was,
      still active and renewing, so the expiry pass never marks it. */
  lemma RenewalOutcome(s: Subscription, now: Instant)
    requires RenewalDue(s, now)
    ensures s.plan.isActive && InDatetimeRange(PeriodEnd(s.endDate, s.plan)) ==>
              AfterRenewal(s, now).status == Active && AfterRenewal(s, now).startDate == s.endDate
    ensures !s.plan.isActive || !InDatetimeRange(PeriodEnd(s.endDate, s.plan)) ==>
              AfterRenewal(s, now) == s && !ExpiryDue(AfterRenewal(s, now), now)
  {
  }
}

=== FILE: subscription_service.dfy ===
/** The subscription service (subscriptions/services.py): the ad-creation
    decision, the limits summary, the current subscription, creating a
    subscription and the usage hooks. The tables it queries are passed in as
    a `Store`; one instant `now` stands for every `timezone.now()` call. */
module SubscriptionService {
  import opened Wrappers
  import opened UserModels
  import ListingModels
  import opened SubscriptionModels
  import opened Clock

  /** The tables the service reads. `subscriptions` is in the query order
      (newest first); `usage` is keyed by subscription id; `freeAdsLimit` is
      the `free_ads_limit` setting as `int()` reads it (the missing setting
      reads as 0, and `None` stands for text `int()` rejects). */
  datatype Store = Store(
    users: seq<User>,
    listings: seq<ListingModels.Listing>,
    subscriptions: seq<Subscription>,
    usage: map<int, Usage>,
    freeAdsLimit: Option<int>)

  const CheckErrorMessage := "Error checking subscription status"
  const NoSubscriptionMessage := "No active subscription found"
  const ExpiredMessage := "Your subscription has expired"

  /** `User.objects.get(id=...)`. */
  function FindUser(users: seq<User>, id: int): (r: Option<User>)
    ensures r.Some? ==> r.value in users && r.value.id == id
    ensures r.None? ==> forall i :: 0 <= i < |users| ==> users[i].id != id
  {
    if |users| == 0 then None
    else if users[0].id == id then Some(users[0])
    else FindUser(users[1..], id)
  }

  /** The number of the user's active listings. */
  function ActiveListingCount(listings: seq<ListingModels.Listing>, user: int): (n: nat)
    ensures n <= |listings|
  {
    if |listings| == 0 then 0
    else (if listings[0].host == user && listings[0].isActive then 1 else 0) + ActiveListingCount(listings[1..], user)
  }

  /** Counting the suffix from `k` counts the positions there whose listing
      is the user's and active. */
  lemma {:induction false} ActiveListingCountFrom(listings: seq<ListingModels.Listing>, user: int, k: nat)
    requires k <= |listings|
    ensures ActiveListingCount(listings[k..], user)
            == |set i | k <= i < |listings| && listings[i].host == user && listings[i].isActive|
    decreases |listings| - k
  {
    var here := set i | k <= i < |listings| && listings[i].host == user && listings[i].isActive;
    if k == |listings| {
      assert here == {};
    } else {
      ActiveListingCountFrom(listings, user, k + 1);
      assert listings[k..][1..] == listings[k + 1..];
      var later := set i | k + 1 <= i < |listings| && listings[i].host == user && listings[i].isActive;
      if listings[k].host == user && listings[k].isActive {
        assert here == later + {k};
      } else {
        assert here == later;
      }
    }
  }

  /** The count is the number of the user's active listings. */
  lemma ActiveListingCountIsSetSize(listings: seq<ListingModels.Listing>, user: int)
    ensures ActiveListingCount(listings, user)
            == |set i | 0 <= i < |listings| && listings[i].host == user && listings[i].isActive|
  {
    ActiveListingCountFrom(listings, user, 0);
    assert listings[0..] == listings;
  }

  /** The filter of `get_current_subscription`. */
  predicate Current(s: Subscription, user: int, now: Instant) {
    s.user == user && IsActive(s, now)
  }

  /** The position of the first subscription passing the filter. */
  function FirstCurrent(subs: seq<Subscription>, user: int, now: Instant): (r: Option<nat>)
    ensures r.Some? ==> r.value < |subs| && Current(subs[r.value], user, now)
    ensures r.Some? ==> forall j :: 0 <= j < r.value ==> !Current(subs[j], user, now)
    ensures r.None? ==> forall j :: 0 <= j < |subs| ==> !Current(subs[j], user, now)
  {
    if |subs| == 0 then None
    else if Current(subs[0], user, now) then Some(0)
    else match FirstCurrent(subs[1..], user, now)
      case None => None
      case Some(i) => Some(i + 1)
  }

  /** `get_current_subscription`: the first of the user's subscriptions that
      is active now, if any. */
  function GetCurrentSubscription(subs: seq<Subscription>, user: int, now: Instant): (r: Option<Subscription>)
    ensures r.Some? ==> r.value in subs && r.value.user == user && IsActive(r.value, now)
    ensures r.None? <==> forall j :: 0 <= j < |subs| ==> !Current(subs[j], user, now)
  {
    match FirstCurrent(subs, user, now)
    case None => None
    case Some(i) => Some(subs[i])
  }

  /** The usage record `get_or_create` yields, created with the user's active
      listing count when missing. */
  function UsageFor(st: Store, s: Subscription, user: int): (u: Usage)
    ensures s.id in st.usage ==> u == st.usage[s.id]
    ensures s.id !in st.usage ==> u.adsCount == ActiveListingCount(st.listings, user) && u.totalAdsCreated == 0
  {
    if s.id in st.usage then st.usage[s.id]
    else Usage(ActiveListingCount(st.listings, user), 0, 0, None)
  }

  /** `SubscriptionService.can_create_ad`. */
  function CanCreateAd(st: Store, userId: int, now: Instant): (r: (bool, string))
    ensures FindUser(st.users, userId).None? ==> r == (false, CheckErrorMessage)
    ensures FindUser(st.users, userId).Some? && IsAdmin(FindUser(st.users, userId).value) ==> r == (true, "")
    ensures FindUser(st.users, userId).Some? && !IsAdmin(FindUser(st.users, userId).value)
            && GetCurrentSubscription(st.subscriptions, userId, now).None?
            ==> (r.0 <==> st.freeAdsLimit.Some? && st.freeAdsLimit.value > 0
                          && ActiveListingCount(st.listings, userId) < st.freeAdsLimit.value)
    ensures FindUser(st.users, userId).Some? && !IsAdmin(FindUser(st.users, userId).value)
            && GetCurrentSubscription(st.subscriptions, userId, now).Some?
            ==> (var cur := GetCurrentSubscription(st.subscriptions, userId, now).value;
                 r == UsageCanCreateAd(UsageFor(st, cur, userId), cur, now))
  {
    match FindUser(st.users, userId)
    case None => (false, CheckErrorMessage)
    case Some(u) =>
      if IsAdmin(u) then (true, "")
      else match GetCurrentSubscription(st.subscriptions, userId, now)
        case None =>
          (match st.freeAdsLimit
           case None => (false, CheckErrorMessage)
           case Some(limit) =>
             if limit > 0 && ActiveListingCount(st.listings, userId) < limit then (true, "")
             else (false, NoSubscriptionMessage))
        case Some(cur) =>
          if !IsActive(cur, now) then (false, ExpiredMessage)
          else UsageCanCreateAd(UsageFor(st, cur, userId), cur, now)
  }

  /** An ad may be created only by an admin, within the plan's limit of an
      active subscription, or within the free tier; and the current
      subscription is always active, so the "expired" answer never occurs. */
  lemma CanCreateAdNeedsRoom(st: Store, userId: int, now: Instant)
    ensures var r := CanCreateAd(st, userId, now);
            var cur := GetCurrentSubscription(st.subscriptions, userId, now);
            r.0 ==> || (FindUser(st.users, userId).Some? && IsAdmin(FindUser(st.users, userId).value))
                    || (cur.Some? && IsActive(cur.value, now)
                        && UsageFor(st, cur.value, userId).adsCount < cur.value.plan.adsLimit)
                    || (cur.None? && st.freeAdsLimit.Some?
                        && ActiveListingCount(st.listings, userId) < st.freeAdsLimit.value)
    ensures CanCreateAd(st, userId, now).1 != ExpiredMessage
  {
  }

  datatype AdsLimits = AdsLimits(
    current: int,
    limit: int,
    planName: string,
    subscriptionStatus: string,
    expiresAt: Option<Instant>,
    daysRemaining: Option<nat>)

  const ErrorLimits := AdsLimits(0, 0, "Error", "error", None, None)

  /** `get_ads_limits`. */
  function GetAdsLimits(st: Store, userId: int, now: Instant): (r: AdsLimits)
    ensures FindUser(st.users, userId).None? ==> r == ErrorLimits
    ensures r.subscriptionStatus == "admin"
            <==> FindUser(st.users, userId).Some? && IsAdmin(FindUser(st.users, userId).value)
    ensures r.subscriptionStatus == "admin" ==> r.limit == -1
    ensures r.subscriptionStatus == "none"
            <==> && FindUser(st.users, userId).Some? && !IsAdmin(FindUser(st.users, userId).value)
                 && GetCurrentSubscription(st.subscriptions, userId, now).None? && st.freeAdsLimit.Some?
    ensures r.subscriptionStatus == "none" ==> r.limit == st.freeAdsLimit.value && r.planName == "Free"
    ensures r.subscriptionStatus !in {"admin", "none", "error"}
            ==> && GetCurrentSubscription(st.subscriptions, userId, now).Some?
                && var cur := GetCurrentSubscription(st.subscriptions, userId, now).value;
                && r.limit == cur.plan.adsLimit && r.planName == cur.plan.name
                && r.expiresAt == Some(cur.endDate) && r.daysRemaining == Some(DaysRemaining(cur, now))
    ensures r != ErrorLimits ==> r.current == ActiveListingCount(st.listings, userId)
  {
    match FindUser(st.users, userId)
    case None => ErrorLimits
    case Some(u) =>
      var count := ActiveListingCount(st.listings, userId);
      if IsAdmin(u) then AdsLimits(count, -1, "Admin", "admin", None, None)
      else match GetCurrentSubscription(st.subscriptions, userId, now)
        case None =>
          (match st.freeAdsLimit
           case None => ErrorLimits
           case Some(limit) => AdsLimits(count, limit, "Free", "none", None, None))
        case Some(cur) =>
          AdsLimits(count, if IsActive(cur, now) then cur.plan.adsLimit else 0, cur.plan.name,
                    StatusName(cur.status), Some(cur.endDate), Some(DaysRemaining(cur, now)))
  }

  /** With a current subscription the limit reported is the plan's, and an
      ad may be created exactly when the usage count is below it. */
  lemma LimitsAgreeWithDecision(st: Store, userId: int, now: Instant)
    requires FindUser(st.users, userId).Some? && !IsAdmin(FindUser(st.users, userId).value)
    requires GetCurrentSubscription(st.subscriptions, userId, now).Some?
    ensures var cur := GetCurrentSubscription(st.subscriptions, userId, now).value;
            && GetAdsLimits(st, userId, now).limit == cur.plan.adsLimit
            && (CanCreateAd(st, userId, now).0 <==> UsageFor(st, cur, userId).adsCount < GetAdsLimits(st, userId, now).limit)
  {
  }

  /** Cancels the user's subscriptions whose status is active. */
  function CancelActive(subs: seq<Subscription>, user: int): (r: seq<Subscription>)
    ensures |r| == |subs|
    ensures forall i :: 0 <= i < |subs| ==>
      r[i] == if subs[i].user == user && subs[i].status == Active then Cancel(subs[i]) else subs[i]
  {
    if |subs| == 0 then []
    else [if subs[0].user == user && subs[0].status == Active then Cancel(subs[0]) else subs[0]]
         + CancelActive(subs[1..], user)
  }

  /** `create_subscription`: cancels every active subscription of the user,
      then adds an active one for the plan's duration, paid at the plan's
      price, with a usage record counting the user's active listings. The
      new subscription is the newest, so it comes first. An end past what a
      `datetime` holds raises inside the transaction, which undoes the
      cancellations: `None`, and nothing is stored. */
  function CreateSubscription(st: Store, user: int, plan: Plan, newId: int, paymentReference: nat,
                              autoRenew: bool, now: Instant): (r: Option<(Store, Subscription)>)
    requires newId !in st.usage
    ensures r.None? <==> !InDatetimeRange(PeriodEnd(now, plan))
    ensures r.Some? ==>
            var (st', s) := r.value;
            && st'.subscriptions == [s] + CancelActive(st.subscriptions, user)
            && s.user == user && s.plan == plan && s.status == Active && s.id == newId
            && s.startDate == now && s.endDate == now + plan.durationDays * SecondsPerDay
            && InDatetimeRange(s.endDate)
            && s.amountPaid == plan.price && s.autoRenew == autoRenew
            && s.paymentReference == paymentReference
            && st'.usage == st.usage[newId := Usage(ActiveListingCount(st.listings, user), 0, 0, None)]
            && st'.(subscriptions := st.subscriptions, usage := st.usage) == st
  {
    var end := PeriodEnd(now, plan);
    if !InDatetimeRange(end) then None
    else
      var s := Subscription(newId, user, plan, Active, now, end, autoRenew, plan.price, paymentReference);
      var usage := Usage(ActiveListingCount(st.listings, user), 0, 0, None);
      Some((st.(subscriptions := [s] + CancelActive(st.subscriptions, user), usage := st.usage[newId := usage]), s))
  }

  /** After creating a subscription it is the user's current one and the
      user has no other subscription with status active; other users'
      subscriptions are untouched. */
  lemma CreatedIsCurrent(st: Store, user: int, plan: Plan, newId: int, ref: nat, autoRenew: bool, now: Instant)
    requires newId !in st.usage
    ensures CreateSubscription(st, user, plan, newId, ref, autoRenew, now).Some? ==>
            var (st', s) := CreateSubscription(st, user, plan, newId, ref, autoRenew, now).value;
            && GetCurrentSubscription(st'.subscriptions, user, now) == Some(s)
            && (forall i :: 1 <= i < |st'.subscriptions| && st'.subscriptions[i].user == user
                  ==> st'.subscriptions[i].status != Active)
            && (forall i :: 1 <= i < |st'.subscriptions| && st'.subscriptions[i].user != user
                  ==> st'.subscriptions[i] == st.subscriptions[i - 1])
  {
    var r := CreateSubscription(st, user, plan, newId, ref, autoRenew, now);
    if r.Some? {
      var (st', s) := r.value;
      assert Current(st'.subscriptions[0], user, now);
    }
  }

  /** `update_usage_on_ad_created`: with a current subscription its usage
      record (created empty when missing) counts one more ad. */
  function UsageOnAdCreated(st: Store, user: int, now: Instant): (r: map<int, Usage>)
    ensures GetCurrentSubscription(st.subscriptions, user, now).None? ==> r == st.usage
    ensures GetCurrentSubscription(st.subscriptions, user, now).Some? ==>
      var id := GetCurrentSubscription(st.subscriptions, user, now).value.id;
      var before := if id in st.usage then st.usage[id] else Usage(0, 0, 0, None);
      && id in r && r[id] == IncrementAdsCount(before, now)
      && (forall k :: k in st.usage && k != id ==> k in r && r[k] == st.usage[k])
      && r.Keys == st.usage.Keys + {id}
  {
    match GetCurrentSubscription(st.subscriptions, user, now)
    case None => st.usage
    case Some(cur) =>
      var before := if cur.id in st.usage then st.usage[cur.id] else Usage(0, 0, 0, None);
      st.usage[cur.id := IncrementAdsCount(before, now)]
  }

  /** `update_usage_on_ad_deleted`: with a current subscription that has a
      usage record, that record counts one ad fewer. */
  function UsageOnAdDeleted(st: Store, user: int, now: Instant): (r: map<int, Usage>)
    ensures r.Keys == st.usage.Keys
    ensures GetCurrentSubscription(st.subscriptions, user, now).None? ==> r == st.usage
    ensures GetCurrentSubscription(st.subscriptions, user, now).Some? ==>
      var id := GetCurrentSubscription(st.subscriptions, user, now).value.id;
      && (id in st.usage ==> r[id] == DecrementAdsCount(st.usage[id]))
      && (forall k :: k in st.usage && k != id ==> r[k] == st.usage[k])
  {
    match GetCurrentSubscription(st.subscriptions, user, now)
    case None => st.usage
    case Some(cur) =>
      if cur.id in st.usage then st.usage[cur.id := DecrementAdsCount(st.usage[cur.id])]
      else st.usage
  }

  /** Creating an ad and deleting it again leaves the current subscription's
      live ad count where it was. */
  lemma AdCreatedThenDeleted(st: Store, user: int, now: Instant)
    requires GetCurrentSubscription(st.subscriptions, user, now).Some?
    ensures var id := GetCurrentSubscription(st.subscriptions, user, now).value.id;
            var after := UsageOnAdDeleted(st.(usage := UsageOnAdCreated(st, user, now)), user, now);
            && id in after
            && after[id].adsCount == (if id in st.usage then st.usage[id].adsCount else 0)
  {
  }
}

=== FILE: subscription_views.dfy ===
/** The subscription API views (subscriptions/views.py): the status summary,
    the QR payment endpoint's validation chain, auto-renewal toggling,
    cancellation and the administrator's extension. Requests arrive as
    decoded JSON; responses are outcomes with their HTTP status. */
module SubscriptionViews {
  import opened Wrappers
  import opened Text
  import opened Json
  import opened UserModels
  import opened SubscriptionModels
  import opened Clock
  import opened SubscriptionService

  // ------------------------------------------------------------- status

  datatype StatusData = StatusData(
    hasSubscription: bool,
    planName: string,
    subscriptionStatus: string,
    currentAds: int,
    adsLimit: int,
    expiresAt: Option<Instant>,
    daysRemaining: Option<nat>,
    usagePercentage: Option<real>)

  /** `subscription_status`: the limits summary with two derived fields. */
  function SubscriptionStatusData(limits: AdsLimits): (r: StatusData)
    ensures r.hasSubscription <==> limits.subscriptionStatus !in {"none", "error"}
    ensures r.usagePercentage.None? <==> limits.limit <= 0
    ensures r.usagePercentage.Some? ==> r.usagePercentage.value * limits.limit as real == limits.current as real * 100.0
    ensures r.adsLimit == limits.limit && r.currentAds == limits.current
  {
    StatusData(
      limits.subscriptionStatus !in ["none", "error"],
      limits.planName,
      limits.subscriptionStatus,
      limits.current,
      limits.limit,
      limits.expiresAt,
      limits.daysRemaining,
      if limits.limit > 0 then Some(limits.current as real / limits.limit as real * 100.0) else None)
  }

  /** Within the limit the usage lies between 0 and 100 percent; an
      administrator's unlimited plan reports no percentage. */
  lemma UsageWithinLimit(st: Store, userId: int, now: Instant)
    ensures var limits := GetAdsLimits(st, userId, now);
            var r := SubscriptionStatusData(limits);
            r.usagePercentage.Some? && limits.current <= limits.limit
            ==> 0.0 <= r.usagePercentage.value <= 100.0
    ensures var r := SubscriptionStatusData(GetAdsLimits(st, userId, now));
            r.subscriptionStatus == "admin" ==> r.hasSubscription && r.usagePercentage.None?
  {
    var limits := GetAdsLimits(st, userId, now);
    var r := SubscriptionStatusData(limits);
    if r.usagePercentage.Some? && limits.current <= limits.limit {
      PercentBounds(limits.current as real, limits.limit as real, r.usagePercentage.value);
    }
  }

  lemma PercentBounds(part: real, whole: real, pct: real)
    requires 0.0 <= part <= whole && whole > 0.0
    requires pct * whole == part * 100.0
    ensures 0.0 <= pct <= 100.0
  {
  }

  // --------------------------------------------------------- QR payment

  datatype QrOutcome =
    | NoQrData
    | InvalidQrFormat
    | MissingField(field: string)
    | InvalidAction
    | OnlyTestPayments
    | AuthenticationRequired
    | UserNotFound
    | PlanNotFound
    | ServerError
    | Paid(subscription: Subscription, planName: string)

  function HttpStatus(o: QrOutcome): (code: int)
    ensures code == 201 <==> o.Paid?
  {
    match o
    case NoQrData => 400
    case InvalidQrFormat => 400
    case MissingField(_) => 400
    case InvalidAction => 400
    case OnlyTestPayments => 400
    case AuthenticationRequired => 401
    case UserNotFound => 404
    case PlanNotFound => 404
    case ServerError => 500
    case Paid(_, _) => 201
  }

  const RequiredFields: seq<string> := ["action", "plan_id", "test_mode"]

  /** Python's `key in payload`: keys of an object, elements of a list,
      substrings of a string; `None` where `in` raises a `TypeError`. */
  function Has(payload: Json, key: string): (r: Option<bool>)
    ensures payload.JObject? ==> r == Some(Get(payload, key).Some?)
    ensures r.None? <==> !(payload.JObject? || payload.JArray? || payload.JStr?)
  {
    match payload
    case JObject(_) => Some(Get(payload, key).Some?)
    case JArray(items) => Some(JStr(key) in items)
    case JStr(s) => Some(Contains(s, key))
    case _ => None
  }

  /** The first of `fields` missing from the payload, `Some(None)` when all
      are present, `None` when a membership test raises. */
  function FirstMissing(payload: Json, fields: seq<string>): (r: Option<Option<string>>)
    ensures payload.JObject? ==> r.Some?
    ensures r == Some(None) ==> forall f :: f in fields ==> Has(payload, f) == Some(true)
    ensures r.Some? && r.value.Some? ==> r.value.value in fields && Has(payload, r.value.value) == Some(false)
  {
    if |fields| == 0 then Some(None)
    else match Has(payload, fields[0])
      case None => None
      case Some(present) => if !present then Some(Some(fields[0])) else FirstMissing(payload, fields[1..])
  }

  // -------------------------------------------------- field conversions

  /** What a lookup by primary key makes of a decoded value. */
  datatype Key = KeyOf(id: int) | NoKey | BadKey

  /** `objects.get(id=v)`: `None` is an `IS NULL` test that matches no row;
      anything else goes through Python's `int()` (`PyIntOf`). */
  function IdKey(v: Json): (r: Key)
    ensures r == NoKey <==> v.JNull?
    ensures r == BadKey <==> v.JArray? || v.JObject? || (v.JStr? && PyInt(v.s).None?)
    ensures v.JInt? ==> r == KeyOf(v.i)
    ensures v.JBool? ==> r == KeyOf(if v.b then 1 else 0)
    ensures v.JReal? ==> r == KeyOf(Trunc(v.r))
    ensures v.JStr? && PyInt(v.s).Some? ==> r == KeyOf(PyInt(v.s).value)
  {
    if v.JNull? then NoKey
    else match PyIntOf(v)
      case IntValue(n) => KeyOf(n)
      case _ => BadKey
  }

  /** Text an id lookup accepts reads back as that id, whatever its sign. */
  lemma IdKeyOfText(i: int)
    ensures IdKey(JStr(IntToString(i))) == KeyOf(i)
  {
    PyIntRoundTrip(i);
  }

  predicate IsHexDigit(c: char) {
    IsDigit(c) || 'a' <= c <= 'f' || 'A' <= c <= 'F'
  }

  predicate AllHex(s: string) {
    forall i :: 0 <= i < |s| ==> IsHexDigit(s[i])
  }

  function HexValue(c: char): (d: nat)
    requires IsHexDigit(c)
    ensures d < 16
  {
    if IsDigit(c) then DigitValue(c)
    else if 'a' <= c <= 'f' then (c as int - 'a' as int + 10) as nat
    else (c as int - 'A' as int + 10) as nat
  }

  /** Hexadecimal digits read as a natural number, most significant first. */
  function ParseHex(s: string): nat
    requires AllHex(s)
  {
    if |s| == 0 then 0 else ParseHex(s[..|s| - 1]) * 16 + HexValue(s[|s| - 1])
  }

  function Pow16(k: nat): (p: nat)
    ensures p >= 1
  {
    if k == 0 then 1 else 16 * Pow16(k - 1)
  }

  /** `UUID` values are 128 bits: 16^32 = 2^128 of them. */
  const UuidLimit: nat := Pow16(32)

  /** Python's `s.strip('{}')`: braces removed from both ends. */
  function StripBraces(s: string): (r: string)
    ensures |r| <= |s|
    ensures |s| > 0 && s[0] != '{' && s[0] != '}' && s[|s| - 1] != '{' && s[|s| - 1] != '}' ==> r == s
    decreases |s|
  {
    if |s| > 0 && (s[0] == '{' || s[0] == '}') then StripBraces(s[1..])
    else if |s| > 0 && (s[|s| - 1] == '{' || s[|s| - 1] == '}') then StripBraces(s[..|s| - 1])
    else s
  }

  /** The digits `UUID(hex=s)` reads: `urn:` and `uuid:` removed, braces
      stripped from both ends, hyphens removed. */
  function UuidDigits(s: string): string {
    ReplaceChar(StripBraces(PyReplace(PyReplace(s, "urn:", ""), "uuid:", "")), '-', "")
  }

  /** What the `UUIDField` of `payment_reference` makes of a decoded value
      when the row is saved: an integer or a boolean is `UUID(int=v)`, which
      must lie below 2^128; text is `UUID(hex=v)`, which must leave exactly
      32 hexadecimal digits; anything else raises. */
  function UuidOf(v: Json): (r: Option<nat>)
    ensures r.Some? ==> r.value < UuidLimit
    ensures v.JInt? ==> (r.Some? <==> 0 <= v.i < UuidLimit) && (r.Some? ==> r.value == v.i)
    ensures v.JBool? ==> r == Some(if v.b then 1 else 0)
    ensures v.JStr? ==> (r.Some? <==> |UuidDigits(v.s)| == 32 && AllHex(UuidDigits(v.s)))
    ensures v.JStr? && r.Some? ==> r.value == ParseHex(UuidDigits(v.s))
    ensures v.JNull? || v.JReal? || v.JArray? || v.JObject? ==> r.None?
  {
    match v
    case JInt(i) => if 0 <= i < UuidLimit then Some(i) else None
    case JBool(b) => Some(if b then 1 else 0)
    case JStr(t) =>
      var d := UuidDigits(t);
      if |d| == 32 && AllHex(d) then HexBound(d); Some(ParseHex(d)) else None
    case _ => None
  }

  lemma {:induction false} HexBound(s: string)
    requires AllHex(s)
    ensures ParseHex(s) < Pow16(|s|)
    decreases |s|
  {
    if |s| > 0 {
      HexBound(s[..|s| - 1]);
    }
  }

  /** `n` as `k` lower-case hexadecimal digits (the low `k` digits of `n`). */
  function HexText(n: nat, k: nat): (s: string)
    ensures |s| == k && AllHex(s)
    ensures forall i :: 0 <= i < |s| ==> s[i] != ':' && s[i] != '{' && s[i] != '}' && s[i] != '-'
  {
    if k == 0 then "" else HexText(n / 16, k - 1) + [HexDigit(n % 16)]
  }

  lemma HexDigitValue(d: nat)
    requires d < 16
    ensures IsHexDigit(HexDigit(d)) && HexValue(HexDigit(d)) == d
  {
  }

  lemma {:induction false} HexTextRoundTrip(n: nat, k: nat)
    requires n < Pow16(k)
    ensures ParseHex(HexText(n, k)) == n
    decreases k
  {
    if k > 0 {
      var s := HexText(n, k);
      assert s[..k - 1] == HexText(n / 16, k - 1);
      HexDigitValue(n % 16);
      HexTextRoundTrip(n / 16, k - 1);
    }
  }

  /** A text without `:` contains nothing that has a `:`. */
  lemma {:induction false} NoColonNoMatch(s: string, needle: string, at: nat)
    requires at < |needle| && needle[at] == ':'
    requires forall i :: 0 <= i < |s| ==> s[i] != ':'
    ensures !Contains(s, needle)
    decreases |s|
  {
    if at < |s| {
      assert s[at] != needle[at];
    }
    if |s| > 0 {
      NoColonNoMatch(s[1..], needle, at);
    }
  }

  /** Every UUID written as 32 hexadecimal digits is read back as itself. */
  lemma UuidTextRoundTrip(n: nat)
    requires n < UuidLimit
    ensures UuidOf(JStr(HexText(n, 32))) == Some(n)
  {
    var t := HexText(n, 32);
    NoColonNoMatch(t, "urn:", 3);
    PyReplaceAbsent(t, "urn:", "");
    NoColonNoMatch(t, "uuid:", 4);
    PyReplaceAbsent(t, "uuid:", "");
    assert UuidDigits(t) == t;
    HexTextRoundTrip(n, 32);
  }

  /** What the `BooleanField` of `auto_renew` makes of a decoded value when
      the row is saved: `True`, `False` and the numbers equal to them, then
      the texts "t", "True", "1" and "f", "False", "0"; anything else raises,
      and `None` is refused by the non-null column. */
  function BoolFieldOf(v: Json): (r: Option<bool>)
    ensures v.JBool? ==> r == Some(v.b)
    ensures v.JInt? ==> (r.Some? <==> v.i == 0 || v.i == 1) && (r.Some? ==> (r.value <==> v.i == 1))
    ensures v.JReal? ==> (r.Some? <==> v.r == 0.0 || v.r == 1.0) && (r.Some? ==> (r.value <==> v.r == 1.0))
    ensures v.JStr? ==> (r == Some(true) <==> v.s in {"t", "True", "1"})
    ensures v.JStr? ==> (r == Some(false) <==> v.s in {"f", "False", "0"})
    ensures v.JNull? || v.JArray? || v.JObject? ==> r.None?
  {
    match v
    case JBool(b) => Some(b)
    case JInt(i) => if i == 1 then Some(true) else if i == 0 then Some(false) else None
    case JReal(x) => if x == 1.0 then Some(true) else if x == 0.0 then Some(false) else None
    case JStr(t) =>
      if t == "t" || t == "True" || t == "1" then Some(true)
      else if t == "f" || t == "False" || t == "0" then Some(false)
      else None
    case _ => None
  }

  function FindPlan(plans: seq<Plan>, id: int): (r: Option<Plan>)
    ensures r.Some? ==> r.value in plans && r.value.id == id
    ensures r.None? ==> forall i :: 0 <= i < |plans| ==> plans[i].id != id
  {
    if |plans| == 0 then None
    else if plans[0].id == id then Some(plans[0])
    else FindPlan(plans[1..], id)
  }

  /** The request of `process_qr_payment`: the `qr_data` and `user_id`
      fields (`JNull` when absent), the decoded text of `qr_data` when it is
      text (`None` when it is not valid JSON), and the authenticated user. */
  datatype QrRequest = QrRequest(qrData: Json, decoded: Option<Json>, userId: Json, authenticated: Option<int>)

  /** The payment data: the decoded text, or the field itself when it is not
      text. */
  function PaymentData(req: QrRequest): (r: Option<Json>)
    ensures !req.qrData.JStr? ==> r == Some(req.qrData)
    ensures req.qrData.JStr? ==> r == req.decoded
  {
    if req.qrData.JStr? then req.decoded else Some(req.qrData)
  }

  /** The user id the payment is for: the request's `user_id`, else the
      authenticated user's. */
  function PayingUserId(req: QrRequest): (r: Json)
    ensures Truthy(req.userId) ==> r == req.userId
    ensures !Truthy(req.userId) && req.authenticated.Some? ==> r == JInt(req.authenticated.value)
  {
    if !Truthy(req.userId) && req.authenticated.Some? then JInt(req.authenticated.value) else req.userId
  }

  /** `process_qr_payment`: the checks in source order, then the new
      subscription on success. */
  function ProcessQrPayment(req: QrRequest, st: Store, plans: seq<Plan>, newId: int,
                            freshReference: nat, now: Instant): (r: (QrOutcome, Store))
    requires newId !in st.usage
    ensures !r.0.Paid? ==> r.1 == st
    ensures !Truthy(req.qrData) <==> r.0 == NoQrData
    ensures r.0 == InvalidQrFormat <==> Truthy(req.qrData) && PaymentData(req).None?
    ensures r.0.MissingField? ==> (PaymentData(req).Some?
            && FirstMissing(PaymentData(req).value, RequiredFields) == Some(Some(r.0.field)))
  {
    if !Truthy(req.qrData) then (NoQrData, st)
    else match PaymentData(req)
      case None => (InvalidQrFormat, st)
      case Some(pd) =>
        match FirstMissing(pd, RequiredFields)
        case None => (ServerError, st)
        case Some(Some(field)) => (MissingField(field), st)
        case Some(None) =>
          assert Has(pd, RequiredFields[1]) == Some(true) && Has(pd, RequiredFields[2]) == Some(true);
          if !pd.JObject? then (ServerError, st)
          else if Get(pd, "action") != Some(JStr("subscription_payment")) then (InvalidAction, st)
          else if !Truthy(Get(pd, "test_mode").value) then (OnlyTestPayments, st)
          else
            TestPayment(req, pd, st, plans, newId, freshReference, now)
  }

  /** The request got past the format and field checks: its payment data is
      an object holding every required field. */
  predicate FieldsPresent(req: QrRequest)
  {
    && Truthy(req.qrData) && PaymentData(req).Some? && PaymentData(req).value.JObject?
    && forall f :: f in RequiredFields ==> Get(PaymentData(req).value, f).Some?
  }

  /** Past the format and field checks, the action must be a subscription
      payment. */
  lemma QrPaymentPastTheChecks(req: QrRequest, st: Store, plans: seq<Plan>, newId: int,
                               freshReference: nat, now: Instant)
    requires newId !in st.usage
    ensures var r := ProcessQrPayment(req, st, plans, newId, freshReference, now);
            r.0 == InvalidAction || r.0 == OnlyTestPayments || r.0.Paid? ==> FieldsPresent(req)
    ensures var r := ProcessQrPayment(req, st, plans, newId, freshReference, now);
            FieldsPresent(req) ==>
              (r.0 == InvalidAction <==> Get(PaymentData(req).value, "action") != Some(JStr("subscription_payment")))
  {
    if FieldsPresent(req) {
      AllPresentPassesFieldCheck(PaymentData(req).value);
    }
  }

  /** Only a test payment goes through, and it creates an active
      subscription after canceling the user's active ones. */
  lemma QrPaymentInTestMode(req: QrRequest, st: Store, plans: seq<Plan>, newId: int,
                            freshReference: nat, now: Instant)
    requires newId !in st.usage
    ensures var r := ProcessQrPayment(req, st, plans, newId, freshReference, now);
            r.0 == OnlyTestPayments ==> && FieldsPresent(req) && Get(PaymentData(req).value, "test_mode").Some?
                                        && !Truthy(Get(PaymentData(req).value, "test_mode").value)
    ensures var r := ProcessQrPayment(req, st, plans, newId, freshReference, now);
            r.0.Paid? ==> && FieldsPresent(req) && Get(PaymentData(req).value, "test_mode").Some?
                          && Truthy(Get(PaymentData(req).value, "test_mode").value)
    ensures var r := ProcessQrPayment(req, st, plans, newId, freshReference, now);
            r.0.Paid? ==> && r.1.subscriptions == [r.0.subscription] + CancelActive(st.subscriptions, r.0.subscription.user)
                          && r.0.subscription.status == Active
  {
    QrPaymentPastTheChecks(req, st, plans, newId, freshReference, now);
    if FieldsPresent(req) {
      AllPresentPassesFieldCheck(PaymentData(req).value);
    }
  }

  /** An object holding every required field passes the field check. */
  lemma AllPresentPassesFieldCheck(pd: Json)
    requires pd.JObject? && forall f :: f in RequiredFields ==> Get(pd, f).Some?
    ensures FirstMissing(pd, RequiredFields) == Some(None)
  {
    assert forall f :: f in RequiredFields ==> Has(pd, f) == Some(true);
  }

  /** The test-mode branch of `process_qr_payment`: the paying user and the
      plan are looked up, then the subscription is created. */
  function TestPayment(req: QrRequest, pd: Json, st: Store, plans: seq<Plan>, newId: int,
                       freshReference: nat, now: Instant): (r: (QrOutcome, Store))
    requires newId !in st.usage && Get(pd, "plan_id").Some?
    ensures r.0.AuthenticationRequired? || r.0.ServerError? || r.0.UserNotFound? || r.0.PlanNotFound? || r.0.Paid?
    ensures !r.0.Paid? ==> r.1 == st
    ensures r.0.Paid? ==> && r.1.subscriptions == [r.0.subscription] + CancelActive(st.subscriptions, r.0.subscription.user)
                          && r.0.subscription.status == Active
  {
    var uid := PayingUserId(req);
    if !Truthy(uid) then (AuthenticationRequired, st)
    else match IdKey(uid)
      case BadKey => (ServerError, st)
      case NoKey => (UserNotFound, st)
      case KeyOf(id) =>
        match FindUser(st.users, id)
        case None => (UserNotFound, st)
        case Some(user) =>
          match IdKey(Get(pd, "plan_id").value)
          case BadKey => (ServerError, st)
          case NoKey => (PlanNotFound, st)
          case KeyOf(planId) =>
            match FindPlan(plans, planId)
            case None => (PlanNotFound, st)
            case Some(plan) =>
              match StoredReference(Get(pd, "payment_reference"), freshReference)
              case None => (ServerError, st)
              case Some(reference) =>
                match StoredAutoRenew(Get(pd, "auto_renew"))
                case None => (ServerError, st)
                case Some(autoRenew) =>
                  match CreateSubscription(st, user.id, plan, newId, reference, autoRenew, now)
                  case None => (ServerError, st)
                  case Some((st', s)) => (Paid(s, plan.name), st')
  }

  /** A payment's subscription runs from `now` for the plan's length and
      ends within the range of a `datetime`: a plan too long for that fails
      the payment with a server error and stores nothing. */
  lemma PaidPeriodFits(req: QrRequest, pd: Json, st: Store, plans: seq<Plan>, newId: int,
                       freshReference: nat, now: Instant)
    requires newId !in st.usage && Get(pd, "plan_id").Some?
    ensures var r := TestPayment(req, pd, st, plans, newId, freshReference, now);
      r.0.Paid? ==> && r.0.subscription.startDate == now
                    && r.0.subscription.endDate == PeriodEnd(now, r.0.subscription.plan)
                    && InDatetimeRange(r.0.subscription.endDate)
  {
  }

  /** A paid subscription stores the reference and the renewal flag as
      their columns read the posted values; a value a column refuses fails
      the payment. */
  lemma TestPaymentStoresColumns(req: QrRequest, pd: Json, st: Store, plans: seq<Plan>, newId: int,
                                 freshReference: nat, now: Instant)
    requires newId !in st.usage && Get(pd, "plan_id").Some?
    ensures var r := TestPayment(req, pd, st, plans, newId, freshReference, now);
      && (r.0.Paid? ==>
            && StoredReference(Get(pd, "payment_reference"), freshReference) == Some(r.0.subscription.paymentReference)
            && StoredAutoRenew(Get(pd, "auto_renew")) == Some(r.0.subscription.autoRenew))
      && (StoredReference(Get(pd, "payment_reference"), freshReference).None? ==> !r.0.Paid?)
      && (StoredAutoRenew(Get(pd, "auto_renew")).None? ==> !r.0.Paid?)
  {
  }

  /** The payment reference saved: a fresh `uuid4()` when the field is
      missing or false, else the field's value as a UUID (`None` when the
      save raises). */
  function StoredReference(given: Option<Json>, generated: nat): (r: Option<nat>)
    ensures given.None? || !Truthy(given.value) ==> r == Some(generated)
    ensures given.Some? && Truthy(given.value) ==> r == UuidOf(given.value)
  {
    if given.None? || !Truthy(given.value) then Some(generated) else UuidOf(given.value)
  }

  /** The auto-renewal flag saved: false when the field is missing, else the
      field's value as a boolean column reads it (`None` when the save raises). */
  function StoredAutoRenew(given: Option<Json>): (r: Option<bool>)
    ensures given.None? ==> r == Some(false)
    ensures given.Some? ==> r == BoolFieldOf(given.value)
  {
    if given.None? then Some(false) else BoolFieldOf(given.value)
  }

  /** The flag is read as the boolean column reads it: "False" saves a
      subscription that does not renew, and "yes" fails the whole payment. */
  lemma AutoRenewReadByTheColumn(req: QrRequest, pd: Json, st: Store, plans: seq<Plan>, newId: int, ref: nat,
                                 now: Instant)
    requires newId !in st.usage && Get(pd, "plan_id").Some?
    ensures Get(pd, "auto_renew") == Some(JStr("False")) ==>
      var r := TestPayment(req, pd, st, plans, newId, ref, now);
      r.0.Paid? ==> !r.0.subscription.autoRenew
    ensures Get(pd, "auto_renew") == Some(JStr("yes")) ==>
      var r := TestPayment(req, pd, st, plans, newId, ref, now);
      !r.0.Paid? && r.1 == st
  {
    TestPaymentStoresColumns(req, pd, st, plans, newId, ref, now);
    if Get(pd, "auto_renew") == Some(JStr("False")) {
      assert StoredAutoRenew(Get(pd, "auto_renew")) == Some(false);
    }
    if Get(pd, "auto_renew") == Some(JStr("yes")) {
      assert StoredAutoRenew(Get(pd, "auto_renew")).None?;
    }
  }

  /** A reference that is not a UUID fails the payment and stores nothing. */
  lemma NegativeReferenceFails(req: QrRequest, pd: Json, st: Store, plans: seq<Plan>, newId: int, ref: nat,
                               now: Instant)
    requires newId !in st.usage && Get(pd, "plan_id").Some?
    requires Get(pd, "payment_reference") == Some(JInt(-1))
    ensures var r := TestPayment(req, pd, st, plans, newId, ref, now);
            !r.0.Paid? && r.1 == st
  {
    assert UuidOf(JInt(-1)).None?;
    assert StoredReference(Get(pd, "payment_reference"), ref).None?;
    TestPaymentStoresColumns(req, pd, st, plans, newId, ref, now);
  }

  /** A payment object missing both `action` and `plan_id` reports `action`;
      with every field present, an action other than a subscription payment
      is refused before the test mode is looked at. */
  lemma QrChecksInOrder(req: QrRequest, st: Store, plans: seq<Plan>, newId: int, ref: nat, now: Instant)
    requires newId !in st.usage
    requires Truthy(req.qrData) && PaymentData(req).Some? && PaymentData(req).value.JObject?
    ensures var pd := PaymentData(req).value;
            Get(pd, "action").None? ==> ProcessQrPayment(req, st, plans, newId, ref, now).0 == MissingField("action")
    ensures var pd := PaymentData(req).value;
            Get(pd, "action").Some? && Get(pd, "plan_id").None?
            ==> ProcessQrPayment(req, st, plans, newId, ref, now).0 == MissingField("plan_id")
    ensures var pd := PaymentData(req).value;
            && Get(pd, "action").Some? && Get(pd, "plan_id").Some? && Get(pd, "test_mode").Some?
            && Get(pd, "action") != Some(JStr("subscription_payment"))
            ==> ProcessQrPayment(req, st, plans, newId, ref, now).0 == InvalidAction
  {
    var pd := PaymentData(req).value;
    var tail1 := RequiredFields[1..];
    var tail2 := RequiredFields[2..];
    assert tail1 == ["plan_id", "test_mode"] && tail1[1..] == tail2;
    assert tail2 == ["test_mode"] && tail2[1..] == [];
    if Get(pd, "action").None? {
      assert FirstMissing(pd, RequiredFields) == Some(Some("action"));
    } else if Get(pd, "plan_id").None? {
      assert FirstMissing(pd, tail1) == Some(Some("plan_id"));
    } else if Get(pd, "test_mode").Some? {
      assert FirstMissing(pd, tail2) == Some(None);
      assert FirstMissing(pd, tail1) == Some(None);
      assert FirstMissing(pd, RequiredFields) == Some(None);
    }
  }

  // -------------------------------------------------- current subscription

  datatype NotFound = NoActiveSubscription

  /** `toggle_auto_renew`: flips the flag of the current subscription and
      reports the new value; 404 without one. */
  function ToggleAutoRenew(subs: seq<Subscription>, user: int, now: Instant)
    : (r: Result<(seq<Subscription>, bool), NotFound>)
    ensures GetCurrentSubscription(subs, user, now).None? <==> r.Failure?
    ensures r.Success? ==>
      var i := FirstCurrent(subs, user, now).value;
      && |r.value.0| == |subs|
      && r.value.0[i] == subs[i].(autoRenew := !subs[i].autoRenew)
      && r.value.1 == r.value.0[i].autoRenew
      && (forall j :: 0 <= j < |subs| && j != i ==> r.value.0[j] == subs[j])
  {
    match FirstCurrent(subs, user, now)
    case None => Failure(NoActiveSubscription)
    case Some(i) =>
      var toggled := subs[i].(autoRenew := !subs[i].autoRenew);
      Success((subs[i := toggled], toggled.autoRenew))
  }

  /** The flag plays no part in which subscription is current. */
  lemma {:induction false} FirstCurrentIgnoresAutoRenew(subs: seq<Subscription>, i: nat, flag: bool, user: int, now: Instant)
    requires i < |subs|
    ensures FirstCurrent(subs[i := subs[i].(autoRenew := flag)], user, now) == FirstCurrent(subs, user, now)
    decreases |subs|
  {
    var t := subs[i := subs[i].(autoRenew := flag)];
    if i > 0 {
      assert t[1..] == subs[1..][i - 1 := subs[i].(autoRenew := flag)];
      FirstCurrentIgnoresAutoRenew(subs[1..], i - 1, flag, user, now);
    } else {
      assert t[1..] == subs[1..];
    }
  }

  /** Toggling twice restores every subscription. */
  lemma ToggleTwice(subs: seq<Subscription>, user: int, now: Instant)
    requires ToggleAutoRenew(subs, user, now).Success?
    ensures var once := ToggleAutoRenew(subs, user, now).value.0;
            && ToggleAutoRenew(once, user, now).Success?
            && ToggleAutoRenew(once, user, now).value.0 == subs
            && ToggleAutoRenew(once, user, now).value.1 == subs[FirstCurrent(subs, user, now).value].autoRenew
  {
    var i := FirstCurrent(subs, user, now).value;
    FirstCurrentIgnoresAutoRenew(subs, i, !subs[i].autoRenew, user, now);
    var once := ToggleAutoRenew(subs, user, now).value.0;
    assert once[i := once[i].(autoRenew := !once[i].autoRenew)] == subs;
  }

  /** `cancel_subscription`: cancels the current subscription; 404 without one. */
  function CancelSubscription(subs: seq<Subscription>, user: int, now: Instant): (r: Result<seq<Subscription>, NotFound>)
    ensures GetCurrentSubscription(subs, user, now).None? <==> r.Failure?
    ensures r.Success? ==>
      var i := FirstCurrent(subs, user, now).value;
      && |r.value| == |subs| && r.value[i] == Cancel(subs[i])
      && (forall j :: 0 <= j < |subs| && j != i ==> r.value[j] == subs[j])
  {
    match FirstCurrent(subs, user, now)
    case None => Failure(NoActiveSubscription)
    case Some(i) => Success(subs[i := Cancel(subs[i])])
  }

  /** After a cancellation the subscription that was current no longer is. */
  lemma CanceledIsNoLongerCurrent(subs: seq<Subscription>, user: int, now: Instant)
    requires CancelSubscription(subs, user, now).Success?
    ensures var i := FirstCurrent(subs, user, now).value;
            !Current(CancelSubscription(subs, user, now).value[i], user, now)
  {
  }

  // ------------------------------------------------------------ extension

  /** Refusals of `admin_extend_subscription`; `ExtendCrashed` is an
      exception the view does not catch (a `TypeError` from `int()`, or an
      `OverflowError` when the new end falls past the last `datetime`). */
  datatype ExtendError = NonPositiveDays | InvalidDays | ExtendCrashed

  const DefaultExtensionDays := 30

  /** The `days` field, 30 when the payload has none. */
  function RequestedDays(days: Option<Json>): Json {
    if days.None? then JInt(DefaultExtensionDays) else days.value
  }

  /** `admin_extend_subscription`: `int()` of the `days` field must succeed
      and be positive, and the extended end must still be a `datetime`. */
  function AdminExtendSubscription(s: Subscription, days: Option<Json>): (r: Result<Subscription, ExtendError>)
    ensures r == Failure(InvalidDays) <==> days.Some? && days.value.JStr? && PyInt(days.value.s).None?
    ensures days.Some? && (days.value.JNull? || days.value.JArray? || days.value.JObject?) ==> r == Failure(ExtendCrashed)
    ensures r == Failure(NonPositiveDays) <==> PyIntOf(RequestedDays(days)).IntValue? && PyIntOf(RequestedDays(days)).n <= 0
    ensures r.Success? <==> PyIntOf(RequestedDays(days)).IntValue? && PyIntOf(RequestedDays(days)).n > 0
                            && InDatetimeRange(s.endDate + PyIntOf(RequestedDays(days)).n * SecondsPerDay)
    ensures r.Success? ==> r.value.endDate > s.endDate && r.value.(endDate := s.endDate) == s
    ensures r.Success? ==> r.value == Extend(s, PyIntOf(RequestedDays(days)).n)
  {
    match PyIntOf(RequestedDays(days))
    case IntTypeError => Failure(ExtendCrashed)
    case IntValueError => Failure(InvalidDays)
    case IntValue(n) =>
      if n <= 0 then Failure(NonPositiveDays)
      else if !InDatetimeRange(s.endDate + n * SecondsPerDay) then Failure(ExtendCrashed)
      else Success(Extend(s, n))
  }

  /** Without a `days` field the subscription gains thirty days. */
  lemma DefaultExtension(s: Subscription)
    requires InDatetimeRange(s.endDate + 30 * SecondsPerDay)
    ensures AdminExtendSubscription(s, None).Success?
    ensures AdminExtendSubscription(s, None).value.endDate == s.endDate + 30 * SecondsPerDay
  {
  }

  /** Days sent as text are read by `int()`, so `"7"` and `" 7"` both extend
      by a week, while a subscription ending near the last `datetime` cannot
      be extended at all. */
  lemma ExtensionByText(s: Subscription, n: int)
    requires n > 0 && InDatetimeRange(s.endDate + n * SecondsPerDay)
    ensures AdminExtendSubscription(s, Some(JStr(IntToString(n)))) == Success(Extend(s, n))
    ensures AdminExtendSubscription(s, Some(JStr(" " + IntToString(n)))) == Success(Extend(s, n))
  {
    PyIntOfText(n);
    ExtendByValue(s, JStr(IntToString(n)), n);
    PyIntOfPaddedText(n);
    ExtendByValue(s, JStr(" " + IntToString(n)), n);
  }

  /** Any value `int()` reads as a positive `n` extends by `n` days. */
  lemma ExtendByValue(s: Subscription, v: Json, n: int)
    requires PyIntOf(v) == IntValue(n) && n > 0 && InDatetimeRange(s.endDate + n * SecondsPerDay)
    ensures AdminExtendSubscription(s, Some(v)) == Success(Extend(s, n))
  {
    assert RequestedDays(Some(v)) == v;
  }

  lemma ExtensionPastYear9999Crashes(s: Subscription)
    requires s.endDate == MaxInstant
    ensures AdminExtendSubscription(s, None) == Failure(ExtendCrashed)
  {
  }
}

=== FILE: text.dfy ===
/** String helpers shared by the model: decimal rendering, Python's
    `str.strip`, `str.replace`, `str.lower` and `str.title`, and JavaScript's
    `padStart(2, '0')`. Case mapping covers the ASCII letters only. */
module Text {
  import opened Wrappers

  // ---------------------------------------------------------------- digits

  predicate IsDigit(c: char) {
    '0' <= c <= '9'
  }

  predicate AllDigits(s: string) {
    forall i :: 0 <= i < |s| ==> IsDigit(s[i])
  }

  function DigitChar(d: nat): (c: char)
    requires d < 10
    ensures IsDigit(c)
  {
    "0123456789"[d]
  }

  function DigitValue(c: char): (d: nat)
    requires IsDigit(c)
    ensures d < 10
  {
    (c as int - '0' as int) as nat
  }

  lemma DigitRoundTrip(d: nat)
    requires d < 10
    ensures DigitValue(DigitChar(d)) == d
  {
  }

  /** Decimal rendering of a natural number, most significant digit first,
      without leading zeros (Python's `str(n)`, JavaScript's `String(n)`). */
  function NatToString(n: nat): (s: string)
    ensures 1 <= |s|
    ensures AllDigits(s)
    ensures n < 10 <==> |s| == 1
    decreases n
  {
    if n < 10 then [DigitChar(n)] else NatToString(n / 10) + [DigitChar(n % 10)]
  }

  /** Reads a string of decimal digits as a natural number. */
  function ParseNat(s: string): nat
    requires AllDigits(s)
  {
    if |s| == 0 then 0 else ParseNat(s[..|s| - 1]) * 10 + DigitValue(s[|s| - 1])
  }

  lemma {:induction false} NatToStringRoundTrip(n: nat)
    ensures ParseNat(NatToString(n)) == n
    decreases n
  {
    if n < 10 {
      DigitRoundTrip(n);
    } else {
      var a := NatToString(n / 10);
      var s := a + [DigitChar(n % 10)];
      assert s[..|s| - 1] == a;
      NatToStringRoundTrip(n / 10);
      DigitRoundTrip(n % 10);
    }
  }

  /** Decimal rendering of an integer with a leading '-' for negatives. */
  function IntToString(i: int): (s: string)
    ensures |s| > 0
  {
    if i < 0 then "-" + NatToString(-i) else NatToString(i)
  }

  /** The middle of `a + b + c` is `b`. */
  lemma Framed(a: string, b: string, c: string)
    ensures (a + b + c)[..|a|] == a && (a + b + c)[|a|..|a| + |b|] == b
  {
  }


  function Pow10(w: nat): (p: nat)
    ensures p >= 1
  {
    if w == 0 then 1 else 10 * Pow10(w - 1)
  }

  /** A number below 10^w has at most w digits (w >= 1). */
  lemma {:induction false} NatToStringWidth(n: nat, w: nat)
    requires w >= 1
    ensures n < Pow10(w) ==> |NatToString(n)| <= w
    decreases w
  {
    if n >= 10 && n < Pow10(w) && w > 1 {
      NatToStringWidth(n / 10, w - 1);
    }
  }

  /** A number of at least 10^(w-1) has at least w digits. */
  lemma {:induction false} NatToStringAtLeast(n: nat, w: nat)
    requires w >= 1
    ensures n >= Pow10(w - 1) ==> |NatToString(n)| >= w
    decreases w
  {
    if n >= Pow10(w - 1) && w > 1 {
      assert n >= 10;
      NatToStringAtLeast(n / 10, w - 1);
    }
  }

  /** The decimal digits of `n` left-padded with '0' to at least `width`
      characters: JavaScript's `String(n).padStart(width, '0')` and Python's
      `%0*d` formatting of a non-negative number. */
  function ZeroPad(n: nat, width: nat): (s: string)
    ensures AllDigits(s)
    ensures |s| >= width && |s| >= 1
    ensures |NatToString(n)| <= width ==> |s| == width
    ensures |NatToString(n)| >= width ==> s == NatToString(n)
  {
    var digits := NatToString(n);
    if |digits| >= width then digits else seq(width - |digits|, _ => '0') + digits
  }

  lemma {:induction false} ZerosParse(k: nat)
    ensures AllDigits(seq(k, _ => '0'))
    ensures ParseNat(seq(k, _ => '0')) == 0
    decreases k
  {
    if k > 0 {
      var z := seq(k, _ => '0');
      assert z[..k - 1] == seq(k - 1, _ => '0');
      ZerosParse(k - 1);
    }
  }

  /** Leading zeros do not change the value of a digit string. */
  lemma {:induction false} LeadingZerosParse(k: nat, s: string)
    requires AllDigits(s)
    ensures AllDigits(seq(k, _ => '0') + s)
    ensures ParseNat(seq(k, _ => '0') + s) == ParseNat(s)
    decreases |s|
  {
    var z := seq(k, _ => '0');
    if |s| == 0 {
      assert z + s == z;
      ZerosParse(k);
    } else {
      var t := z + s;
      assert t[..|t| - 1] == z + s[..|s| - 1];
      assert t[|t| - 1] == s[|s| - 1];
      LeadingZerosParse(k, s[..|s| - 1]);
    }
  }

  lemma PaddedParse(n: nat, width: nat)
    requires |NatToString(n)| < width
    ensures ParseNat(ZeroPad(n, width)) == ParseNat(NatToString(n))
  {
    var digits := NatToString(n);
    var zeros := seq(width - |digits|, _ => '0');
    assert ZeroPad(n, width) == zeros + digits;
    LeadingZerosParse(width - |digits|, digits);
  }

  lemma ZeroPadRoundTrip(n: nat, width: nat)
    ensures ParseNat(ZeroPad(n, width)) == n
  {
    var digits := NatToString(n);
    NatToStringRoundTrip(n);
    if |digits| < width {
      PaddedParse(n, width);
    } else {
      assert ZeroPad(n, width) == digits;
    }
  }

  // ----------------------------------------------------------- whitespace

  /** Python's `str.isspace` for a single character. */
  predicate IsSpace(c: char) {
    c == ' ' || ('\t' <= c <= '\r') || ('\U{1c}' <= c <= '\U{1f}')
    || c == '\U{85}' || c == '\U{a0}' || c == '\U{1680}'
    || ('\U{2000}' <= c <= '\U{200a}') || c == '\U{2028}' || c == '\U{2029}'
    || c == '\U{202f}' || c == '\U{205f}' || c == '\U{3000}'
  }

  predicate AllSpace(s: string) {
    forall i :: 0 <= i < |s| ==> IsSpace(s[i])
  }

  function TrimLeft(s: string): (r: string)
    ensures |r| <= |s| && r == s[|s| - |r|..]
    ensures AllSpace(s[..|s| - |r|])
    ensures |r| > 0 ==> !IsSpace(r[0])
  {
    if |s| > 0 && IsSpace(s[0]) then TrimLeft(s[1..]) else s
  }

  function TrimRight(s: string): (r: string)
    ensures |r| <= |s| && r == s[..|r|]
    ensures AllSpace(s[|r|..])
    ensures |r| > 0 ==> !IsSpace(r[|r| - 1])
  {
    if |s| > 0 && IsSpace(s[|s| - 1]) then TrimRight(s[..|s| - 1]) else s
  }

  /** Python's `str.strip()`: removes leading and trailing whitespace. */
  function Strip(s: string): (r: string)
    ensures |r| <= |s|
    ensures |r| > 0 ==> !IsSpace(r[0]) && !IsSpace(r[|r| - 1])
  {
    var l := TrimLeft(s);
    var r := TrimRight(l);
    assert |r| > 0 ==> r[0] == l[0];
    r
  }

  /** What `Strip` removes is whitespace at the two ends and nothing else. */
  lemma StripIsTrimmed(s: string)
    ensures exists i, j :: 0 <= i <= j <= |s| && Strip(s) == s[i..j] && AllSpace(s[..i]) && AllSpace(s[j..])
  {
    var l := TrimLeft(s);
    var i := |s| - |l|;
    var j := i + |TrimRight(l)|;
    TrimmedEnds(s, l, TrimRight(l));
    assert Strip(s) == s[i..j];
  }

  lemma TrimmedEnds(s: string, l: string, r: string)
    requires |l| <= |s| && l == s[|s| - |l|..]
    requires |r| <= |l| && r == l[..|r|] && AllSpace(l[|r|..])
    ensures r == s[|s| - |l|..|s| - |l| + |r|]
    ensures AllSpace(s[|s| - |l| + |r|..])
  {
    assert s[|s| - |l| + |r|..] == l[|r|..];
  }

  lemma {:induction false} TrimLeftBlank(s: string)
    requires AllSpace(s)
    ensures TrimLeft(s) == []
    decreases |s|
  {
    if |s| > 0 {
      TrimLeftBlank(s[1..]);
    }
  }

  /** A string strips to nothing exactly when every character is whitespace. */
  lemma StripEmptyIffBlank(s: string)
    ensures Strip(s) == [] <==> AllSpace(s)
  {
    if AllSpace(s) {
      TrimLeftBlank(s);
    }
    if Strip(s) == [] {
      StripIsTrimmed(s);
      var i, j :| 0 <= i <= j <= |s| && [] == s[i..j] && AllSpace(s[..i]) && AllSpace(s[j..]);
      assert i == j;
      forall k | 0 <= k < |s| ensures IsSpace(s[k]) {
        if k < i { assert s[..i][k] == s[k]; } else { assert s[j..][k - j] == s[k]; }
      }
    }
  }

  /** A string with no whitespace at either end strips to itself. */
  lemma StripUnpadded(s: string)
    requires |s| > 0 ==> !IsSpace(s[0]) && !IsSpace(s[|s| - 1])
    ensures Strip(s) == s
  {
  }

  /** The text Python's `int()` accepts once stripped: one optional sign
      followed by at least one ASCII digit. */
  predicate IntLiteral(t: string) {
    (|t| > 0 && AllDigits(t)) || (|t| > 1 && (t[0] == '+' || t[0] == '-') && AllDigits(t[1..]))
  }

  /** The value of an integer literal: its digits, negated after a '-';
      `None` for anything else. */
  function ParseIntLiteral(t: string): (r: Option<int>)
    ensures r.Some? <==> IntLiteral(t)
    ensures r.Some? && AllDigits(t) ==> r.value == ParseNat(t)
    ensures r.Some? && t[0] == '+' ==> r.value == ParseNat(t[1..])
    ensures r.Some? && t[0] == '-' ==> r.value == 0 - ParseNat(t[1..])
  {
    if |t| > 0 && AllDigits(t) then Some(ParseNat(t))
    else if |t| > 1 && (t[0] == '+' || t[0] == '-') && AllDigits(t[1..]) then
      if t[0] == '-' then Some(0 - ParseNat(t[1..])) else Some(ParseNat(t[1..]))
    else None
  }

  /** Python's `int(s)` on text: surrounding whitespace is ignored; anything
      but an optional sign and decimal digits raises `ValueError`, here
      `None`. */
  function PyInt(s: string): Option<int> {
    ParseIntLiteral(Strip(s))
  }

  /** A digit string is its own integer literal. */
  lemma PyIntOfDigits(d: string)
    requires |d| > 0 && AllDigits(d)
    ensures PyInt(d) == Some(ParseNat(d))
  {
    assert IsDigit(d[0]) && IsDigit(d[|d| - 1]);
    StripUnpadded(d);
  }

  /** A minus sign before a digit string is a literal of the negated
      value. */
  lemma NegatedLiteral(d: string)
    requires |d| > 0 && AllDigits(d)
    ensures ParseIntLiteral("-" + d) == Some(0 - ParseNat(d))
  {
    var s := "-" + d;
    assert s[0] == '-' && s[1..] == d;
    assert !IsDigit(s[0]);
    assert IntLiteral(s);
  }

  /** The negated literal has nothing to strip. */
  lemma NegatedUnpadded(d: string)
    requires |d| > 0 && AllDigits(d)
    ensures Strip("-" + d) == "-" + d
  {
    var s := "-" + d;
    assert s[0] == '-' && s[|s| - 1] == d[|d| - 1];
    assert IsDigit(d[|d| - 1]);
    StripUnpadded(s);
  }

  /** A minus sign before a digit string negates it. */
  lemma PyIntOfNegated(d: string)
    requires |d| > 0 && AllDigits(d)
    ensures PyInt("-" + d) == Some(0 - ParseNat(d))
  {
    NegatedUnpadded(d);
    NegatedLiteral(d);
  }

  lemma PyIntRoundTripNat(n: nat)
    ensures PyInt(IntToString(n)) == Some(n)
  {
    var d := NatToString(n);
    assert IntToString(n) == d;
    PyIntOfDigits(d);
    NatToStringRoundTrip(n);
  }

  lemma PyIntRoundTripNegative(i: int)
    requires i < 0
    ensures PyInt(IntToString(i)) == Some(i)
  {
    var n: nat := -i;
    var d := NatToString(n);
    PyIntOfNegated(d);
    NatToStringRoundTrip(n);
    assert IntToString(i) == "-" + d;
  }

  /** `int(str(i)) == i`. */
  lemma PyIntRoundTrip(i: int)
    ensures PyInt(IntToString(i)) == Some(i)
  {
    if i < 0 {
      PyIntRoundTripNegative(i);
    } else {
      PyIntRoundTripNat(i);
    }
  }

  /** `int()` ignores a leading blank. */
  lemma PyIntIgnoresLeadingBlank(t: string)
    ensures PyInt(" " + t) == PyInt(t)
  {
    var s := " " + t;
    assert s[1..] == t;
    assert TrimLeft(s) == TrimLeft(t);
  }

  // --------------------------------------------------------- case mapping

  predicate IsUpper(c: char) { 'A' <= c <= 'Z' }
  predicate IsLower(c: char) { 'a' <= c <= 'z' }
  predicate IsCased(c: char) { IsUpper(c) || IsLower(c) }

  function LowerChar(c: char): (r: char)
    ensures !IsUpper(r)
    ensures IsCased(c) <==> IsCased(r)
    ensures !IsCased(c) ==> r == c
  {
    if IsUpper(c) then (c as int + 32) as char else c
  }

  function UpperChar(c: char): (r: char)
    ensures !IsLower(r)
    ensures IsCased(c) <==> IsCased(r)
    ensures !IsCased(c) ==> r == c
  {
    if IsLower(c) then (c as int - 32) as char else c
  }

  /** Python's `str.lower()` on ASCII letters. */
  function Lower(s: string): (r: string)
    ensures |r| == |s|
    ensures forall i :: 0 <= i < |s| ==> r[i] == LowerChar(s[i])
  {
    if |s| == 0 then [] else [LowerChar(s[0])] + Lower(s[1..])
  }

  function TitleFrom(s: string, prevCased: bool): (r: string)
    ensures |r| == |s|
  {
    if |s| == 0 then []
    else
      var c := if prevCased then LowerChar(s[0]) else UpperChar(s[0]);
      [c] + TitleFrom(s[1..], IsCased(s[0]))
  }

  /** Python's `str.title()`: a cased letter is upper-cased when the character
      before it is not cased, and lower-cased otherwise. */
  function Title(s: string): (r: string)
    ensures |r| == |s|
  {
    TitleFrom(s, false)
  }

  lemma {:induction false} TitleFromKeepsUncased(s: string, prev: bool, i: int)
    requires 0 <= i < |s|
    ensures IsCased(TitleFrom(s, prev)[i]) <==> IsCased(s[i])
    ensures !IsCased(s[i]) ==> TitleFrom(s, prev)[i] == s[i]
    ensures (i == 0 && !prev) || (i > 0 && !IsCased(s[i - 1])) ==> !IsLower(TitleFrom(s, prev)[i])
    decreases i
  {
    if i > 0 {
      TitleFromKeepsUncased(s[1..], IsCased(s[0]), i - 1);
    }
  }

  // ----------------------------------------------------------- substrings

  /** Python's `needle in hay` for strings. */
  predicate Contains(hay: string, needle: string)
    decreases |hay|
  {
    needle <= hay || (|hay| > 0 && Contains(hay[1..], needle))
  }

  /** Replaces every occurrence of the single character `c` with `rep`
      (JavaScript's `s.replace(/c/g, rep)`). */
  function ReplaceChar(s: string, c: char, rep: string): (r: string)
    ensures c !in rep ==> c !in r
    ensures c !in s ==> r == s
    ensures forall x :: x in r && x != c ==> x in s || x in rep
  {
    if |s| == 0 then []
    else (if s[0] == c then rep else [s[0]]) + ReplaceChar(s[1..], c, rep)
  }

  lemma {:induction false} ReplaceCharConcat(a: string, b: string, c: char, rep: string)
    ensures ReplaceChar(a + b, c, rep) == ReplaceChar(a, c, rep) + ReplaceChar(b, c, rep)
    decreases |a|
  {
    if |a| > 0 {
      assert (a + b)[1..] == a[1..] + b;
      ReplaceCharConcat(a[1..], b, c, rep);
    } else {
      assert a + b == b;
    }
  }

  function InsertEverywhere(s: string, ins: string): (r: string)
    ensures |r| == |s| + (|s| + 1) * |ins|
  {
    if |s| == 0 then ins else ins + [s[0]] + InsertEverywhere(s[1..], ins)
  }

  /** Python's `s.replace(target, repl)`: every non-overlapping occurrence of
      `target`, scanning left to right, becomes `repl`; an empty `target` inserts
      `repl` before every character and at the end. */
  function PyReplace(s: string, target: string, repl: string): string
    decreases |s|
  {
    if |target| == 0 then InsertEverywhere(s, repl)
    else if |s| < |target| then s
    else if target <= s then repl + PyReplace(s[|target|..], target, repl)
    else [s[0]] + PyReplace(s[1..], target, repl)
  }

  /** Replacing a substring that does not occur changes nothing. */
  lemma {:induction false} PyReplaceAbsent(s: string, target: string, repl: string)
    requires |target| > 0 && !Contains(s, target)
    ensures PyReplace(s, target, repl) == s
    decreases |s|
  {
    if |s| >= |target| {
      assert !(target <= s);
      PyReplaceAbsent(s[1..], target, repl);
      assert [s[0]] + s[1..] == s;
    }
  }

  lemma {:induction false} InsertNothing(s: string)
    ensures InsertEverywhere(s, "") == s
    decreases |s|
  {
    if |s| > 0 {
      InsertNothing(s[1..]);
      assert [s[0]] + s[1..] == s;
    }
  }

  /** Replacing a substring with itself changes nothing. */
  lemma {:induction false} PyReplaceIdentity(s: string, target: string)
    ensures PyReplace(s, target, target) == s
    decreases |s|
  {
    if |target| == 0 {
      InsertNothing(s);
    } else if |s| >= |target| {
      if target <= s {
        PyReplaceIdentity(s[|target|..], target);
        assert s[..|target|] + s[|target|..] == s;
      } else {
        PyReplaceIdentity(s[1..], target);
        assert [s[0]] + s[1..] == s;
      }
    }
  }

  /** Splits at the first occurrence of `sep` (Python's `s.split(sep, 1)` when
      `sep in s`). */
  function SplitFirst(s: string, sep: char): (r: (string, string))
    requires sep in s
    ensures r.0 + [sep] + r.1 == s
    ensures sep !in r.0
  {
    if s[0] == sep then ([], s[1..])
    else
      var rest := SplitFirst(s[1..], sep);
      assert [s[0]] + rest.0 + [sep] + rest.1 == s;
      ([s[0]] + rest.0, rest.1)
  }
}

=== FILE: user_models.dfy ===
/** The platform's user record (users/models.py). */
module UserModels {
  import opened Text

  /** The roles the `role` field offers; the field itself is free text. */
  const Roles: set<string> := {"user", "host", "moderator", "admin"}

  datatype User = User(
    id: int,
    username: string,
    firstName: string,
    lastName: string,
    isStaff: bool,
    isSuperuser: bool,
    isPhoneVerified: bool,
    isIdVerified: bool,
    isHost: bool,
    isGuest: bool,
    role: string)

  /** `full_name`: the two names joined by one space. */
  function FullName(u: User): (r: string)
    ensures |r| == |u.firstName| + 1 + |u.lastName|
    ensures r[..|u.firstName|] == u.firstName && r[|u.firstName|] == ' '
    ensures r[|u.firstName| + 1..] == u.lastName
  {
    u.firstName + " " + u.lastName
  }

  /** A first name without spaces is recovered by splitting the full name at
      its first space, and the rest is the last name. */
  lemma FullNameSplits(u: User)
    requires ' ' !in u.firstName
    ensures ' ' in FullName(u) && SplitFirst(FullName(u), ' ') == (u.firstName, u.lastName)
  {
    var r := FullName(u);
    assert r[|u.firstName|] == ' ';
    SplitAtFirst(u.firstName, u.lastName, ' ');
  }

  /** Splitting `a + [c] + b` at the first `c` gives back `a` and `b` when
      `c` does not occur in `a`. */
  lemma {:induction false} SplitAtFirst(a: string, b: string, c: char)
    requires c !in a
    ensures c in a + [c] + b && SplitFirst(a + [c] + b, c) == (a, b)
    decreases |a|
  {
    var s := a + [c] + b;
    assert s[|a|] == c;
    if |a| > 0 {
      assert s[1..] == a[1..] + [c] + b;
      SplitAtFirst(a[1..], b, c);
      assert s[0] == a[0] != c;
      assert [a[0]] + a[1..] == a;
    } else {
      assert s[1..] == b;
    }
  }

  datatype Verification = IdVerified | PhoneVerified | Unverified

  /** The text `verification_status` shows. */
  function VerificationText(v: Verification): string {
    match v
    case IdVerified => "ID Verified"
    case PhoneVerified => "Phone Verified"
    case Unverified => "Unverified"
  }

  /** `verification_status`: an ID check outranks a phone check. */
  function VerificationStatus(u: User): (v: Verification)
    ensures v == IdVerified <==> u.isIdVerified
    ensures v == PhoneVerified <==> !u.isIdVerified && u.isPhoneVerified
    ensures v == Unverified <==> !u.isIdVerified && !u.isPhoneVerified
  {
    if u.isIdVerified then IdVerified
    else if u.isPhoneVerified then PhoneVerified
    else Unverified
  }

  /** With the ID verified the phone flag makes no difference. */
  lemma IdVerificationDominates(u: User, phone: bool)
    requires u.isIdVerified
    ensures VerificationStatus(u.(isPhoneVerified := phone)) == VerificationStatus(u)
    ensures VerificationText(VerificationStatus(u)) == "ID Verified"
  {
  }

  /** `toggle_host_status`: flips `is_host` and returns the new value. */
  function ToggleHostStatus(u: User): (r: (bool, User))
    ensures r.0 == r.1.isHost && r.0 != u.isHost
    ensures r.1.(isHost := u.isHost) == u
  {
    var toggled := u.(isHost := !u.isHost);
    (toggled.isHost, toggled)
  }

  /** Toggling twice restores the user. */
  lemma ToggleTwice(u: User)
    ensures ToggleHostStatus(ToggleHostStatus(u).1).1 == u
    ensures ToggleHostStatus(ToggleHostStatus(u).1).0 == u.isHost
  {
  }

  /** The users the subscription service exempts from ad limits. */
  predicate IsAdmin(u: User) {
    u.isSuperuser || u.role == "admin"
  }

  /** Admin standing comes from the superuser flag or the `admin` role; the
      staff flag and the host flag play no part. */
  lemma AdminByFlagOrRole(u: User, staff: bool, host: bool)
    ensures u.isSuperuser || u.role == "admin" ==> IsAdmin(u)
    ensures !u.isSuperuser && u.role != "admin" ==> !IsAdmin(u)
    ensures IsAdmin(u.(isStaff := staff, isHost := host)) == IsAdmin(u)
  {
  }
}

=== FILE: wrappers.dfy ===
/** Failure-compatible carriers used across the model: `Option` for values the
    source represents as `None`/`null`, `Result` for operations that raise or
    return an error response. */
module Wrappers {

  datatype Option<+T> = None | Some(value: T) {

    predicate IsFailure() {
      None?
    }

    function PropagateFailure<U>(): Option<U>
      requires None?
    {
      None
    }

    function Extract(): T
      requires Some?
    {
      value
    }

    /** The value, or `default` when there is none (Python's `x or default`
        restricted to `None`). */
    function GetOr(default: T): T {
      match this
      case Some(v) => v
      case None => default
    }
  }

  datatype Result<+R, +E> = Success(value: R) | Failure(error: E) {

    predicate IsFailure() {
      Failure?
    }

    function PropagateFailure<U>(): Result<U, E>
      requires Failure?
    {
      Failure(error)
    }

    function Extract(): R
      requires Success?
    {
      value
    }
  }
}
